=== FILE: README.md ===
# AstroPhotoStacker core, modelled in Dafny

AstroPhotoStacker stacks many astronomical exposures into one image. This project models the
core of that work in Dafny and proves properties about it:

- **Frame bookkeeping.** The frame list (group → frame type → frame → information) and the GUI's
  input files with their checked frames. It also covers photo grouping by time and the settings
  of a stacking run, including the per-algorithm tunables.
- **Stackers.** Median, weighted-median (by quality score), minimum, "center" and mean. Each
  stacker slices the image to fit the user's memory limit. The worker threads fill their buffers,
  and the results are merged into the final image.
- **Readers and writers.** The FITS reader and writer, with a round trip between them. The SER
  video reader and writer, also with a round trip. The ZWO camera's text metadata.
- **Image tools.** Debayering of raw sensor data, hot-pixel identification and the k-d tree used
  to match stars.
- **GUI helpers.** The colour stretcher, the histogram helper and the three-thumb slider.

Each C++ component becomes one module. Its state is an immutable datatype, and each method is a
function or method that returns the new state. A thrown exception becomes a `Result` error
carrying the same message (module `Wrappers`).

Some source code is evidently wrong. For each such place the model defines two members: one
that follows the code as written, and one that does what the code evidently means. A lemma then
shows an input on which the two differ. The rest of the model uses the corrected member. The
findings table at the end lists these places.

Helpers that several modules share:

- `CInts` holds the C integer conversions: unsigned wrap-around, conversion to signed types and
  truncating division.
- `Text` holds the string helpers the code takes from its `Common.h`. `Common.h` is not part of
  this model, so `Text` defines those helpers with their usual semantics.
- `Sorting` is a stable insertion sort by an integer key.
- `StringMaps` is a `std::map` with string keys, kept as its entries in key order.
- `LittleEndian` holds byte encodings.

Source paths below are relative to the repository root.

## Model

| member | source | states |
|---|---|---|
| FileTypes.FileTypeIndex | GUI/src/FileTypes.cxx:3-27 | the four calibration types get the indices 0..3 and every other type -1 |
| FileTypes.FileTypeIndexInjective | GUI/src/FileTypes.cxx:3-27 | two different known types never share an index |
| FileTypes.ParseFileType | GUI/src/FileTypes.cxx:45-61 | the known upper-case names map to their types; any other text maps to Unknown |
| FileTypes.FileTypeNameRoundTrip | GUI/src/FileTypes.cxx:29-61 | reading back the name `to_string` writes gives the same type |
| InputFrames.FrameLessStrictTotal | headers/InputFrame.h:44-49 | the map-key order (address, then frame number) is a strict total order, as `std::map` needs |
| InputFrames.FrameToStringRoundTrip | headers/InputFrame.h:39-41 | the text form (address, a bar, the frame number) parses back at its last bar into the same frame |
| InputFrames.FrameToStringInjective | headers/InputFrame.h:39-41 | two distinct frames never have the same text form |
| Filelist.AddEmptyGroup | src/FilelistHandler.cxx:432-442 | the group exists afterwards with an entry for every frame type, and the other groups are unchanged |
| Filelist.AddFrame | src/FilelistHandler.cxx:41-56 | the frame's record is stored under its group and type, replacing any earlier record, and nothing else changes |
| Filelist.RemoveFrame | src/FilelistHandler.cxx:72-81 | a missing group is left alone; otherwise only that frame's record goes |
| Filelist.SetFrameChecked | src/FilelistHandler.cxx:179-191 | only that frame's flag changes; a frame that is not listed changes nothing |
| Filelist.SetCheckedForAll | src/FilelistHandler.cxx:193-202 | every frame gets the flag; the frames and their alignment are kept |
| Filelist.GetFrames | src/FilelistHandler.cxx:100-108 | the frames of a type in a group, each with exactly the record stored for it, or the C++ error when the group or type is missing |
| Filelist.CountChecked | src/FilelistHandler.cxx:125-139 | the number of checked frames of a type over all groups |
| Filelist.CountAll | src/FilelistHandler.cxx:142-152 | the number of frames of a type over all groups |
| Filelist.CheckUnalignedFrames | src/FilelistHandler.cxx:548-562 | exactly the light frames whose alignment failed end up checked |
| Filelist.CheckAllMakesCountsEqual | src/FilelistHandler.cxx:125-202 | after checking all frames, each type's checked count equals its total count |
| Filelist.AddFrameCount | src/FilelistHandler.cxx:41-56 | adding a frame that is not yet listed raises its type's count by exactly one |
| Filelist.AddEmptyGroupKeepsInvariant | src/FilelistHandler.cxx:432-442 | every group keeps an entry for every frame type |
| Filelist.AddThenIsChecked | src/FilelistHandler.cxx:165-177 | after `add_frame(f, t, g, c)`, `frame_is_checked(g, f, t)` answers `c` |
| Filelist.RemoveThenIsChecked | src/FilelistHandler.cxx:72-81 | a removed frame reads as unchecked, every other frame keeps its flag, and adding it back with its old flag restores every flag |
| Filelist.SetThenIsChecked | src/FilelistHandler.cxx:165-191 | a listed frame reads back the flag just set |
| Filelist.CheckUnalignedSelectsOnlyFailures | src/FilelistHandler.cxx:548-562 | afterwards every checked frame is a light frame whose alignment failed |
| Filelist.KeepOnlyFramesAsWritten | src/FilelistHandler.cxx:83-97 | as written: the filtered copy is never assigned back, so the list is unchanged |
| Filelist.KeepOnlyFrames | src/FilelistHandler.cxx:83-97 | intended: exactly the frames the condition accepts are kept, with their records |
| Filelist.KeepOnlyFramesAsWrittenKeepsRejected | src/FilelistHandler.cxx:83-97 | a one-frame list and a condition that keeps nothing: as written the frame stays, intended it goes |
| Filelist.KeepOnlyFramesIdempotent | src/FilelistHandler.cxx:83-97 | filtering keeps the invariant, and filtering twice with the same condition equals filtering once |
| GuiInputFile.New | GUI/src/InputFile.cxx:12-27 | a still image has one frame (number -1) and a video has one frame per video frame, none checked |
| GuiInputFile.GetFrames | GUI/src/InputFile.cxx:37-43 | the frames in file order |
| GuiInputFile.CheckedIsFilter | GUI/src/InputFile.cxx:45-53 | the checked frames are the file's frames filtered to the checked ones, in order and with multiplicity |
| GuiInputFile.GetCheckedFrames | GUI/src/InputFile.cxx:45-53 | a frame is in the result exactly when some equal frame of the file is checked |
| GuiInputFile.CheckedOfAppend | GUI/src/InputFile.cxx:45-53 | the checked frames of a split list are those of the first part followed by those of the second |
| GuiInputFile.FrameIsChecked | GUI/src/InputFile.cxx:59-66 | the flag of the first equal frame; false for a frame that is not in the file |
| GuiInputFile.SetFrameIsChecked | GUI/src/InputFile.cxx:68-74 | every equal frame gets the flag and nothing else changes |
| GuiInputFile.SetCheckForAll | GUI/src/InputFile.cxx:94-99 | every frame gets the flag |
| GuiInputFile.RemoveFrame | GUI/src/InputFile.cxx:76-83 | only the first equal frame is removed; an absent frame changes nothing |
| GuiInputFile.RemoveFrameOnce | GUI/src/InputFile.cxx:76-83 | removal takes exactly one occurrence out of the multiset of frames |
| GuiInputFile.SetAlignmentInfo | GUI/src/InputFile.cxx:101-107 | every equal frame gets the information and nothing else changes |
| GuiInputFile.GetAlignmentInfo | GUI/src/InputFile.cxx:109-116 | the information of the first equal frame, or the default one |
| GuiInputFile.GetMetadata | GUI/src/InputFile.cxx:118-125 | the metadata of the first equal frame, or the default one |
| GuiInputFile.SetThenFrameIsChecked | GUI/src/InputFile.cxx:59-74 | a flag just set reads back when the file has the frame |
| GuiInputFile.SetThenGetAlignmentInfo | GUI/src/InputFile.cxx:101-116 | alignment information just set reads back when the file has the frame |
| GuiInputFile.CheckAllThenChecked | GUI/src/InputFile.cxx:45-99 | after checking all frames the checked frames are all frames; after unchecking all, none |
| GuiInputFile.NewHasMultipleFrames | GUI/src/InputFile.cxx:12-57 | a new file has several frames exactly when it is a video of more than one frame |
| GuiInputFile.NewIsUncheckedAndUnaligned | GUI/src/InputFile.cxx:12-92 | a new file has no checked frame and, unless it is an empty video, is not fully aligned |
| KDTree.AddPoint | headers/KDTree.h:96-128 | refused once the tree is built or when the coordinate count is wrong; otherwise the point is appended |
| KDTree.AddPoints | headers/KDTree.h:130-143 | the counts and every coordinate vector are checked before any point is added; then all points are added in order |
| KDTree.BuildNode | headers/KDTree.h:242-285 | the node holds every given index exactly once, and the left side lies below and the right side at or above the median on the split axis |
| KDTree.BuildTreeStructure | headers/KDTree.h:210-222 | the tree is built once over all points, and later calls change nothing |
| KDTree.BuildTreeStructureIdempotent | headers/KDTree.h:210-222 | building a second time is a no-op |
| KDTree.AddPointKeepsValid | headers/KDTree.h:96-128 | adding points keeps the tree's invariant |
| KDTree.UpdateBufferAsWritten | headers/KDTree.h:287-310 | as written: a full buffer refuses a distance not below its last entry and is returned unchanged; otherwise the entry goes to the first position whose distance is at most the new one, or to position 0 when no entry is, the later entries move up one place, and a full buffer drops its last entry |
| KDTree.UpdateBufferAsWrittenLosesNearest | headers/KDTree.h:287-310 | offering distances 5, 1, 3, 2 to a buffer of two leaves 3 and 1, out of order and without the 2 |
| KDTree.UpdateBuffer | headers/KDTree.h:287-310 | intended: the entry goes after every entry at least as close, so the buffer stays ascending |
| KDTree.UpdateKeepsGood | headers/KDTree.h:287-310 | one corrected update keeps the buffer the k nearest of the points seen so far |
| KDTree.SearchKeepsGood | headers/KDTree.h:312-344 | a search of a subtree leaves the buffer the k nearest of everything seen plus the subtree; a pruned side holds nothing closer |
| KDTree.PrunedKeepsGood | headers/KDTree.h:334-342 | a far side the pruning test skips holds no point closer than the buffer's last entry |
| KDTree.KNearest | headers/KDTree.h:168-188 | intended: refused before building and when more neighbours are asked than there are points; otherwise it succeeds with the same n indices, nearest first, as a brute-force scan would give |
| KDTree.NearestFromGood | headers/KDTree.h:168-188 | a full buffer holding the k nearest of all points is the brute-force k-nearest list |
| KDTree.SqDist | headers/KDTree.h:390-397 | the squared Euclidean distance, at least the squared difference on any single axis |
| StackerMedian.MedianOfSorted | src/StackerMedian.cxx:167-177 | on an ascending window: -1 when empty, the middle element for an odd count, the truncated mean of the two middle ones for an even count |
| StackerMedian.MedianOfSortedIsMedian | src/StackerMedian.cxx:167-177 | the value picked is a median: at most half the values lie below it and at most half above it |
| StackerMedian.PixelValue | src/StackerMedian.cxx:143-165 | -1 exactly when no slot holds data; otherwise a median of the slots that hold data |
| StackerMedian.WindowIsSortedValidValues | src/StackerMedian.cxx:143-165 | whichever ascending order the sort picks, the last k slots are the slots holding data, in ascending order |
| StackerMedian.PixelValueOrderIndependent | src/StackerMedian.cxx:143-165 | the pixel value does not depend on which frame filled which slot |
| StackerMedian.SlotsOf | src/StackerMedian.cxx:94-129 | the slot of a frame that misses the pixel keeps -1; otherwise it gets the sample converted to `short` |
| StackerMedian.StoredSampleKept | src/StackerMedian.cxx:117-124 | a stored sample keeps its value and counts as data exactly when it is below 2^15 |
| StackerMedian.SmallSamplesAgree | src/StackerMedian.cxx:117-165 | when every sample is below 2^15, the stacked pixel is the median of the contributed samples |
| StackerMedian.IntendedPixelValue | src/StackerMedian.cxx:143-177 | the evidently intended pixel: -1 when no frame contributes, otherwise a median of every contributed sample |
| StackerMedian.BrightSampleEmptiesPixel | src/StackerMedian.cxx:27-124 | a single sample of 40000 leaves the pixel empty, although the intended value is 40000 |
| StackerMedian.BrightSampleShiftsMedian | src/StackerMedian.cxx:27-124 | next to a sample of 100, a sample of 40000 is ignored: the result is 100 instead of 20050 |
| StackerMedian.HeightRangeWrapsToFullHeight | src/StackerMedian.cxx:131-141 | with 1 MiB for ten 4000x3000 frames the code uses the full height, although not one row fits |
| StackerMedian.HeightRangeWrapsNegative | src/StackerMedian.cxx:131-141 | with 1 MiB for one 1000x1000 frame the code returns a negative height range |
| StackerMedian.HeightRangeLimit | src/StackerMedian.cxx:131-141 | the saturating limit: at most the height, and the rows' buffers plus the reservation fit the budget unless it is 0 |
| Slicing.HeightRangeAsWritten | src/StackerMedian.cxx:131-141 | as written: at most the height, and the full height when no memory limit is set |
| Slicing.HeightRange | src/StackerMedian.cxx:131-141 | intended: the largest row count, at most the height, whose buffers fit the budget |
| Slicing.HeightRangeZeroIff | src/StackerMedian.cxx:131-141 | the limit is 0 exactly when a memory limit is set and not even one row fits |
| Slicing.AsWrittenAgreesWithoutWrap | src/StackerMedian.cxx:131-141 | when the budget is non-negative and the quotient fits an `int`, the code computes the intended limit |
| Slicing.PlanSlices | src/StackerMedian.cxx:18-35 | a zero range throws; otherwise the slices tile the rows from 0 to the height |
| Slicing.SlicesTile | src/StackerMedian.cxx:30-35 | each slice is non-empty, ends where the next begins, is at most the range high, and all but the last are exactly the range high |
| Slicing.SlicesCoverEachRowOnce | src/StackerMedian.cxx:30-35 | every row of the image lies in exactly one slice |
| Slicing.SliceCount | src/StackerMedian.cxx:31 | the number of slices is the rounded-up quotient the code prints |
| Slicing.WriteSlice | src/StackerMinimum.cxx:35-53 | the slice's merged values land at `y_min * width` onwards and every other pixel keeps its value |
| StackerWeightedMedian.FirstReachingIsWeightedMedian | src/StackerWeightedMedian.cxx:161-186 | with positive scores, the walk stops at the weighted median |
| StackerWeightedMedian.StackedValue | src/StackerWeightedMedian.cxx:161-186 | -1 for an empty window; otherwise one of its values, and the weighted median when the scores are positive |
| StackerWeightedMedian.WeightedMedianUnique | src/StackerWeightedMedian.cxx:161-186 | at most one value is the weighted median |
| StackerWeightedMedian.WeightedMedianPermutation | src/StackerWeightedMedian.cxx:161-186 | the weighted median depends only on which entries are present, not on their order |
| StackerWeightedMedian.WindowIsStackedEntries | src/StackerWeightedMedian.cxx:135-158 | for any score-sorted order of the slots, the last k slots hold exactly the stacked entries |
| StackerWeightedMedian.PixelValue | src/StackerWeightedMedian.cxx:135-158 | -1 when no slot has a non-zero score; otherwise, with non-negative scores, the weighted median of the stacked entries |
| StackerWeightedMedian.SlotsForSliceAsWritten | src/StackerWeightedMedian.cxx:26-118 | as written: the slots are not reset between slices, so a slot no frame writes keeps the previous slice's entry |
| StackerWeightedMedian.SlotsForSlice | src/StackerWeightedMedian.cxx:84-118 | intended: slots reset to the empty entry first, then each frame writes where it reaches the pixel |
| StackerWeightedMedian.UnwrittenPixelIsEmpty | src/StackerWeightedMedian.cxx:84-118 | with reset slots, a pixel that no frame wrote in this slice is empty |
| StackerWeightedMedian.StaleSlotLeaks | src/StackerWeightedMedian.cxx:26-115 | as written, a frame's entry from the first slice reappears in a pixel of the second slice that no frame reaches |
| StackerWeightedMedian.HeightRangeLimit | src/StackerWeightedMedian.cxx:121-132 | the saturating limit: at most the height, and the buffers fit the budget unless it is 0 |
| StackerWeightedMedian.TasksTotalFor | src/StackerWeightedMedian.cxx:188-194 | one task per frame per slice |
| StackerMinimum.Allocate | src/StackerMinimum.cxx:11-14 | per thread and colour, `width * dy` slots holding the "nothing yet" marker |
| StackerMinimum.Reset | src/StackerMinimum.cxx:16-25 | the same shape, with every slot back at the marker |
| StackerMinimum.ProcessPixel | src/StackerMinimum.cxx:31-33 | the slot becomes the smaller of itself and the offered value |
| StackerMinimum.Merge | src/StackerMinimum.cxx:35-53 | thread 0 copied, then lowered by every further thread |
| StackerMinimum.MergedIsMinimum | src/StackerMinimum.cxx:31-53 | however the frames were split among threads, the merged pixel is the minimum of all contributed values, or the marker when none contributed |
| StackerMinimum.CalculateFinalImage | src/StackerMinimum.cxx:35-53 | pixel i of the slice merges slot i of every thread and lands at `y_min * width + i`; the rest of the image is unchanged |
| StackerMinimum.HeightRangeLimit | src/StackerMinimum.cxx:55-65 | the saturating limit: at most the height, and the buffers fit the budget unless it is 0 |
| StackerCenter.ProcessPixel | src/StackerCenter.cxx:27-36 | an empty slot takes the value; otherwise only a strictly closer value replaces it |
| StackerCenter.AccumulateIsEarliestClosest | src/StackerCenter.cxx:27-36 | a thread holds the earliest of its values closest to the centre, or -1 when it saw none |
| StackerCenter.MergeAsWritten | src/StackerCenter.cxx:38-59 | as written: empty slots are skipped, an empty pixel takes the slot, and otherwise a farther slot replaces the pixel |
| StackerCenter.MergeAsWrittenKeepsFarther | src/StackerCenter.cxx:38-59 | one thread saw the centre value 16384 and another saw 0: the image ends at 0 |
| StackerCenter.CombineAssociative | src/StackerCenter.cxx:27-59 | "closest, ties to the left, -1 as identity" is associative |
| StackerCenter.MergeMatchesSingleThread | src/StackerCenter.cxx:27-59 | with the corrected comparison, merging the threads gives what one thread would keep over all frames, however the frames were split |
| StackerCenter.MergedIsEarliestClosest | src/StackerCenter.cxx:27-59 | with the corrected comparison, the pixel is the earliest closest of all contributed values in frame order, or -1 |
| StackerCenter.CalculateFinalImage | src/StackerCenter.cxx:38-59 | intended: pixel i of the slice is the image value merged with slot i of every thread under the corrected comparison, and the rest of the image is unchanged |
| StackerCenter.Reset | src/StackerCenter.cxx:13-21 | every slot back to -1, shapes kept |
| StackerCenter.HeightRangeLimit | src/StackerCenter.cxx:61-71 | the saturating limit: at most the height, and the buffers fit the budget unless it is 0 |
| StackerMeanValue.ProcessPixelAsWritten | src/StackerMeanValue.cxx:20-23 | as written: the sum grows by the value and the `unsigned short` count wraps at 65536 |
| StackerMeanValue.AccumulateAsWrittenCounts | src/StackerMeanValue.cxx:20-23 | a thread holds the sum of its values and their count modulo 2^16 |
| StackerMeanValue.MergeAsWrittenCounts | src/StackerMeanValue.cxx:25-53 | as written, the merged count is the number of contributions modulo 2^16, however the frames were split |
| StackerMeanValue.PixelValueAsWrittenDividesByWrappedCount | src/StackerMeanValue.cxx:11-53 | as written, the pixel is the sum divided by the wrapped count, and -1 when the count is a multiple of 65536 |
| StackerMeanValue.PixelValueIsMean | src/StackerMeanValue.cxx:20-53 | intended: the arithmetic mean of all contributions, and -1 exactly when nothing contributed |
| StackerMeanValue.MeanWithinBounds | src/StackerMeanValue.cxx:25-53 | the mean lies between the smallest and the largest contribution |
| StackerMeanValue.CountWrapEmptiesPixel | src/StackerMeanValue.cxx:11-27 | 65536 frames each contributing 100: as written the pixel is empty; intended it is 100 |
| SerWriter.Create | src/VideoWriterSER.cxx:11-29 | a bit depth other than 8 or 16 throws with the depth in the message, and so does a malformed Bayer string; otherwise the writer is valid |
| SerWriter.BayerCode | src/VideoWriterSER.cxx:74-101 | an empty string means monochrome (0); the four SER colour patterns get their codes; any other length throws |
| SerWriter.UnixToMicrosoft | src/VideoWriterSER.cxx:103-105 | 100-ns ticks since 0001-01-01, as `unsigned long long` |
| SerWriter.InstrumentString | src/VideoWriterSER.cxx:167-183 | "ASI=" and the camera model, then the temperature when above -273, cut or padded to 40 characters |
| SerWriter.TelescopeString | src/VideoWriterSER.cxx:185-203 | "fps=", then the gain when positive and the exposure in milliseconds, cut or padded to 40 characters |
| SerWriter.WriteFrame16 | src/VideoWriterSER.cxx:31-47 | a 16-bit file takes the samples as little-endian pairs; an 8-bit file takes their high bytes |
| SerWriter.WriteFrame8 | src/VideoWriterSER.cxx:49-65 | an 8-bit file takes the bytes; a 16-bit file takes each byte times 256 |
| SerWriter.Header | src/VideoWriterSER.cxx:111-165 | the 178-byte header: fixed fields, text fields, the patched frame count, then the timestamp modulo 2^32 twice |
| SerWriter.FileBytes | src/VideoWriterSER.cxx:67-109 | the file left after `save_file`: the header followed by the frames in order |
| SerReader.BayerMatrixOfCode | src/RawFileReaderVideoSer.cxx:182-198 | the four SER colour codes decode to their patterns; 0 and unknown codes decode to "" |
| SerReader.BayerPatternRoundTrip | src/RawFileReaderVideoSer.cxx:182-198 | every pattern the writer encodes decodes back to itself, and everything else decodes to "" |
| SerReader.TimeRoundTrip | src/RawFileReaderVideoSer.cxx:157-159 | the reader's conversion inverts the writer's for every `unsigned int` time |
| SerReader.ReadUInt | src/RawFileReaderVideoSer.cxx:161-166 | the little-endian value of four bytes at the offset |
| SerReader.ReadRawFile | src/RawFileReaderVideoSer.cxx:18-64 | intended: the frame's bytes after the header and the earlier frames: 16-bit samples halved, 8-bit samples widened with every pixel kept; other depths throw with the depth in the message, before anything is read |
| SerReader.ReadRawFileAsWritten | src/RawFileReaderVideoSer.cxx:18-64 | as written: succeeds and fails exactly when the intended reader does and agrees with it on 16-bit frames; an 8-bit frame comes back with pixel 0 set to 0 and every other pixel kept |
| SerReader.WideDepthOverReads | src/RawFileReaderVideoSer.cxx:30-51 | as written, the read asks for more bytes than the `unsigned short` buffer holds exactly when the depth is 24 or more and the frame has a pixel; the intended reader rejects such depths |
| SerReader.Depth24OverReadExample | src/RawFileReaderVideoSer.cxx:30-51 | a 1x1 frame of depth 24: three bytes are read into a two-byte buffer |
| SerReader.WidenInPlaceAsWritten | src/RawFileReaderVideoSer.cxx:45-48 | as written: walking down from the last pixel, each byte moves to its pixel, and the zeroing store also clears pixel 0 |
| SerReader.WidenInPlace | src/RawFileReaderVideoSer.cxx:45-48 | intended: every pixel gets its frame byte |
| SerReader.FirstPixelLost | src/RawFileReaderVideoSer.cxx:45-48 | as written, pixel 0 of an 8-bit frame reads as 0 whatever was written there |
| SerReader.FirstPixelLostExample | src/RawFileReaderVideoSer.cxx:45-48 | a one-pixel 8-bit video whose pixel is 200 reads back as 0 |
| SerReader.HeaderRoundTrip | src/RawFileReaderVideoSer.cxx:66-154 | the reader decodes the resolution, bit depth and Bayer pattern the writer was given, and its timestamp modulo 2^32 |
| SerReader.ReadWrittenFrame | src/RawFileReaderVideoSer.cxx:18-64 | every frame of a written file reads back: 8-bit frames byte for byte, 16-bit frames halved |
| SerReader.WriteFrame16ThenRead | src/RawFileReaderVideoSer.cxx:18-64 | a 16-bit frame reads back halved from a 16-bit file and as its high bytes from an 8-bit file |
| SerReader.WriteFrame8ThenRead | src/RawFileReaderVideoSer.cxx:18-64 | an 8-bit frame reads back unchanged from an 8-bit file and times 128 from a 16-bit file |
| FitsWriter.NewSaver | src/FitFileSaver.cxx:9-15 | both dimensions must be positive; the saver starts at 16 bits with BZERO 32768 |
| FitsWriter.SetBitsPerPixel | src/FitFileSaver.cxx:17-28 | 8 and 16 bits are accepted, each with its own BZERO; anything else throws |
| FitsWriter.PaddedKey | src/FitFileSaver.cxx:69-76 | the key padded with spaces to 8 characters; a longer key throws |
| FitsWriter.PaddedText | src/FitFileSaver.cxx:78-90 | the text between two spaces, padded on the requested side; text that does not fit throws |
| FitsWriter.HeaderLine | src/FitFileSaver.cxx:92-95 | one 80-character card with the key, `=`, value, `/` and comment in their columns |
| FitsWriter.MetadataEntries | src/FitFileSaver.cxx:97-120 | none without metadata; otherwise EXPOSURE and EXPTIME with the exposure, GAIN with the ISO, DATE-OBS with the date, then FOCALLEN and APERTURE only when known |
| FitsWriter.CameraEntries | src/FitFileSaver.cxx:48-51 | one INSTRUME card with the camera model exactly when metadata is present and the model is not empty |
| FitsWriter.FinalPadding | src/FitFileSaver.cxx:122-128 | "END", then spaces up to the next multiple of 2880 characters |
| FitsWriter.HeaderString | src/FitFileSaver.cxx:30-59 | the cards and the final padding, or the error of the first card that does not fit |
| FitsWriter.PixelBytes | headers/FitFileSaver.h:62-82 | 8 bits store the value minus BZERO in one byte; 16 bits store the value plus BZERO big-endian |
| FitsWriter.DataBlockPixel | headers/FitFileSaver.h:62-82 | pixel i occupies bytes `n * i` to `n * i + n` of the data block |
| FitsWriter.SaveBytes | headers/FitFileSaver.h:35-44 | the header's characters as bytes, then the data block |
| FitsReader.IsFitFileSuffix | src/RawFileReaderFit.cxx:12-15 | the name ends in `.FIT` or `.FITS`, in any letter case |
| FitsReader.HeaderText | src/RawFileReaderFit.cxx:177-184 | the shortest prefix that ends with " END ", or the whole file when there is none |
| FitsReader.ParseCards | src/RawFileReaderFit.cxx:127-175 | a header of well-formed cards followed by text without `=` parses to each key's last stripped value |
| FitsReader.ApplyLast | src/RawFileReaderFit.cxx:127-175 | the last card with a key decides its binding |
| FitsReader.StoI | src/RawFileReaderFit.cxx:187-202 | `std::stoi`: `invalid_argument` without digits, `out_of_range` outside `int`, otherwise the number |
| FitsReader.FloatField | src/RawFileReaderFit.cxx:190-212 | `std::stof` on a field succeeds exactly when the text after blanks and an optional sign starts with a digit, a point and a digit, "inf" or "nan" |
| FitsReader.StoIImpliesStoF | src/RawFileReaderFit.cxx:187-212 | every text `std::stoi` reads, `std::stof` reads as well |
| FitsReader.LetterRejectedByStoF | src/RawFileReaderFit.cxx:190-212 | a field starting with a letter other than i or n makes `std::stof` throw |
| FitsReader.ProcessBayer | src/RawFileReaderFit.cxx:215-237 | the upper-cased and stripped pattern must be four letters from R, G, B; each letter becomes its colour index |
| FitsReader.ProcessBayerPattern | src/RawFileReaderFit.cxx:215-237 | a pattern in any letter case, quoted or padded, gives the indices of its letters |
| FitsReader.EmptyBayerRejected | src/RawFileReaderFit.cxx:192-221 | an empty pattern throws, so an accepted frame is never monochrome |
| FitsReader.IsoOf | src/RawFileReaderFit.cxx:200-203 | ISO, or GAIN when ISO is missing or 0 |
| FitsReader.FillMetadata | src/RawFileReaderFit.cxx:186-213 | succeeds exactly when the integer fields parse, the pattern is valid and the four float fields convert, checked in the C++ order; the fields carry the parsed values |
| FitsReader.Pixel16 | src/RawFileReaderFit.cxx:85-101 | two bytes read big-endian, with the zero point added |
| FitsReader.Pixel8 | src/RawFileReaderFit.cxx:103-112 | one byte read as a signed `char`, with the zero point added |
| FitsReader.ReadData | src/RawFileReaderFit.cxx:64-83 | width times height pixels at 8 or 16 bits; any other depth throws |
| FitsReader.ReadRawFileAsWritten | src/RawFileReaderFit.cxx:19-83 | as written: the data starts after every space that follows " END " |
| FitsReader.ReadRawFile | src/RawFileReaderFit.cxx:19-83 | intended: the data starts at the 2880-byte boundary after the header |
| FitsRoundTrip.WrittenBindings | src/RawFileReaderFit.cxx:127-175 | the file the saver writes parses, for the reader, to the bindings of the cards it wrote |
| FitsRoundTrip.WrittenFloatFields | src/RawFileReaderFit.cxx:190-212 | every float field the reader converts from a saved file converts |
| FitsRoundTrip.WrittenIntFields | src/RawFileReaderFit.cxx:187-202 | the integer fields the saver writes are read back unchanged |
| FitsRoundTrip.HeaderRoundTrip | src/RawFileReaderFit.cxx:115-213 | the reader takes from a saved file the resolution, bit depth, zero point, pattern and gain the saver was given |
| FitsRoundTrip.DataReadBack | src/RawFileReaderFit.cxx:85-112 | the data block that follows a written header reads back pixel by pixel as the image |
| FitsRoundTrip.SaveThenRead | src/RawFileReaderFit.cxx:19-37 | a file the saver writes reads back, with the data from the 2880-byte boundary, as the image and its header fields |
| FitsRoundTrip.AsWrittenAgrees | src/RawFileReaderFit.cxx:70-72 | when the first data byte is not a space, reading as written starts at the boundary too |
| FitsRoundTrip.AsWrittenDropsFirstPixel | src/RawFileReaderFit.cxx:70-72 | when the first data byte of an 8-bit frame is a space, reading as written shifts the data by one byte |
| FitsRoundTrip.FirstPixelSpaceLost | src/RawFileReaderFit.cxx:70-72 | a 2x1 frame at 8 bits whose first pixel is 160 is written with the byte 32 first, and as written the reader loses that pixel |
| ZwoInfo.ReadBayerMatrix | src/ZWOVideoTextFileInfo.cxx:43-65 | exactly four letters, each R, G or B, or the C++ error |
| ZwoInfo.PatternStringOfRead | src/ZWOVideoTextFileInfo.cxx:43-65 | reading a Bayer string and writing its letters again gives the same string |
| ZwoInfo.ApplyLine | src/ZWOVideoTextFileInfo.cxx:17-41 | a line that is not exactly two pieces around `=` is skipped; otherwise its stripped key and value act |
| ZwoInfo.KeyCaseInsensitive | src/ZWOVideoTextFileInfo.cxx:17-41 | keys that differ only in letter case act the same |
| ZwoInfo.ReadDataAppend | src/ZWOVideoTextFileInfo.cxx:17-41 | reading a + b is reading a and then b from where a left off |
| ZwoInfo.LastGainWins | src/ZWOVideoTextFileInfo.cxx:17-41 | a gain line overrides every earlier gain |
| ZwoInfo.NoBayerKeyKeepsPattern | src/ZWOVideoTextFileInfo.cxx:17-41 | a file without a Bayer key never fails and keeps the starting pattern |
| ZwoInfo.IsValidZwoText | headers/ZWOVideoTextFileInfo.h:28-36 | an error exactly when reading the lines fails; otherwise true exactly when the gain read is not -1, the exposure not 0 and the pattern not four -1 values |
| ZwoInfo.ValidNeedsBayerKey | headers/ZWOVideoTextFileInfo.h:28-56 | a file without a Bayer key is never valid |
| Debayering.ClosestPixel | src/Debayering.cxx:6-36 | the nearest pixel of the colour found by walking outwards, or distance -1 and value 0 when none is in range |
| Debayering.ClosestFromFindsFirst | src/Debayering.cxx:19-35 | a walk resumed after steps that stayed inside the image without the colour returns the first matching step and its value, or -1 exactly when the walk leaves the image or the range first |
| Debayering.DebayerPixel | src/Debayering.cxx:38-71 | a colour's value at a pixel is the sum of the block pixels of that colour divided by their count, truncated toward zero, or 0 when there are none |
| Debayering.DebayerPixelWithinBlock | src/Debayering.cxx:38-71 | the debayered value lies between the smallest and the largest pixel it averages |
| Debayering.DebayerRawData | src/Debayering.cxx:38-71 | three channels of `width * height` values, each pixel's value as `DebayerPixel` gives it |
| Debayering.BlockCountIsPatternCount | src/Debayering.cxx:38-71 | every 2x2 block covers each pattern position exactly once |
| Debayering.DebayerMonochrome | src/Debayering.cxx:73-86 | in place, row by row: each rewritten pixel is the weighted mean of its 2x2 block taken from the original image |
| HotPixels.Threshold | src/HotPixelIdentifier.cxx:76-117 | `int(0.8 * (2^bits - 1))`, as the integer `(4 * (2^bits - 1)) / 5` |
| HotPixels.CandidatesFromPhoto | src/HotPixelIdentifier.cxx:76-117 | exactly the pixels at or above the threshold whose in-bounds neighbours are all at most 52% of them |
| HotPixels.AddPhoto | src/HotPixelIdentifier.cxx:41-57 | each candidate's count goes up by one and the photo count by one |
| HotPixels.AddPhotosCounts | src/HotPixelIdentifier.cxx:17-57 | from a fresh start, a coordinate's count is the number of photos where it was a candidate |
| HotPixels.ComputeHotPixelsAsWritten | src/HotPixelIdentifier.cxx:59-69 | as written: the list is rebuilt from the majority rule but the lookup map is not cleared |
| HotPixels.ComputeHotPixels | src/HotPixelIdentifier.cxx:59-69 | intended: list and lookup map both hold exactly the majority coordinates |
| HotPixels.SetHotPixelsAsWritten | src/HotPixelIdentifier.cxx:153-158 | as written: the list is replaced by the given coordinates, while the lookup map only gains them |
| HotPixels.SetHotPixels | src/HotPixelIdentifier.cxx:153-158 | intended: list and lookup map both replaced by the given coordinates |
| HotPixels.SetHotPixelsReported | src/HotPixelIdentifier.cxx:153-162 | as written, a coordinate is reported hot after setting when it is given or was hot before; intended, exactly when it is given |
| HotPixels.SetHotPixelsKeepsStale | src/HotPixelIdentifier.cxx:153-162 | as written, (0, 0) hot before and the empty list set: (0, 0) is still reported hot; intended, it is not |
| HotPixels.HotIffMajority | src/HotPixelIdentifier.cxx:17-69 | end to end: a coordinate is reported hot exactly when it was a candidate in more than half of the photos |
| HotPixels.StaleHotPixel | src/HotPixelIdentifier.cxx:59-69 | as written, a coordinate stays reported hot after a later computation drops it |
| PhotoGrouping.AddFile | GUI/src/PhotoGroupingTool.cxx:7-13 | the photo is appended to those to group |
| PhotoGrouping.Reach | GUI/src/PhotoGroupingTool.cxx:30-40 | how many photos after photo i lie within the interval, stopping at the first that does not |
| PhotoGrouping.CountGroupSizes | GUI/src/PhotoGroupingTool.cxx:29-40 | each photo's count is the size of the group it would start; padding slots stay 1 |
| PhotoGrouping.RoundStart | GUI/src/PhotoGroupingTool.cxx:43-44 | the first photo that starts a largest group, which lies among the photos still to group |
| PhotoGrouping.RoundPicksFirstLargest | GUI/src/PhotoGroupingTool.cxx:43-49 | every round starts its group at the first photo that starts a largest group |
| PhotoGrouping.RoundsPartition | GUI/src/PhotoGroupingTool.cxx:27-54 | over a time-sorted pool, the groups hold exactly the pool's photos, and each is a time-sorted run within the interval of its first photo |
| PhotoGrouping.RunGrouping | GUI/src/PhotoGroupingTool.cxx:19-67 | the photos end up time-sorted; the groups are formed, ordered by time and each sorted by score |
| PhotoGrouping.RunGroupingProperties | GUI/src/PhotoGroupingTool.cxx:19-67 | the groups partition the photos, each lies within the interval of its earliest photo and is sorted by score, and the groups are ordered by their earliest timestamp |
| PhotoGrouping.GetGroups | GUI/src/PhotoGroupingTool.cxx:69-79 | the file addresses, group by group, in order |
| Histogram.NewHistograms | GUI/src/HistogramDataTool.cxx:8-13 | one zeroed histogram per colour and one for luminance, each with a bin per value 0..max |
| Histogram.Rebin | GUI/src/HistogramDataTool.cxx:15-25 | unchanged when the bin count matches; otherwise the requested number of bins, the same total, and each new bin collects the old bins the quotient sends there |
| Histogram.BinOfMonotone | GUI/src/HistogramDataTool.cxx:20-22 | with a non-decreasing quotient, later original bins never land in earlier new bins |
| Histogram.ExactQuotientFits | GUI/src/HistogramDataTool.cxx:20-22 | the exact quotient never decreases and sends every original bin into range |
| Histogram.Median | GUI/src/HistogramDataTool.cxx:42-61 | the first bin whose running count reaches half the total |
| Histogram.MedianExists | GUI/src/HistogramDataTool.cxx:42-61 | every non-empty channel with non-negative counts has a median bin |
| Histogram.MedianPerChannel | GUI/src/HistogramDataTool.cxx:42-61 | one median per channel, in channel order |
| ColorStretcher.New | GUI/headers/CombinedColorStrecherTool.h:16-19 | `nColors` channels and no curves anywhere |
| ColorStretcher.AddLuminance | GUI/headers/CombinedColorStrecherTool.h:26-28 | the curve is appended to the luminance list; the channels are unchanged |
| ColorStretcher.AddColor | GUI/headers/CombinedColorStrecherTool.h:36-41 | the curve is appended to the channel's list, or the C++ error for a channel out of range |
| ColorStretcher.RemoveLuminance | GUI/headers/CombinedColorStrecherTool.h:89-94 | the curve at the index is removed with the others in order, or the C++ error |
| ColorStretcher.RemoveColor | GUI/headers/CombinedColorStrecherTool.h:96-104 | the channel is checked before the index; then the curve is removed with the others in order |
| ColorStretcher.Stretch | GUI/headers/CombinedColorStrecherTool.h:50-62 | the luminance curves and then the channel's curves, in order; the C++ error for a channel out of range |
| ColorStretcher.StretchIsOneChain | GUI/headers/CombinedColorStrecherTool.h:50-62 | a channel's stretch is the single chain "luminance curves, then channel curves" |
| ColorStretcher.AddLuminanceOrder | GUI/headers/CombinedColorStrecherTool.h:26-62 | a new luminance curve acts after the earlier luminance curves and before the channel curves |
| ColorStretcher.AddColorOrder | GUI/headers/CombinedColorStrecherTool.h:36-62 | a new channel curve acts last on its channel and nowhere else |
| ColorStretcher.RemoveUndoesAdd | GUI/headers/CombinedColorStrecherTool.h:26-104 | removing the curve just added restores the tool |
| ColorStretcher.NewIsIdentity | GUI/headers/CombinedColorStrecherTool.h:16-62 | a new tool leaves every value unchanged |
| ColorStretcher.HasStretchersAsWrittenWrong | GUI/headers/CombinedColorStrecherTool.h:142-144 | as written the test is true for a tool with no curves at all; the corrected test is true exactly when some curve exists |
| ColorStretcher.HasStretchersAfterAdd | GUI/headers/CombinedColorStrecherTool.h:142-144 | intended: true exactly when some luminance or channel curve can be fetched; so false for a new tool and true after any successful add |
| SettingsCustomization.SplitFlagsToString | GUI/src/SettingsCustomization.cxx:11-17 | the written text splits on ';' into one piece per entry plus an empty last piece |
| SettingsCustomization.ApplyPart | GUI/src/SettingsCustomization.cxx:19-33 | a part that is not two pieces around ':' is ignored, so is an unknown key; a known key becomes true exactly for "1" |
| SettingsCustomization.FlagsRoundTrip | GUI/src/SettingsCustomization.cxx:11-33 | reading the text written for a map into settings with the same names restores every flag |
| SettingsCustomization.ApplySettingLine | GUI/src/SettingsCustomization.cxx:63-90 | the stripped line must be a name and a value around one bar; a known name rebuilds its settings from the defaults and the value |
| SettingsCustomization.ReadCustomization | GUI/src/SettingsCustomization.cxx:63-90 | every line of the file in order, starting from the defaults |
| SettingsCustomization.WriteCustomization | GUI/src/SettingsCustomization.cxx:92-99 | the two lines the destructor writes |
| SettingsCustomization.CustomizationRoundTrip | GUI/src/SettingsCustomization.cxx:63-99 | reading the file the destructor writes restores both settings maps |
| StackSettings.Default | headers/StackSettings.h:78-92 | the defaults, with the thread count the hardware reports |
| StackSettings.SetStackingAlgorithm | src/StackSettings.cxx:52-59 | a listed name is stored; any other name gives the C++ error and changes nothing |
| StackSettings.KappaSigmaIsListed | src/StackSettings.cxx:9-67 | the two kappa-sigma names are the first two listed algorithms |
| StackSettings.SelectKappaSigma | src/StackSettings.cxx:52-67 | after selecting a name, the kappa-sigma test tests that name |
| StackSettings.SetAllAlgorithmSpecific | headers/StackSettings.h:60-73 | the numerical values are replaced wholesale and the boolean ones kept |
| StackSettings.SetThenGetAlgorithmSpecific | headers/StackSettings.h:60-73 | a stored value reads back under its name and every other name reads as before |
| StackSettings.RunKeepsInvariants | src/StackSettings.cxx:9-113 | whatever the calls, the algorithm stays a listed name and the boolean map stays empty |
| AdditionalSettings.MakeNumerical | headers/AdditionalStackerSettingNumerical.h:19-35 | the default is the variable's value at construction; the range and step are stored |
| AdditionalSettings.SetValue | headers/AdditionalStackerSettingNumerical.h:22-63 | the value is clamped into the range; a floating variable stores it as is, an integer one stores it truncated toward zero; name, range, step and default are kept |
| AdditionalSettings.SetValueInRange | headers/AdditionalStackerSettingNumerical.h:22-30 | the stored value lies in a well-formed range |
| AdditionalSettings.SetValueExact | headers/AdditionalStackerSettingNumerical.h:22-30 | a value in range that the type can hold is stored exactly |
| AdditionalSettings.SetValueIdempotent | headers/AdditionalStackerSettingNumerical.h:22-33 | writing back the value just read changes nothing |
| AlgorithmSettings.AddNumerical | headers/ConfigurableAlgorithmSettings.h:50-59 | the setting is filed under its name, replacing any earlier one |
| AlgorithmSettings.AddBool | headers/ConfigurableAlgorithmSettings.h:72-79 | the setting is filed under its name, replacing any earlier one |
| AlgorithmSettings.SetNumerical | src/ConfigurableAlgorithmSettings.cxx:22-27 | the named setting's `set_value`, or "Setting not found: " and the name |
| AlgorithmSettings.GetNumerical | src/ConfigurableAlgorithmSettings.cxx:29-34 | the named setting, or "Setting not found: " and the name |
| AlgorithmSettings.SetValuesFromConfigurationMap | src/ConfigurableAlgorithmSettings.cxx:9-69 | numerical values first, then boolean ones, each map in key order, stopping at the first unknown name |
| AlgorithmSettings.SetThenGetNumerical | src/ConfigurableAlgorithmSettings.cxx:22-34 | setting a value acts on that setting alone |
| AlgorithmSettings.ConfigurationMapEffect | src/ConfigurableAlgorithmSettings.cxx:9-69 | with every name registered, each configured setting gets its value and the others are unchanged |
| AlgorithmSettings.ConfigurationMapStops | src/ConfigurableAlgorithmSettings.cxx:9-69 | an unknown numerical name: the error names the first one, and the names before it were applied |
| AlgorithmSettings.KappaSigmaSettings | src/StackerKappaSigmaBase.cxx:11-12 | the kappa-sigma stackers register "kappa" and "n_iterations" with their ranges |
| ThreePointSlider.New | GUI/src/ThreePointSlider.cxx:5-8 | thumbs at 0, 0.5 and 1, ordering maintained, no thumb held |
| ThreePointSlider.GetValue | GUI/src/ThreePointSlider.cxx:25-30 | a thumb's position, or 0 for an index that names no thumb |
| ThreePointSlider.SetPositions | GUI/src/ThreePointSlider.cxx:32-40 | three values replace the positions; any other number of values is ignored |
| ThreePointSlider.SetPositionsOfValues | GUI/src/ThreePointSlider.cxx:25-40 | setting the positions just read changes nothing |
| ThreePointSlider.ForceRangeIdempotent | GUI/src/ThreePointSlider.cxx:51-65 | clamping twice equals clamping once |
| ThreePointSlider.EnforceOrdering | GUI/src/ThreePointSlider.cxx:51-65 | only the active thumb moves, into the interval between its neighbours; nothing moves when ordering is off |
| ThreePointSlider.EnforceOrderingRestores | GUI/src/ThreePointSlider.cxx:51-65 | wherever the active thumb was put, enforcing the ordering makes all three ordered |
| ThreePointSlider.EnforceOrderingStable | GUI/src/ThreePointSlider.cxx:51-65 | an ordered slider is left as it is, and enforcing twice equals enforcing once |
| ThreePointSlider.MouseDown | GUI/src/ThreePointSlider.cxx:67-75 | the highest-index thumb hit becomes active; with no hit the active thumb stays |
| ThreePointSlider.Drag | GUI/src/ThreePointSlider.cxx:77-88 | a held thumb goes to the pointer and the ordering is enforced for it; with none held nothing changes |
| ThreePointSlider.MouseUp | GUI/src/ThreePointSlider.cxx:90-96 | no thumb is held any more |
| ThreePointSlider.DragKeepsOrdered | GUI/src/ThreePointSlider.cxx:51-88 | a drag keeps an ordered slider ordered while ordering is maintained |
| ThreePointSlider.DragWithinNeighbours | GUI/src/ThreePointSlider.cxx:51-88 | a drag between the held thumb's neighbours puts it exactly at the pointer |
| ThreePointSlider.MouseKeepsOrdered | GUI/src/ThreePointSlider.cxx:5-96 | from the constructor, mouse interactions never leave the thumbs out of order |
| AlignmentTranslation.Default | src/AlignmentResultTranslationOnly.cxx:9-11 | no shift, score 0, not valid |
| AlignmentTranslation.FromShift | src/AlignmentResultTranslationOnly.cxx:26-32 | valid, with the given shift and the default score |
| AlignmentTranslation.SetShift | src/AlignmentResultTranslationOnly.cxx:61-64 | the shift is replaced; the score and validity are kept |
| AlignmentTranslation.ToShifted | src/AlignmentResultTranslationOnly.cxx:40-43 | the point minus the shift |
| AlignmentTranslation.ToReference | src/AlignmentResultTranslationOnly.cxx:45-48 | the point plus the shift |
| AlignmentTranslation.TransformsInverse | src/AlignmentResultTranslationOnly.cxx:40-48 | the two transforms undo each other, in either order |
| AlignmentTranslation.TransformsCompose | src/AlignmentResultTranslationOnly.cxx:40-48 | two translations in turn are one translation by the summed shift |
| AlignmentTranslation.FromDescription | src/AlignmentResultTranslationOnly.cxx:13-24 | fewer than three parts around the bar separator, or text that does not parse, throws; otherwise a valid result with the parsed numbers |
| AlignmentTranslation.DescriptionRoundTrip | src/AlignmentResultTranslationOnly.cxx:13-54 | reading back a result's description gives a valid result whose numbers are the parsed formatted ones |
| AlignmentTranslation.DescriptionRoundTripExact | src/AlignmentResultTranslationOnly.cxx:13-54 | with formatting that parses back exactly, the round trip gives the same shift |
| Text.SplitJoin | GUI/src/SettingsCustomization.cxx:20-22 | splitting on a separator inverts joining separator-free pieces with it |
| Text.SplitOnJoinOn | src/AlignmentResultTranslationOnly.cxx:15-17 | splitting on a multi-character separator inverts joining pieces that lack its first character |
| Text.ParseIntToString | src/RawFileReaderFit.cxx:187-202 | reading back what `std::to_string` wrote gives the number |
| Text.StripPadded | GUI/src/SettingsCustomization.cxx:68-73 | padding of stripped characters on both sides does not change what stripping keeps |
| Sorting.SortedIntsUnique | src/StackerMedian.cxx:143-165 | integers have one ascending arrangement, so any permutation an unstable sort picks equals the stable result |
| Sorting.FilterPermutation | src/StackerMedian.cxx:143-165 | filters of two sequences holding the same elements hold the same elements |
| StringMaps.FindPut | src/ConfigurableAlgorithmSettings.cxx:22-27 | after storing under a key, that key finds the new value and every other key finds what it found before |
| StringMaps.PutSorted | headers/ConfigurableAlgorithmSettings.h:50-59 | storing keeps the entries in key order |
| LittleEndian.DecodeEncode | src/RawFileReaderVideoSer.cxx:161-180 | decoding an n-byte encoding gives the value back modulo 256^n |
| CInts.ToInt32 | src/StackerMedian.cxx:131-141 | the value congruent modulo 2^32 in the `int` range, and the value itself when it fits |
| CInts.WrapU16Add | src/StackerMeanValue.cxx:22-27 | adding to an `unsigned short` wraps the same whether or not the left operand was wrapped first |

## Left out

- GUI painting, events and widgets are left out. The slider's mouse position arrives already
  converted to a track value, and a mouse-down arrives as the per-thumb "was it hit" answers.
  Those conversions are pixel arithmetic on the widget.
- File and stream I/O is left out. Files are byte strings or lines, and a file that cannot be
  opened is not modelled. The stackers' calibrated-photo input, the thread pool and the console
  progress output are left out as well.
- Concurrency is left out. The stackers take the assignment of frames to worker threads as a
  parameter, and the merge lemmas hold for every assignment. `hardware_concurrency` is a
  parameter of `StackSettings.Default`.
- Display strings are left out: the GUI's per-frame display text (`get_gui_string`) and the
  tabular alignment text of the frame list.
- Floating-point rounding is left out. `float`/`double` values are exact reals. The weighted
  median's scores, the slider positions, the alignment shifts, the settings' values and the
  stretching inputs are all `real`.
- `HotPixels.Threshold`: `int(0.8 * m)` is written as `(4 * m) / 5`, and `v > 0.52 * u` as
  `100 * v > 52 * u`. The double constants lie slightly above the decimals. For the integers that
  occur (`m` below 2^16), the products never come within rounding distance of another integer,
  so the two forms agree.
- `Text`: the helpers of `Common.h` (`split_string`, `split_and_strip_string`, `strip_string`,
  `to_upper_copy`, `ends_with`, `force_range`, `convert_string_to`) are given their usual
  semantics, because `Common.h` is not part of this model. `std::stoi` is modelled in full and
  `std::to_string` for integers. `std::stof` is modelled only as success or failure: whether the
  text starts like a number.
- Ties under `std::sort` are left out. The model sorts with a stable insertion sort.
  `std::sort` may order equal keys differently. Where the result is an integer sequence
  (`Sorting.SortedIntsUnique`) or a set of stacked entries (`StackerWeightedMedian.WindowIsStackedEntries`),
  the proofs cover any sorted permutation. Photo grouping is not covered in the same way. There,
  photos with equal timestamps at a group's edge may land in a different group, or in a
  different order within a group, than the model's. `PhotoGrouping.RunGroupingProperties` is
  proved for the model's stable order only.
- `StackerMeanValue.PixelValueAsWritten`: the `int` per-thread sums are unbounded here, so their
  overflow past 2^31 is not modelled. Only the `unsigned short` count's wrap is.
- `PhotoGrouping.Reach`: the `int` difference of two timestamps is exact here. Its overflow for
  timestamps more than 2^31 seconds apart is not modelled.
- `FitsReader.ReadRawFileAsWritten`: the 8-bit pixels are the values before
  `scale_8bit_image_to_16bit` (src/RawFileReaderFit.cxx:111). That scaling lives outside this
  model.
- `FitsReader.FillMetadata`: the float values `std::stof` reads are not kept, only whether each
  conversion succeeds. `out_of_range` for huge exponents, hexadecimal floats and the full
  "infinity" spelling are judged by their first characters only. The date is not parsed
  (`get_unix_timestamp`).
- `FitsReader.ReadData`: the error for an unsupported bit depth carries the message without the
  file's address, which the C++ code appends.
- `ColorStretcher.New`: the default of three colours (`n_colors = 3`) is not a default here. The
  constructor always takes the count. The curves are opaque values with an `apply` function,
  since their classes are not part of this model.
- `Histogram.Rebin`: the single-precision `i / step` is the parameter `quot`. Only the exact
  quotient `ExactQuotient` is proved monotone and in range. For some sizes the float32 quotient
  lands one bin lower (for 256 bins into 500, bin 64 goes to 124 rather than 125). The sum,
  length and identity clauses hold for every quotient.
- `Histogram`: the `int` overflow of very large bin totals and negative histogram sizes are not
  modelled. Bin counts are `nat`. `get_mean_values` and `get_stretched_color_data` are left out
  because they are float arithmetic over the histogram.
- `StackerMedian`: the final green-channel halving and `fix_empty_pixels`
  (src/StackerMedian.cxx:81-87) belong to the stacker base and are not part of this model. So is
  the initial image the base class allocates.
- `StackSettings`: the kappa and cut-off accessors (src/StackSettings.cxx:69-91) are left out,
  because they store floats that no other modelled member reads. The algorithm-specific defaults
  and the GUI's settings saver are left out too.
- `AlignmentTranslation`: the float formatting (`std::to_string`) and parsing (`std::stof`) are
  parameters.
- `GuiInputFile`: the metadata record is a type parameter, and the metadata reader is a
  parameter of the constructor.
- `Filelist`: alignment results are reduced to their validity flag. Metadata, frame statistics,
  and the file save and load are left out.
- `KDTree.KNearest`: the search is modelled with the corrected buffer update, so it is the search
  the code evidently intends. The C++ search as written is modelled one buffer update at a time
  (`KDTree.UpdateBufferAsWritten`, `KDTree.OfferAllAsWritten`). It also requires at least one
  requested neighbour. With none, the C++ pruning test reads `back()` of an empty vector, which
  is undefined.
- `KDTree`: coordinates are integers, so squared distances are exact. The C++ computes them in
  `double`. `get_nodes_closer_than_x` and the value payload of nodes are left out.
- `PhotoGrouping`: the header GUI/headers/PhotoGroupingTool.h declares another interface (input
  frames and group indices). The model follows the implementation file.
- `ThreePointSlider.EnforceOrderingStable`: the idempotence half assumes the active thumb's
  neighbours are in order. With crossed neighbours a second call can move the thumb again.
- `HotPixels`: the hot-pixel list is a set, so the order and the duplicates of the vector
  `get_hot_pixels` returns (src/HotPixelIdentifier.cxx:72-74) are not modelled.
- `SerReader.ReadRawFile`: for depths of 24 and more the C++ code overruns its buffer before it
  throws, which is undefined behaviour; the model throws cleanly, as the code evidently intends.
  The overrun itself is stated by `SerReader.WideDepthOverReads`.
- `SerWriter.InstrumentString`, `SerWriter.TelescopeString`: the float formatting of the
  temperature, frame rate and exposure is passed in as text.
- `FitsRoundTrip.SaveThenRead`: the round trip is stated for card texts without "END", without
  `/` and with one-byte characters only. Other texts can end the header early or split a card.

## Findings

| source | as written | input that shows it | evidently intended | confidence | as-written member | corrected member |
|---|---|---|---|---|---|---|
| src/FilelistHandler.cxx:83-97 | the filtered map `new_map` is built and never assigned back | one frame, a condition that rejects it: the frame stays | the list keeps only the accepted frames | high (not executed) | Filelist.KeepOnlyFramesAsWritten, Filelist.KeepOnlyFramesAsWrittenKeepsRejected | Filelist.KeepOnlyFrames, Filelist.KeepOnlyFramesIdempotent |
| headers/KDTree.h:287-310 | the insertion point is the first entry not farther than the new one, which is 0 in an ascending buffer | offering distances 5, 1, 3, 2 with k = 2 leaves {3, 1} | the buffer stays ascending and holds the k nearest | high (not executed) | KDTree.UpdateBufferAsWritten, KDTree.OfferAllAsWritten, KDTree.UpdateBufferAsWrittenLosesNearest | KDTree.UpdateBuffer, KDTree.KNearest |
| src/RawFileReaderVideoSer.cxx:45-48 | the in-place widening writes pixel 0 and then zeroes byte 0, which holds that pixel on a little-endian host | a one-pixel 8-bit video with pixel 200 reads back 0 | every pixel keeps its byte | high (not executed) | SerReader.WidenInPlaceAsWritten, SerReader.FirstPixelLost, SerReader.FirstPixelLostExample | SerReader.WidenInPlace, SerReader.ReadWrittenFrame |
| src/StackerMedian.cxx:131-141 | the budget minus the reservation wraps in `unsigned long long` when the budget is smaller | 1 MiB, 4000x3000, 10 frames: range 3000; 1 MiB, 1000x1000, 1 frame: a negative range | 0 rows, so the stacker reports that memory is insufficient | high (not executed) | StackerMedian.HeightRangeWrapsToFullHeight, StackerMedian.HeightRangeWrapsNegative, Slicing.HeightRangeAsWritten | Slicing.HeightRange, Slicing.HeightRangeZeroIff |
| src/StackerWeightedMedian.cxx:26-28,105-115 | the slots are filled with (-1, 0) once, not per slice, and frames write only where they reach the pixel | one frame reaching a pixel in slice 1 but not the same slot in slice 2: its old entry is stacked again | slots reset at each slice, as the median stacker does | high (not executed) | StackerWeightedMedian.SlotsForSliceAsWritten, StackerWeightedMedian.StaleSlotLeaks | StackerWeightedMedian.SlotsForSlice, StackerWeightedMedian.UnwrittenPixelIsEmpty |
| src/StackerCenter.cxx:38-59 | the merge replaces the pixel with a slot that is farther from the centre | thread slots 16384 and 0 with centre 16384: the image gets 0 | the closest value wins, as in `process_pixel` | high (not executed) | StackerCenter.MergeAsWritten, StackerCenter.MergeAsWrittenKeepsFarther | StackerCenter.MergeMatchesSingleThread, StackerCenter.MergedIsEarliestClosest |
| src/StackerMeanValue.cxx:11,22,27 | the counts are `unsigned short` and wrap at 65536 | 65536 frames contributing 100: the pixel is reported empty | the mean 100 | medium (not executed) | StackerMeanValue.PixelValueAsWrittenDividesByWrappedCount, StackerMeanValue.CountWrapEmptiesPixel | StackerMeanValue.PixelValueIsMean |
| src/RawFileReaderFit.cxx:70-72 | the data start after every space following " END ", not at the 2880-byte boundary | a 2x1 8-bit frame with first pixel 160 (stored as the byte 32, a space): the first pixel is lost | the data start at the block boundary | high (not executed) | FitsRoundTrip.AsWrittenDropsFirstPixel, FitsRoundTrip.FirstPixelSpaceLost | FitsReader.ReadRawFile, FitsRoundTrip.SaveThenRead |
| src/RawFileReaderVideoSer.cxx:30-51 | the frame is read into a buffer of 2 * width * height bytes before the depth is checked | a 1x1 frame of depth 24: 3 bytes are read into a 2-byte buffer, then the depth is rejected | the depth checked before reading | high (not executed) | SerReader.WideDepthOverReads, SerReader.Depth24OverReadExample | SerReader.ReadRawFile |
| src/HotPixelIdentifier.cxx:153-158 | `set_hot_pixels` replaces the list but only adds to the lookup map | (0, 0) hot before and the empty list set: (0, 0) is still reported hot | the map replaced along with the list | high (not executed) | HotPixels.SetHotPixelsAsWritten, HotPixels.SetHotPixelsKeepsStale | HotPixels.SetHotPixels, HotPixels.SetHotPixelsReported |
| src/HotPixelIdentifier.cxx:59-69 | `compute_hot_pixels` clears the list but not the lookup map | a coordinate hot in the first computation and not in a later one stays reported hot | the map rebuilt with the list | high (not executed) | HotPixels.ComputeHotPixelsAsWritten, HotPixels.StaleHotPixel | HotPixels.ComputeHotPixels, HotPixels.HotIffMajority |
| GUI/headers/CombinedColorStrecherTool.h:142-144 | `has_stretchers` tests the sizes of the vectors, not whether they hold curves | a new tool with three colours and no curves reports true | true exactly when some curve exists | high (not executed) | ColorStretcher.HasStretchersAsWrittenWrong | ColorStretcher.HasStretchersAfterAdd |
| src/StackerMedian.cxx:27,117-124 | an `unsigned int` sample is stored into a `short` slot, so a sample of 32768 or more becomes negative and counts as empty | one frame with sample 40000: the pixel is empty; samples 40000 and 100: the median is 100 | the median of all contributed samples (40000, and 20050) | medium (not executed) | StackerMedian.SlotsOf, StackerMedian.BrightSampleEmptiesPixel, StackerMedian.BrightSampleShiftsMedian | StackerMedian.IntendedPixelValue, StackerMedian.SmallSamplesAgree |

=== FILE: AdditionalSettings.dfy ===
/**
 * The per-algorithm tunables (headers/AdditionalStackerSettingNumerical.h,
 * headers/AdditionalStackerSettingsBool.h). The C++ object holds a pointer to the algorithm's
 * own variable; here the setting holds that variable's value, so reading and writing through
 * the pointer become reading and updating a field.
 */
module AdditionalSettings {

  /**
   * The C++ type of the variable behind a numerical setting. Writing through the setting ends
   * in `static_cast<ValueType>(double)`: for `int` that truncates toward zero; `float` and
   * `double` keep the value (rounding to the nearest float is not modelled).
   */
  datatype ValueType = IntValue | FloatValue

  /** Truncation toward zero, the `int` conversion of a double. */
  function Truncate(v: real): (r: int)
    ensures v >= 0.0 ==> 0 <= r && r as real <= v < r as real + 1.0
    ensures v < 0.0 ==> r <= 0 && r as real - 1.0 < v <= r as real
  {
    if v >= 0.0 then FloorBounds(v); v.Floor
    else FloorBounds(-v); -((-v).Floor)
  }

  lemma {:induction false} FloorBounds(x: real)
    ensures x.Floor as real <= x < x.Floor as real + 1.0
    ensures x >= 0.0 ==> x.Floor >= 0
  {
  }

  /** A whole number: one the `int` conversion keeps. */
  predicate IsIntegral(v: real) { Truncate(v) as real == v }

  /** `static_cast<ValueType>(v)`, read back as a double. */
  function Cast(t: ValueType, v: real): (r: real)
    ensures t == FloatValue ==> r == v
    ensures t == IntValue ==> r == Truncate(v) as real
  {
    match t
    case FloatValue => v
    case IntValue => Truncate(v) as real
  }

  /** An integral value survives the cast unchanged. */
  lemma {:induction false} CastIntegral(t: ValueType, v: real)
    requires IsIntegral(v)
    ensures Cast(t, v) == v
  {
  }

  /** Every int is a whole number. */
  lemma {:induction false} TruncateWhole(n: int)
    ensures Truncate(n as real) == n
  {
    var t := Truncate(n as real);
    if n >= 0 {
      assert t <= n < t + 1;
    } else {
      assert t - 1 < n <= t;
    }
  }

  /** The clamping of `set_value`: first raised to `lo`, then lowered to `hi`. */
  function Clamp(v: real, lo: real, hi: real): (r: real)
    ensures lo <= hi ==> lo <= r <= hi
    ensures lo <= v <= hi ==> r == v
    ensures lo <= hi && v < lo ==> r == lo
    ensures v > hi ==> r == hi
    ensures lo > hi ==> r == hi
  {
    var raised := if v < lo then lo else v;
    if raised > hi then hi else raised
  }

  /** A numerical setting: its name, its valid range, its step, its default and the variable's current value. */
  datatype NumericalSetting = NumericalSetting(
    name: string,
    valueType: ValueType,
    rangeMin: real,
    rangeMax: real,
    step: real,
    defaultValue: real,
    value: real)

  /**
   * The constructor: the default is the variable's value at that moment. The range is stored
   * as given and the current value is not clamped into it.
   */
  function MakeNumerical(name: string, t: ValueType, current: real, rangeMin: real, rangeMax: real, step: real)
    : (s: NumericalSetting)
    requires t == IntValue ==> IsIntegral(current)
    ensures s.name == name && s.rangeMin == rangeMin && s.rangeMax == rangeMax && s.step == step
    ensures s.defaultValue == current && GetValue(s) == current
  {
    NumericalSetting(name, t, rangeMin, rangeMax, step, current, current)
  }

  /** `get_value`: the variable read as a double. */
  function GetValue(s: NumericalSetting): real
  {
    s.value
  }

  /** `set_value`: clamp into the range, then store with the variable's type. */
  function SetValue(s: NumericalSetting, v: real): (r: NumericalSetting)
    ensures r.name == s.name && r.valueType == s.valueType && r.step == s.step
    ensures r.rangeMin == s.rangeMin && r.rangeMax == s.rangeMax && r.defaultValue == s.defaultValue
    ensures s.valueType == FloatValue ==> GetValue(r) == Clamp(v, s.rangeMin, s.rangeMax)
    ensures s.valueType == IntValue ==> IsIntegral(GetValue(r))
    ensures s.valueType == IntValue ==> GetValue(r) == Truncate(Clamp(v, s.rangeMin, s.rangeMax)) as real
  {
    var c := Clamp(v, s.rangeMin, s.rangeMax);
    TruncateWhole(Truncate(c));
    s.(value := Cast(s.valueType, c))
  }

  /** The range is ordered and, for an integer variable, its ends are whole numbers. */
  predicate WellRanged(s: NumericalSetting)
  {
    s.rangeMin <= s.rangeMax && (s.valueType == IntValue ==> IsIntegral(s.rangeMin) && IsIntegral(s.rangeMax))
  }

  /** What `set_value` stores always lies in a well-formed range. */
  lemma {:induction false} SetValueInRange(s: NumericalSetting, v: real)
    requires WellRanged(s)
    ensures s.rangeMin <= GetValue(SetValue(s, v)) <= s.rangeMax
  {
    var c := Clamp(v, s.rangeMin, s.rangeMax);
    if s.valueType == IntValue {
      IntCastStaysInRange(c, s.rangeMin, s.rangeMax);
    }
  }

  /** Truncating a value between two whole numbers stays between them. */
  lemma {:induction false} IntCastStaysInRange(c: real, lo: real, hi: real)
    requires lo <= c <= hi && IsIntegral(lo) && IsIntegral(hi)
    ensures lo <= Cast(IntValue, c) <= hi
  {
    var a, b := Truncate(lo), Truncate(hi);
    var t := Truncate(c);
    if c >= 0.0 {
      assert a < t + 1 && t <= b;
    } else {
      assert a <= t && t - 1 < b;
    }
  }

  /** A value already in range that the variable's type can hold is stored exactly. */
  lemma {:induction false} SetValueExact(s: NumericalSetting, v: real)
    requires s.rangeMin <= v <= s.rangeMax
    requires s.valueType == IntValue ==> IsIntegral(v)
    ensures GetValue(SetValue(s, v)) == v
  {
    CastIntegralOrFloat(s.valueType, v);
  }

  lemma {:induction false} CastIntegralOrFloat(t: ValueType, v: real)
    requires t == IntValue ==> IsIntegral(v)
    ensures Cast(t, v) == v
  {
    if t == IntValue {
      CastIntegral(t, v);
    }
  }

  /** Writing back the value just read changes nothing. */
  lemma {:induction false} SetValueIdempotent(s: NumericalSetting, v: real)
    requires WellRanged(s)
    ensures SetValue(SetValue(s, v), GetValue(SetValue(s, v))) == SetValue(s, v)
  {
    var r := SetValue(s, v);
    SetValueInRange(s, v);
    SetValueExact(r, GetValue(r));
  }

  /** A boolean setting: name, the variable's value at construction, and its current value. */
  datatype BoolSetting = BoolSetting(name: string, defaultValue: bool, value: bool)

  function MakeBool(name: string, current: bool): (s: BoolSetting)
    ensures s.name == name && s.defaultValue == current && s.value == current
  {
    BoolSetting(name, current, current)
  }

  function SetBool(s: BoolSetting, b: bool): (r: BoolSetting)
    ensures r.value == b && r.name == s.name && r.defaultValue == s.defaultValue
  {
    s.(value := b)
  }
}

=== FILE: AlgorithmSettings.dfy ===
/**
 * The registry of a configurable stacking algorithm's tunables (src/ConfigurableAlgorithmSettings.cxx,
 * headers/ConfigurableAlgorithmSettings.h): two `std::map`s from a setting's name to the
 * setting, one for numerical and one for boolean settings. Setting or getting an unregistered
 * name throws; here that is an `Err` carrying the same message.
 */
module AlgorithmSettings {
  import opened Wrappers
  import opened Text
  import opened StringMaps
  import opened AdditionalSettings

  datatype Settings = Settings(numerical: seq<Entry<NumericalSetting>>, bools: seq<Entry<BoolSetting>>)

  /** The default-constructed registry holds no setting. */
  const Empty := Settings([], [])

  /** Both maps are in key order and every setting is filed under its own name. */
  ghost predicate Valid(s: Settings)
  {
    && Sorted(s.numerical) && Sorted(s.bools)
    && (forall i :: 0 <= i < |s.numerical| ==> s.numerical[i].value.name == s.numerical[i].key)
    && (forall i :: 0 <= i < |s.bools| ==> s.bools[i].value.name == s.bools[i].key)
  }

  function NotFound(name: string): string
  {
    "Setting not found: " + name
  }

  // ---------------------------------------------------------------------------------------------
  // One map: lookup, update through a setter, and applying a configuration map

  /** The `find`-or-throw lookup shared by both getters. */
  function GetIn<V>(es: seq<Entry<V>>, name: string): (r: Result<V>)
    ensures r.Err? <==> !HasKey(es, name)
    ensures r.Err? ==> r.msg == NotFound(name)
    ensures r.Ok? ==> Find(es, name) == Some(r.value)
  {
    match Find(es, name)
    case None => Err(NotFound(name))
    case Some(x) => Ok(x)
  }

  /** The `find`-or-throw update shared by both setters: the stored setting passes through `update`. */
  function SetIn<V, C>(es: seq<Entry<V>>, name: string, c: C, update: (V, C) -> V): (r: Result<seq<Entry<V>>>)
    ensures r.Err? <==> !HasKey(es, name)
    ensures r.Err? ==> r.msg == NotFound(name)
  {
    match Find(es, name)
    case None => Err(NotFound(name))
    case Some(x) => Ok(Put(es, name, update(x, c)))
  }

  /**
   * What applying a configuration map leaves behind. The C++ loop throws at the first unknown
   * name, and the settings it already changed stay changed; `error` is that exception's message.
   */
  datatype Applied<V> = Applied(entries: seq<Entry<V>>, error: Option<string>)

  /** `configure_with_settings_*`: the configuration's entries in key order, each through the setter. */
  function ConfigureIn<V, C>(es: seq<Entry<V>>, cfg: seq<Entry<C>>, update: (V, C) -> V): (r: Applied<V>)
    ensures r.error.Some? <==> exists i :: 0 <= i < |cfg| && !HasKey(es, cfg[i].key)
    decreases |cfg|
  {
    if |cfg| == 0 then Applied(es, None)
    else
      match SetIn(es, cfg[0].key, cfg[0].value, update)
      case Err(m) => Applied(es, Some(m))
      case Ok(es') =>
        PutKeysSame(es, cfg[0].key, update(Find(es, cfg[0].key).value, cfg[0].value));
        var r := ConfigureIn(es', cfg[1..], update);
        assert r.error.Some? <==> exists i :: 0 <= i < |cfg| && !HasKey(es, cfg[i].key) by {
          if r.error.Some? {
            var i :| 0 <= i < |cfg| - 1 && !HasKey(es', cfg[1..][i].key);
            assert cfg[i + 1] == cfg[1..][i];
          }
          if exists i :: 0 <= i < |cfg| && !HasKey(es, cfg[i].key) {
            var i :| 0 <= i < |cfg| && !HasKey(es, cfg[i].key);
            assert i > 0;
            assert cfg[1..][i - 1] == cfg[i];
          }
        }
        r
  }

  /** Replacing the value under a present key keeps the set of keys. */
  lemma {:induction false} PutKeysSame<V>(es: seq<Entry<V>>, k: string, v: V)
    requires HasKey(es, k)
    ensures forall x :: HasKey(Put(es, k, v), x) <==> HasKey(es, x)
  {
    forall x
      ensures HasKey(Put(es, k, v), x) <==> HasKey(es, x)
    {
      PutKeys(es, k, v, x);
    }
  }

  /** A successful update changes only the named setting, and that one exactly by `update`. */
  lemma {:induction false} SetInEffect<V, C>(es: seq<Entry<V>>, name: string, c: C, update: (V, C) -> V, k: string)
    requires SetIn(es, name, c, update).Ok?
    ensures GetIn(SetIn(es, name, c, update).value, k)
      == if k == name then Ok(update(GetIn(es, name).value, c)) else GetIn(es, k)
  {
    FindPut(es, name, update(Find(es, name).value, c), k);
  }

  /**
   * With every name registered, applying a configuration map (keys distinct, as in a `std::map`)
   * reports no error, sets each configured name through `update` exactly once, and leaves every
   * other name as it was.
   */
  lemma {:induction false} ConfigureInEffect<V, C>(es: seq<Entry<V>>, cfg: seq<Entry<C>>, update: (V, C) -> V, k: string)
    requires Sorted(cfg)
    requires forall i :: 0 <= i < |cfg| ==> HasKey(es, cfg[i].key)
    ensures ConfigureIn(es, cfg, update).error == None
    ensures Find(cfg, k).None? ==> GetIn(ConfigureIn(es, cfg, update).entries, k) == GetIn(es, k)
    ensures Find(cfg, k).Some? ==> GetIn(es, k).Ok?
    ensures Find(cfg, k).Some? ==>
      GetIn(ConfigureIn(es, cfg, update).entries, k) == Ok(update(GetIn(es, k).value, Find(cfg, k).value))
    decreases |cfg|
  {
    if |cfg| > 0 {
      var k0, c0 := cfg[0].key, cfg[0].value;
      var es' := SetIn(es, k0, c0, update).value;
      var tail := cfg[1..];
      PutKeysSame(es, k0, update(Find(es, k0).value, c0));
      assert Sorted(tail) by {
        assert forall a :: 0 <= a < |cfg| - 1 ==> tail[a] == cfg[a + 1];
      }
      assert forall i :: 0 <= i < |tail| ==> HasKey(es', tail[i].key) by {
        assert forall i :: 0 <= i < |tail| ==> tail[i] == cfg[i + 1];
      }
      ConfigureInEffect(es', tail, update, k);
      SetInEffect(es, k0, c0, update, k);
      if k == k0 {
        assert Find(tail, k).None? by {
          if Find(tail, k).Some? {
            var j :| 0 <= j < |tail| && tail[j].key == k;
            assert StrLess(cfg[0].key, cfg[j + 1].key);
            StrLessIrreflexive(k);
          }
        }
      }
    }
  }

  /** If some configured name is unregistered, the error names the first one and everything before it was applied. */
  lemma {:induction false} ConfigureInStops<V, C>(es: seq<Entry<V>>, cfg: seq<Entry<C>>, update: (V, C) -> V, n: nat)
    requires n < |cfg| && !HasKey(es, cfg[n].key)
    requires forall i :: 0 <= i < n ==> HasKey(es, cfg[i].key)
    ensures ConfigureIn(es, cfg, update) == Applied(ConfigureIn(es, cfg[..n], update).entries, Some(NotFound(cfg[n].key)))
    decreases n
  {
    if n > 0 {
      var k0, c0 := cfg[0].key, cfg[0].value;
      var es' := Put(es, k0, update(Find(es, k0).value, c0));
      var tail := cfg[1..];
      assert ConfigureIn(es, cfg, update) == ConfigureIn(es', tail, update) by {
        assert HasKey(es, k0);
        assert SetIn(es, k0, c0, update) == Ok(es');
      }
      assert ConfigureIn(es, cfg[..n], update) == ConfigureIn(es', tail[..n - 1], update) by {
        assert HasKey(es, k0);
        assert cfg[..n][0] == cfg[0] && cfg[..n][1..] == tail[..n - 1];
      }
      assert tail[n - 1] == cfg[n] && !HasKey(es', tail[n - 1].key)
        && forall i :: 0 <= i < n - 1 ==> HasKey(es', tail[i].key) by {
        PutKeysSame(es, k0, update(Find(es, k0).value, c0));
        assert forall i :: 0 <= i < n - 1 ==> tail[i] == cfg[i + 1];
      }
      ConfigureInStops(es', tail, update, n - 1);
    }
  }

  // ---------------------------------------------------------------------------------------------
  // Numerical settings

  /**
   * `add_additional_setting_numerical`: a setting bound to a variable whose value is `current`;
   * registering a name again replaces the earlier setting.
   */
  function AddNumerical(s: Settings, name: string, t: ValueType, current: real, rangeMin: real, rangeMax: real, step: real)
    : (r: Settings)
    requires t == IntValue ==> IsIntegral(current)
    ensures r.bools == s.bools
    ensures forall x :: HasKey(r.numerical, x) <==> x == name || HasKey(s.numerical, x)
  {
    forall x
      ensures HasKey(Put(s.numerical, name, MakeNumerical(name, t, current, rangeMin, rangeMax, step)), x)
        <==> x == name || HasKey(s.numerical, x)
    {
      PutKeys(s.numerical, name, MakeNumerical(name, t, current, rangeMin, rangeMax, step), x);
    }
    s.(numerical := Put(s.numerical, name, MakeNumerical(name, t, current, rangeMin, rangeMax, step)))
  }

  /** `get_additional_setting_keys_numerical`: the registered names in map order. */
  function NumericalKeys(s: Settings): seq<string>
  {
    Keys(s.numerical)
  }

  /** `get_additional_setting_numerical`. */
  function GetNumerical(s: Settings, name: string): (r: Result<NumericalSetting>)
    ensures r.Err? <==> name !in NumericalKeys(s)
    ensures r.Err? ==> r.msg == NotFound(name)
  {
    GetIn(s.numerical, name)
  }

  /** `set_additional_setting_numerical`: the named setting's `set_value`, or an error for an unknown name. */
  function SetNumerical(s: Settings, name: string, v: real): (r: Result<Settings>)
    ensures r.Err? <==> name !in NumericalKeys(s)
    ensures r.Err? ==> r.msg == NotFound(name)
    ensures r.Ok? ==> r.value.bools == s.bools
  {
    match SetIn(s.numerical, name, v, SetValue)
    case Err(m) => Err(m)
    case Ok(es) => Ok(s.(numerical := es))
  }

  // ---------------------------------------------------------------------------------------------
  // Boolean settings

  /** `add_additional_setting_bool`. */
  function AddBool(s: Settings, name: string, current: bool): (r: Settings)
    ensures r.numerical == s.numerical
    ensures forall x :: HasKey(r.bools, x) <==> x == name || HasKey(s.bools, x)
  {
    forall x
      ensures HasKey(Put(s.bools, name, MakeBool(name, current)), x) <==> x == name || HasKey(s.bools, x)
    {
      PutKeys(s.bools, name, MakeBool(name, current), x);
    }
    s.(bools := Put(s.bools, name, MakeBool(name, current)))
  }

  /** `get_additional_setting_keys_bool`. */
  function BoolKeys(s: Settings): seq<string>
  {
    Keys(s.bools)
  }

  /** `get_additional_setting_bool`. */
  function GetBool(s: Settings, name: string): (r: Result<BoolSetting>)
    ensures r.Err? <==> name !in BoolKeys(s)
    ensures r.Err? ==> r.msg == NotFound(name)
  {
    GetIn(s.bools, name)
  }

  /** `set_additional_setting_bool`. */
  function SetBoolSetting(s: Settings, name: string, b: bool): (r: Result<Settings>)
    ensures r.Err? <==> name !in BoolKeys(s)
    ensures r.Err? ==> r.msg == NotFound(name)
    ensures r.Ok? ==> r.value.numerical == s.numerical
  {
    match SetIn(s.bools, name, b, SetBool)
    case Err(m) => Err(m)
    case Ok(es) => Ok(s.(bools := es))
  }

  // ---------------------------------------------------------------------------------------------
  // The configuration map

  /** `ConfigurableAlgorithmSettingsMap`: a value per numerical name and per boolean name. */
  datatype ConfigurationMap = ConfigurationMap(numerical: seq<Entry<real>>, bools: seq<Entry<bool>>)

  /** The settings after applying a configuration map, and the message of the exception that stopped it, if any. */
  datatype Outcome = Outcome(settings: Settings, error: Option<string>)

  /**
   * `set_values_from_configuration_map`: all numerical values first, then all boolean values;
   * an unknown numerical name stops it before any boolean value is applied.
   */
  function SetValuesFromConfigurationMap(s: Settings, m: ConfigurationMap): (r: Outcome)
    ensures r.error.None? <==>
      (forall i :: 0 <= i < |m.numerical| ==> m.numerical[i].key in NumericalKeys(s)) &&
      (forall i :: 0 <= i < |m.bools| ==> m.bools[i].key in BoolKeys(s))
    ensures (exists i :: 0 <= i < |m.numerical| && m.numerical[i].key !in NumericalKeys(s)) ==> r.settings.bools == s.bools
  {
    var n := ConfigureIn(s.numerical, m.numerical, SetValue);
    if n.error.Some? then
      Outcome(s.(numerical := n.entries), n.error)
    else
      var b := ConfigureIn(s.bools, m.bools, SetBool);
      Outcome(Settings(n.entries, b.entries), b.error)
  }

  // ---------------------------------------------------------------------------------------------
  // Properties

  /** Registering a numerical setting makes it retrievable under its name, as constructed. */
  lemma {:induction false} AddThenGetNumerical(s: Settings, name: string, t: ValueType, current: real, lo: real, hi: real, step: real, k: string)
    requires t == IntValue ==> IsIntegral(current)
    ensures GetNumerical(AddNumerical(s, name, t, current, lo, hi, step), k)
      == if k == name then Ok(MakeNumerical(name, t, current, lo, hi, step)) else GetNumerical(s, k)
  {
    FindPut(s.numerical, name, MakeNumerical(name, t, current, lo, hi, step), k);
  }

  /** Setting a numerical value is `set_value` on that setting alone; every other setting reads as before. */
  lemma {:induction false} SetThenGetNumerical(s: Settings, name: string, v: real, k: string)
    requires SetNumerical(s, name, v).Ok?
    ensures GetNumerical(SetNumerical(s, name, v).value, k)
      == if k == name then Ok(SetValue(GetNumerical(s, name).value, v)) else GetNumerical(s, k)
  {
    SetInEffect(s.numerical, name, v, SetValue, k);
  }

  /** Setting a boolean value stores it in that setting alone. */
  lemma {:induction false} SetThenGetBool(s: Settings, name: string, b: bool, k: string)
    requires SetBoolSetting(s, name, b).Ok?
    ensures GetBool(SetBoolSetting(s, name, b).value, k)
      == if k == name then Ok(SetBool(GetBool(s, name).value, b)) else GetBool(s, k)
    ensures k == name ==> GetBool(SetBoolSetting(s, name, b).value, k).value.value == b
  {
    SetInEffect(s.bools, name, b, SetBool, k);
  }

  /** Registering and setting keep the maps sorted and every setting filed under its own name. */
  lemma {:induction false} AddNumericalValid(s: Settings, name: string, t: ValueType, current: real, lo: real, hi: real, step: real)
    requires Valid(s) && (t == IntValue ==> IsIntegral(current))
    ensures Valid(AddNumerical(s, name, t, current, lo, hi, step))
  {
    var x := MakeNumerical(name, t, current, lo, hi, step);
    PutSorted(s.numerical, name, x);
    PutNamed(s.numerical, name, x);
  }

  lemma {:induction false} AddBoolValid(s: Settings, name: string, current: bool)
    requires Valid(s)
    ensures Valid(AddBool(s, name, current))
  {
    var x := MakeBool(name, current);
    PutSorted(s.bools, name, x);
    PutNamedBool(s.bools, name, x);
  }

  lemma {:induction false} SetNumericalValid(s: Settings, name: string, v: real)
    requires Valid(s) && SetNumerical(s, name, v).Ok?
    ensures Valid(SetNumerical(s, name, v).value)
  {
    var x := SetValue(Find(s.numerical, name).value, v);
    var i :| 0 <= i < |s.numerical| && s.numerical[i] == Entry(name, Find(s.numerical, name).value);
    PutSorted(s.numerical, name, x);
    PutNamed(s.numerical, name, x);
  }

  /** Put keeps "every numerical setting is filed under its name" when the new one carries its key. */
  lemma {:induction false} PutNamed(es: seq<Entry<NumericalSetting>>, k: string, x: NumericalSetting)
    requires forall i :: 0 <= i < |es| ==> es[i].value.name == es[i].key
    requires x.name == k
    ensures forall i :: 0 <= i < |Put(es, k, x)| ==> Put(es, k, x)[i].value.name == Put(es, k, x)[i].key
    decreases |es|
  {
    if |es| > 0 && es[0].key != k && !StrLess(k, es[0].key) {
      var tail := es[1..];
      assert forall i :: 0 <= i < |tail| ==> tail[i] == es[i + 1];
      PutNamed(tail, k, x);
      assert Put(es, k, x) == [es[0]] + Put(tail, k, x);
    } else if |es| > 0 && es[0].key == k {
      assert forall i :: 1 <= i < |Put(es, k, x)| ==> Put(es, k, x)[i] == es[i];
    } else if |es| > 0 {
      assert forall i :: 1 <= i < |Put(es, k, x)| ==> Put(es, k, x)[i] == es[i - 1];
    }
  }

  lemma {:induction false} PutNamedBool(es: seq<Entry<BoolSetting>>, k: string, x: BoolSetting)
    requires forall i :: 0 <= i < |es| ==> es[i].value.name == es[i].key
    requires x.name == k
    ensures forall i :: 0 <= i < |Put(es, k, x)| ==> Put(es, k, x)[i].value.name == Put(es, k, x)[i].key
    decreases |es|
  {
    if |es| > 0 && es[0].key != k && !StrLess(k, es[0].key) {
      var tail := es[1..];
      assert forall i :: 0 <= i < |tail| ==> tail[i] == es[i + 1];
      PutNamedBool(tail, k, x);
      assert Put(es, k, x) == [es[0]] + Put(tail, k, x);
    } else if |es| > 0 && es[0].key == k {
      assert forall i :: 1 <= i < |Put(es, k, x)| ==> Put(es, k, x)[i] == es[i];
    } else if |es| > 0 {
      assert forall i :: 1 <= i < |Put(es, k, x)| ==> Put(es, k, x)[i] == es[i - 1];
    }
  }

  /** In a valid registry, setting a value keeps the key listing exactly. */
  lemma {:induction false} SetNumericalKeepsKeys(s: Settings, name: string, v: real)
    requires Valid(s) && SetNumerical(s, name, v).Ok?
    ensures NumericalKeys(SetNumerical(s, name, v).value) == NumericalKeys(s)
  {
    PutPresentKeys(s.numerical, name, SetValue(Find(s.numerical, name).value, v));
  }

  /**
   * With every configured name registered, a configuration map sets every configured numerical
   * setting through `set_value` and every configured boolean, and leaves the rest unchanged.
   */
  lemma {:induction false} ConfigurationMapEffect(s: Settings, m: ConfigurationMap, k: string)
    requires Sorted(m.numerical) && Sorted(m.bools)
    requires forall i :: 0 <= i < |m.numerical| ==> m.numerical[i].key in NumericalKeys(s)
    requires forall i :: 0 <= i < |m.bools| ==> m.bools[i].key in BoolKeys(s)
    ensures SetValuesFromConfigurationMap(s, m).error == None
    ensures GetNumerical(SetValuesFromConfigurationMap(s, m).settings, k)
      == match Find(m.numerical, k)
         case None => GetNumerical(s, k)
         case Some(v) => Ok(SetValue(GetNumerical(s, k).value, v))
    ensures GetBool(SetValuesFromConfigurationMap(s, m).settings, k)
      == match Find(m.bools, k)
         case None => GetBool(s, k)
         case Some(b) => Ok(SetBool(GetBool(s, k).value, b))
  {
    ConfigureInEffect(s.numerical, m.numerical, SetValue, k);
    ConfigureInEffect(s.bools, m.bools, SetBool, k);
  }

  /** An unknown numerical name: the error names the first one, the names before it are set, and no boolean changes. */
  lemma {:induction false} ConfigurationMapStops(s: Settings, m: ConfigurationMap, n: nat)
    requires n < |m.numerical| && m.numerical[n].key !in NumericalKeys(s)
    requires forall i :: 0 <= i < n ==> m.numerical[i].key in NumericalKeys(s)
    ensures SetValuesFromConfigurationMap(s, m)
      == Outcome(s.(numerical := ConfigureIn(s.numerical, m.numerical[..n], SetValue).entries),
                 Some(NotFound(m.numerical[n].key)))
  {
    ConfigureInStops(s.numerical, m.numerical, SetValue, n);
  }

  // ---------------------------------------------------------------------------------------------
  // The kappa-sigma stackers' registry

  /**
   * What the kappa-sigma stackers register (src/StackerKappaSigmaBase.cxx): kappa, a float in
   * [0.1, 10] with step 0.1, and the iteration count, an int in [1, 20] with step 1.
   */
  function KappaSigmaSettings(kappa: real, iterations: int): (s: Settings)
    ensures NumericalKeys(s) == ["kappa", "n_iterations"]
    ensures Valid(s)
  {
    TruncateWhole(iterations);
    var s1 := AddNumerical(Empty, "kappa", FloatValue, kappa, 0.1, 10.0, 0.1);
    var s2 := AddNumerical(s1, "n_iterations", IntValue, iterations as real, 1.0, 20.0, 1.0);
    var kappaSetting := MakeNumerical("kappa", FloatValue, kappa, 0.1, 10.0, 0.1);
    var iters := MakeNumerical("n_iterations", IntValue, iterations as real, 1.0, 20.0, 1.0);
    assert "kappa"[0] == 'k' && "n_iterations"[0] == 'n';
    assert StrLess("kappa", "n_iterations") && !StrLess("n_iterations", "kappa");
    assert s1.numerical == [Entry("kappa", kappaSetting)];
    assert "kappa" != "n_iterations";
    assert s1.numerical[1..] == [];
    assert Put(s1.numerical[1..], "n_iterations", iters) == [Entry("n_iterations", iters)];
    assert s2.numerical == [Entry("kappa", kappaSetting), Entry("n_iterations", iters)];
    AddNumericalValid(Empty, "kappa", FloatValue, kappa, 0.1, 10.0, 0.1);
    AddNumericalValid(s1, "n_iterations", IntValue, iterations as real, 1.0, 20.0, 1.0);
    s2
  }
}

=== FILE: AlignmentTranslation.dfy ===
/**
 * The translation-only alignment result (src/AlignmentResultTranslationOnly.cxx,
 * headers/AlignmentResultTranslationOnly.h, with the ranking score and validity flag of
 * headers/AlignmentResultBase.h): a frame is aligned to the reference frame by a shift in x and y,
 * and the result can be written to and read back from a text description.
 *
 * Coordinates and shifts are exact reals; float rounding is not modelled. The float formatting
 * (`std::to_string`) and parsing (`std::stof`) the description relies on are parameters: `format`
 * turns a number into text, and `parse` reads text back, `None` standing for the exception `stof`
 * throws on text that is not a number.
 */
module AlignmentTranslation {
  import opened Wrappers
  import opened Text

  datatype Translation = Translation(shiftX: real, shiftY: real, rankingScore: real, isValid: bool)

  /** The separator between the numbers of the description. */
  const Separator := " | "

  /** The default constructor: no shift, score 0, not valid. */
  function Default(): (r: Translation)
    ensures !r.isValid && r.rankingScore == 0.0
    ensures Shift(r) == (0.0, 0.0)
  {
    Translation(0.0, 0.0, 0.0, false)
  }

  /** The constructor from a shift: valid, with the default ranking score of 0. */
  function FromShift(x: real, y: real): (r: Translation)
    ensures r.isValid && r.rankingScore == 0.0 && Shift(r) == (x, y)
  {
    Translation(x, y, 0.0, true)
  }

  /** `get_shift`. */
  function Shift(r: Translation): (real, real)
  {
    (r.shiftX, r.shiftY)
  }

  /** `set_shift`: the shift replaced; the ranking score and validity kept. */
  function SetShift(r: Translation, x: real, y: real): (t: Translation)
    ensures Shift(t) == (x, y) && t.rankingScore == r.rankingScore && t.isValid == r.isValid
  {
    r.(shiftX := x, shiftY := y)
  }

  /** `set_ranking_score`. */
  function SetRankingScore(r: Translation, s: real): (t: Translation)
    ensures t.rankingScore == s && Shift(t) == Shift(r) && t.isValid == r.isValid
  {
    r.(rankingScore := s)
  }

  /** `set_is_valid`. */
  function SetIsValid(r: Translation, b: bool): (t: Translation)
    ensures t.isValid == b && Shift(t) == Shift(r) && t.rankingScore == r.rankingScore
  {
    r.(isValid := b)
  }

  // ---------------------------------------------------------------------------------------------
  // Coordinate transforms

  /** `transform_from_reference_to_shifted_frame`: the shift subtracted. */
  function ToShifted(r: Translation, x: real, y: real): (p: (real, real))
    ensures p.0 - x == -r.shiftX && p.1 - y == -r.shiftY
  {
    (x - r.shiftX, y - r.shiftY)
  }

  /** `transform_to_reference_frame`: the shift added. */
  function ToReference(r: Translation, x: real, y: real): (p: (real, real))
    ensures p.0 - x == r.shiftX && p.1 - y == r.shiftY
  {
    (x + r.shiftX, y + r.shiftY)
  }

  /** The two transforms undo each other, in either order. */
  lemma {:induction false} TransformsInverse(r: Translation, x: real, y: real)
    ensures var p := ToShifted(r, x, y); ToReference(r, p.0, p.1) == (x, y)
    ensures var q := ToReference(r, x, y); ToShifted(r, q.0, q.1) == (x, y)
  {
  }

  /** Two translations applied in turn are the translation by the summed shift. */
  lemma {:induction false} TransformsCompose(a: Translation, b: Translation, x: real, y: real)
    ensures ToReference(b, ToReference(a, x, y).0, ToReference(a, x, y).1)
         == ToReference(FromShift(a.shiftX + b.shiftX, a.shiftY + b.shiftY), x, y)
  {
  }

  /** A result with no shift leaves every point where it is. */
  lemma {:induction false} ZeroShiftIdentity(r: Translation, x: real, y: real)
    requires Shift(r) == (0.0, 0.0)
    ensures ToReference(r, x, y) == (x, y) && ToShifted(r, x, y) == (x, y)
  {
  }

  // ---------------------------------------------------------------------------------------------
  // Description string

  function InvalidDescription(d: string): string
  {
    "Invalid description string for AlignmentResultTranslationOnly: " + d
  }

  /** The message of the exception `stof` throws. */
  const NotANumber := "stof"

  /**
   * `get_method_specific_description_string`: shift x, shift y and ranking score, formatted and
   * joined with " | ".
   */
  function Describe(r: Translation, format: real -> string): (d: string)
  {
    JoinOn([format(r.shiftX), format(r.shiftY), format(r.rankingScore)], Separator)
  }

  /**
   * The constructor from a description: split at " | "; fewer than three pieces is an error; the
   * first three pieces are parsed as shift x, shift y and ranking score, and the result is valid.
   * Any further pieces are ignored.
   */
  function FromDescription(d: string, parse: string -> Option<real>): (r: Result<Translation>)
    ensures |SplitOn(d, Separator)| < 3 ==> r == Err(InvalidDescription(d))
    ensures r.Ok? ==> r.value.isValid
    ensures r.Ok? ==> var tokens := SplitOn(d, Separator);
      parse(tokens[0]) == Some(r.value.shiftX) && parse(tokens[1]) == Some(r.value.shiftY)
      && parse(tokens[2]) == Some(r.value.rankingScore)
  {
    var tokens := SplitOn(d, Separator);
    if |tokens| < 3 then Err(InvalidDescription(d))
    else
      var x := parse(tokens[0]);
      var y := parse(tokens[1]);
      var s := parse(tokens[2]);
      if x.None? || y.None? || s.None? then Err(NotANumber)
      else Ok(Translation(x.value, y.value, s.value, true))
  }

  /**
   * Reading back the description of a result gives a valid result whose numbers are those the
   * formatted text parses to, provided formatting never produces a space (the separator's first
   * character) and its output always parses.
   */
  lemma {:induction false} DescriptionRoundTrip(r: Translation, format: real -> string, parse: string -> Option<real>)
    requires forall v :: ' ' !in format(v)
    requires forall v :: parse(format(v)).Some?
    ensures FromDescription(Describe(r, format), parse)
      == Ok(Translation(parse(format(r.shiftX)).value, parse(format(r.shiftY)).value,
                        parse(format(r.rankingScore)).value, true))
  {
    var parts := [format(r.shiftX), format(r.shiftY), format(r.rankingScore)];
    assert Separator[0] == ' ';
    SplitOnJoinOn(parts, Separator);
  }

  /** With formatting that parses back exactly, the description round trip loses nothing but the validity flag's old value. */
  lemma {:induction false} DescriptionRoundTripExact(r: Translation, format: real -> string, parse: string -> Option<real>)
    requires forall v :: ' ' !in format(v)
    requires forall v :: parse(format(v)) == Some(v)
    ensures FromDescription(Describe(r, format), parse) == Ok(SetIsValid(r, true))
  {
    DescriptionRoundTrip(r, format, parse);
  }
}

=== FILE: CInts.dfy ===
/**
 * The C++ integer conversions and operators the stackers and codecs rely on, written out
 * over Dafny's unbounded integers: wrap-around of unsigned types, the modular conversion
 * of an out-of-range value to a signed type, and division that truncates toward zero.
 */
module CInts {

  const INT_MAX: int := 0x7fff_ffff
  const TWO_16: int := 0x1_0000
  const TWO_32: int := 0x1_0000_0000
  const TWO_64: int := 0x1_0000_0000_0000_0000

  /** Reduction into `unsigned short`. */
  function WrapU16(x: int): (r: int)
    ensures 0 <= r < TWO_16
    ensures (x - r) % TWO_16 == 0
  {
    x % TWO_16
  }

  /** Reduction into `unsigned int`. */
  function WrapU32(x: int): (r: int)
    ensures 0 <= r < TWO_32
    ensures (x - r) % TWO_32 == 0
  {
    x % TWO_32
  }

  /** Reduction into `unsigned long long`. */
  function WrapU64(x: int): (r: int)
    ensures 0 <= r < TWO_64
    ensures (x - r) % TWO_64 == 0
  {
    x % TWO_64
  }

  /** Conversion to a 32-bit `int`: the value congruent to `x` modulo 2^32 in [-2^31, 2^31). */
  function ToInt32(x: int): (r: int)
    ensures -0x8000_0000 <= r <= INT_MAX
    ensures (x - r) % TWO_32 == 0
    ensures -0x8000_0000 <= x <= INT_MAX ==> r == x
  {
    var m := x % TWO_32;
    if m <= INT_MAX then m else m - TWO_32
  }

  /** Conversion to a 16-bit `short`: the value congruent to `x` modulo 2^16 in [-2^15, 2^15). */
  function ToInt16(x: int): (r: int)
    ensures -0x8000 <= r < 0x8000
    ensures (x - r) % TWO_16 == 0
    ensures -0x8000 <= x < 0x8000 ==> r == x
  {
    var m := x % TWO_16;
    if m < 0x8000 then m else m - TWO_16
  }

  function Abs(x: int): (r: int)
    ensures r >= 0
    ensures r == x || r == -x
  {
    if x < 0 then -x else x
  }

  /** C division: the quotient is truncated toward zero, so the remainder takes the sign of `a`. */
  function DivTrunc(a: int, b: int): (q: int)
    requires b != 0
    ensures Abs(a - q * b) < Abs(b)
    ensures a >= 0 ==> 0 <= a - q * b
    ensures a <= 0 ==> a - q * b <= 0
  {
    if a >= 0 then a / b else -((-a) / b)
  }

  function Min(a: int, b: int): (r: int)
    ensures r <= a && r <= b
    ensures r == a || r == b
  {
    if a < b then a else b
  }

  lemma {:induction false} MultipleBelowDivisor(k: int, b: int)
    requires b > 0 && -b < k * b < b
    ensures k == 0
  {
    assert k * b == (k - 1) * b + b == (k + 1) * b - b;
    assert k >= 1 ==> (k - 1) * b >= 0;
    assert k <= -1 ==> (k + 1) * b <= 0;
  }

  lemma {:induction false} MulMonotone(a: nat, b: nat, c: nat)
    requires a <= b
    ensures a * c <= b * c
  {
    assert b * c == a * c + (b - a) * c;
  }

  /** Euclidean division is determined by its defining equation. */
  lemma {:induction false} DivModUnique(x: int, m: int, q: int, r: int)
    requires m > 0 && x == q * m + r && 0 <= r < m
    ensures x / m == q && x % m == r
  {
    var q', r' := x / m, x % m;
    assert (q - q') * m == r' - r by {
      assert q * m + r == q' * m + r';
    }
    MultipleBelowDivisor(q - q', m);
  }

  /** Cutting an `unsigned long long` to `unsigned int` keeps the low 32 bits of the original value. */
  lemma {:induction false} WrapU32OfU64(x: int)
    ensures WrapU32(WrapU64(x)) == WrapU32(x)
  {
    var k := x / TWO_64;
    assert WrapU64(x) == x - k * TWO_64;
    assert x == (x / TWO_32) * TWO_32 + x % TWO_32;
    DivModUnique(WrapU64(x), TWO_32, x / TWO_32 - k * TWO_32, x % TWO_32);
  }

  /** Adding to an `unsigned short` wraps the same whether the left operand was reduced first or not. */
  lemma {:induction false} WrapU16Add(a: int, b: int)
    ensures WrapU16(WrapU16(a) + b) == WrapU16(a + b)
  {
    var q, r := (a + b) / TWO_16, (a + b) % TWO_16;
    assert WrapU16(a) + b == (q - a / TWO_16) * TWO_16 + r by {
      assert a == (a / TWO_16) * TWO_16 + WrapU16(a);
    }
    DivModUnique(WrapU16(a) + b, TWO_16, q - a / TWO_16, r);
  }
}

=== FILE: ColorStretcher.dfy ===
/**
 * The combined colour stretcher of the GUI (GUI/headers/CombinedColorStrecherTool.h): a list of
 * stretching curves applied to every channel ("luminance" curves) and one list per colour
 * channel, applied in the order they were added, luminance curves first.
 *
 * The curves themselves are objects of classes outside this model; here a curve is any value of
 * the type parameter `S` and `apply(s, value, maxValue)` is its `stretch` member.
 */
module ColorStretcher {
  import opened Wrappers

  datatype Tool<S> = Tool(nColors: nat, luminance: seq<S>, colors: seq<seq<S>>)

  /** The tool keeps exactly one list per colour channel. */
  predicate Valid<S>(t: Tool<S>)
  {
    |t.colors| == t.nColors
  }

  const ColorOutOfRange := ": Color index out of range"
  const IndexOutOfRange := ": Index out of range"

  function Message(member: string, what: string): string
  {
    "CombinedColorStrecherTool::" + member + what
  }

  /** The constructor: `nColors` channels, no curves anywhere. */
  function New<S>(nColors: nat): (t: Tool<S>)
    ensures Valid(t) && t.nColors == nColors
    ensures NLuminance(t) == 0 && forall c :: 0 <= c < nColors ==> NColor(t, c) == Ok(0)
  {
    Tool(nColors, [], seq(nColors, _ => []))
  }

  // ---------------------------------------------------------------------------------------------
  // Adding and removing curves

  /** `add_luminance_stretcher`: appended to the luminance list; the channel lists are untouched. */
  function AddLuminance<S>(t: Tool<S>, s: S): (r: Tool<S>)
    requires Valid(t)
    ensures Valid(r) && r.nColors == t.nColors && r.colors == t.colors
    ensures NLuminance(r) == NLuminance(t) + 1 && GetLuminance(r, NLuminance(t)) == Ok(s)
    ensures forall i :: 0 <= i < NLuminance(t) ==> GetLuminance(r, i) == GetLuminance(t, i)
  {
    t.(luminance := t.luminance + [s])
  }

  /** `add_color_stretcher`: appended to channel `c`'s list, or an error for a channel that does not exist. */
  function AddColor<S>(t: Tool<S>, s: S, c: nat): (r: Result<Tool<S>>)
    requires Valid(t)
    ensures r.Err? <==> c >= t.nColors
    ensures r.Err? ==> r.msg == Message("add_color_stretcher", ColorOutOfRange)
    ensures r.Ok? ==> Valid(r.value) && r.value.nColors == t.nColors && r.value.luminance == t.luminance
    ensures r.Ok? ==> NColor(r.value, c) == Ok(|t.colors[c]| + 1) && GetColor(r.value, c, |t.colors[c]|) == Ok(s)
    ensures r.Ok? ==> forall i :: 0 <= i < |t.colors[c]| ==> GetColor(r.value, c, i) == GetColor(t, c, i)
    ensures r.Ok? ==> forall d :: 0 <= d < t.nColors && d != c ==> r.value.colors[d] == t.colors[d]
  {
    if c >= t.nColors then Err(Message("add_color_stretcher", ColorOutOfRange))
    else Ok(t.(colors := t.colors[c := t.colors[c] + [s]]))
  }

  /** `remove_all_luminance_stretchers`. */
  function RemoveAllLuminance<S>(t: Tool<S>): (r: Tool<S>)
    requires Valid(t)
    ensures Valid(r) && NLuminance(r) == 0 && r.colors == t.colors && r.nColors == t.nColors
  {
    t.(luminance := [])
  }

  /** `remove_all_stretchers_for_given_color`. */
  function RemoveAllForColor<S>(t: Tool<S>, c: nat): (r: Result<Tool<S>>)
    requires Valid(t)
    ensures r.Err? <==> c >= t.nColors
    ensures r.Err? ==> r.msg == Message("remove_all_stretchers_for_given_color", ColorOutOfRange)
    ensures r.Ok? ==> Valid(r.value) && r.value.nColors == t.nColors && r.value.luminance == t.luminance
    ensures r.Ok? ==> NColor(r.value, c) == Ok(0)
    ensures r.Ok? ==> forall d :: 0 <= d < t.nColors && d != c ==> r.value.colors[d] == t.colors[d]
  {
    if c >= t.nColors then Err(Message("remove_all_stretchers_for_given_color", ColorOutOfRange))
    else Ok(t.(colors := t.colors[c := []]))
  }

  /** The list without its entry at `i`, the others keeping their order. */
  function Erase<S>(s: seq<S>, i: nat): (r: seq<S>)
    requires i < |s|
    ensures |r| == |s| - 1
    ensures forall j :: 0 <= j < i ==> r[j] == s[j]
    ensures forall j :: i <= j < |r| ==> r[j] == s[j + 1]
  {
    s[..i] + s[i + 1..]
  }

  /** `remove_luminance_stretcher`: the curve at `index` removed, or an error past the end. */
  function RemoveLuminance<S>(t: Tool<S>, index: nat): (r: Result<Tool<S>>)
    requires Valid(t)
    ensures r.Err? <==> index >= NLuminance(t)
    ensures r.Err? ==> r.msg == Message("remove_luminance_stretcher", IndexOutOfRange)
    ensures r.Ok? ==> Valid(r.value) && r.value.colors == t.colors && r.value.luminance == Erase(t.luminance, index)
  {
    if index >= |t.luminance| then Err(Message("remove_luminance_stretcher", IndexOutOfRange))
    else Ok(t.(luminance := Erase(t.luminance, index)))
  }

  /** `remove_stretcher_for_given_color`: the channel is checked before the index. */
  function RemoveColor<S>(t: Tool<S>, c: nat, index: nat): (r: Result<Tool<S>>)
    requires Valid(t)
    ensures r.Err? <==> c >= t.nColors || index >= |t.colors[c]|
    ensures c >= t.nColors ==> r == Err(Message("remove_stretcher_for_given_color", ColorOutOfRange))
    ensures c < t.nColors && index >= |t.colors[c]| ==> r == Err(Message("remove_stretcher_for_given_color", IndexOutOfRange))
    ensures r.Ok? ==> Valid(r.value) && r.value.nColors == t.nColors && r.value.luminance == t.luminance
    ensures r.Ok? ==> r.value.colors[c] == Erase(t.colors[c], index)
    ensures r.Ok? ==> forall d :: 0 <= d < t.nColors && d != c ==> r.value.colors[d] == t.colors[d]
  {
    if c >= t.nColors then Err(Message("remove_stretcher_for_given_color", ColorOutOfRange))
    else if index >= |t.colors[c]| then Err(Message("remove_stretcher_for_given_color", IndexOutOfRange))
    else Ok(t.(colors := t.colors[c := Erase(t.colors[c], index)]))
  }

  // ---------------------------------------------------------------------------------------------
  // Queries

  function NColors<S>(t: Tool<S>): nat { t.nColors }

  function NLuminance<S>(t: Tool<S>): nat { |t.luminance| }

  /** `get_n_color_stretchers`. */
  function NColor<S>(t: Tool<S>, c: nat): (r: Result<nat>)
    requires Valid(t)
    ensures r.Err? <==> c >= t.nColors
    ensures r.Err? ==> r.msg == Message("get_n_color_stretchers", ColorOutOfRange)
  {
    if c >= t.nColors then Err(Message("get_n_color_stretchers", ColorOutOfRange))
    else Ok(|t.colors[c]|)
  }

  /** `get_luminance_stretcher`. */
  function GetLuminance<S>(t: Tool<S>, index: nat): (r: Result<S>)
    ensures r.Err? <==> index >= NLuminance(t)
    ensures r.Err? ==> r.msg == Message("get_luminance_stretcher", IndexOutOfRange)
  {
    if index >= |t.luminance| then Err(Message("get_luminance_stretcher", IndexOutOfRange))
    else Ok(t.luminance[index])
  }

  /** `get_color_stretcher`: the channel is checked before the index. */
  function GetColor<S>(t: Tool<S>, c: nat, index: nat): (r: Result<S>)
    requires Valid(t)
    ensures r.Err? <==> c >= t.nColors || index >= |t.colors[c]|
    ensures c >= t.nColors ==> r.msg == Message("get_color_stretcher", ColorOutOfRange)
    ensures c < t.nColors && index >= |t.colors[c]| ==> r.msg == Message("get_color_stretcher", IndexOutOfRange)
  {
    if c >= t.nColors then Err(Message("get_color_stretcher", ColorOutOfRange))
    else if index >= |t.colors[c]| then Err(Message("get_color_stretcher", IndexOutOfRange))
    else Ok(t.colors[c][index])
  }

  // ---------------------------------------------------------------------------------------------
  // Stretching

  /** The curves applied one after another, first curve first. */
  function ApplyAll<S>(curves: seq<S>, apply: (S, real, real) -> real, v: real, maxValue: real): real
    decreases |curves|
  {
    if |curves| == 0 then v else ApplyAll(curves[1..], apply, apply(curves[0], v, maxValue), maxValue)
  }

  /** Applying a list of curves and then another is applying their concatenation. */
  lemma {:induction false} ApplyAllAppend<S>(a: seq<S>, b: seq<S>, apply: (S, real, real) -> real, v: real, maxValue: real)
    ensures ApplyAll(a + b, apply, v, maxValue) == ApplyAll(b, apply, ApplyAll(a, apply, v, maxValue), maxValue)
    decreases |a|
  {
    if |a| > 0 {
      assert (a + b)[1..] == a[1..] + b;
      ApplyAllAppend(a[1..], b, apply, apply(a[0], v, maxValue), maxValue);
    } else {
      assert a + b == b;
    }
  }

  /** `stretch_luminance`: the luminance curves only. */
  function StretchLuminance<S>(t: Tool<S>, apply: (S, real, real) -> real, v: real, maxValue: real): real
  {
    ApplyAll(t.luminance, apply, v, maxValue)
  }

  /** `stretch`: the luminance curves, then channel `c`'s curves; an error for a channel that does not exist. */
  function Stretch<S>(t: Tool<S>, apply: (S, real, real) -> real, v: real, maxValue: real, c: nat): (r: Result<real>)
    requires Valid(t)
    ensures r.Err? <==> c >= t.nColors
    ensures r.Err? ==> r.msg == Message("stretch", ColorOutOfRange)
  {
    if c >= t.nColors then Err(Message("stretch", ColorOutOfRange))
    else Ok(ApplyAll(t.colors[c], apply, StretchLuminance(t, apply, v, maxValue), maxValue))
  }

  /** A channel's stretch is the single curve list "luminance curves, then the channel's curves". */
  lemma {:induction false} StretchIsOneChain<S>(t: Tool<S>, apply: (S, real, real) -> real, v: real, maxValue: real, c: nat)
    requires Valid(t) && c < t.nColors
    ensures Stretch(t, apply, v, maxValue, c) == Ok(ApplyAll(t.luminance + t.colors[c], apply, v, maxValue))
  {
    ApplyAllAppend(t.luminance, t.colors[c], apply, v, maxValue);
  }

  /** A fresh tool leaves every value as it is. */
  lemma {:induction false} NewIsIdentity<S>(nColors: nat, apply: (S, real, real) -> real, v: real, maxValue: real, c: nat)
    requires c < nColors
    ensures Stretch(New<S>(nColors), apply, v, maxValue, c) == Ok(v)
    ensures StretchLuminance(New<S>(nColors), apply, v, maxValue) == v
  {
  }

  /**
   * A new luminance curve acts after the earlier luminance curves and before every channel's
   * own curves.
   */
  lemma {:induction false} AddLuminanceOrder<S>(t: Tool<S>, s: S, apply: (S, real, real) -> real, v: real, maxValue: real, c: nat)
    requires Valid(t) && c < t.nColors
    ensures StretchLuminance(AddLuminance(t, s), apply, v, maxValue) == apply(s, StretchLuminance(t, apply, v, maxValue), maxValue)
    ensures Stretch(AddLuminance(t, s), apply, v, maxValue, c)
      == Ok(ApplyAll(t.colors[c], apply, apply(s, StretchLuminance(t, apply, v, maxValue), maxValue), maxValue))
  {
    ApplyAllAppend(t.luminance, [s], apply, v, maxValue);
    assert [s][1..] == [];
  }

  /** A new curve on channel `c` acts last on that channel and does not affect the other channels. */
  lemma {:induction false} AddColorOrder<S>(t: Tool<S>, s: S, c: nat, apply: (S, real, real) -> real, v: real, maxValue: real, d: nat)
    requires Valid(t) && c < t.nColors && d < t.nColors
    ensures Stretch(AddColor(t, s, c).value, apply, v, maxValue, c).value
      == apply(s, Stretch(t, apply, v, maxValue, c).value, maxValue)
    ensures d != c ==> Stretch(AddColor(t, s, c).value, apply, v, maxValue, d) == Stretch(t, apply, v, maxValue, d)
  {
    var l := StretchLuminance(t, apply, v, maxValue);
    ApplyAllAppend(t.colors[c], [s], apply, l, maxValue);
    assert [s][1..] == [];
  }

  /** Removing the curve just added restores the tool. */
  lemma {:induction false} RemoveUndoesAdd<S>(t: Tool<S>, s: S, c: nat)
    requires Valid(t) && c < t.nColors
    ensures RemoveLuminance(AddLuminance(t, s), NLuminance(t)) == Ok(t)
    ensures RemoveColor(AddColor(t, s, c).value, c, |t.colors[c]|) == Ok(t)
  {
    var l := t.luminance + [s];
    assert Erase(l, |t.luminance|) == t.luminance;
    var cs := t.colors[c] + [s];
    assert Erase(cs, |t.colors[c]|) == t.colors[c];
    assert t.colors[c := cs][c := t.colors[c]] == t.colors;
  }

  /** Every operation keeps one list per channel, so a tool reached from the constructor stays valid. */
  lemma {:induction false} OperationsKeepValid<S>(t: Tool<S>, s: S, c: nat, i: nat)
    requires Valid(t)
    ensures Valid(AddLuminance(t, s)) && Valid(RemoveAllLuminance(t))
    ensures AddColor(t, s, c).Ok? ==> Valid(AddColor(t, s, c).value)
    ensures RemoveAllForColor(t, c).Ok? ==> Valid(RemoveAllForColor(t, c).value)
    ensures RemoveLuminance(t, i).Ok? ==> Valid(RemoveLuminance(t, i).value)
    ensures RemoveColor(t, c, i).Ok? ==> Valid(RemoveColor(t, c, i).value)
  {
  }

  // ---------------------------------------------------------------------------------------------
  // Whether anything is to be applied

  /** Whether some list, luminance or channel, holds a curve. */
  predicate HasStretchers<S>(t: Tool<S>)
  {
    |t.luminance| > 0 || exists c :: 0 <= c < |t.colors| && |t.colors[c]| > 0
  }

  /**
   * `has_stretchers` as written: it tests whether the list OF channel lists is empty, which it
   * never is once there is a channel, instead of whether any channel list holds a curve.
   */
  predicate HasStretchersAsWritten<S>(t: Tool<S>)
  {
    |t.luminance| > 0 || |t.colors| > 0
  }

  /** With no curves at all, the tool applies nothing: the documented "false" case. */
  lemma {:induction false} NoCurvesIsIdentity<S>(t: Tool<S>, apply: (S, real, real) -> real, v: real, maxValue: real, c: nat)
    requires Valid(t) && !HasStretchers(t) && c < t.nColors
    ensures Stretch(t, apply, v, maxValue, c) == Ok(v)
  {
    assert t.luminance == [] && t.colors[c] == [];
  }

  /** Any curve makes the corrected test true; the test as written is true for a fresh three-channel tool. */
  lemma {:induction false} HasStretchersAsWrittenWrong<S>()
    ensures !HasStretchers(New<S>(3)) && HasStretchersAsWritten(New<S>(3))
  {
    var t := New<S>(3);
    assert |t.colors[0]| == 0 && |t.colors[1]| == 0 && |t.colors[2]| == 0;
  }

  /**
   * The corrected test is true exactly when some curve, luminance or channel, can be fetched; so it
   * is false for a new tool and true after any successful add.
   */
  lemma {:induction false} HasStretchersAfterAdd<S>(t: Tool<S>, s: S, c: nat)
    requires Valid(t)
    ensures HasStretchers(t) <==> GetLuminance(t, 0).Ok? || exists d :: 0 <= d < t.nColors && GetColor(t, d, 0).Ok?
    ensures HasStretchers(AddLuminance(t, s))
    ensures AddColor(t, s, c).Ok? ==> HasStretchers(AddColor(t, s, c).value)
    ensures !HasStretchers(New<S>(t.nColors))
  {
    if HasStretchers(t) && !GetLuminance(t, 0).Ok? {
      var d :| 0 <= d < |t.colors| && |t.colors[d]| > 0;
      assert GetColor(t, d, 0).Ok?;
    }
    if c < t.nColors {
      var r := AddColor(t, s, c).value;
      assert |r.colors[c]| > 0;
    }
    var n := New<S>(t.nColors);
    assert forall d :: 0 <= d < |n.colors| ==> n.colors[d] == [];
  }
}

=== FILE: Debayering.dfy ===
/**
 * Index arithmetic of a raw sensor image behind a 2x2 Bayer filter. A raw image is one value per
 * pixel, row-major; the colour of pixel (x, y) is `pattern[BayerIndex(x, y)]` for a four-entry
 * pattern such as R G G B encoded as 0 1 1 2.
 */
module Debayering {
  import opened CInts

  /** Position of pixel (x, y) in the 2x2 pattern. */
  function BayerIndex(x: nat, y: nat): (k: nat)
    ensures k < 4
    ensures k % 2 == x % 2 && k / 2 == y % 2
  {
    (y % 2) * 2 + x % 2
  }

  predicate InBounds(x: int, y: int, width: int, height: int)
  {
    0 <= x < width && 0 <= y < height
  }

  /** Row-major index of an in-bounds pixel. */
  function PixelIndex(x: nat, y: nat, width: nat, height: nat): (i: nat)
    requires x < width && y < height
    ensures i < width * height
  {
    assert y * width + x < (y + 1) * width <= height * width by {
      assert (y + 1) * width == y * width + width;
    }
    y * width + x
  }

  /** A valid pattern names a colour 0, 1 or 2 for each of its four positions. */
  predicate ValidPattern(pattern: seq<int>)
  {
    |pattern| == 4 && forall k :: 0 <= k < 4 ==> 0 <= pattern[k] < 3
  }

  /** The result of `get_closest_pixel_of_given_color`: the value found and its step distance, -1 if none. */
  datatype Closest = Closest(value: int, distance: int)

  /**
   * Walking from (x, y) in steps of (stepX, stepY), the first match is at step `d`: every step
   * up to `d` stays inside the image, step `d` has the wanted colour and no earlier step has it.
   */
  ghost predicate FirstMatchAt(pattern: seq<int>, width: int, height: int, x: int, y: int, color: int,
                               stepX: int, stepY: int, nStepsMax: int, d: int)
    requires |pattern| == 4
  {
    && 1 <= d <= nStepsMax
    && (forall s :: 1 <= s <= d ==> InBounds(x + s * stepX, y + s * stepY, width, height))
    && pattern[BayerIndex(x + d * stepX, y + d * stepY)] == color
    && (forall s :: 1 <= s < d ==> pattern[BayerIndex(x + s * stepX, y + s * stepY)] != color)
  }

  /**
   * `get_closest_pixel_of_given_color`: distance -1 and value 0 when the walk leaves the image or
   * runs out of steps before meeting the colour; otherwise the first matching step and its value.
   */
  function ClosestPixel(data: seq<int>, pattern: seq<int>, height: nat, width: nat, x: int, y: int,
                        color: int, stepX: int, stepY: int, nStepsMax: int): (r: Closest)
    requires |data| == width * height && |pattern| == 4
    ensures r.distance == -1 ==> r.value == 0
    ensures r.distance == -1 <==>
      !exists d :: FirstMatchAt(pattern, width, height, x, y, color, stepX, stepY, nStepsMax, d)
    ensures r.distance != -1 ==>
      && FirstMatchAt(pattern, width, height, x, y, color, stepX, stepY, nStepsMax, r.distance)
      && r.value == data[PixelIndex(x + r.distance * stepX, y + r.distance * stepY, width, height)]
  {
    ClosestFromFindsFirst(data, pattern, height, width, x, y, color, stepX, stepY, nStepsMax, 1);
    ClosestFrom(data, pattern, height, width, x, y, color, stepX, stepY, nStepsMax, 1)
  }

  /** The walk from step `s` on: the first step that leaves the image or the range ends it. */
  function ClosestFrom(data: seq<int>, pattern: seq<int>, height: nat, width: nat, x: int, y: int,
                       color: int, stepX: int, stepY: int, nStepsMax: int, s: int): (r: Closest)
    requires |data| == width * height && |pattern| == 4
    ensures r.distance == -1 || s <= r.distance <= nStepsMax
    decreases nStepsMax - s
  {
    if s > nStepsMax then Closest(0, -1)
    else
      var nx, ny := x + s * stepX, y + s * stepY;
      if !InBounds(nx, ny, width, height) then Closest(0, -1)
      else if pattern[BayerIndex(nx, ny)] == color then Closest(data[PixelIndex(nx, ny, width, height)], s)
      else ClosestFrom(data, pattern, height, width, x, y, color, stepX, stepY, nStepsMax, s + 1)
  }

  /** Started after steps 1 .. s-1 passed inside the image without a match, the walk finds the first match. */
  lemma {:induction false} ClosestFromFindsFirst(data: seq<int>, pattern: seq<int>, height: nat, width: nat,
                                                 x: int, y: int, color: int, stepX: int, stepY: int,
                                                 nStepsMax: int, s: int)
    requires |data| == width * height && |pattern| == 4 && s >= 1
    requires forall t :: 1 <= t < s ==>
      InBounds(x + t * stepX, y + t * stepY, width, height) && pattern[BayerIndex(x + t * stepX, y + t * stepY)] != color
    ensures var r := ClosestFrom(data, pattern, height, width, x, y, color, stepX, stepY, nStepsMax, s);
      && (r.distance == -1 ==> r.value == 0)
      && (r.distance == -1 <==>
          !exists d :: FirstMatchAt(pattern, width, height, x, y, color, stepX, stepY, nStepsMax, d))
      && (r.distance != -1 ==>
          && FirstMatchAt(pattern, width, height, x, y, color, stepX, stepY, nStepsMax, r.distance)
          && r.value == data[PixelIndex(x + r.distance * stepX, y + r.distance * stepY, width, height)])
    decreases nStepsMax - s
  {
    if s > nStepsMax {
      NoMatchPastLastStep(pattern, height, width, x, y, color, stepX, stepY, nStepsMax, s);
    } else {
      var nx, ny := x + s * stepX, y + s * stepY;
      if !InBounds(nx, ny, width, height) {
        NoMatchAfterLeaving(pattern, height, width, x, y, color, stepX, stepY, nStepsMax, s);
      } else if pattern[BayerIndex(nx, ny)] == color {
        assert FirstMatchAt(pattern, width, height, x, y, color, stepX, stepY, nStepsMax, s);
      } else {
        ClosestFromFindsFirst(data, pattern, height, width, x, y, color, stepX, stepY, nStepsMax, s + 1);
      }
    }
  }

  /** Once every step up to `nStepsMax` has been passed without a match, there is no first match. */
  lemma {:induction false} NoMatchPastLastStep(pattern: seq<int>, height: nat, width: nat, x: int, y: int,
                                               color: int, stepX: int, stepY: int, nStepsMax: int, s: int)
    requires |pattern| == 4 && s > nStepsMax
    requires forall t :: 1 <= t < s ==>
      InBounds(x + t * stepX, y + t * stepY, width, height) && pattern[BayerIndex(x + t * stepX, y + t * stepY)] != color
    ensures forall d :: !FirstMatchAt(pattern, width, height, x, y, color, stepX, stepY, nStepsMax, d)
  {
    forall d | 1 <= d <= nStepsMax
      ensures !FirstMatchAt(pattern, width, height, x, y, color, stepX, stepY, nStepsMax, d)
    {
      assert d < s;
    }
  }

  /** A walk whose step `s` leaves the image, with no match before it, has no first match. */
  lemma {:induction false} NoMatchAfterLeaving(pattern: seq<int>, height: nat, width: nat, x: int, y: int,
                                               color: int, stepX: int, stepY: int, nStepsMax: int, s: int)
    requires |pattern| == 4 && s >= 1
    requires !InBounds(x + s * stepX, y + s * stepY, width, height)
    requires forall t :: 1 <= t < s ==>
      InBounds(x + t * stepX, y + t * stepY, width, height) && pattern[BayerIndex(x + t * stepX, y + t * stepY)] != color
    ensures forall d :: !FirstMatchAt(pattern, width, height, x, y, color, stepX, stepY, nStepsMax, d)
  {
    forall d | 1 <= d < s
      ensures !FirstMatchAt(pattern, width, height, x, y, color, stepX, stepY, nStepsMax, d)
    {
      assert pattern[BayerIndex(x + d * stepX, y + d * stepY)] != color;
    }
  }

  /** The colour of pixel (x, y). */
  function ColorAt(pattern: seq<int>, x: nat, y: nat): int
    requires |pattern| == 4
  {
    pattern[BayerIndex(x, y)]
  }

  /** Contribution of pixel (x, y) to colour `c`: its value and a count of one, or nothing. */
  function Part(data: seq<int>, pattern: seq<int>, width: nat, height: nat, x: nat, y: nat, c: int): (int, nat)
    requires |data| == width * height && |pattern| == 4 && x < width && y < height
  {
    if ColorAt(pattern, x, y) == c then (data[PixelIndex(x, y, width, height)], 1) else (0, 0)
  }

  /** Sum and count of the pixels of colour `c` in the 2x2 block whose top-left corner is (x, y). */
  function Block(data: seq<int>, pattern: seq<int>, width: nat, height: nat, x: nat, y: nat, c: int): (int, nat)
    requires |data| == width * height && |pattern| == 4 && x + 1 < width && y + 1 < height
  {
    var p0, p1 := Part(data, pattern, width, height, x, y, c), Part(data, pattern, width, height, x + 1, y, c);
    var p2, p3 := Part(data, pattern, width, height, x, y + 1, c), Part(data, pattern, width, height, x + 1, y + 1, c);
    (p0.0 + p1.0 + p2.0 + p3.0, p0.1 + p1.1 + p2.1 + p3.1)
  }

  /** How many of the four pattern positions have colour `c`. */
  function PatternCount(pattern: seq<int>, c: int): nat
    requires |pattern| == 4
  {
    (if pattern[0] == c then 1 else 0) + (if pattern[1] == c then 1 else 0)
      + (if pattern[2] == c then 1 else 0) + (if pattern[3] == c then 1 else 0)
  }

  /**
   * Every 2x2 block, wherever it starts, covers each pattern position exactly once, so the number
   * of pixels of a colour in it is the number of times the pattern names that colour.
   */
  lemma {:induction false} BlockCountIsPatternCount(data: seq<int>, pattern: seq<int>, width: nat, height: nat,
                                                    x: nat, y: nat, c: int)
    requires |data| == width * height && |pattern| == 4 && x + 1 < width && y + 1 < height
    ensures Block(data, pattern, width, height, x, y, c).1 == PatternCount(pattern, c)
  {
    var u, v := x % 2, y % 2;
    assert BayerIndex(x, y) == 2 * v + u;
    assert BayerIndex(x + 1, y) == 2 * v + (1 - u) by {
      ParityStep(x);
    }
    assert BayerIndex(x, y + 1) == 2 * (1 - v) + u by {
      ParityStep(y);
    }
    assert BayerIndex(x + 1, y + 1) == 2 * (1 - v) + (1 - u) by {
      ParityStep(x);
      ParityStep(y);
    }
  }

  /** The next number has the other parity. */
  lemma {:induction false} ParityStep(n: nat)
    ensures (n + 1) % 2 == 1 - n % 2
  {
    DivModUnique(n, 2, n / 2, n % 2);
    if n % 2 == 0 {
      DivModUnique(n + 1, 2, n / 2, 1);
    } else {
      DivModUnique(n + 1, 2, n / 2 + 1, 0);
    }
  }

  /**
   * The value `debayer_raw_data` gives colour `c` at (x, y): the truncated mean of the block's
   * pixels of that colour, or 0 when the block has none.
   */
  function DebayerPixel(data: seq<int>, pattern: seq<int>, width: nat, height: nat, x: nat, y: nat, c: int): (r: int)
    requires |data| == width * height && |pattern| == 4 && x + 1 < width && y + 1 < height
    ensures Block(data, pattern, width, height, x, y, c).1 == 0 ==> r == 0
    ensures Block(data, pattern, width, height, x, y, c).1 > 0 ==>
      r == DivTrunc(Block(data, pattern, width, height, x, y, c).0, Block(data, pattern, width, height, x, y, c).1)
  {
    var (sum, count) := Block(data, pattern, width, height, x, y, c);
    if count == 0 then 0 else DivTrunc(sum, count)
  }

  /** The debayered value lies between the smallest and the largest block pixel of that colour. */
  lemma {:induction false} DebayerPixelWithinBlock(data: seq<int>, pattern: seq<int>, width: nat, height: nat,
                                                   x: nat, y: nat, c: int, lo: int, hi: int)
    requires |data| == width * height && |pattern| == 4 && x + 1 < width && y + 1 < height
    requires Block(data, pattern, width, height, x, y, c).1 > 0
    requires forall px: nat, py: nat :: x <= px <= x + 1 && y <= py <= y + 1 && ColorAt(pattern, px, py) == c ==>
      lo <= data[PixelIndex(px, py, width, height)] <= hi
    ensures lo <= DebayerPixel(data, pattern, width, height, x, y, c) <= hi
  {
    var (sum, count) := Block(data, pattern, width, height, x, y, c);
    BlockWithin(data, pattern, width, height, x, y, c, lo, hi);
    MulIsProduct(lo, count);
    MulIsProduct(hi, count);
    DivTruncWithin(sum, count, lo, hi);
  }

  /** `k * n` as `n` additions of `k`: the bounds below add up without products. */
  function Mul(k: int, n: nat): int
  {
    if n == 0 then 0 else Mul(k, n - 1) + k
  }

  lemma {:induction false} MulIsProduct(k: int, n: nat)
    ensures Mul(k, n) == k * n
  {
    if n > 0 {
      MulIsProduct(k, n - 1);
    }
  }

  lemma {:induction false} MulAdd(k: int, a: nat, b: nat)
    ensures Mul(k, a + b) == Mul(k, a) + Mul(k, b)
    decreases b
  {
    if b > 0 {
      MulAdd(k, a, b - 1);
      assert a + b - 1 == a + (b - 1);
    }
  }

  /** `s` is the sum of `n` values in [lo, hi]. */
  predicate SumWithin(s: int, n: nat, lo: int, hi: int)
  {
    Mul(lo, n) <= s <= Mul(hi, n)
  }

  /** The block's sum lies between `lo` and `hi` times its count. */
  lemma {:induction false} BlockWithin(data: seq<int>, pattern: seq<int>, width: nat, height: nat,
                                       x: nat, y: nat, c: int, lo: int, hi: int)
    requires |data| == width * height && |pattern| == 4 && x + 1 < width && y + 1 < height
    requires forall px: nat, py: nat :: x <= px <= x + 1 && y <= py <= y + 1 && ColorAt(pattern, px, py) == c ==>
      lo <= data[PixelIndex(px, py, width, height)] <= hi
    ensures var b := Block(data, pattern, width, height, x, y, c);
      SumWithin(b.0, b.1, lo, hi)
  {
    var p0, p1 := Part(data, pattern, width, height, x, y, c), Part(data, pattern, width, height, x + 1, y, c);
    var p2, p3 := Part(data, pattern, width, height, x, y + 1, c), Part(data, pattern, width, height, x + 1, y + 1, c);
    assert SumWithin(p0.0, p0.1, lo, hi) by {
      PartWithin(data, pattern, width, height, x, y, c, lo, hi);
    }
    assert SumWithin(p1.0, p1.1, lo, hi) by {
      PartWithin(data, pattern, width, height, x + 1, y, c, lo, hi);
    }
    assert SumWithin(p2.0, p2.1, lo, hi) by {
      PartWithin(data, pattern, width, height, x, y + 1, c, lo, hi);
    }
    assert SumWithin(p3.0, p3.1, lo, hi) by {
      PartWithin(data, pattern, width, height, x + 1, y + 1, c, lo, hi);
    }
    BoundsAdd(p0.0, p0.1, p1.0, p1.1, lo, hi);
    BoundsAdd(p0.0 + p1.0, p0.1 + p1.1, p2.0, p2.1, lo, hi);
    BoundsAdd(p0.0 + p1.0 + p2.0, p0.1 + p1.1 + p2.1, p3.0, p3.1, lo, hi);
  }

  lemma {:induction false} PartWithin(data: seq<int>, pattern: seq<int>, width: nat, height: nat,
                                      x: nat, y: nat, c: int, lo: int, hi: int)
    requires |data| == width * height && |pattern| == 4 && x < width && y < height
    requires ColorAt(pattern, x, y) == c ==> lo <= data[PixelIndex(x, y, width, height)] <= hi
    ensures var p := Part(data, pattern, width, height, x, y, c);
      SumWithin(p.0, p.1, lo, hi)
  {
    assert Mul(lo, 0) == 0 && Mul(hi, 0) == 0;
    assert Mul(lo, 1) == lo && Mul(hi, 1) == hi;
  }

  lemma {:induction false} BoundsAdd(s0: int, c0: nat, s1: int, c1: nat, lo: int, hi: int)
    requires SumWithin(s0, c0, lo, hi) && SumWithin(s1, c1, lo, hi)
    ensures SumWithin(s0 + s1, c0 + c1, lo, hi)
  {
    MulAdd(lo, c0, c1);
    MulAdd(hi, c0, c1);
  }

  /** A truncated quotient of a sum of `n` values in [lo, hi] by `n` stays in [lo, hi]. */
  lemma {:induction false} DivTruncWithin(s: int, n: int, lo: int, hi: int)
    requires n > 0 && lo * n <= s <= hi * n
    ensures lo <= DivTrunc(s, n) <= hi
  {
    var q := DivTrunc(s, n);
    assert (q - 1) * n < s < (q + 1) * n;
    MulLessCancel(q - 1, hi, n);
    MulLessCancel(lo, q + 1, n);
  }

  lemma {:induction false} MulLessCancel(a: int, b: int, n: int)
    requires n > 0 && a * n < b * n
    ensures a < b
  {
  }

  /**
   * `debayer_raw_data`: three channels of `width * height` values; every pixel with a right and a
   * lower neighbour gets the block mean of its colour, and the last row and column stay 0.
   */
  function DebayerRawData(data: seq<int>, width: nat, height: nat, pattern: seq<int>): (r: seq<seq<int>>)
    requires |data| == width * height && ValidPattern(pattern)
    ensures |r| == 3 && forall c :: 0 <= c < 3 ==> |r[c]| == width * height
    ensures forall c, x: nat, y: nat :: 0 <= c < 3 && x + 1 < width && y + 1 < height ==>
      r[c][PixelIndex(x, y, width, height)] == DebayerPixel(data, pattern, width, height, x, y, c)
    ensures forall c, x: nat, y: nat :: 0 <= c < 3 && x < width && y < height && (x + 1 == width || y + 1 == height) ==>
      r[c][PixelIndex(x, y, width, height)] == 0
  {
    var r := seq(3, c => seq(width * height, i requires 0 <= i < width * height =>
      var x, y := i % width, i / width;
      if x + 1 < width && y + 1 < height then DebayerPixel(data, pattern, width, height, x, y, c) else 0));
    assert forall x: nat, y: nat :: x < width && y < height ==>
      PixelIndex(x, y, width, height) % width == x && PixelIndex(x, y, width, height) / width == y by {
      forall x: nat, y: nat | x < width && y < height
        ensures PixelIndex(x, y, width, height) % width == x && PixelIndex(x, y, width, height) / width == y
      {
        DivModUnique(PixelIndex(x, y, width, height), width, y, x);
      }
    }
    r
  }

  /**
   * The value `debayer_monochrome` writes at an inner pixel, computed from the ORIGINAL image: the
   * pixel, its right, lower and lower-right neighbours, with the two diagonal green positions (or
   * the two non-green ones) at half weight, divided by 3.
   */
  function MonochromeValue(data: seq<int>, width: nat, height: nat, pattern: seq<int>, x: nat, y: nat): int
    requires |data| == width * height && |pattern| == 4 && x + 1 < width && y + 1 < height
  {
    var here, right := data[PixelIndex(x, y, width, height)], data[PixelIndex(x + 1, y, width, height)];
    var below, diagonal := data[PixelIndex(x, y + 1, width, height)], data[PixelIndex(x + 1, y + 1, width, height)];
    if ColorAt(pattern, x, y) == 1 then DivTrunc(right + below + DivTrunc(here, 2) + DivTrunc(diagonal, 2), 3)
    else DivTrunc(DivTrunc(right, 2) + DivTrunc(below, 2) + here + diagonal, 3)
  }

  /**
   * `debayer_monochrome` overwrites the image in place, row by row. Each step reads only its own
   * pixel and pixels later in row-major order, which have not been overwritten yet, so the result is
   * the pure `MonochromeValue` of the original image at every inner pixel and the original value on
   * the last row and column.
   */
  method DebayerMonochrome(data: seq<int>, width: nat, height: nat, pattern: seq<int>) returns (r: seq<int>)
    requires |data| == width * height && |pattern| == 4
    ensures |r| == |data|
    ensures forall x: nat, y: nat :: x + 1 < width && y + 1 < height ==>
      r[PixelIndex(x, y, width, height)] == MonochromeValue(data, width, height, pattern, x, y)
    ensures forall x: nat, y: nat :: x < width && y < height && (x + 1 == width || y + 1 == height) ==>
      r[PixelIndex(x, y, width, height)] == data[PixelIndex(x, y, width, height)]
  {
    r := data;
    var y := 0;
    while y + 1 < height
      invariant |r| == |data|
      invariant y == 0 || y < height
      invariant RowsDone(r, data, width, height, pattern, y)
    {
      var next := MonochromeRow(r, data, width, height, pattern, y);
      RowDoneStep(r, next, data, width, height, pattern, y);
      r := next;
      y := y + 1;
    }
    RowsDoneFinal(r, data, width, height, pattern, y);
  }

  /**
   * The state of `debayer_monochrome` after `y` rows: the finished rows hold their new values
   * except in the last column, and everything from row `y` on is the original image.
   */
  ghost predicate RowsDone(r: seq<int>, data: seq<int>, width: nat, height: nat, pattern: seq<int>, y: nat)
    requires |r| == |data| == width * height && |pattern| == 4
  {
    InnerRowsDone(r, data, width, height, pattern, y) && (forall i :: y * width <= i < |r| ==> r[i] == data[i])
    && LastColumnKept(r, data, width, height, y)
  }

  /** The inner pixels of the first `y` rows hold their new values. */
  ghost predicate InnerRowsDone(r: seq<int>, data: seq<int>, width: nat, height: nat, pattern: seq<int>, y: nat)
    requires |r| == |data| == width * height && |pattern| == 4
  {
    forall px: nat, py: nat :: px + 1 < width && py < y && py + 1 < height ==>
      r[PixelIndex(px, py, width, height)] == MonochromeValue(data, width, height, pattern, px, py)
  }

  /** The last column of the first `y` rows holds its original values. */
  ghost predicate LastColumnKept(r: seq<int>, data: seq<int>, width: nat, height: nat, y: nat)
    requires |r| == |data| == width * height
  {
    forall px: nat, py: nat :: px + 1 == width && py < y && py < height ==>
      r[PixelIndex(px, py, width, height)] == data[PixelIndex(px, py, width, height)]
  }

  lemma {:induction false} RowDoneStep(r: seq<int>, next: seq<int>, data: seq<int>, width: nat, height: nat,
                                       pattern: seq<int>, y: nat)
    requires |r| == |data| == width * height && |pattern| == 4 && y + 1 < height
    requires RowsDone(r, data, width, height, pattern, y)
    requires |next| == |r|
    requires forall i :: 0 <= i < |r| && !(y * width <= i < y * width + width - 1) ==> next[i] == r[i]
    requires forall x: nat :: x + 1 < width ==>
      next[PixelIndex(x, y, width, height)] == MonochromeValue(data, width, height, pattern, x, y)
    ensures RowsDone(next, data, width, height, pattern, y + 1)
  {
    forall px: nat, py: nat | px + 1 < width && py < y + 1 && py + 1 < height
      ensures next[PixelIndex(px, py, width, height)] == MonochromeValue(data, width, height, pattern, px, py)
    {
      if py < y {
        RowBefore(px, py, y, width);
        assert next[PixelIndex(px, py, width, height)] == r[PixelIndex(px, py, width, height)];
      }
    }
    assert (y + 1) * width == y * width + width;
    forall i | (y + 1) * width <= i < |next|
      ensures next[i] == data[i]
    {
      assert next[i] == r[i];
    }
    forall px: nat, py: nat | px + 1 == width && py < y + 1 && py < height
      ensures next[PixelIndex(px, py, width, height)] == data[PixelIndex(px, py, width, height)]
    {
      if py < y {
        RowBefore(px, py, y, width);
        assert next[PixelIndex(px, py, width, height)] == r[PixelIndex(px, py, width, height)];
      } else {
        assert PixelIndex(px, py, width, height) == y * width + width - 1;
      }
    }
  }

  lemma {:induction false} RowsDoneFinal(r: seq<int>, data: seq<int>, width: nat, height: nat, pattern: seq<int>, y: nat)
    requires |r| == |data| == width * height && |pattern| == 4
    requires RowsDone(r, data, width, height, pattern, y)
    requires (y == 0 || y < height) && height <= y + 1
    ensures forall x: nat, y: nat :: x + 1 < width && y + 1 < height ==>
      r[PixelIndex(x, y, width, height)] == MonochromeValue(data, width, height, pattern, x, y)
    ensures forall x: nat, y: nat :: x < width && y < height && (x + 1 == width || y + 1 == height) ==>
      r[PixelIndex(x, y, width, height)] == data[PixelIndex(x, y, width, height)]
  {
    forall x: nat, py: nat | x < width && py < height && py + 1 == height
      ensures r[PixelIndex(x, py, width, height)] == data[PixelIndex(x, py, width, height)]
    {
      assert py * width <= PixelIndex(x, py, width, height);
      assert py == y || y == 0;
    }
  }

  lemma {:induction false} RowBefore(x: nat, py: nat, y: nat, width: nat)
    requires x < width && py < y
    ensures py * width + x < y * width
  {
    assert py * width + width <= y * width by {
      assert (py + 1) * width <= y * width;
    }
  }

  /**
   * One row of `debayer_monochrome`: rewrites the first `width - 1` pixels of row `y`, left to
   * right, and touches nothing else; while the row and everything after it still hold the original
   * image, the new values are those of the original.
   */
  method MonochromeRow(r: seq<int>, data: seq<int>, width: nat, height: nat, pattern: seq<int>, y: nat)
    returns (next: seq<int>)
    requires |r| == |data| == width * height && |pattern| == 4 && y + 1 < height
    requires forall i :: y * width <= i < |r| ==> r[i] == data[i]
    ensures |next| == |r|
    ensures forall i :: 0 <= i < |r| && !(y * width <= i < y * width + width - 1) ==> next[i] == r[i]
    ensures forall x: nat :: x + 1 < width ==>
      next[PixelIndex(x, y, width, height)] == MonochromeValue(data, width, height, pattern, x, y)
  {
    next := r;
    var x := 0;
    while x + 1 < width
      invariant x == 0 || x < width
      invariant RowPrefixDone(next, r, data, width, height, pattern, y, x)
    {
      MonochromeStep(r, next, data, width, height, pattern, y, x);
      next := next[PixelIndex(x, y, width, height) := MonochromeValue(next, width, height, pattern, x, y)];
      x := x + 1;
    }
  }

  /**
   * Row `y` after its first `x` pixels: those hold their new values, everything before the row and
   * everything from pixel `x` of the row on is unchanged, and that rest is still the original image.
   */
  ghost predicate RowPrefixDone(next: seq<int>, r: seq<int>, data: seq<int>, width: nat, height: nat,
                                pattern: seq<int>, y: nat, x: nat)
    requires |r| == |data| == width * height && |pattern| == 4 && y + 1 < height
  {
    && |next| == |r|
    && (forall i :: 0 <= i < |r| && !(y * width <= i < y * width + x) ==> next[i] == r[i])
    && (forall i :: y * width + x <= i < |r| ==> next[i] == data[i])
    && (forall px: nat :: px < x && px + 1 < width ==>
          next[PixelIndex(px, y, width, height)] == MonochromeValue(data, width, height, pattern, px, y))
  }

  /**
   * One pixel of `MonochromeRow`: while the pixel and everything after it are original, its new
   * value is that of the original image, and storing it extends the finished part of the row by one.
   */
  lemma {:induction false} MonochromeStep(r: seq<int>, next: seq<int>, data: seq<int>, width: nat, height: nat,
                                          pattern: seq<int>, y: nat, x: nat)
    requires |r| == |data| == width * height && |pattern| == 4 && y + 1 < height && x + 1 < width
    requires RowPrefixDone(next, r, data, width, height, pattern, y, x)
    ensures MonochromeValue(next, width, height, pattern, x, y) == MonochromeValue(data, width, height, pattern, x, y)
    ensures RowPrefixDone(next[PixelIndex(x, y, width, height) := MonochromeValue(data, width, height, pattern, x, y)],
                          r, data, width, height, pattern, y, x + 1)
  {
    NeighbourIndices(x, y, width, height);
    SameLaterSameValue(next, data, width, height, pattern, x, y);
    var v := MonochromeValue(data, width, height, pattern, x, y);
    StepFrame(r, next, data, width, height, pattern, y, x, v);
    StepDone(r, next, data, width, height, pattern, y, x);
  }

  /** Storing pixel `x` of row `y` moves the boundary between new and original values one pixel on. */
  lemma {:induction false} StepFrame(r: seq<int>, next: seq<int>, data: seq<int>, width: nat, height: nat,
                                     pattern: seq<int>, y: nat, x: nat, v: int)
    requires |r| == |data| == width * height && |pattern| == 4 && y + 1 < height && x + 1 < width
    requires RowPrefixDone(next, r, data, width, height, pattern, y, x)
    ensures var n2 := next[PixelIndex(x, y, width, height) := v];
      && |n2| == |r|
      && (forall i :: 0 <= i < |r| && !(y * width <= i < y * width + (x + 1)) ==> n2[i] == r[i])
      && (forall i :: y * width + (x + 1) <= i < |r| ==> n2[i] == data[i])
  {
  }

  /** Storing the new value of pixel `x` of row `y` keeps the finished pixels before it and adds it. */
  lemma {:induction false} StepDone(r: seq<int>, next: seq<int>, data: seq<int>, width: nat, height: nat,
                                    pattern: seq<int>, y: nat, x: nat)
    requires |r| == |data| == width * height && |pattern| == 4 && y + 1 < height && x + 1 < width
    requires RowPrefixDone(next, r, data, width, height, pattern, y, x)
    ensures var n2 := next[PixelIndex(x, y, width, height) := MonochromeValue(data, width, height, pattern, x, y)];
      forall px: nat :: px < x + 1 && px + 1 < width ==>
        n2[PixelIndex(px, y, width, height)] == MonochromeValue(data, width, height, pattern, px, y)
  {
    var i := PixelIndex(x, y, width, height);
    var n2 := next[i := MonochromeValue(data, width, height, pattern, x, y)];
    forall px: nat | px < x + 1 && px + 1 < width
      ensures n2[PixelIndex(px, y, width, height)] == MonochromeValue(data, width, height, pattern, px, y)
    {
      if px < x {
        assert PixelIndex(px, y, width, height) < i;
      }
    }
  }

  /** The right, lower and diagonal neighbours of a pixel sit 1, `width` and `width + 1` after it. */
  lemma {:induction false} NeighbourIndices(x: nat, y: nat, width: nat, height: nat)
    requires x + 1 < width && y + 1 < height
    ensures PixelIndex(x + 1, y, width, height) == PixelIndex(x, y, width, height) + 1
    ensures PixelIndex(x, y + 1, width, height) == PixelIndex(x, y, width, height) + width
    ensures PixelIndex(x + 1, y + 1, width, height) == PixelIndex(x, y, width, height) + width + 1
  {
    assert (y + 1) * width == y * width + width;
  }

  /** The monochrome value of a pixel depends only on the pixel and those after it. */
  lemma {:induction false} SameLaterSameValue(a: seq<int>, b: seq<int>, width: nat, height: nat, pattern: seq<int>, x: nat, y: nat)
    requires |a| == |b| == width * height && |pattern| == 4 && x + 1 < width && y + 1 < height
    requires forall i :: PixelIndex(x, y, width, height) <= i < |a| ==> a[i] == b[i]
    ensures MonochromeValue(a, width, height, pattern, x, y) == MonochromeValue(b, width, height, pattern, x, y)
  {
    NeighbourIndices(x, y, width, height);
  }

}

=== FILE: FileTypes.dfy ===
/** The kinds of input file the stacker distinguishes (GUI/src/FileTypes.cxx). */
module FileTypes {
  datatype FileType = Light | Flat | Dark | Bias | Unknown

  /** file_type_to_index: calibration types get 0..3, anything else -1. */
  function FileTypeIndex(t: FileType): (i: int)
    ensures -1 <= i <= 3
    ensures i == -1 <==> t == Unknown
  {
    match t
    case Light => 0
    case Flat => 1
    case Dark => 2
    case Bias => 3
    case Unknown => -1
  }

  /** Two known types never share an index. */
  lemma {:induction false} FileTypeIndexInjective(a: FileType, b: FileType)
    requires a != Unknown && b != Unknown
    requires FileTypeIndex(a) == FileTypeIndex(b)
    ensures a == b
  {
  }

  /** to_string(FileTypes): the upper-case name of the type. */
  function FileTypeName(t: FileType): (s: string)
    ensures |s| >= 4
  {
    match t
    case Flat => "FLAT"
    case Light => "LIGHT"
    case Dark => "DARK"
    case Bias => "BIAS"
    case Unknown => "UNKNOWN"
  }

  /** string_to_filetype: the four known names, anything else is Unknown. */
  function ParseFileType(s: string): (t: FileType)
    ensures t != Unknown ==> FileTypeName(t) == s
    ensures s !in {"FLAT", "LIGHT", "DARK", "BIAS"} ==> t == Unknown
  {
    if s == "FLAT" then Flat
    else if s == "LIGHT" then Light
    else if s == "DARK" then Dark
    else if s == "BIAS" then Bias
    else Unknown
  }

  /** Writing a type out and reading it back gives the same type. */
  lemma {:induction false} FileTypeNameRoundTrip(t: FileType)
    ensures ParseFileType(FileTypeName(t)) == t
  {
  }

  /** The order in which the file list presents the types (FilelistHandler.cxx). */
  const TypesOrdering: seq<FileType> := [Light, Flat, Dark, Bias, Unknown]

  lemma {:induction false} TypesOrderingComplete(t: FileType)
    ensures t in TypesOrdering
    ensures |TypesOrdering| == 5
  {
  }
}

=== FILE: Filelist.dfy ===
/**
 * The frame list: group number -> frame type -> input frame -> frame information
 * (src/FilelistHandler.cxx). The alignment result of a frame is reduced to its validity
 * flag; metadata and statistics are not modelled.
 */
module Filelist {
  import opened Wrappers
  import opened FileTypes
  import opened InputFrames
  import opened Sorting

  datatype FrameInfo = FrameInfo(
    frame: InputFrame,
    ftype: FileType,
    group: int,
    alignmentValid: bool,
    checked: bool)

  type Frames = map<InputFrame, FrameInfo>
  type TypeMap = map<FileType, Frames>
  type FrameList = map<int, TypeMap>

  lemma {:induction false} InAllTypes(t: FileType)
    ensures t in AllTypes
  {
    if t.Light? {} else if t.Flat? {} else if t.Dark? {} else if t.Bias? {} else {}
  }

  /** A frame's position in the list. */
  datatype FrameKey = FrameKey(group: int, ftype: FileType, frame: InputFrame)

  const AllTypes: set<FileType> := {Light, Flat, Dark, Bias, Unknown}

  /** The information stored for a frame, if the group, type and frame all exist. */
  function Lookup(fl: FrameList, g: int, t: FileType, f: InputFrame): Option<FrameInfo>
  {
    if g in fl && t in fl[g] && f in fl[g][t] then Some(fl[g][t][f]) else None
  }

  /**
   * The list's invariant: every group holds an entry for each of the five types, and
   * every stored record names the frame, type and group it is stored under.
   */
  ghost predicate WellFormed(fl: FrameList)
  {
    forall g, t, f :: Lookup(fl, g, t, f).Some? ==>
      var i := Lookup(fl, g, t, f).value;
      i.frame == f && i.ftype == t && i.group == g
  }

  ghost predicate AllGroupsComplete(fl: FrameList)
  {
    forall g :: g in fl ==> fl[g].Keys == AllTypes
  }

  ghost predicate SameFramesExcept(a: FrameList, b: FrameList, g: int, t: FileType, f: InputFrame)
  {
    forall g', t', f' :: (g', t', f') != (g, t, f) ==> Lookup(a, g', t', f') == Lookup(b, g', t', f')
  }

  /** add_empty_group: creates the group if needed and gives it every missing type. */
  function AddEmptyGroup(fl: FrameList, g: int): (r: FrameList)
    ensures r.Keys == fl.Keys + {g}
    ensures r[g].Keys == AllTypes
    ensures forall t :: t in AllTypes && (g !in fl || t !in fl[g]) ==> r[g][t] == map[]
    ensures forall g', t, f :: Lookup(r, g', t, f) == Lookup(fl, g', t, f)
    ensures forall g' :: g' in fl && g' != g ==> r[g'] == fl[g']
  {
    var old_types: TypeMap := if g in fl then fl[g] else map[];
    var types: TypeMap := map t | t in AllTypes :: if t in old_types then old_types[t] else map[];
    assert forall t :: t in old_types ==> t in AllTypes by {
      forall t | t in old_types ensures t in AllTypes {
        InAllTypes(t);
      }
    }
    fl[g := types]
  }

  /** add_frame: stores the frame's record, replacing any earlier one under the same key. */
  function AddFrame(fl: FrameList, f: InputFrame, t: FileType, g: int, checked: bool, aligned: bool): (r: FrameList)
    ensures Lookup(r, g, t, f) == Some(FrameInfo(f, t, g, aligned, checked))
    ensures SameFramesExcept(r, fl, g, t, f)
    ensures g !in fl ==> r[g].Keys == AllTypes
  {
    InAllTypes(t);
    var fl1 := if g !in fl then AddEmptyGroup(fl, g) else fl;
    var types := fl1[g];
    var frames: Frames := if t in types then types[t] else map[];
    fl1[g := types[t := frames[f := FrameInfo(f, t, g, aligned, checked)]]]
  }

  /** remove_frame: a missing group is left alone; otherwise the frame's record goes. */
  function RemoveFrame(fl: FrameList, f: InputFrame, g: int, t: FileType): (r: FrameList)
    ensures Lookup(r, g, t, f) == None
    ensures SameFramesExcept(r, fl, g, t, f)
    ensures g !in fl ==> r == fl
    ensures r.Keys == fl.Keys
  {
    if g !in fl then fl
    else
      var types := fl[g];
      var frames: Frames := if t in types then types[t] else map[];
      fl[g := types[t := frames - {f}]]
  }

  /** frame_is_checked: false whenever the group, the type or the frame is missing. */
  predicate FrameIsChecked(fl: FrameList, g: int, f: InputFrame, t: FileType)
  {
    g in fl && t in fl[g] && f in fl[g][t] && fl[g][t][f].checked
  }

  /** set_frame_checked: changes only that frame's flag; a missing frame is a no-op. */
  function SetFrameChecked(fl: FrameList, g: int, f: InputFrame, t: FileType, c: bool): (r: FrameList)
    ensures Lookup(fl, g, t, f).None? ==> r == fl
    ensures Lookup(fl, g, t, f).Some? ==> Lookup(r, g, t, f) == Some(Lookup(fl, g, t, f).value.(checked := c))
    ensures SameFramesExcept(r, fl, g, t, f)
  {
    if g !in fl || t !in fl[g] || f !in fl[g][t] then fl
    else fl[g := fl[g][t := fl[g][t][f := fl[g][t][f].(checked := c)]]]
  }

  /** set_checked_status_for_all_frames. */
  function SetCheckedForAll(fl: FrameList, c: bool): (r: FrameList)
    ensures forall g, t, f ::
      Lookup(r, g, t, f) == (if Lookup(fl, g, t, f).Some? then Some(Lookup(fl, g, t, f).value.(checked := c)) else None)
  {
    map g | g in fl :: map t | t in fl[g] :: map f | f in fl[g][t] :: fl[g][t][f].(checked := c)
  }

  /** check_unaligned_frames: selects exactly the light frames whose alignment failed. */
  function CheckUnalignedFrames(fl: FrameList): (r: FrameList)
    ensures forall g, t, f :: Lookup(r, g, t, f).Some? <==> Lookup(fl, g, t, f).Some?
    ensures forall g, t, f :: Lookup(r, g, t, f).Some? ==>
      Lookup(r, g, t, f).value == Lookup(fl, g, t, f).value.(checked := Lookup(r, g, t, f).value.checked)
    ensures forall g, t, f :: Lookup(r, g, t, f).Some? ==>
      (Lookup(r, g, t, f).value.checked <==> t == Light && !Lookup(fl, g, t, f).value.alignmentValid)
  {
    map g | g in fl :: map t | t in fl[g] :: map f | f in fl[g][t] ::
      var i := fl[g][t][f];
      i.(checked := if t != Light then false else !i.alignmentValid)
  }

  /** all_checked_frames_are_aligned: only light frames are inspected. */
  predicate AllCheckedFramesAreAligned(fl: FrameList)
  {
    forall g, f :: g in fl && Light in fl[g] && f in fl[g][Light] && fl[g][Light][f].checked ==>
      fl[g][Light][f].alignmentValid
  }

  /** get_frames: the frames of one type in one group, or the error the C++ code throws. */
  function GetFrames(fl: FrameList, t: FileType, g: int): (r: Result<Frames>)
    ensures g !in fl ==> r == Err("FilelistHandler::get_frames: group not found")
    ensures g in fl && t !in fl[g] ==> r == Err("FilelistHandler::get_frames: type not found")
    ensures r.Ok? ==> forall f :: f in r.value <==> Lookup(fl, g, t, f).Some?
    ensures r.Ok? ==> forall f :: f in r.value ==> Lookup(fl, g, t, f) == Some(r.value[f])
  {
    if g !in fl then Err("FilelistHandler::get_frames: group not found")
    else if t !in fl[g] then Err("FilelistHandler::get_frames: type not found")
    else Ok(fl[g][t])
  }

  /* ---------------------------------------------------------------- counting */

  ghost function KeysOfType(fl: FrameList, t: FileType): set<FrameKey>
  {
    set g, f | g in fl && t in fl[g] && f in fl[g][t] :: FrameKey(g, t, f)
  }

  ghost function CheckedKeysOfType(fl: FrameList, t: FileType): set<FrameKey>
  {
    set g, f | g in fl && t in fl[g] && f in fl[g][t] && fl[g][t][f].checked :: FrameKey(g, t, f)
  }

  ghost function AllKeys(fl: FrameList): set<FrameKey>
  {
    set g, t, f | g in fl && t in fl[g] && f in fl[g][t] :: FrameKey(g, t, f)
  }

  /** get_number_of_checked_frames(type). */
  ghost function CountChecked(fl: FrameList, t: FileType): (n: nat)
    ensures n <= CountAll(fl, t)
  {
    SubsetCardinality(CheckedKeysOfType(fl, t), KeysOfType(fl, t));
    |CheckedKeysOfType(fl, t)|
  }

  /** get_number_of_all_frames(type). */
  ghost function CountAll(fl: FrameList, t: FileType): (n: nat)
    ensures n <= CountAllFrames(fl)
  {
    SubsetCardinality(KeysOfType(fl, t), AllKeys(fl));
    |KeysOfType(fl, t)|
  }

  lemma {:induction false} KeysOfTypeMembership(fl: FrameList, t: FileType, k: FrameKey)
    ensures k in KeysOfType(fl, t) <==> k.ftype == t && Lookup(fl, k.group, t, k.frame).Some?
  {
  }

  /** get_number_of_all_frames(). */
  ghost function CountAllFrames(fl: FrameList): nat
  {
    |AllKeys(fl)|
  }

  /** After every frame is checked, the checked count of each type equals its total. */
  lemma {:induction false} CheckAllMakesCountsEqual(fl: FrameList, t: FileType)
    ensures CountChecked(SetCheckedForAll(fl, true), t) == CountAll(fl, t)
    ensures CountChecked(SetCheckedForAll(fl, false), t) == 0
  {
    var on := SetCheckedForAll(fl, true);
    var off: FrameList := SetCheckedForAll(fl, false);
    assert CheckedKeysOfType(on, t) == KeysOfType(fl, t) by {
      forall k | k in KeysOfType(fl, t) ensures k in CheckedKeysOfType(on, t) {
        assert Lookup(on, k.group, t, k.frame).Some?;
      }
      forall k | k in CheckedKeysOfType(on, t) ensures k in KeysOfType(fl, t) {
        assert Lookup(on, k.group, t, k.frame).Some?;
      }
    }
    assert CheckedKeysOfType(off, t) == {} by {
      forall g: int, f: InputFrame | g in off && t in off[g] && f in off[g][t] ensures !off[g][t][f].checked {
        assert Lookup(off, g, t, f).Some?;
      }
    }
  }

  /** Adding a frame not yet in the list raises the count of its type by one. */
  lemma {:induction false} AddFrameCount(fl: FrameList, f: InputFrame, t: FileType, g: int, checked: bool, aligned: bool)
    requires Lookup(fl, g, t, f).None?
    ensures CountAll(AddFrame(fl, f, t, g, checked, aligned), t) == CountAll(fl, t) + 1
  {
    var r := AddFrame(fl, f, t, g, checked, aligned);
    var k := FrameKey(g, t, f);
    assert KeysOfType(r, t) == KeysOfType(fl, t) + {k} by {
      forall x: FrameKey ensures x in KeysOfType(r, t) <==> x in KeysOfType(fl, t) + {k} {
        KeysOfTypeMembership(r, t, x);
        KeysOfTypeMembership(fl, t, x);
      }
    }
    KeysOfTypeMembership(fl, t, k);
  }

  /* ---------------------------------------------------------------- properties across calls */

  /** add_empty_group keeps the invariant and leaves every group complete that was. */
  lemma {:induction false} AddEmptyGroupKeepsInvariant(fl: FrameList, g: int)
    requires WellFormed(fl) && AllGroupsComplete(fl)
    ensures WellFormed(AddEmptyGroup(fl, g)) && AllGroupsComplete(AddEmptyGroup(fl, g))
  {
  }

  lemma {:induction false} AddFrameKeepsInvariant(fl: FrameList, f: InputFrame, t: FileType, g: int, checked: bool, aligned: bool)
    requires WellFormed(fl)
    ensures WellFormed(AddFrame(fl, f, t, g, checked, aligned))
  {
    var r := AddFrame(fl, f, t, g, checked, aligned);
    forall g', t', f' | Lookup(r, g', t', f').Some?
      ensures Lookup(r, g', t', f').value.frame == f'
      ensures Lookup(r, g', t', f').value.ftype == t'
      ensures Lookup(r, g', t', f').value.group == g'
    {
      if (g', t', f') != (g, t, f) {
        assert Lookup(fl, g', t', f') == Lookup(r, g', t', f');
      }
    }
  }

  /** After add_frame(f, t, g, c), frame_is_checked(g, f, t) answers c. */
  lemma {:induction false} AddThenIsChecked(fl: FrameList, f: InputFrame, t: FileType, g: int, checked: bool, aligned: bool)
    ensures FrameIsChecked(AddFrame(fl, f, t, g, checked, aligned), g, f, t) == checked
  {
    assert Lookup(AddFrame(fl, f, t, g, checked, aligned), g, t, f).Some?;
  }

  /**
   * After remove_frame the frame reads as unchecked, every other frame reads as before, and
   * adding the frame back with its old flag restores what frame_is_checked answered.
   */
  lemma {:induction false} RemoveThenIsChecked(fl: FrameList, f: InputFrame, g: int, t: FileType)
    ensures !FrameIsChecked(RemoveFrame(fl, f, g, t), g, f, t)
    ensures forall g', f', t' :: (g', t', f') != (g, t, f) ==>
      FrameIsChecked(RemoveFrame(fl, f, g, t), g', f', t') == FrameIsChecked(fl, g', f', t')
    ensures forall aligned: bool ::
      var back := AddFrame(RemoveFrame(fl, f, g, t), f, t, g, FrameIsChecked(fl, g, f, t), aligned);
      forall g', f', t' :: FrameIsChecked(back, g', f', t') == FrameIsChecked(fl, g', f', t')
  {
    var r := RemoveFrame(fl, f, g, t);
    assert Lookup(r, g, t, f).None?;
    forall g', f', t' | (g', t', f') != (g, t, f)
      ensures FrameIsChecked(r, g', f', t') == FrameIsChecked(fl, g', f', t')
    {
      assert Lookup(r, g', t', f') == Lookup(fl, g', t', f');
    }
    forall aligned: bool, g', f', t'
      ensures FrameIsChecked(AddFrame(r, f, t, g, FrameIsChecked(fl, g, f, t), aligned), g', f', t') == FrameIsChecked(fl, g', f', t')
    {
      var back := AddFrame(r, f, t, g, FrameIsChecked(fl, g, f, t), aligned);
      if (g', t', f') == (g, t, f) {
        assert Lookup(back, g, t, f).Some?;
      } else {
        assert Lookup(back, g', t', f') == Lookup(r, g', t', f') == Lookup(fl, g', t', f');
      }
    }
  }

  lemma {:induction false} SetThenIsChecked(fl: FrameList, g: int, f: InputFrame, t: FileType, c: bool)
    ensures FrameIsChecked(SetFrameChecked(fl, g, f, t, c), g, f, t) == (Lookup(fl, g, t, f).Some? && c)
  {
    var r := SetFrameChecked(fl, g, f, t, c);
    assert Lookup(r, g, t, f).Some? == Lookup(fl, g, t, f).Some?;
  }

  /** After check_unaligned_frames every checked frame is an unaligned light frame. */
  lemma {:induction false} CheckUnalignedSelectsOnlyFailures(fl: FrameList, g: int, f: InputFrame, t: FileType)
    ensures FrameIsChecked(CheckUnalignedFrames(fl), g, f, t) <==>
      (t == Light && Lookup(fl, g, t, f).Some? && !Lookup(fl, g, t, f).value.alignmentValid)
  {
    var r := CheckUnalignedFrames(fl);
    assert FrameIsChecked(r, g, f, t) <==> Lookup(r, g, t, f).Some? && Lookup(r, g, t, f).value.checked;
  }

  /* ---------------------------------------------------------------- keep_only_frames_satisfying_condition */

  type KeepCondition = (FileType, int, FrameInfo) -> bool

  /**
   * keep_only_frames_satisfying_condition as written: the filtered copy is built in a
   * local map that is never stored back, so the list comes out unchanged.
   */
  function KeepOnlyFramesAsWritten(fl: FrameList, keep: KeepCondition): (r: FrameList)
    ensures forall g, t, f :: Lookup(r, g, t, f) == Lookup(fl, g, t, f)
  {
    var filtered := KeepOnlyFrames(fl, keep);
    fl
  }

  /** What the function evidently means to do: drop every frame the condition rejects. */
  function KeepOnlyFrames(fl: FrameList, keep: KeepCondition): (r: FrameList)
    ensures r.Keys == fl.Keys && forall g :: g in fl ==> r[g].Keys == fl[g].Keys
    ensures forall g, t, f ::
      Lookup(r, g, t, f) == (if Lookup(fl, g, t, f).Some? && keep(t, g, Lookup(fl, g, t, f).value) then Lookup(fl, g, t, f) else None)
  {
    map g | g in fl :: map t | t in fl[g] :: map f | f in fl[g][t] && keep(t, g, fl[g][t][f]) :: fl[g][t][f]
  }

  /** A list with one frame and a condition that keeps nothing tells the two apart. */
  lemma {:induction false} KeepOnlyFramesAsWrittenKeepsRejected()
    ensures exists fl: FrameList, keep: KeepCondition ::
      KeepOnlyFramesAsWritten(fl, keep) != KeepOnlyFrames(fl, keep)
  {
    var f := StillImage("a.fit");
    var fl: FrameList := AddFrame(map[], f, Light, 0, true, true);
    var keep: KeepCondition := (t, g, i) => false;
    assert Lookup(KeepOnlyFramesAsWritten(fl, keep), 0, Light, f).Some?;
    assert Lookup(KeepOnlyFrames(fl, keep), 0, Light, f).None?;
  }

  /** Filtering keeps the invariant, and filtering twice by the same condition is filtering once. */
  lemma {:induction false} KeepOnlyFramesIdempotent(fl: FrameList, keep: KeepCondition)
    requires WellFormed(fl)
    ensures WellFormed(KeepOnlyFrames(fl, keep))
    ensures KeepOnlyFrames(KeepOnlyFrames(fl, keep), keep) == KeepOnlyFrames(fl, keep)
  {
    var once := KeepOnlyFrames(fl, keep);
    var twice := KeepOnlyFrames(once, keep);
    forall g | g in once ensures twice[g] == once[g] {
      forall t | t in once[g] ensures twice[g][t] == once[g][t] {
        assert forall f :: f in once[g][t] ==> Lookup(once, g, t, f).Some?;
      }
    }
  }
}

=== FILE: FitsReader.dfy ===
/**
 * The FITS reader: the header is read character by character up to the first " END ", parsed
 * into a key/value map by a small state machine, and turned into the frame's resolution, bit
 * depth, zero point, Bayer pattern and gain; the data follow after the header's padding.
 */
module FitsReader {
  import opened Wrappers
  import opened CInts
  import opened Text
  import opened LittleEndian
  import opened FitsWriter

  /* ---------------------------------------------------------------- file names */

  /** `is_fit_file`: the upper-cased name ends with ".FIT" or ".FITS". */
  predicate IsFitFile(name: string)
  {
    var upper := ToUpper(name);
    EndsWith(upper, ".FIT") || EndsWith(upper, ".FITS")
  }

  /** The check only looks at the last four or five characters, ignoring their case. */
  lemma {:induction false} IsFitFileSuffix(name: string)
    ensures IsFitFile(name) <==>
      (|name| >= 4 && ToUpper(name[|name| - 4..]) == ".FIT") || (|name| >= 5 && ToUpper(name[|name| - 5..]) == ".FITS")
  {
    var upper := ToUpper(name);
    if |name| >= 4 {
      assert ToUpper(name[|name| - 4..]) == upper[|name| - 4..];
    }
    if |name| >= 5 {
      assert ToUpper(name[|name| - 5..]) == upper[|name| - 5..];
    }
  }

  /** Names that differ only in the case of their letters are classified alike. */
  lemma {:induction false} IsFitFileIgnoresCase(a: string, b: string)
    requires EqualsIgnoreCase(a, b)
    ensures IsFitFile(a) == IsFitFile(b)
  {
  }

  /** Any name ending in ".fits" is a FITS file. */
  lemma {:induction false} FitsSuffixAccepted(stem: string)
    ensures IsFitFile(stem + ".fits")
  {
    UpperLiteral(".fits", ".FITS");
    SuffixAccepted(stem, ".fits");
  }

  /** A name is a FITS file when it ends in something that upper-cases to ".FIT" or ".FITS". */
  lemma {:induction false} SuffixAccepted(stem: string, suffix: string)
    requires ToUpper(suffix) == ".FIT" || ToUpper(suffix) == ".FITS"
    ensures IsFitFile(stem + suffix)
  {
    var n := stem + suffix;
    IsFitFileSuffix(n);
    assert n[|n| - |suffix|..] == suffix;
  }

  /** Any name ending in ".Fit" is a FITS file: the suffix test ignores case. */
  lemma {:induction false} MixedCaseAccepted(stem: string)
    ensures IsFitFile(stem + ".Fit")
  {
    UpperLiteral(".Fit", ".FIT");
    SuffixAccepted(stem, ".Fit");
  }

  lemma {:induction false} UpperLiteral(s: string, u: string)
    requires |s| == |u| && forall i :: 0 <= i < |s| ==> ToUpperChar(s[i]) == u[i]
    ensures ToUpper(s) == u
  {
  }

  lemma {:induction false} OtherSuffixRejected()
    ensures !IsFitFile("m31.fts")
  {
    IsFitFileSuffix("m31.fts");
    assert "m31.fts"[3..] == ".fts";
    assert ToUpper(".fts")[2] == 'T';
    assert "m31.fts"[2..] == "1.fts";
    assert ToUpper("1.fts")[0] == '1';
  }

  lemma {:induction false} CompressedRejected()
    ensures !IsFitFile("m31.fits.gz")
  {
    IsFitFileSuffix("m31.fits.gz");
    assert "m31.fits.gz"[7..] == "s.gz";
    assert ToUpper("s.gz")[0] == 'S';
    assert "m31.fits.gz"[6..] == "ts.gz";
    assert ToUpper("ts.gz")[0] == 'T';
  }

  /* ---------------------------------------------------------------- header string */

  /** The file's bytes as the characters `std::ifstream::read` puts into a `char`. */
  function Chars(file: seq<int>): (s: string)
    requires Bytes(file)
    ensures |s| == |file| && forall i :: 0 <= i < |file| ==> s[i] as int == file[i]
  {
    seq(|file|, i requires 0 <= i < |file| => file[i] as char)
  }

  const END_MARK: string := " END "

  predicate MarkAt(s: string, k: nat)
    requires k <= |s|
  {
    EndsWith(s[..k], END_MARK)
  }

  /**
   * `get_header_string` from position `n` on: the header grows one character at a time until it
   * ends with " END " or the file ends.
   */
  function HeaderEnd(s: string, n: nat): (m: nat)
    requires n <= |s|
    ensures n <= m <= |s|
    ensures m == |s| || MarkAt(s, m)
    ensures forall k :: n <= k < m ==> !MarkAt(s, k)
    decreases |s| - n
  {
    if MarkAt(s, n) || n == |s| then n else HeaderEnd(s, n + 1)
  }

  /** The header: the shortest prefix that ends with " END ", or the whole file when there is none. */
  function HeaderText(s: string): (h: string)
    ensures h == s[..HeaderEnd(s, 0)]
  {
    s[..HeaderEnd(s, 0)]
  }

  /** The first " END " ending at `p` makes the header `p` characters long. */
  lemma {:induction false} HeaderEndAt(s: string, p: nat)
    requires p <= |s| && MarkAt(s, p)
    requires forall k :: 0 <= k < p ==> !MarkAt(s, k)
    ensures HeaderEnd(s, 0) == p
  {
  }

  /* ---------------------------------------------------------------- header parsing */

  /** The characters `parse_header` strips from both ends of a value. */
  const VALUE_STRIP: set<char> := {'\'', '"', ' '}

  /**
   * The locals of `parse_header` between two characters, with the member map it fills. `failed`
   * records the `std::out_of_range` of taking a key when no key character has been seen.
   */
  datatype ParseState = ParseState(first: int, last: int, readingValue: bool, key: string, value: string,
                                   previousWasSpace: bool, entries: map<string, string>, failed: bool)

  const START: ParseState := ParseState(-1, -1, false, "", "", false, map[], false)

  /** `first` and `last` mark the current word in the first `i` characters, or are both -1. */
  predicate Wf(st: ParseState, i: nat)
  {
    (st.first == -1 && st.last == -1) || (0 <= st.first <= st.last < i)
  }

  /** One iteration of the loop of `parse_header`, on character `i`. */
  function Step(h: string, i: nat, st: ParseState): (r: ParseState)
    requires i < |h| && Wf(st, i)
    ensures Wf(r, i + 1)
  {
    if st.failed then st
    else
      var c := h[i];
      var s := if c == ' ' then st.(previousWasSpace := true) else st;
      if c == ' ' && !s.readingValue then s
      else if c != ' ' && s.previousWasSpace && !s.readingValue && c != '=' then
        s.(first := i, last := i, previousWasSpace := false)
      else if c != '=' && !s.readingValue then
        s.(first := if s.first == -1 then i else s.first, last := i)
      else if c == '=' && !s.readingValue then
        if s.first == -1 then s.(failed := true)
        else s.(key := h[s.first..s.last + 1], first := -1, last := -1, readingValue := true)
      else if c != '/' then s.(value := s.value + [c])
      else s.(entries := s.entries[s.key := Strip(s.value, VALUE_STRIP)], key := "", value := "", readingValue := false)
  }

  /** The loop over the characters `a` to `b` of the header. */
  function Run(h: string, a: nat, b: nat, st: ParseState): (r: ParseState)
    requires a <= b <= |h| && Wf(st, a)
    ensures Wf(r, b)
    ensures st.failed ==> r == st
    decreases b - a
  {
    if a == b then st else Run(h, a + 1, b, Step(h, a, st))
  }

  /** `parse_header`: the map of keys to stripped values, or the exception of a key-less `=`. */
  function ParseHeader(h: string): (r: Result<map<string, string>>)
  {
    var st := Run(h, 0, |h|, START);
    if st.failed then Err("basic_string::substr") else Ok(st.entries)
  }

  /** Running over two adjacent stretches is running over their union. */
  lemma {:induction false} RunSplit(h: string, a: nat, m: nat, b: nat, st: ParseState)
    requires a <= m <= b <= |h| && Wf(st, a)
    ensures Run(h, a, b, st) == Run(h, m, b, Run(h, a, m, st))
    decreases m - a
  {
    if a < m {
      var s1 := Step(h, a, st);
      assert Run(h, a, b, st) == Run(h, a + 1, b, s1);
      assert Run(h, a, m, st) == Run(h, a + 1, m, s1);
      RunSplit(h, a + 1, m, b, s1);
    }
  }

  lemma {:induction false} RunOne(h: string, a: nat, st: ParseState)
    requires a < |h| && Wf(st, a)
    ensures Run(h, a, a + 1, st) == Step(h, a, st)
  {
  }

  /** Spaces outside a value only record that a space was seen. */
  lemma {:induction false} SpacesRun(h: string, a: nat, b: nat, st: ParseState)
    requires a <= b <= |h| && Wf(st, a) && !st.failed && !st.readingValue
    requires forall k :: a <= k < b ==> h[k] == ' '
    ensures Run(h, a, b, st) == if a == b then st else st.(previousWasSpace := true)
    decreases b - a
  {
    if a < b {
      SpacesRun(h, a + 1, b, Step(h, a, st));
    }
  }

  /** Inside a word, characters other than space and `=` extend it. */
  lemma {:induction false} ExtendRun(h: string, a: nat, b: nat, st: ParseState)
    requires a <= b <= |h| && Wf(st, a) && !st.failed && !st.readingValue
    requires !st.previousWasSpace && st.first >= 0
    requires forall k :: a <= k < b ==> h[k] != ' ' && h[k] != '='
    ensures Run(h, a, b, st) == if a == b then st else st.(last := b - 1)
    decreases b - a
  {
    if a < b {
      ExtendRun(h, a + 1, b, Step(h, a, st));
    }
  }

  /**
   * A key: a run of characters other than space and `=` starting where a word may start
   * becomes the current word.
   */
  lemma {:induction false} WordRun(h: string, a: nat, b: nat, st: ParseState)
    requires a < b <= |h| && Wf(st, a) && !st.failed && !st.readingValue
    requires st.previousWasSpace || st.first == -1
    requires forall k :: a <= k < b ==> h[k] != ' ' && h[k] != '='
    ensures Run(h, a, b, st) == st.(first := a, last := b - 1, previousWasSpace := false)
  {
    var s1 := Step(h, a, st);
    assert s1 == st.(first := a, last := a, previousWasSpace := false);
    ExtendRun(h, a + 1, b, s1);
  }

  /** Outside a value, characters other than `=` leave the key, value, map and mode alone. */
  lemma {:induction false} CommentRun(h: string, a: nat, b: nat, st: ParseState)
    requires a <= b <= |h| && Wf(st, a) && !st.failed && !st.readingValue
    requires forall k :: a <= k < b ==> h[k] != '='
    ensures var r := Run(h, a, b, st);
      && !r.failed && !r.readingValue && r.key == st.key && r.value == st.value && r.entries == st.entries
      && (a < b && h[b - 1] == ' ' ==> r.previousWasSpace)
    decreases b - a
  {
    if a < b {
      CommentRun(h, a + 1, b, Step(h, a, st));
    }
  }

  /** Inside a value, characters other than `/` are appended to it. */
  lemma {:induction false} ValueRun(h: string, a: nat, b: nat, st: ParseState)
    requires a <= b <= |h| && Wf(st, a) && !st.failed && st.readingValue
    requires forall k :: a <= k < b ==> h[k] != '/'
    ensures Run(h, a, b, st).(previousWasSpace := st.previousWasSpace) == st.(value := st.value + h[a..b])
    decreases b - a
  {
    if a < b {
      var s1 := Step(h, a, st);
      ValueRun(h, a + 1, b, s1);
      assert s1.value + h[a + 1..b] == st.value + h[a..b];
    }
  }


  /* ---------------------------------------------------------------- parsing written cards */

  /**
   * A card the parser reads back as written: a non-empty key without spaces or `=`, a value
   * without `/`, and a comment without `=`.
   */
  predicate GoodEntry(e: Entry)
  {
    && Fits(e) && |e.key| > 0
    && (forall i :: 0 <= i < |e.key| ==> e.key[i] != ' ' && e.key[i] != '=')
    && (forall i :: 0 <= i < |e.value| ==> e.value[i] != '/')
    && (forall i :: 0 <= i < |e.comment| ==> e.comment[i] != '=')
  }

  /** The parser's state between two cards. */
  predicate Boundary(st: ParseState)
  {
    !st.failed && !st.readingValue && st.key == "" && st.value == "" && (st.previousWasSpace || st.first == -1)
  }

  /** The map the cards describe: each key bound to its stripped value, later cards overriding earlier ones. */
  function Apply(m: map<string, string>, es: seq<Entry>): map<string, string>
    decreases |es|
  {
    if |es| == 0 then m else Apply(m[es[0].key := Strip(es[0].value, VALUE_STRIP)], es[1..])
  }

  /** Characters `a` to `a + |t|` of `h` spell `t`. */
  predicate At(h: string, a: nat, t: string)
  {
    a + |t| <= |h| && h[a..a + |t|] == t
  }

  lemma {:induction false} AtChars(h: string, a: nat, t: string)
    requires At(h, a, t)
    ensures forall j :: 0 <= j < |t| ==> h[a + j] == t[j]
  {
    forall j | 0 <= j < |t|
      ensures h[a + j] == t[j]
    {
      assert h[a..a + |t|][j] == h[a + j];
    }
  }

  lemma {:induction false} AtSlice(h: string, a: nat, t: string, x: nat, y: nat)
    requires At(h, a, t) && x <= y <= |t|
    ensures At(h, a + x, t[x..y])
  {
    forall j | 0 <= j < y - x
      ensures h[a + x..a + y][j] == t[x..y][j]
    {
      assert h[a + x + j] == h[a..a + |t|][x + j];
    }
  }

  /** A key and its padding make the key the current word. */
  lemma {:induction false} PaddedWordRun(h: string, a: nat, key: string, st: ParseState)
    requires 0 < |key| <= KEY_LENGTH && At(h, a, key) && a + KEY_LENGTH < |h|
    requires forall i :: 0 <= i < |key| ==> key[i] != ' ' && key[i] != '='
    requires forall j :: a + |key| <= j < a + KEY_LENGTH ==> h[j] == ' '
    requires Wf(st, a) && Boundary(st)
    ensures var r := Run(h, a, a + KEY_LENGTH, st);
      r.(previousWasSpace := false) == st.(first := a, last := a + |key| - 1, previousWasSpace := false)
  {
    var k := |key|;
    AtChars(h, a, key);
    WordRun(h, a, a + k, st);
    var s1 := Run(h, a, a + k, st);
    SpacesRun(h, a + k, a + KEY_LENGTH, s1);
    RunSplit(h, a, a + k, a + KEY_LENGTH, st);
  }

  /** A key, its padding and the `=`: the key becomes the current key and the value begins. */
  lemma {:induction false} KeyRun(h: string, a: nat, key: string, st: ParseState)
    requires 0 < |key| <= KEY_LENGTH && At(h, a, key) && a + KEY_LENGTH < |h|
    requires forall i :: 0 <= i < |key| ==> key[i] != ' ' && key[i] != '='
    requires forall j :: a + |key| <= j < a + KEY_LENGTH ==> h[j] == ' '
    requires h[a + KEY_LENGTH] == '='
    requires Wf(st, a) && Boundary(st)
    ensures var r := Run(h, a, a + KEY_LENGTH + 1, st);
      !r.failed && r.readingValue && r.key == key && r.value == "" && r.entries == st.entries
  {
    PaddedWordRun(h, a, key, st);
    var s2 := Run(h, a, a + KEY_LENGTH, st);
    RunOne(h, a + KEY_LENGTH, s2);
    assert h[s2.first..s2.last + 1] == key;
    RunSplit(h, a, a + KEY_LENGTH, a + KEY_LENGTH + 1, st);
  }

  /** A value and its closing `/`: the current key is bound to the stripped value. */
  lemma {:induction false} ValueSlashRun(h: string, a: nat, v: string, st: ParseState)
    requires At(h, a, v) && a + |v| < |h| && h[a + |v|] == '/'
    requires forall i :: 0 <= i < |v| ==> v[i] != '/'
    requires Wf(st, a) && !st.failed && st.readingValue
    ensures var r := Run(h, a, a + |v| + 1, st);
      && !r.failed && !r.readingValue && r.key == "" && r.value == ""
      && r.entries == st.entries[st.key := Strip(st.value + v, VALUE_STRIP)]
  {
    AtChars(h, a, v);
    ValueRun(h, a, a + |v|, st);
    var s1 := Run(h, a, a + |v|, st);
    assert s1.readingValue && !s1.failed && s1.key == st.key && s1.value == st.value + v;
    RunOne(h, a + |v|, s1);
    var s2 := Step(h, a + |v|, s1);
    assert s2 == s1.(entries := s1.entries[s1.key := Strip(s1.value, VALUE_STRIP)], key := "", value := "", readingValue := false);
    RunSplit(h, a, a + |v|, a + |v| + 1, st);
    assert Run(h, a, a + |v| + 1, st) == s2;
  }

  /** Key, `=`, value and `/` of a card: the key is bound to the stripped value. */
  lemma {:induction false} KeyValueRun(h: string, a: nat, key: string, v: string, st: ParseState)
    requires 0 < |key| <= KEY_LENGTH && At(h, a, key) && |v| == VALUE_LENGTH && At(h, a + 9, v) && a + 32 <= |h|
    requires forall i :: 0 <= i < |key| ==> key[i] != ' ' && key[i] != '='
    requires forall j :: a + |key| <= j < a + KEY_LENGTH ==> h[j] == ' '
    requires h[a + KEY_LENGTH] == '=' && h[a + 31] == '/'
    requires forall i :: 0 <= i < |v| ==> v[i] != '/'
    requires Wf(st, a) && Boundary(st)
    ensures var r := Run(h, a, a + 32, st);
      && !r.failed && !r.readingValue && r.key == "" && r.value == ""
      && r.entries == st.entries[key := Strip(v, VALUE_STRIP)]
  {
    KeyRun(h, a, key, st);
    var s1 := Run(h, a, a + 9, st);
    ValueSlashRun(h, a + 9, v, s1);
    assert "" + v == v;
    RunSplit(h, a, a + 9, a + 32, st);
  }

  /** A comment and its padding: the parser only sees words, and the last character is a space. */
  lemma {:induction false} CommentPartRun(h: string, a: nat, m: string, st: ParseState)
    requires At(h, a, m) && |m| > 0 && m[|m| - 1] == ' '
    requires forall i :: 0 <= i < |m| ==> m[i] != '='
    requires Wf(st, a) && !st.failed && !st.readingValue && st.key == "" && st.value == ""
    ensures Boundary(Run(h, a, a + |m|, st)) && Run(h, a, a + |m|, st).entries == st.entries
  {
    AtChars(h, a, m);
    CommentRun(h, a, a + |m|, st);
  }

  /** The padded comment of a good entry has no `=` and ends with a space. */
  lemma {:induction false} PaddedCommentChars(comment: string)
    requires |comment| <= COMMENT_LENGTH - 2
    requires forall i :: 0 <= i < |comment| ==> comment[i] != '='
    ensures var m := PaddedText(comment, COMMENT_LENGTH, false).value;
      |m| == COMMENT_LENGTH && m[COMMENT_LENGTH - 1] == ' ' && forall i :: 0 <= i < |m| ==> m[i] != '='
  {
    var pad := Spaces(COMMENT_LENGTH - |comment| - 1);
    var m := PaddedText(comment, COMMENT_LENGTH, false).value;
    assert m == " " + comment + pad;
    forall i | 0 <= i < |m|
      ensures m[i] != '='
    {
      if 1 <= i <= |comment| {
        assert m[i] == comment[i - 1];
      } else if i > |comment| {
        assert m[i] == pad[i - 1 - |comment|];
      }
    }
  }

  /** The padded value of a good entry has no `/`, and stripping it gives the stripped value. */
  lemma {:induction false} PaddedValueChars(value: string)
    requires |value| <= VALUE_LENGTH - 2
    requires forall i :: 0 <= i < |value| ==> value[i] != '/'
    ensures var v := PaddedText(value, VALUE_LENGTH, true).value;
      && |v| == VALUE_LENGTH && (forall i :: 0 <= i < |v| ==> v[i] != '/')
      && Strip(v, VALUE_STRIP) == Strip(value, VALUE_STRIP)
  {
    var pad := Spaces(VALUE_LENGTH - |value| - 1);
    var v := PaddedText(value, VALUE_LENGTH, true).value;
    assert v == pad + value + " ";
    forall i | 0 <= i < |v|
      ensures v[i] != '/'
    {
      if |pad| <= i < |pad| + |value| {
        assert v[i] == value[i - |pad|];
      } else if i < |pad| {
        assert v[i] == pad[i];
      }
    }
    StripPadded(pad, value, " ", VALUE_STRIP);
  }

  /** A whole card given by its parts: key, padding, `=`, padded value, `/`, padded comment. */
  lemma {:induction false} CardPartsRun(h: string, a: nat, key: string, v: string, m: string, st: ParseState)
    requires 0 < |key| <= KEY_LENGTH && At(h, a, key) && |v| == VALUE_LENGTH && At(h, a + 9, v)
    requires |m| == COMMENT_LENGTH && At(h, a + 32, m) && m[COMMENT_LENGTH - 1] == ' '
    requires forall i :: 0 <= i < |key| ==> key[i] != ' ' && key[i] != '='
    requires forall j :: a + |key| <= j < a + KEY_LENGTH ==> h[j] == ' '
    requires h[a + KEY_LENGTH] == '=' && h[a + 31] == '/'
    requires forall i :: 0 <= i < |v| ==> v[i] != '/'
    requires forall i :: 0 <= i < |m| ==> m[i] != '='
    requires Wf(st, a) && Boundary(st)
    ensures Boundary(Run(h, a, a + CARD_LENGTH, st))
    ensures Run(h, a, a + CARD_LENGTH, st).entries == st.entries[key := Strip(v, VALUE_STRIP)]
  {
    KeyValueRun(h, a, key, v, st);
    var s2 := Run(h, a, a + 32, st);
    CommentPartRun(h, a + 32, m, s2);
    RunSplit(h, a, a + 32, a + 80, st);
  }

  /** Where the parts of a card lie once the card is at position `a`. */
  lemma {:induction false} CardAtParts(h: string, a: nat, e: Entry)
    requires Fits(e) && At(h, a, Card(e))
    ensures At(h, a, e.key) && At(h, a + 9, PaddedText(e.value, VALUE_LENGTH, true).value)
    ensures At(h, a + 32, PaddedText(e.comment, COMMENT_LENGTH, false).value)
    ensures forall j :: a + |e.key| <= j < a + KEY_LENGTH ==> h[j] == ' '
    ensures h[a + KEY_LENGTH] == '=' && h[a + 31] == '/'
  {
    var c := Card(e);
    var k := |e.key|;
    CardShape(e);
    AtChars(h, a, c);
    AtSlice(h, a, c, 0, k);
    assert c[0..k] == e.key;
    AtSlice(h, a, c, 9, 31);
    AtSlice(h, a, c, 32, 80);
    forall j | a + k <= j < a + KEY_LENGTH
      ensures h[j] == ' '
    {
      assert h[a + (j - a)] == c[j - a];
    }
    assert h[a + 8] == c[8] && h[a + 31] == c[31];
  }

  /** One card, read from a boundary, binds its key to its stripped value and ends on a boundary. */
  lemma {:induction false} CardRun(h: string, a: nat, e: Entry, st: ParseState)
    requires GoodEntry(e) && At(h, a, Card(e))
    requires Wf(st, a) && Boundary(st)
    ensures Boundary(Run(h, a, a + CARD_LENGTH, st))
    ensures Run(h, a, a + CARD_LENGTH, st).entries == st.entries[e.key := Strip(e.value, VALUE_STRIP)]
  {
    CardAtParts(h, a, e);
    PaddedValueChars(e.value);
    PaddedCommentChars(e.comment);
    CardPartsRun(h, a, e.key, PaddedText(e.value, VALUE_LENGTH, true).value,
                 PaddedText(e.comment, COMMENT_LENGTH, false).value, st);
  }

  /** Good cards one after another from position `a`. */
  predicate CardsAt(h: string, a: nat, es: seq<Entry>)
    decreases |es|
  {
    if |es| == 0 then a <= |h|
    else GoodEntry(es[0]) && At(h, a, Card(es[0])) && CardsAt(h, a + CARD_LENGTH, es[1..])
  }

  /** The cards end inside the header. */
  lemma {:induction false} CardsAtEnd(h: string, a: nat, es: seq<Entry>)
    requires CardsAt(h, a, es)
    ensures a + CARD_LENGTH * |es| <= |h|
    decreases |es|
  {
    if |es| > 0 {
      CardsAtEnd(h, a + CARD_LENGTH, es[1..]);
    }
  }

  /** Cards given position by position lie one after another. */
  lemma {:induction false} CardsAtAll(h: string, a: nat, es: seq<Entry>)
    requires a + CARD_LENGTH * |es| <= |h|
    requires forall i :: 0 <= i < |es| ==> GoodEntry(es[i]) && At(h, a + CARD_LENGTH * i, Card(es[i]))
    ensures CardsAt(h, a, es)
    decreases |es|
  {
    if |es| > 0 {
      var rest := es[1..];
      forall i | 0 <= i < |rest|
        ensures GoodEntry(rest[i]) && At(h, a + CARD_LENGTH + CARD_LENGTH * i, Card(rest[i]))
      {
        assert rest[i] == es[i + 1];
        assert a + CARD_LENGTH * (i + 1) == a + CARD_LENGTH + CARD_LENGTH * i;
      }
      assert GoodEntry(es[0]) && At(h, a + CARD_LENGTH * 0, Card(es[0]));
      CardsAtAll(h, a + CARD_LENGTH, rest);
    }
  }

  /** Consecutive cards, read from a boundary, apply their bindings in order. */
  lemma {:induction false} CardsRun(h: string, a: nat, es: seq<Entry>, st: ParseState)
    requires CardsAt(h, a, es) && a + CARD_LENGTH * |es| <= |h|
    requires Wf(st, a) && Boundary(st)
    ensures Boundary(Run(h, a, a + CARD_LENGTH * |es|, st))
    ensures Run(h, a, a + CARD_LENGTH * |es|, st).entries == Apply(st.entries, es)
  {
    CardsRunTo(h, a, a + CARD_LENGTH * |es|, es, st);
  }

  /** `CardsRun` with the end of the cards named `b`. */
  lemma {:induction false} CardsRunTo(h: string, a: nat, b: nat, es: seq<Entry>, st: ParseState)
    requires CardsAt(h, a, es) && b == a + CARD_LENGTH * |es| && b <= |h|
    requires Wf(st, a) && Boundary(st)
    ensures Boundary(Run(h, a, b, st))
    ensures Run(h, a, b, st).entries == Apply(st.entries, es)
    decreases |es|
  {
    if |es| > 0 {
      var s1 := CardsRunStep(h, a, b, es, st);
      CardsRunTo(h, a + CARD_LENGTH, b, es[1..], s1);
    }
  }

  /** The first card read; the rest of the run continues from the state it leaves. */
  lemma {:induction false} CardsRunStep(h: string, a: nat, b: nat, es: seq<Entry>, st: ParseState) returns (s1: ParseState)
    requires CardsAt(h, a, es) && b == a + CARD_LENGTH * |es| && b <= |h| && |es| > 0
    requires Wf(st, a) && Boundary(st)
    ensures b == a + CARD_LENGTH + CARD_LENGTH * |es[1..]|
    ensures Wf(s1, a + CARD_LENGTH) && Boundary(s1) && CardsAt(h, a + CARD_LENGTH, es[1..])
    ensures Run(h, a, b, st) == Run(h, a + CARD_LENGTH, b, s1)
    ensures Apply(st.entries, es) == Apply(s1.entries, es[1..])
  {
    s1 := Run(h, a, a + CARD_LENGTH, st);
    assert Boundary(s1) && s1.entries == st.entries[es[0].key := Strip(es[0].value, VALUE_STRIP)] by {
      CardRun(h, a, es[0], st);
    }
    assert b == a + CARD_LENGTH + CARD_LENGTH * |es[1..]|;
    RunSplit(h, a, a + CARD_LENGTH, b, st);
  }

  /** A header made of good cards followed by text without `=` parses to the cards' bindings. */
  lemma {:induction false} ParseCards(es: seq<Entry>, tail: string)
    requires forall i :: 0 <= i < |es| ==> GoodEntry(es[i])
    requires forall i :: 0 <= i < |tail| ==> tail[i] != '='
    ensures Cards(es).Ok?
    ensures ParseHeader(Cards(es).value + tail) == Ok(Apply(map[], es))
  {
    var cards := Cards(es).value;
    var h := cards + tail;
    assert CardsAt(h, 0, es) && CARD_LENGTH * |es| <= |h| by {
      CardsPrefix(es, tail);
      CardsAtEnd(h, 0, es);
    }
    var s1 := Run(h, 0, |cards|, START);
    assert Boundary(s1) && s1.entries == Apply(map[], es) by {
      CardsRun(h, 0, es, START);
    }
    assert Run(h, |cards|, |h|, s1).entries == s1.entries && !Run(h, |cards|, |h|, s1).failed by {
      TailRun(cards, tail, s1);
    }
    RunSplit(h, 0, |cards|, |h|, START);
  }

  /** Text without `=` after the last card binds nothing and throws nothing. */
  lemma {:induction false} TailRun(cards: string, tail: string, st: ParseState)
    requires forall i :: 0 <= i < |tail| ==> tail[i] != '='
    requires Wf(st, |cards|) && Boundary(st)
    ensures var r := Run(cards + tail, |cards|, |cards + tail|, st);
      r.entries == st.entries && !r.failed
  {
    var h := cards + tail;
    forall k | |cards| <= k < |h|
      ensures h[k] != '='
    {
      assert h[k] == tail[k - |cards|];
    }
    CommentRun(h, |cards|, |h|, st);
  }

  /** The cards of a header still lie at their positions once text follows them. */
  lemma {:induction false} CardsPrefix(es: seq<Entry>, tail: string)
    requires forall i :: 0 <= i < |es| ==> GoodEntry(es[i])
    ensures Cards(es).Ok? && CardsAt(Cards(es).value + tail, 0, es)
  {
    var cards := Cards(es).value;
    var h := cards + tail;
    forall i | 0 <= i < |es|
      ensures GoodEntry(es[i]) && At(h, CARD_LENGTH * i, Card(es[i]))
    {
      assert h[CARD_LENGTH * i..CARD_LENGTH * i + CARD_LENGTH] == cards[CARD_LENGTH * i..CARD_LENGTH * i + CARD_LENGTH];
    }
    CardsAtAll(h, 0, es);
  }

  /** Later bindings are applied after earlier ones. */
  lemma {:induction false} ApplyConcat(m: map<string, string>, xs: seq<Entry>, ys: seq<Entry>)
    ensures Apply(m, xs + ys) == Apply(Apply(m, xs), ys)
    decreases |xs|
  {
    if |xs| > 0 {
      assert (xs + ys)[1..] == xs[1..] + ys;
      ApplyConcat(m[xs[0].key := Strip(xs[0].value, VALUE_STRIP)], xs[1..], ys);
    } else {
      assert xs + ys == ys;
    }
  }

  /** Cards with other keys leave a key's binding, or its absence, alone. */
  lemma {:induction false} ApplyAbsent(m: map<string, string>, es: seq<Entry>, k: string)
    requires forall i :: 0 <= i < |es| ==> es[i].key != k
    ensures k in Apply(m, es) <==> k in m
    ensures k in m ==> Apply(m, es)[k] == m[k]
    decreases |es|
  {
    if |es| > 0 {
      ApplyAbsent(m[es[0].key := Strip(es[0].value, VALUE_STRIP)], es[1..], k);
    }
  }

  /** The last card with a key decides its binding. */
  lemma {:induction false} ApplyLast(m: map<string, string>, es: seq<Entry>, j: nat)
    requires j < |es|
    requires forall i :: j < i < |es| ==> es[i].key != es[j].key
    ensures es[j].key in Apply(m, es) && Apply(m, es)[es[j].key] == Strip(es[j].value, VALUE_STRIP)
    decreases |es|
  {
    var m1 := m[es[0].key := Strip(es[0].value, VALUE_STRIP)];
    if j == 0 {
      ApplyAbsent(m1, es[1..], es[0].key);
    } else {
      ApplyLast(m1, es[1..], j - 1);
    }
  }

  /* ---------------------------------------------------------------- metadata */

  /** `get_with_default`. */
  function Get(m: map<string, string>, key: string, default: string): (r: string)
    ensures key in m ==> r == m[key]
    ensures key !in m ==> r == default
  {
    if key in m then m[key] else default
  }

  const INT_MIN: int := -0x8000_0000

  /** `std::stoi`: `invalid_argument` without digits, `out_of_range` outside `int`. */
  function StoI(s: string): (r: Result<int>)
    ensures r.Ok? <==> ParseInt(s).Some? && INT_MIN <= ParseInt(s).value <= INT_MAX
    ensures r.Ok? ==> r.value == ParseInt(s).value
  {
    match ParseInt(s)
    case None => Err("stoi: no conversion")
    case Some(v) => if INT_MIN <= v <= INT_MAX then Ok(v) else Err("stoi: out of range")
  }

  /**
   * Whether `std::stof` converts `s` at all rather than throwing `std::invalid_argument`: after
   * leading whitespace and an optional sign the text must begin a number (a digit, or a point
   * followed by a digit) or spell "inf" or "nan" in any letter case. The value read is not kept.
   */
  predicate StoFConverts(s: string)
  {
    var t := StripLeft(s, Whitespace);
    var u := if |t| > 0 && (t[0] == '-' || t[0] == '+') then t[1..] else t;
    || (|u| > 0 && IsDigit(u[0]))
    || (|u| > 1 && u[0] == '.' && IsDigit(u[1]))
    || (|u| >= 3 && (ToUpper(u[..3]) == "INF" || ToUpper(u[..3]) == "NAN"))
  }

  /** A floating-point field: `std::stof(get_with_default(key, default))`, which throws "stof". */
  function FloatField(m: map<string, string>, key: string, default: string): (r: Result<()>)
    ensures r.Ok? <==> StoFConverts(Get(m, key, default))
  {
    if StoFConverts(Get(m, key, default)) then Ok(()) else Err("stof")
  }

  /** Every text `std::stoi` reads a number from, `std::stof` reads one from too. */
  lemma {:induction false} StoIImpliesStoF(s: string)
    ensures ParseInt(s).Some? ==> StoFConverts(s)
  {
  }

  /** A text whose first non-blank character is a letter that starts neither "inf" nor "nan" makes `std::stof` throw. */
  lemma {:induction false} LetterRejectedByStoF(s: string)
    requires var t := StripLeft(s, Whitespace); |t| > 0 && 'a' <= t[0] <= 'z' && t[0] != 'i' && t[0] != 'n'
    ensures !StoFConverts(s)
  {
    var t := StripLeft(s, Whitespace);
    if |t| >= 3 {
      assert ToUpper(t[..3])[0] == ToUpperChar(t[0]);
    }
  }

  /** Every `int` that `std::to_string` writes is read back by `std::stoi`. */
  lemma {:induction false} StoIToString(i: int)
    requires INT_MIN <= i <= INT_MAX
    ensures StoI(IntToString(i)) == Ok(i)
  {
    ParseIntToString(i);
  }

  /** The characters `process_bayer_matrix` strips after upper-casing. */
  const BAYER_STRIP: set<char> := {' ', '\n', '\t', '\r', '\'', '"'}

  predicate IsColorLetter(c: char) { c == 'R' || c == 'G' || c == 'B' }

  /** The colour index of a pattern letter: R is 0, G is 1, B is 2. */
  function ColorIndex(c: char): (i: int)
    requires IsColorLetter(c)
    ensures 0 <= i <= 2
  {
    if c == 'R' then 0 else if c == 'G' then 1 else 2
  }

  /** The colour indices of a four-letter pattern, in reading order. */
  function PatternIndices(p: string): (r: seq<int>)
    requires |p| == 4 && forall i :: 0 <= i < 4 ==> IsColorLetter(p[i])
    ensures |r| == 4 && forall i :: 0 <= i < 4 ==> r[i] == ColorIndex(p[i])
  {
    seq(4, i requires 0 <= i < 4 => ColorIndex(p[i]))
  }

  /**
   * `process_bayer_matrix`: upper-case, strip spaces, control whitespace and quotes, then
   * exactly four letters among R, G and B; anything else, the empty pattern included, throws.
   */
  function ProcessBayer(text: string): (r: Result<seq<int>>)
    ensures var u := Strip(ToUpper(text), BAYER_STRIP);
      r.Ok? <==> |u| == 4 && forall i :: 0 <= i < 4 ==> IsColorLetter(u[i])
    ensures r.Ok? ==> r.value == PatternIndices(Strip(ToUpper(text), BAYER_STRIP))
  {
    var u := Strip(ToUpper(text), BAYER_STRIP);
    if |u| != 4 then Err("Bayer matrix must have 4 characters.")
    else if forall i :: 0 <= i < 4 ==> IsColorLetter(u[i]) then Ok(PatternIndices(u))
    else Err("Invalid Bayer matrix character in FIT file")
  }

  /** A pattern given in any letter case, quoted or padded, gives the indices of its upper-case letters. */
  lemma {:induction false} ProcessBayerPattern(p: string, q: string)
    requires |p| == 4 && forall i :: 0 <= i < 4 ==> IsColorLetter(ToUpperChar(p[i]))
    requires q == "'" + p + "'" || q == p || q == " " + p + " "
    ensures ProcessBayer(q) == Ok(PatternIndices(ToUpper(p)))
  {
    var u := ToUpper(p);
    assert Strip(ToUpper(q), BAYER_STRIP) == u by {
      BayerQuotesStripped(p, q);
    }
  }

  /** Quotes and spaces around a pattern go, and its upper-cased letters stay. */
  lemma {:induction false} BayerQuotesStripped(p: string, q: string)
    requires |p| == 4 && forall i :: 0 <= i < 4 ==> IsColorLetter(ToUpperChar(p[i]))
    requires q == "'" + p + "'" || q == p || q == " " + p + " "
    ensures Strip(ToUpper(q), BAYER_STRIP) == ToUpper(p)
  {
    var u := ToUpper(p);
    assert Strip(u, BAYER_STRIP) == u by {
      assert u[0] !in BAYER_STRIP && u[3] !in BAYER_STRIP;
      StripNoop(u, BAYER_STRIP);
    }
    if q == p {
    } else if q == "'" + p + "'" {
      assert ToUpper(q) == "'" + u + "'";
      StripPadded("'", u, "'", BAYER_STRIP);
    } else {
      assert ToUpper(q) == " " + u + " ";
      StripPadded(" ", u, " ", BAYER_STRIP);
    }
  }

  /** An empty pattern throws, so a frame that the reader accepts is never marked monochrome. */
  lemma {:induction false} EmptyBayerRejected()
    ensures ProcessBayer("").Err?
  {
    assert ToUpper("") == "";
  }

  /** What `fill_metadata` keeps of the header, apart from the floating-point and date fields. */
  datatype FitsHeader = FitsHeader(width: int, height: int, bitDepth: int, bayer: seq<int>, zeroPoint: int,
                                   iso: int, cameraModel: string, monochrome: bool)

  /** An integer field: `std::stoi(get_with_default(key, default))`. */
  function IntField(m: map<string, string>, key: string, default: string): Result<int>
  {
    StoI(Get(m, key, default))
  }

  /** The gain: ISO, or GAIN when ISO is missing or 0. */
  function IsoOf(m: map<string, string>): (r: Result<int>)
    ensures r.Err? <==> IntField(m, "ISO", "0").Err? || (IntField(m, "ISO", "0") == Ok(0) && IntField(m, "GAIN", "0").Err?)
    ensures r.Ok? && IntField(m, "ISO", "0") != Ok(0) ==> r == IntField(m, "ISO", "0")
    ensures r.Ok? && IntField(m, "ISO", "0") == Ok(0) ==> r == IntField(m, "GAIN", "0")
  {
    var isoField :- IntField(m, "ISO", "0");
    if isoField == 0 then IntField(m, "GAIN", "0") else Ok(isoField)
  }

  /**
   * `fill_metadata`: the integer fields with their defaults (NAXIS1 and NAXIS2 "0", BITPIX "16",
   * BZERO "0"), the Bayer pattern, BZERO reduced into the `unsigned int` zero point, and the gain;
   * EXPTIME, APERTURE, FOCALLEN and CCD-TEMP go through `std::stof` in the same order, their
   * values unkept. Any failed conversion or bad pattern throws; since an empty pattern throws, a header that is
   * accepted is never monochrome.
   */
  function FillMetadata(m: map<string, string>): (r: Result<FitsHeader>)
    ensures r.Ok? <==> (IntField(m, "NAXIS1", "0").Ok? && IntField(m, "NAXIS2", "0").Ok? && IntField(m, "BITPIX", "16").Ok?
                        && ProcessBayer(Get(m, "BAYERPAT", "")).Ok? && IntField(m, "BZERO", "0").Ok? && IsoOf(m).Ok?
                        && FloatFieldsConvert(m))
    ensures r.Ok? ==> IntField(m, "NAXIS1", "0") == Ok(r.value.width) && IntField(m, "NAXIS2", "0") == Ok(r.value.height)
    ensures r.Ok? ==> IntField(m, "BITPIX", "16") == Ok(r.value.bitDepth) && IsoOf(m) == Ok(r.value.iso)
    ensures r.Ok? ==> ProcessBayer(Get(m, "BAYERPAT", "")) == Ok(r.value.bayer)
    ensures r.Ok? ==> r.value.zeroPoint == WrapU32(IntField(m, "BZERO", "0").value)
    ensures r.Ok? ==> r.value.cameraModel == Get(m, "INSTRUME", "") && !r.value.monochrome
  {
    var width := IntField(m, "NAXIS1", "0");
    var height := IntField(m, "NAXIS2", "0");
    var bitDepth := IntField(m, "BITPIX", "16");
    var bayerText := Get(m, "BAYERPAT", "");
    var bayer := ProcessBayer(bayerText);
    var exposure := FloatField(m, "EXPTIME", "0");
    var zero := IntField(m, "BZERO", "0");
    var aperture := FloatField(m, "APERTURE", "0");
    var iso := IsoOf(m);
    var focalLength := FloatField(m, "FOCALLEN", "0");
    var temperature := FloatField(m, "CCD-TEMP", "-300");
    if width.Err? then Err(width.msg)
    else if height.Err? then Err(height.msg)
    else if bitDepth.Err? then Err(bitDepth.msg)
    else if exposure.Err? then Err(exposure.msg)
    else if bayer.Err? then Err(bayer.msg)
    else if zero.Err? then Err(zero.msg)
    else if aperture.Err? then Err(aperture.msg)
    else if iso.Err? then Err(iso.msg)
    else if focalLength.Err? then Err(focalLength.msg)
    else if temperature.Err? then Err(temperature.msg)
    else
      EmptyBayerRejected();
      Ok(FitsHeader(width.value, height.value, bitDepth.value, bayer.value, WrapU32(zero.value), iso.value,
                    Get(m, "INSTRUME", ""), bayerText == ""))
  }

  /** The exposure time, aperture, focal length and sensor temperature all convert with `std::stof`. */
  predicate FloatFieldsConvert(m: map<string, string>)
  {
    && StoFConverts(Get(m, "EXPTIME", "0")) && StoFConverts(Get(m, "APERTURE", "0"))
    && StoFConverts(Get(m, "FOCALLEN", "0")) && StoFConverts(Get(m, "CCD-TEMP", "-300"))
  }

  /** `read_header`: the header text, its bindings, and the fields taken from them. */
  function ReadHeader(file: seq<int>): (r: Result<FitsHeader>)
    requires Bytes(file)
  {
    var m :- ParseHeader(HeaderText(Chars(file)));
    FillMetadata(m)
  }

  /* ---------------------------------------------------------------- data */

  /** The byte as a signed `char`. */
  function SignedChar(b: int): (r: int)
    requires IsByte(b)
    ensures -128 <= r < 128 && (r - b) % 256 == 0
  {
    if b >= 128 then b - 256 else b
  }

  /**
   * `read_data_16bit` for one pixel: the two bytes read as a little-endian `unsigned short`
   * and byte-swapped, i.e. read big-endian; the zero point added in `unsigned short`; halved.
   */
  function Pixel16(file: seq<int>, pos: int, zero: int): (v: int)
    requires Bytes(file)
    ensures 0 <= v < 0x8000
  {
    var swapped := ByteAt(file, pos) * 256 + ByteAt(file, pos + 1);
    WrapU16(swapped + zero) / 2
  }

  /**
   * `read_data_8bit` for one pixel before `scale_8bit_image_to_16bit`: the signed `char` plus the
   * zero point as an `unsigned short`, stored into a `short`.
   */
  function Pixel8(file: seq<int>, pos: int, zero: int): (v: int)
    requires Bytes(file)
    ensures -0x8000 <= v < 0x8000
  {
    var b := ByteAt(file, pos);
    assert IsByte(b) by {
      if 0 <= pos < |file| {
        assert b == file[pos];
      }
    }
    ToInt16(WrapU16(SignedChar(b) + zero))
  }

  /** `read_data` from position `start`: width times height pixels, zero-filled past the end of the file. */
  function ReadData(file: seq<int>, start: nat, hd: FitsHeader): (r: Result<seq<int>>)
    requires Bytes(file)
    ensures r.Ok? <==> 0 <= hd.width * hd.height <= INT_MAX && (hd.bitDepth == 8 || hd.bitDepth == 16)
    ensures r.Ok? ==> |r.value| == hd.width * hd.height
    ensures r.Ok? && hd.bitDepth == 16 ==>
      forall i :: 0 <= i < |r.value| ==> r.value[i] == Pixel16(file, start + 2 * i, hd.zeroPoint)
    ensures r.Ok? && hd.bitDepth == 8 ==>
      forall i :: 0 <= i < |r.value| ==> r.value[i] == Pixel8(file, start + i, hd.zeroPoint)
  {
    var n := hd.width * hd.height;
    if n < 0 || n > INT_MAX then Err("cannot create std::vector larger than max_size()")
    else if hd.bitDepth == 16 then Ok(seq(n, i requires 0 <= i < n => Pixel16(file, start + 2 * i, hd.zeroPoint)))
    else if hd.bitDepth == 8 then Ok(seq(n, i requires 0 <= i < n => Pixel8(file, start + i, hd.zeroPoint)))
    else Err("Unsupported bit depth in FIT file")
  }

  /** The position after the spaces that `read_data` skips before the data, as written. */
  function SkipSpaces(file: seq<int>, pos: nat): (r: nat)
    ensures pos <= r && (pos <= |file| ==> r <= |file|)
    ensures forall k :: pos <= k < r ==> k < |file| && file[k] == 32
    ensures r < |file| ==> file[r] != 32
    decreases |file| - pos
  {
    if pos < |file| && file[pos] == 32 then SkipSpaces(file, pos + 1) else pos
  }

  /** The start of the data as the FITS standard places it: the first 2880-byte boundary at or after the header. */
  function BlockStart(pos: nat): (r: nat)
    ensures r % BLOCK_LENGTH == 0 && pos <= r < pos + BLOCK_LENGTH
  {
    var r := (pos + BLOCK_LENGTH - 1) / BLOCK_LENGTH * BLOCK_LENGTH;
    assert (pos + BLOCK_LENGTH - 1) % BLOCK_LENGTH == pos + BLOCK_LENGTH - 1 - r;
    r
  }

  /** `read_raw_file` as written: the data start after every space that follows " END ". */
  function ReadRawFileAsWritten(file: seq<int>): (r: Result<(FitsHeader, seq<int>)>)
    requires Bytes(file)
    ensures r.Ok? <==> ReadHeader(file).Ok? && ReadData(file, SkipSpaces(file, HeaderEnd(Chars(file), 0)), ReadHeader(file).value).Ok?
  {
    var hd :- ReadHeader(file);
    var data :- ReadData(file, SkipSpaces(file, HeaderEnd(Chars(file), 0)), hd);
    Ok((hd, data))
  }

  /** `read_raw_file` with the data starting at the 2880-byte boundary after the header. */
  function ReadRawFile(file: seq<int>): (r: Result<(FitsHeader, seq<int>)>)
    requires Bytes(file)
    ensures r.Ok? <==> ReadHeader(file).Ok? && ReadData(file, BlockStart(HeaderEnd(Chars(file), 0)), ReadHeader(file).value).Ok?
  {
    var hd :- ReadHeader(file);
    var data :- ReadData(file, BlockStart(HeaderEnd(Chars(file), 0)), hd);
    Ok((hd, data))
  }
}

=== FILE: FitsRoundTrip.dfy ===
/**
 * Reading back what the FITS saver writes. The reader finds the header by looking for the first
 * " END ", parses `KEY = value / comment` cards, and takes the data that follows. A file that
 * the saver writes is read back faithfully when no card text contains "END", `/` or characters
 * outside one byte, and when the data starts at the 2880-byte boundary; `ReadRawFileAsWritten`
 * instead starts it after the spaces that follow " END ", which also swallows a first data byte
 * that happens to be a space.
 */
module FitsRoundTrip {
  import opened Wrappers
  import opened CInts
  import opened Text
  import opened LittleEndian
  import opened FitsWriter
  import opened FitsReader

  /* ---------------------------------------------------------------- card texts */

  /** No "END" anywhere in `s`. */
  predicate NoEnd(s: string)
  {
    forall j :: 0 <= j && j + 2 < |s| ==> !(s[j] == 'E' && s[j + 1] == 'N' && s[j + 2] == 'D')
  }

  /** Every character fits into one byte, so writing it as a `char` and reading it back keeps it. */
  predicate Latin1(s: string)
  {
    forall j :: 0 <= j < |s| ==> s[j] as int < 256
  }

  /** A card the reader reads back and whose header it delimits where the saver ended it. */
  predicate Readable(e: Entry)
  {
    GoodEntry(e) && NoEnd(e.key) && NoEnd(e.value) && NoEnd(e.comment)
    && Latin1(e.key) && Latin1(e.value) && Latin1(e.comment)
  }

  /** Two texts without "END" joined where no "END" can straddle the seam. */
  lemma {:induction false} NoEndJoin(a: string, b: string)
    requires NoEnd(a) && NoEnd(b)
    requires |a| == 0 || |b| == 0 || (a[|a| - 1] != 'E' && a[|a| - 1] != 'N') || (b[0] != 'N' && b[0] != 'D')
    ensures NoEnd(a + b)
  {
    var s := a + b;
    forall j | 0 <= j && j + 2 < |s|
      ensures !(s[j] == 'E' && s[j + 1] == 'N' && s[j + 2] == 'D')
    {
      if j + 2 < |a| {
        assert s[j] == a[j] && s[j + 1] == a[j + 1] && s[j + 2] == a[j + 2];
      } else if j >= |a| {
        assert s[j] == b[j - |a|] && s[j + 1] == b[j + 1 - |a|] && s[j + 2] == b[j + 2 - |a|];
      }
    }
  }

  lemma {:induction false} SpacesPlain(n: nat)
    ensures NoEnd(Spaces(n)) && Latin1(Spaces(n))
  {
  }

  /** A padded key of a key without "END" has none, and fits in one byte per character. */
  lemma {:induction false} PaddedKeyPlain(key: string)
    requires |key| <= KEY_LENGTH && NoEnd(key) && Latin1(key)
    ensures NoEnd(PaddedKey(key).value) && Latin1(PaddedKey(key).value)
  {
    var sk := Spaces(KEY_LENGTH - |key|);
    SpacesPlain(KEY_LENGTH - |key|);
    assert PaddedKey(key).value == key + sk;
    NoEndJoin(key, sk);
    Latin1Join(key, sk);
  }

  /** A padded value or comment of a text without "END" has none, fits in one byte per character, and ends with a space. */
  lemma {:induction false} PaddedTextPlain(text: string, length: nat, paddingOnLeft: bool)
    requires 2 <= length && |text| <= length - 2 && NoEnd(text) && Latin1(text)
    ensures var r := PaddedText(text, length, paddingOnLeft).value;
      NoEnd(r) && Latin1(r) && r[|r| - 1] == ' '
  {
    var sp := Spaces(length - |text| - 1);
    SpacesPlain(length - |text| - 1);
    if paddingOnLeft {
      NoEndJoin(sp, text);
      NoEndJoin(sp + text, " ");
      Latin1Join(sp, text);
      Latin1Join(sp + text, " ");
    } else {
      NoEndJoin(" ", text);
      NoEndJoin(" " + text, sp);
      Latin1Join(" ", text);
      Latin1Join(" " + text, sp);
    }
  }

  /** A card of a readable entry contains no "END", only one-byte characters, and ends with a space. */
  lemma {:induction false} CardPlain(e: Entry)
    requires Readable(e)
    ensures NoEnd(Card(e)) && Latin1(Card(e)) && Card(e)[CARD_LENGTH - 1] == ' '
  {
    var k := PaddedKey(e.key).value;
    var v := PaddedText(e.value, VALUE_LENGTH, true).value;
    var m := PaddedText(e.comment, COMMENT_LENGTH, false).value;
    assert Card(e) == k + "=" + v + "/" + m;
    PaddedKeyPlain(e.key);
    PaddedTextPlain(e.value, VALUE_LENGTH, true);
    PaddedTextPlain(e.comment, COMMENT_LENGTH, false);
    NoEndJoin(k, "=");
    NoEndJoin(k + "=", v);
    NoEndJoin(k + "=" + v, "/");
    NoEndJoin(k + "=" + v + "/", m);
    Latin1Join(k, "=");
    Latin1Join(k + "=", v);
    Latin1Join(k + "=" + v, "/");
    Latin1Join(k + "=" + v + "/", m);
  }

  /** The cards of readable entries contain no "END" and only one-byte characters; the last one ends with a space. */
  lemma {:induction false} CardsPlain(es: seq<Entry>)
    requires forall i :: 0 <= i < |es| ==> Readable(es[i])
    ensures Cards(es).Ok?
    ensures NoEnd(Cards(es).value) && Latin1(Cards(es).value)
    ensures |es| > 0 ==> Cards(es).value[|Cards(es).value| - 1] == ' '
    decreases |es|
  {
    if |es| > 0 {
      var c := Card(es[0]);
      var rest := Cards(es[1..]);
      assert rest.Ok? && NoEnd(rest.value) && Latin1(rest.value)
          && (|es| > 1 ==> rest.value[|rest.value| - 1] == ' ') by {
        CardsPlain(es[1..]);
      }
      assert NoEnd(c) && Latin1(c) && c[CARD_LENGTH - 1] == ' ' by {
        CardPlain(es[0]);
      }
      assert Cards(es) == Ok(c + rest.value) by {
        CardsCons(es);
      }
      NoEndJoin(c, rest.value);
      Latin1Join(c, rest.value);
      var r := Cards(es).value;
      assert r == c + rest.value;
      assert r[|r| - 1] == ' ' by {
        if |es| == 1 {
          assert |rest.value| == 0;
          assert r[|r| - 1] == c[CARD_LENGTH - 1];
        } else {
          assert r[|r| - 1] == rest.value[|rest.value| - 1];
        }
      }
    }
  }

  /** The cards of a non-empty sequence are its first card followed by the others' cards. */
  lemma {:induction false} CardsCons(es: seq<Entry>)
    requires |es| > 0 && forall i :: 0 <= i < |es| ==> Fits(es[i])
    ensures Cards(es[1..]).Ok? && Cards(es) == Ok(Card(es[0]) + Cards(es[1..]).value)
  {
    assert Fits(es[0]);
    assert forall i :: 0 <= i < |es[1..]| ==> Fits(es[1..][i]) by {
      forall i | 0 <= i < |es[1..]|
        ensures Fits(es[1..][i])
      {
        assert es[1..][i] == es[i + 1];
      }
    }
  }

  lemma {:induction false} Latin1Join(a: string, b: string)
    requires Latin1(a) && Latin1(b)
    ensures Latin1(a + b)
  {
    forall j | 0 <= j < |a + b|
      ensures (a + b)[j] as int < 256
    {
      if j < |a| {
        assert (a + b)[j] == a[j];
      } else {
        assert (a + b)[j] == b[j - |a|];
      }
    }
  }

  /** Text without "END" has no " END " mark in any of its prefixes. */
  lemma {:induction false} NoEndNoMark(s: string)
    requires NoEnd(s)
    ensures forall k :: 0 <= k <= |s| ==> !MarkAt(s, k)
  {
    forall k | 0 <= k <= |s|
      ensures !MarkAt(s, k)
    {
      if k >= 5 {
        var p := s[..k];
        assert !(s[k - 4] == 'E' && s[k - 3] == 'N' && s[k - 2] == 'D');
        assert p[k - 5..][1] == s[k - 4] && p[k - 5..][2] == s[k - 3] && p[k - 5..][3] == s[k - 2];
      }
    }
  }

  /** The characters the reader sees up to the END card are those the saver wrote. */
  lemma {:induction false} WrittenHeaderChars(cards: string, data: seq<int>)
    requires Latin1(cards) && Bytes(data)
    ensures var f := TextBytes(FinalPadding(cards)) + data;
      Bytes(f) && |cards| + 4 <= |f| && Chars(f)[..|cards| + 4] == cards + "END "
  {
    var w := FinalPadding(cards);
    var f := TextBytes(w) + data;
    var s := Chars(f);
    var p := |cards| + 4;
    assert w[..|cards|] == cards;
    assert w[|cards|..|cards| + 3] == "END";
    forall i | 0 <= i < p
      ensures s[i] == (cards + "END ")[i]
    {
      assert w[i] == (cards + "END ")[i] by {
        if i < |cards| {
          assert w[i] == w[..|cards|][i];
        } else if i < |cards| + 3 {
          assert w[i] == w[|cards|..|cards| + 3][i - |cards|];
        }
      }
      assert s[i] as int == f[i] == (w[i] as int) % 256;
    }
  }

  /**
   * A header of cards without "END", followed by END and spaces, ends for the reader right after
   * the END card's first space, whatever data follows.
   */
  lemma {:induction false} WrittenHeaderEnd(cards: string, data: seq<int>)
    requires |cards| > 0 && cards[|cards| - 1] == ' '
    requires NoEnd(cards) && Latin1(cards) && Bytes(data)
    ensures var f := TextBytes(FinalPadding(cards)) + data;
      Bytes(f) && HeaderEnd(Chars(f), 0) == |cards| + 4 && HeaderText(Chars(f)) == cards + "END "
  {
    WrittenHeaderChars(cards, data);
    var f := TextBytes(FinalPadding(cards)) + data;
    var s := Chars(f);
    var p := |cards| + 4;
    var t := s[..p];
    NoEndNoMark(cards);
    forall k | 0 <= k < p
      ensures !MarkAt(s, k)
    {
      if k <= |cards| {
        assert s[..k] == t[..k] == cards[..k];
        assert !MarkAt(cards, k);
      } else {
        assert s[..k][k - 1] == t[k - 1] != ' ';
      }
    }
    assert MarkAt(s, p) by {
      assert s[..p][p - 5..] == END_MARK;
    }
    HeaderEndAt(s, p);
  }

  /* ---------------------------------------------------------------- the saver's cards */

  function Pow10(k: nat): (r: nat)
    ensures r >= 1
  {
    if k == 0 then 1 else 10 * Pow10(k - 1)
  }

  lemma {:induction false} NatToStringLength(n: nat, k: nat)
    requires 1 <= k && n < Pow10(k)
    ensures |NatToString(n)| <= k
    decreases k
  {
    if n >= 10 {
      assert Pow10(k) == 10 * Pow10(k - 1);
      assert 1 <= n / 10 < Pow10(k - 1);
      assert k - 1 >= 1;
      NatToStringLength(n / 10, k - 1);
    }
  }

  /** Digits with sign characters, ending in a digit, hold no "END", fit in a byte each and survive stripping. */
  lemma {:induction false} SignedDigitsPlain(t: string)
    requires |t| > 0 && IsDigit(t[|t| - 1])
    requires forall j :: 0 <= j < |t| ==> IsDigit(t[j]) || t[j] == '-'
    ensures NoEnd(t) && Latin1(t) && (forall j :: 0 <= j < |t| ==> t[j] != '/')
    ensures Strip(t, VALUE_STRIP) == t
  {
    StripNoop(t, VALUE_STRIP);
  }

  /** What `std::to_string` writes for an `int`: at most 11 characters, digits and a sign, unchanged by stripping. */
  lemma {:induction false} IntTextPlain(i: int)
    requires INT_MIN <= i <= INT_MAX
    ensures var t := IntToString(i);
      && |t| <= 11 && NoEnd(t) && Latin1(t) && (forall j :: 0 <= j < |t| ==> t[j] != '/')
      && Strip(t, VALUE_STRIP) == t
  {
    var n: nat := if i < 0 then -i else i;
    assert Pow10(10) == 10000000000;
    NatToStringLength(n, 10);
    var t := IntToString(i);
    var d := NatToString(n);
    assert t == if i < 0 then "-" + d else d;
    assert forall j :: 0 <= j < |t| ==> IsDigit(t[j]) || t[j] == '-' by {
      if i < 0 {
        assert forall j :: 1 <= j < |t| ==> t[j] == d[j - 1];
      }
    }
    assert t[|t| - 1] == d[|d| - 1];
    SignedDigitsPlain(t);
  }

  /** A value text the saver writes and the reader reads back. */
  predicate ValueText(t: string)
  {
    |t| <= VALUE_LENGTH - 2 && NoEnd(t) && Latin1(t) && forall j :: 0 <= j < |t| ==> t[j] != '/'
  }

  /** The texts of the metadata are readable values and the gain is an `int`. */
  predicate MetadataReadable(md: Metadata)
  {
    && ValueText(md.bayerMatrix) && ValueText(md.cameraModel) && ValueText(md.exposureText) && ValueText(md.dateText)
    && (md.focalLengthText.Some? ==> ValueText(md.focalLengthText.value))
    && (md.apertureText.Some? ==> ValueText(md.apertureText.value))
    && INT_MIN <= md.iso <= INT_MAX
    && StoFConverts(Strip(md.exposureText, VALUE_STRIP))
    && (md.focalLengthText.Some? ==> StoFConverts(Strip(md.focalLengthText.value, VALUE_STRIP)))
    && (md.apertureText.Some? ==> StoFConverts(Strip(md.apertureText.value, VALUE_STRIP)))
  }

  /**
   * A saver as `NewSaver` and `SetBitsPerPixel` leave it, for an image whose pixel count is an
   * `int`, with metadata the reader can read back.
   */
  predicate SaverReadable(s: Saver)
  {
    && ((s.bitsPerPixel == 8 && s.bZero == 128) || (s.bitsPerPixel == 16 && s.bZero == 32768))
    && 0 < s.width <= INT_MAX && 0 < s.height <= INT_MAX && s.width * s.height <= INT_MAX
    && (s.metadata.Some? ==> MetadataReadable(s.metadata.value))
  }

  const METADATA_KEYS: set<string> := {"EXPOSURE", "EXPTIME", "GAIN", "DATE-OBS", "FOCALLEN", "APERTURE"}

  lemma {:induction false} EntriesParts(s: Saver)
    ensures Entries(s) == FixedEntries(s) + CameraEntries(s) + MetadataEntries(s.metadata)
  {
  }

  predicate KeyText(k: string)
  {
    0 < |k| <= KEY_LENGTH && NoEnd(k) && Latin1(k) && forall j :: 0 <= j < |k| ==> k[j] != ' ' && k[j] != '='
  }

  predicate CommentText(c: string)
  {
    |c| <= COMMENT_LENGTH - 2 && NoEnd(c) && Latin1(c) && forall j :: 0 <= j < |c| ==> c[j] != '='
  }

  /** An ASCII character other than '=' and the letter `banned`. */
  predicate PlainChar(ch: char, banned: char)
  {
    ch as int < 128 && ch != '=' && ch != banned
  }

  /** ASCII characters without '=', lacking one of the letters of "END", hold no "END". */
  lemma {:induction false} PlainNoEnd(c: string, banned: char)
    requires banned == 'E' || banned == 'N' || banned == 'D'
    requires forall j :: 0 <= j < |c| ==> PlainChar(c[j], banned)
    ensures NoEnd(c) && Latin1(c) && forall j :: 0 <= j < |c| ==> c[j] != '='
  {
    forall j | 0 <= j && j + 2 < |c|
      ensures !(c[j] == 'E' && c[j + 1] == 'N' && c[j + 2] == 'D')
    {
      assert PlainChar(c[j], banned) && PlainChar(c[j + 1], banned) && PlainChar(c[j + 2], banned);
    }
  }

  /** A short such text is a comment the reader keeps. */
  lemma {:induction false} PlainComment(c: string, banned: char)
    requires banned == 'E' || banned == 'N' || banned == 'D'
    requires |c| <= COMMENT_LENGTH - 2 && forall j :: 0 <= j < |c| ==> PlainChar(c[j], banned)
    ensures CommentText(c)
  {
    PlainNoEnd(c, banned);
  }

  /** A short such text without spaces is a key the reader keeps. */
  lemma {:induction false} PlainKey(k: string, banned: char)
    requires banned == 'E' || banned == 'N' || banned == 'D'
    requires 0 < |k| <= KEY_LENGTH && forall j :: 0 <= j < |k| ==> PlainChar(k[j], banned) && k[j] != ' '
    ensures KeyText(k)
  {
    PlainNoEnd(k, banned);
  }

  lemma {:induction false} EntryReadable(e: Entry)
    requires KeyText(e.key) && ValueText(e.value) && CommentText(e.comment)
    ensures Readable(e)
  {
  }

  lemma {:induction false} AxisKeys()
    ensures KeyText("SIMPLE") && KeyText("BITPIX") && KeyText("NAXIS")
  {
  }

  lemma {:induction false} SizeKeys()
    ensures KeyText("NAXIS1") && KeyText("NAXIS2")
  {
  }

  lemma {:induction false} ScalingKeys()
    ensures KeyText("BZERO") && KeyText("BSCALE") && KeyText("BAYERPAT") && KeyText("INSTRUME")
  {
    PlainKey("BZERO", 'N');
    PlainKey("BSCALE", 'N');
    PlainKey("BAYERPAT", 'N');
    PlainKey("INSTRUME", 'D');
  }

  lemma {:induction false} FixedValues()
    ensures ValueText("T") && ValueText("2") && ValueText("1") && ValueText("'RGGB'")
  {
  }

  lemma {:induction false} AxisComments()
    ensures CommentText("Standard FITS format") && CommentText("Bits per pixel") && CommentText("Number of axes")
  {
    PlainComment("Standard FITS format", 'N');
    PlainComment("Bits per pixel", 'N');
    PlainComment("Number of axes", 'E');
  }

  lemma {:induction false} SizeComments()
    ensures CommentText("Width of image") && CommentText("Height of image") && CommentText("Zero level")
  {
    PlainComment("Width of image", 'N');
    PlainComment("Height of image", 'N');
    PlainComment("Zero level", 'N');
  }

  lemma {:induction false} PatternComments()
    ensures CommentText("default scaling factor") && CommentText("Bayer pattern") && CommentText("Camera model")
  {
    PlainComment("default scaling factor", 'N');
    PlainComment("Bayer pattern", 'N');
    PlainComment("Camera model", 'N');
  }

  lemma {:induction false} MetadataKeys()
    ensures KeyText("EXPOSURE") && KeyText("EXPTIME") && KeyText("GAIN")
    ensures KeyText("DATE-OBS") && KeyText("FOCALLEN") && KeyText("APERTURE")
  {
    PlainKey("EXPOSURE", 'N');
    PlainKey("EXPTIME", 'N');
    PlainKey("GAIN", 'E');
    PlainKey("DATE-OBS", 'N');
    PlainKey("FOCALLEN", 'D');
    PlainKey("APERTURE", 'N');
  }

  lemma {:induction false} ExposureComments()
    ensures CommentText("Exposure time in seconds") && CommentText("Gain (ISO) value")
  {
    PlainComment("Exposure time in seconds", 'N');
    PlainComment("Gain (ISO) value", 'N');
  }

  lemma {:induction false} OpticsComments()
    ensures CommentText("Image exposure start time") && CommentText("Focal length in mm") && CommentText("Aperture in mm")
  {
    PlainComment("Image exposure start time", 'N');
    PlainComment("Focal length in mm", 'N');
    PlainComment("Aperture in mm", 'N');
  }

  /** The metadata cards of `m`, spelled out. */
  lemma {:induction false} MetadataParts(md: Metadata)
    ensures MetadataEntries(Some(md)) ==
      [Entry("EXPOSURE", md.exposureText, "Exposure time in seconds"),
       Entry("EXPTIME", md.exposureText, "Exposure time in seconds"),
       Entry("GAIN", IntToString(md.iso), "Gain (ISO) value"),
       Entry("DATE-OBS", md.dateText, "Image exposure start time")]
      + (if md.focalLengthText.Some? then [Entry("FOCALLEN", md.focalLengthText.value, "Focal length in mm")] else [])
      + (if md.apertureText.Some? then [Entry("APERTURE", md.apertureText.value, "Aperture in mm")] else [])
  {
  }

  /** The metadata cards carry metadata keys only, and only dates, focal lengths and apertures follow the gain. */
  lemma {:induction false} MetadataEntryKeys(m: Option<Metadata>)
    ensures forall i :: 0 <= i < |MetadataEntries(m)| ==> MetadataEntries(m)[i].key in METADATA_KEYS
    ensures m.Some? ==> |MetadataEntries(m)| >= 4 && MetadataEntries(m)[2] == Entry("GAIN", IntToString(m.value.iso), "Gain (ISO) value")
    ensures forall i :: 2 < i < |MetadataEntries(m)| ==> MetadataEntries(m)[i].key != "GAIN"
  {
    if m.Some? {
      MetadataParts(m.value);
    }
  }

  /** The metadata cards are readable. */
  lemma {:induction false} MetadataEntriesPlain(m: Option<Metadata>)
    requires m.Some? ==> MetadataReadable(m.value)
    ensures forall i :: 0 <= i < |MetadataEntries(m)| ==> Readable(MetadataEntries(m)[i])
  {
    if m.Some? {
      var md := m.value;
      MetadataParts(md);
      IntTextPlain(md.iso);
      var es := MetadataEntries(m);
      MetadataKeys();
      ExposureComments();
      OpticsComments();
      EntryReadable(es[0]);
      EntryReadable(es[1]);
      EntryReadable(es[2]);
      EntryReadable(es[3]);
      if |es| > 4 {
        EntryReadable(es[4]);
      }
      if |es| > 5 {
        EntryReadable(es[5]);
      }
    }
  }

  lemma {:induction false} IntEntryReadable(key: string, i: int, comment: string)
    requires KeyText(key) && CommentText(comment) && INT_MIN <= i <= INT_MAX
    ensures Readable(Entry(key, IntToString(i), comment))
  {
    IntTextPlain(i);
    EntryReadable(Entry(key, IntToString(i), comment));
  }

  lemma {:induction false} AxisEntriesPlain(s: Saver)
    requires SaverReadable(s)
    ensures Readable(FixedEntries(s)[0]) && Readable(FixedEntries(s)[1]) && Readable(FixedEntries(s)[2])
  {
    var f := FixedEntries(s);
    AxisKeys();
    AxisComments();
    FixedValues();
    EntryReadable(f[0]);
    IntEntryReadable("BITPIX", s.bitsPerPixel, "Bits per pixel");
    EntryReadable(f[2]);
  }

  lemma {:induction false} SizeEntriesPlain(s: Saver)
    requires SaverReadable(s)
    ensures Readable(FixedEntries(s)[3]) && Readable(FixedEntries(s)[4]) && Readable(FixedEntries(s)[5])
  {
    SizeKeys();
    ScalingKeys();
    SizeComments();
    IntEntryReadable("NAXIS1", s.width, "Width of image");
    IntEntryReadable("NAXIS2", s.height, "Height of image");
    IntEntryReadable("BZERO", s.bZero, "Zero level");
  }

  lemma {:induction false} PatternEntriesPlain(s: Saver)
    requires SaverReadable(s)
    ensures Readable(FixedEntries(s)[6]) && Readable(FixedEntries(s)[7])
  {
    var f := FixedEntries(s);
    ScalingKeys();
    PatternComments();
    FixedValues();
    EntryReadable(f[6]);
    EntryReadable(f[7]);
  }

  /** The eight fixed cards are readable. */
  lemma {:induction false} FixedEntriesPlain(s: Saver)
    requires SaverReadable(s)
    ensures forall i :: 0 <= i < 8 ==> Readable(FixedEntries(s)[i])
  {
    AxisEntriesPlain(s);
    SizeEntriesPlain(s);
    PatternEntriesPlain(s);
  }

  /** Three lists of readable cards joined are readable. */
  lemma {:induction false} ReadableJoin(f: seq<Entry>, c: seq<Entry>, m: seq<Entry>)
    requires forall i :: 0 <= i < |f| ==> Readable(f[i])
    requires forall i :: 0 <= i < |c| ==> Readable(c[i])
    requires forall i :: 0 <= i < |m| ==> Readable(m[i])
    ensures forall i :: 0 <= i < |f + c + m| ==> Readable((f + c + m)[i])
  {
    forall i | 0 <= i < |f + c + m|
      ensures Readable((f + c + m)[i])
    {
      if i < |f| {
        assert (f + c + m)[i] == f[i];
      } else if i < |f| + |c| {
        assert (f + c + m)[i] == c[i - |f|];
      } else {
        assert (f + c + m)[i] == m[i - |f| - |c|];
      }
    }
  }

  /** The camera card, when written, is readable. */
  lemma {:induction false} CameraEntriesPlain(s: Saver)
    requires SaverReadable(s)
    ensures forall i :: 0 <= i < |CameraEntries(s)| ==> Readable(CameraEntries(s)[i])
  {
    if CameraText(s) != "" {
      ScalingKeys();
      PatternComments();
      EntryReadable(CameraEntries(s)[0]);
    }
  }

  /** Every card the saver writes is readable. */
  lemma {:induction false} EntriesPlain(s: Saver)
    requires SaverReadable(s)
    ensures forall i :: 0 <= i < |Entries(s)| ==> Readable(Entries(s)[i])
  {
    var f, c, m := FixedEntries(s), CameraEntries(s), MetadataEntries(s.metadata);
    MetadataEntriesPlain(s.metadata);
    FixedEntriesPlain(s);
    CameraEntriesPlain(s);
    ReadableJoin(f, c, m);
    EntriesParts(s);
  }

  /** A header of readable cards, END and padding, then any data, parses to the cards' bindings. */
  lemma {:induction false} CardsBindings(es: seq<Entry>, data: seq<int>)
    requires |es| > 0 && forall i :: 0 <= i < |es| ==> Readable(es[i])
    requires Bytes(data)
    ensures Cards(es).Ok?
    ensures var f := TextBytes(FinalPadding(Cards(es).value)) + data;
      && Bytes(f) && HeaderEnd(Chars(f), 0) == CARD_LENGTH * |es| + 4
      && ParseHeader(HeaderText(Chars(f))) == Ok(Apply(map[], es))
  {
    CardsPlain(es);
    var cards := Cards(es).value;
    WrittenHeaderEnd(cards, data);
    var tail := "END ";
    assert forall i :: 0 <= i < |tail| ==> tail[i] != '=' by {
      assert tail == ['E', 'N', 'D', ' '];
    }
    ParseCards(es, tail);
  }

  /** The file the saver writes parses, for the reader, to the bindings of its cards. */
  lemma {:induction false} WrittenBindings(s: Saver, image: seq<int>)
    requires SaverReadable(s)
    ensures SaveBytes(s, image).Ok? && Bytes(SaveBytes(s, image).value)
    ensures var f := SaveBytes(s, image).value;
      && HeaderEnd(Chars(f), 0) == CARD_LENGTH * |Entries(s)| + 4
      && ParseHeader(HeaderText(Chars(f))) == Ok(Apply(map[], Entries(s)))
  {
    var es := Entries(s);
    var data := DataBlock(s, image);
    assert Cards(es).Ok? && HeaderString(s) == Ok(FinalPadding(Cards(es).value)) by {
      EntriesPlain(s);
      CardsBindings(es, data);
    }
    assert SaveBytes(s, image).value == TextBytes(FinalPadding(Cards(es).value)) + data;
    EntriesPlain(s);
    CardsBindings(es, data);
  }

  /* ---------------------------------------------------------------- the fields read back */

  /** The bindings the reader builds from the saver's cards. */
  function WrittenMap(s: Saver): map<string, string>
  {
    Apply(map[], Entries(s))
  }

  const FIXED_KEYS: seq<string> := ["SIMPLE", "BITPIX", "NAXIS", "NAXIS1", "NAXIS2", "BZERO", "BSCALE", "BAYERPAT"]

  const EXTRA_KEYS: set<string> := METADATA_KEYS + {"INSTRUME"}

  /** The fixed keys differ from each other, from the other keys written, and from ISO. */
  lemma {:induction false} KeysDistinct()
    ensures forall i, j :: 0 <= i < j < |FIXED_KEYS| ==> FIXED_KEYS[i] != FIXED_KEYS[j]
    ensures forall i :: 0 <= i < |FIXED_KEYS| ==> FIXED_KEYS[i] !in EXTRA_KEYS && FIXED_KEYS[i] != "ISO"
    ensures "ISO" !in EXTRA_KEYS && "GAIN" != "INSTRUME"
  {
  }

  /** The keys of the cards: the fixed ones first, then the camera's and the metadata's. */
  lemma {:induction false} EntryKeys(s: Saver)
    ensures forall i :: 0 <= i < 8 ==> Entries(s)[i] == FixedEntries(s)[i] && Entries(s)[i].key == FIXED_KEYS[i]
    ensures forall i :: 8 <= i < |Entries(s)| ==> Entries(s)[i].key in EXTRA_KEYS
  {
    EntriesParts(s);
    MetadataEntryKeys(s.metadata);
    var es, c, m := Entries(s), CameraEntries(s), MetadataEntries(s.metadata);
    forall i | 8 <= i < |es|
      ensures es[i].key in EXTRA_KEYS
    {
      if i < 8 + |c| {
        assert es[i] == c[i - 8];
      } else {
        assert es[i] == m[i - 8 - |c|];
      }
    }
  }

  /** A fixed card's value is bound, stripped, to its key: no later card repeats the key. */
  lemma {:induction false} FixedLookup(s: Saver, j: nat)
    requires j < 8
    ensures FIXED_KEYS[j] in WrittenMap(s)
    ensures WrittenMap(s)[FIXED_KEYS[j]] == Strip(FixedEntries(s)[j].value, VALUE_STRIP)
  {
    EntryKeys(s);
    KeysDistinct();
    ApplyLast(map[], Entries(s), j);
  }

  /** No card is keyed ISO, so the reader falls back to GAIN. */
  lemma {:induction false} IsoAbsent(s: Saver)
    ensures "ISO" !in WrittenMap(s)
  {
    EntryKeys(s);
    KeysDistinct();
    ApplyAbsent(map[], Entries(s), "ISO");
  }

  /** GAIN holds the gain, stripped, when there is metadata, and is missing otherwise. */
  lemma {:induction false} GainLookup(s: Saver)
    ensures s.metadata.Some? ==> "GAIN" in WrittenMap(s) && WrittenMap(s)["GAIN"] == Strip(IntToString(s.metadata.value.iso), VALUE_STRIP)
    ensures s.metadata.None? ==> "GAIN" !in WrittenMap(s)
  {
    var es := Entries(s);
    EntriesParts(s);
    EntryKeys(s);
    KeysDistinct();
    MetadataEntryKeys(s.metadata);
    var c, m := CameraEntries(s), MetadataEntries(s.metadata);
    if s.metadata.Some? {
      var j := 8 + |c| + 2;
      assert es[j] == m[2];
      forall i | j < i < |es|
        ensures es[i].key != es[j].key
      {
        assert es[i] == m[i - 8 - |c|];
      }
      ApplyLast(map[], es, j);
    } else {
      assert |es| == 8;
      ApplyAbsent(map[], es, "GAIN");
    }
  }

  /** INSTRUME holds the stripped camera model when there is one, and is missing otherwise. */
  lemma {:induction false} CameraLookup(s: Saver)
    ensures Get(WrittenMap(s), "INSTRUME", "") == Strip(CameraText(s), VALUE_STRIP)
  {
    var es := Entries(s);
    EntriesParts(s);
    EntryKeys(s);
    KeysDistinct();
    MetadataEntryKeys(s.metadata);
    var c, m := CameraEntries(s), MetadataEntries(s.metadata);
    if CameraText(s) != "" {
      assert es[8] == c[0];
      forall i | 8 < i < |es|
        ensures es[i].key != es[8].key
      {
        assert es[i] == m[i - 9];
      }
      ApplyLast(map[], es, 8);
    } else {
      forall i | 8 <= i < |es|
        ensures es[i].key != "INSTRUME"
      {
        assert es[i] == m[i - 8];
      }
      ApplyAbsent(map[], es, "INSTRUME");
      assert Strip("", VALUE_STRIP) == "";
    }
  }

  /** The text the saver writes under a floating-point key, if it writes one. */
  function FloatText(m: Option<Metadata>, key: string): Option<string>
  {
    if m.None? then None
    else if key == "EXPTIME" then Some(m.value.exposureText)
    else if key == "FOCALLEN" then m.value.focalLengthText
    else if key == "APERTURE" then m.value.apertureText
    else None
  }

  /** The metadata cards by position: exposure twice, gain, date, then focal length and aperture when given. */
  lemma {:induction false} MetadataLayout(md: Metadata)
    ensures var es := MetadataEntries(Some(md));
      && |es| == 4 + (if md.focalLengthText.Some? then 1 else 0) + (if md.apertureText.Some? then 1 else 0)
      && es[0].key == "EXPOSURE" && es[1] == Entry("EXPTIME", md.exposureText, "Exposure time in seconds")
      && es[2].key == "GAIN" && es[3].key == "DATE-OBS"
      && (md.focalLengthText.Some? ==> es[4] == Entry("FOCALLEN", md.focalLengthText.value, "Focal length in mm"))
      && (md.apertureText.Some? ==> es[|es| - 1] == Entry("APERTURE", md.apertureText.value, "Aperture in mm"))
      && (md.focalLengthText.None? && |es| > 4 ==> es[4].key == "APERTURE")
  {
    MetadataParts(md);
  }

  /** Where among the metadata cards a floating-point key is last written, if at all. */
  lemma {:induction false} MetadataFloatEntry(m: Option<Metadata>, key: string) returns (j: nat)
    requires key in {"EXPTIME", "FOCALLEN", "APERTURE", "CCD-TEMP"}
    ensures FloatText(m, key).Some? ==>
              && j < |MetadataEntries(m)| && MetadataEntries(m)[j].key == key
              && MetadataEntries(m)[j].value == FloatText(m, key).value
              && forall i :: j < i < |MetadataEntries(m)| ==> MetadataEntries(m)[i].key != key
    ensures FloatText(m, key).None? ==> forall i :: 0 <= i < |MetadataEntries(m)| ==> MetadataEntries(m)[i].key != key
  {
    j := 0;
    if m.Some? {
      if key == "EXPTIME" {
        j := 1;
        KeyLastAt(m.value, key, j);
      } else if key == "FOCALLEN" {
        j := 4;
        if m.value.focalLengthText.Some? {
          KeyLastAt(m.value, key, j);
        } else {
          KeyMissing(m.value, key);
        }
      } else if key == "APERTURE" {
        j := |MetadataEntries(m)| - 1;
        if m.value.apertureText.Some? {
          KeyLastAt(m.value, key, j);
        } else {
          KeyMissing(m.value, key);
        }
      } else {
        KeyMissing(m.value, key);
      }
    }
  }

  /** The metadata card at `j` holds `key`, and no later card does. */
  predicate KeyLast(es: seq<Entry>, key: string, j: nat)
  {
    j < |es| && es[j].key == key && forall i :: j < i < |es| ==> es[i].key != key
  }

  /** Exposure time is the second card, focal length the fifth and the aperture the last, and each is written once. */
  lemma {:induction false} KeyLastAt(md: Metadata, key: string, j: nat)
    requires || (key == "EXPTIME" && j == 1)
             || (key == "FOCALLEN" && j == 4 && md.focalLengthText.Some?)
             || (key == "APERTURE" && md.apertureText.Some? && j == |MetadataEntries(Some(md))| - 1)
    ensures KeyLast(MetadataEntries(Some(md)), key, j)
    ensures MetadataEntries(Some(md))[j].value == FloatText(Some(md), key).value
  {
    MetadataParts(md);
  }

  /** A floating-point key the metadata does not carry appears on no metadata card. */
  lemma {:induction false} KeyMissing(md: Metadata, key: string)
    requires || key == "CCD-TEMP"
             || (key == "FOCALLEN" && md.focalLengthText.None?)
             || (key == "APERTURE" && md.apertureText.None?)
    ensures forall i :: 0 <= i < |MetadataEntries(Some(md))| ==> MetadataEntries(Some(md))[i].key != key
  {
    MetadataParts(md);
  }

  /** The cards after the fixed ones: the camera's, keyed INSTRUME, then the metadata's. */
  lemma {:induction false} LaterEntries(s: Saver)
    ensures |Entries(s)| == 8 + |CameraEntries(s)| + |MetadataEntries(s.metadata)|
    ensures forall i :: 8 <= i < 8 + |CameraEntries(s)| ==> Entries(s)[i].key == "INSTRUME"
    ensures forall i :: 8 + |CameraEntries(s)| <= i < |Entries(s)| ==>
              Entries(s)[i] == MetadataEntries(s.metadata)[i - 8 - |CameraEntries(s)|]
  {
    EntriesParts(s);
  }

  /** A floating-point key the saver writes is bound to its stripped text. */
  lemma {:induction false} FloatLookupPresent(s: Saver, key: string)
    requires key in {"EXPTIME", "FOCALLEN", "APERTURE", "CCD-TEMP"} && FloatText(s.metadata, key).Some?
    ensures key in WrittenMap(s) && WrittenMap(s)[key] == Strip(FloatText(s.metadata, key).value, VALUE_STRIP)
  {
    var es, c := Entries(s), CameraEntries(s);
    LaterEntries(s);
    var j := MetadataFloatEntry(s.metadata, key);
    var k := 8 + |c| + j;
    assert es[k] == MetadataEntries(s.metadata)[j];
    ApplyLast(map[], es, k);
  }

  /** A floating-point key the saver does not write is missing from the bindings. */
  lemma {:induction false} FloatLookupAbsent(s: Saver, key: string)
    requires key in {"EXPTIME", "FOCALLEN", "APERTURE", "CCD-TEMP"} && FloatText(s.metadata, key).None?
    ensures key !in WrittenMap(s)
  {
    var es, c, m := Entries(s), CameraEntries(s), MetadataEntries(s.metadata);
    EntryKeys(s);
    LaterEntries(s);
    FloatKeysNotFixed(key);
    var _ := MetadataFloatEntry(s.metadata, key);
    forall i | 0 <= i < |es|
      ensures es[i].key != key
    {
      if 8 + |c| <= i {
        assert es[i] == m[i - 8 - |c|];
      }
    }
    ApplyAbsent(map[], es, key);
  }

  /** No fixed card and no camera card carries a floating-point key. */
  lemma {:induction false} FloatKeysNotFixed(key: string)
    requires key in {"EXPTIME", "FOCALLEN", "APERTURE", "CCD-TEMP"}
    ensures forall i :: 0 <= i < |FIXED_KEYS| ==> FIXED_KEYS[i] != key
    ensures key != "INSTRUME"
  {
  }

  /** The reader's binding for a floating-point key: the stripped text written, or the default. */
  lemma {:induction false} FloatLookup(s: Saver, key: string, default: string)
    requires key in {"EXPTIME", "FOCALLEN", "APERTURE", "CCD-TEMP"}
    ensures Get(WrittenMap(s), key, default) ==
              if FloatText(s.metadata, key).Some? then Strip(FloatText(s.metadata, key).value, VALUE_STRIP) else default
  {
    if FloatText(s.metadata, key).Some? {
      FloatLookupPresent(s, key);
    } else {
      FloatLookupAbsent(s, key);
    }
  }

  /** The defaults the reader uses for missing floating-point fields convert. */
  lemma {:induction false} FloatDefaultsConvert()
    ensures StoFConverts("0") && StoFConverts("-300")
  {
    assert StripLeft("0", Whitespace) == "0";
    assert StripLeft("-300", Whitespace) == "-300";
  }

  /** Every floating-point field the reader converts is one the saver wrote readably, or missing. */
  lemma {:induction false} WrittenFloatFields(s: Saver)
    requires SaverReadable(s)
    ensures FloatFieldsConvert(WrittenMap(s))
  {
    FloatDefaultsConvert();
    WrittenFloatField(s, "EXPTIME", "0");
    WrittenFloatField(s, "APERTURE", "0");
    WrittenFloatField(s, "FOCALLEN", "0");
    WrittenFloatField(s, "CCD-TEMP", "-300");
  }

  /** One floating-point field the reader converts: written readably, or missing with a default that converts. */
  lemma {:induction false} WrittenFloatField(s: Saver, key: string, default: string)
    requires SaverReadable(s) && key in {"EXPTIME", "FOCALLEN", "APERTURE", "CCD-TEMP"} && StoFConverts(default)
    ensures StoFConverts(Get(WrittenMap(s), key, default))
  {
    FloatLookup(s, key, default);
  }

  /**
   * What the reader should recover from a file the saver wrote: the dimensions, bit depth and
   * zero point as set, the pattern written (RGGB when there was none), the gain when there is
   * metadata and 0 otherwise, and the camera model stripped of quotes and spaces.
   */
  function WrittenHeader(s: Saver): Result<FitsHeader>
  {
    var bayer :- ProcessBayer(Strip(BayerValue(s), VALUE_STRIP));
    Ok(FitsHeader(s.width, s.height, s.bitsPerPixel, bayer, s.bZero,
                  if s.metadata.Some? then s.metadata.value.iso else 0, Strip(CameraText(s), VALUE_STRIP), false))
  }

  /** The integer fields the saver writes are read back unchanged. */
  lemma {:induction false} WrittenIntFields(s: Saver)
    requires SaverReadable(s)
    ensures IntField(WrittenMap(s), "NAXIS1", "0") == Ok(s.width)
    ensures IntField(WrittenMap(s), "NAXIS2", "0") == Ok(s.height)
    ensures IntField(WrittenMap(s), "BITPIX", "16") == Ok(s.bitsPerPixel)
    ensures IntField(WrittenMap(s), "BZERO", "0") == Ok(s.bZero)
    ensures IsoOf(WrittenMap(s)) == Ok(if s.metadata.Some? then s.metadata.value.iso else 0)
  {
    WrittenFixedIntField(s, 3, "NAXIS1", "0", s.width);
    WrittenFixedIntField(s, 4, "NAXIS2", "0", s.height);
    WrittenFixedIntField(s, 1, "BITPIX", "16", s.bitsPerPixel);
    WrittenFixedIntField(s, 5, "BZERO", "0", s.bZero);
    WrittenIso(s);
  }

  /** One of the fixed integer cards is read back as the value it was written from. */
  lemma {:induction false} WrittenFixedIntField(s: Saver, i: nat, key: string, default: string, v: int)
    requires SaverReadable(s)
    requires (i == 3 && key == "NAXIS1" && v == s.width) || (i == 4 && key == "NAXIS2" && v == s.height)
          || (i == 1 && key == "BITPIX" && v == s.bitsPerPixel) || (i == 5 && key == "BZERO" && v == s.bZero)
    ensures IntField(WrittenMap(s), key, default) == Ok(v)
  {
    FixedLookup(s, i);
    WrittenIntField(WrittenMap(s), key, default, v);
  }

  /** The gain card, when there is metadata, is read back as the ISO; without it the ISO reads as 0. */
  lemma {:induction false} WrittenIso(s: Saver)
    requires SaverReadable(s)
    ensures IsoOf(WrittenMap(s)) == Ok(if s.metadata.Some? then s.metadata.value.iso else 0)
  {
    var m := WrittenMap(s);
    assert IntField(m, "ISO", "0") == Ok(0) by {
      IsoAbsent(s);
      MissingIntField(m, "ISO");
    }
    GainLookup(s);
    if s.metadata.Some? {
      WrittenIntField(m, "GAIN", "0", s.metadata.value.iso);
    } else {
      MissingIntField(m, "GAIN");
    }
  }

  /** A binding the saver wrote from an `int` is read back as that `int`. */
  lemma {:induction false} WrittenIntField(m: map<string, string>, key: string, default: string, v: int)
    requires INT_MIN <= v <= INT_MAX
    requires key in m && m[key] == Strip(IntToString(v), VALUE_STRIP)
    ensures IntField(m, key, default) == Ok(v)
  {
    IntTextPlain(v);
    StoIToString(v);
  }

  /** A missing integer field with default "0" reads as 0. */
  lemma {:induction false} MissingIntField(m: map<string, string>, key: string)
    requires key !in m
    ensures IntField(m, key, "0") == Ok(0)
  {
    assert IntToString(0) == "0";
    StoIToString(0);
  }

  /** The fields the reader takes from the saver's bindings. */
  lemma {:induction false} WrittenFields(s: Saver)
    requires SaverReadable(s)
    ensures FillMetadata(WrittenMap(s)) == WrittenHeader(s)
  {
    var m := WrittenMap(s);
    assert Get(m, "BAYERPAT", "") == Strip(BayerValue(s), VALUE_STRIP) by {
      FixedLookup(s, 7);
    }
    assert Get(m, "INSTRUME", "") == Strip(CameraText(s), VALUE_STRIP) by {
      CameraLookup(s);
    }
    WrittenIntFields(s);
    WrittenFloatFields(s);
    assert WrapU32(s.bZero) == s.bZero;
  }

  /** The header the reader takes from a file the saver wrote is the one the saver was given. */
  lemma {:induction false} HeaderRoundTrip(s: Saver, image: seq<int>)
    requires SaverReadable(s)
    ensures SaveBytes(s, image).Ok? && Bytes(SaveBytes(s, image).value)
    ensures ReadHeader(SaveBytes(s, image).value) == WrittenHeader(s)
  {
    WrittenBindings(s, image);
    WrittenFields(s);
  }

  /** A pattern given as four letters, quoted or not, is read back as their colour indices. */
  lemma {:induction false} WrittenPattern(s: Saver, p: string)
    requires |p| == 4 && forall i :: 0 <= i < 4 ==> IsColorLetter(ToUpperChar(p[i]))
    requires BayerValue(s) == p || BayerValue(s) == "'" + p + "'"
    ensures WrittenHeader(s).Ok? && WrittenHeader(s).value.bayer == PatternIndices(ToUpper(p))
  {
    assert p[0] !in VALUE_STRIP && p[3] !in VALUE_STRIP by {
      assert IsColorLetter(ToUpperChar(p[0])) && IsColorLetter(ToUpperChar(p[3]));
    }
    StripNoop(p, VALUE_STRIP);
    if BayerValue(s) != p {
      StripPadded("'", p, "'", VALUE_STRIP);
    }
    ProcessBayerPattern(p, p);
  }

  /** Without a pattern the saver writes a quoted RGGB, which is read back as red, green, green, blue. */
  lemma {:induction false} DefaultPattern(s: Saver)
    requires s.metadata.None? || s.metadata.value.bayerMatrix == ""
    ensures WrittenHeader(s).Ok? && WrittenHeader(s).value.bayer == [0, 1, 1, 2]
  {
    var p := ['R', 'G', 'G', 'B'];
    assert BayerValue(s) == "'" + p + "'";
    RggbIndices();
    WrittenPattern(s, p);
  }

  /** RGGB names red, green, green and blue. */
  lemma {:induction false} RggbIndices()
    ensures |['R', 'G', 'G', 'B']| == 4 && forall i :: 0 <= i < 4 ==> IsColorLetter(ToUpperChar(['R', 'G', 'G', 'B'][i]))
    ensures PatternIndices(ToUpper(['R', 'G', 'G', 'B'])) == [0, 1, 1, 2]
  {
    var u := ToUpper(['R', 'G', 'G', 'B']);
    assert u[0] == 'R' && u[1] == 'G' && u[2] == 'G' && u[3] == 'B';
  }

  /* ---------------------------------------------------------------- the data read back */

  /** What the reader makes of a pixel the saver wrote: its low byte at 8 bits, half its `unsigned short` value at 16. */
  function ReadBack(bitsPerPixel: int, v: int): int
  {
    if bitsPerPixel == 8 then v % 256 else WrapU16(v) / 2
  }

  function ReadBackImage(bitsPerPixel: int, image: seq<int>): (r: seq<int>)
    ensures |r| == |image| && forall i :: 0 <= i < |image| ==> r[i] == ReadBack(bitsPerPixel, image[i])
  {
    seq(|image|, i requires 0 <= i < |image| => ReadBack(bitsPerPixel, image[i]))
  }

  /** Two big-endian bytes of `v + 32768`, read back with the zero point added again and halved. */
  lemma {:induction false} Pixel16ReadBack(b0: int, b1: int, v: int)
    requires b0 * 256 + b1 == WrapU16(v + 32768)
    ensures WrapU16(b0 * 256 + b1 + 32768) / 2 == ReadBack(16, v)
  {
    WrapU16Add(v + 32768, 32768);
    DivModUnique(v + 65536, TWO_16, v / TWO_16 + 1, WrapU16(v));
  }

  /** The byte `v - 128` read back as a signed `char` with 128 added again. */
  lemma {:induction false} Pixel8ReadBack(v: int)
    ensures var b := (v - 128) % 256;
      ToInt16(WrapU16(SignedChar(b) + 128)) == ReadBack(8, v)
  {
    var b := (v - 128) % 256;
    var t := SignedChar(b) + 128;
    assert 0 <= t < 256;
    assert (t - v) % 256 == 0 by {
      DivModUnique(v - 128, 256, (v - 128) / 256, b);
      var k := if b >= 128 then (v - 128) / 256 + 1 else (v - 128) / 256;
      assert t - v == -k * 256;
    }
    DivModUnique(v, 256, (v - t) / 256, t);
    DivModUnique(t, TWO_16, 0, t);
  }

  /** Pixel `i` of the data block that follows a header `w` is read back from its own bytes. */
  lemma {:induction false} PixelReadBack(s: Saver, w: string, image: seq<int>, i: nat)
    requires (s.bitsPerPixel == 8 && s.bZero == 128) || (s.bitsPerPixel == 16 && s.bZero == 32768)
    requires i < |image|
    ensures var f := TextBytes(w) + DataBlock(s, image);
      && Bytes(f)
      && (s.bitsPerPixel == 16 ==> Pixel16(f, |w| + 2 * i, s.bZero) == ReadBack(16, image[i]))
      && (s.bitsPerPixel == 8 ==> Pixel8(f, |w| + i, s.bZero) == ReadBack(8, image[i]))
  {
    var d := DataBlock(s, image);
    var f := TextBytes(w) + d;
    var n := s.bitsPerPixel / 8;
    DataBlockPixel(s, image, i);
    var bytes := PixelBytes(s.bitsPerPixel, s.bZero, image[i]);
    assert d[n * i] == d[n * i..n * i + n][0] == bytes[0];
    assert ByteAt(f, |w| + n * i) == d[n * i];
    if n == 2 {
      assert d[n * i + 1] == d[n * i..n * i + n][1] == bytes[1];
      assert ByteAt(f, |w| + 2 * i + 1) == d[n * i + 1];
      Pixel16ReadBack(bytes[0], bytes[1], image[i]);
    } else {
      Pixel8ReadBack(image[i]);
    }
  }

  /** The data block that follows a header `w` is read back pixel by pixel from where it starts. */
  lemma {:induction false} DataReadBack(s: Saver, w: string, image: seq<int>, hd: FitsHeader)
    requires (s.bitsPerPixel == 8 && s.bZero == 128) || (s.bitsPerPixel == 16 && s.bZero == 32768)
    requires hd.bitDepth == s.bitsPerPixel && hd.zeroPoint == s.bZero
    requires hd.width * hd.height == |image| <= INT_MAX
    ensures var f := TextBytes(w) + DataBlock(s, image);
      Bytes(f) && ReadData(f, |w|, hd) == Ok(ReadBackImage(s.bitsPerPixel, image))
  {
    var f := TextBytes(w) + DataBlock(s, image);
    var r := ReadData(f, |w|, hd).value;
    forall i | 0 <= i < |image|
      ensures r[i] == ReadBackImage(s.bitsPerPixel, image)[i]
    {
      PixelReadBack(s, w, image, i);
    }
    assert r == ReadBackImage(s.bitsPerPixel, image);
  }

  /** The only multiple of 2880 in a window of 2880 positions starting at `p` is the block start. */
  lemma {:induction false} BlockStartUnique(p: nat, w: nat)
    requires w % BLOCK_LENGTH == 0 && p <= w < p + BLOCK_LENGTH
    ensures BlockStart(p) == w
  {
    var r := BlockStart(p);
    var a, b := r / BLOCK_LENGTH, w / BLOCK_LENGTH;
    assert r == a * BLOCK_LENGTH && w == b * BLOCK_LENGTH;
    assert (a - b) * BLOCK_LENGTH == r - w;
    MultipleBelowDivisor(a - b, BLOCK_LENGTH);
  }

  /** The header string ends in the 2880-byte block that holds its END card. */
  lemma {:induction false} HeaderStringLength(s: Saver)
    requires HeaderString(s).Ok?
    ensures var n := CARD_LENGTH * |Entries(s)|;
      n + 4 <= |HeaderString(s).value| < n + 3 + BLOCK_LENGTH
  {
    var es := Entries(s);
    var cards := Cards(es).value;
    assert HeaderString(s) == Ok(FinalPadding(cards));
    assert |cards| % CARD_LENGTH == 0 by {
      DivModUnique(|cards|, CARD_LENGTH, |es|, 0);
    }
  }

  /** The header of a written file is its 2880-byte-aligned header string, and the data start right after it. */
  lemma {:induction false} WrittenDataStart(s: Saver, image: seq<int>)
    requires SaverReadable(s)
    ensures SaveBytes(s, image).Ok? && Bytes(SaveBytes(s, image).value)
    ensures var f := SaveBytes(s, image).value;
      BlockStart(HeaderEnd(Chars(f), 0)) == |HeaderString(s).value|
  {
    WrittenBindings(s, image);
    var f := SaveBytes(s, image).value;
    var p := HeaderEnd(Chars(f), 0);
    HeaderStringLength(s);
    BlockStartUnique(p, |HeaderString(s).value|);
  }

  /**
   * A file the saver writes is read back, with the data taken from the 2880-byte boundary, as
   * the header the saver was given and each pixel's read-back value.
   */
  lemma {:induction false} SaveThenRead(s: Saver, image: seq<int>)
    requires SaverReadable(s) && |image| == s.width * s.height && WrittenHeader(s).Ok?
    ensures SaveBytes(s, image).Ok? && Bytes(SaveBytes(s, image).value)
    ensures ReadRawFile(SaveBytes(s, image).value) == Ok((WrittenHeader(s).value, ReadBackImage(s.bitsPerPixel, image)))
  {
    HeaderRoundTrip(s, image);
    WrittenDataStart(s, image);
    DataReadBack(s, HeaderString(s).value, image, WrittenHeader(s).value);
  }

  /* ---------------------------------------------------------------- the data start as written */

  lemma {:induction false} SkipSpacesOver(f: seq<int>, a: nat, b: nat)
    requires a <= b <= |f| && forall k :: a <= k < b ==> f[k] == 32
    ensures SkipSpaces(f, a) == SkipSpaces(f, b)
    decreases b - a
  {
    if a < b {
      SkipSpacesOver(f, a + 1, b);
    }
  }

  /**
   * Reading as written skips the header's padding spaces after " END " and then goes on over
   * any leading space bytes of the data.
   */
  lemma {:induction false} AsWrittenStart(s: Saver, image: seq<int>)
    requires SaverReadable(s)
    ensures SaveBytes(s, image).Ok? && Bytes(SaveBytes(s, image).value)
    ensures var f := SaveBytes(s, image).value;
      SkipSpaces(f, HeaderEnd(Chars(f), 0)) == SkipSpaces(f, |HeaderString(s).value|)
  {
    WrittenBindings(s, image);
    HeaderStringLength(s);
    var f := SaveBytes(s, image).value;
    var p := HeaderEnd(Chars(f), 0);
    var cards := Cards(Entries(s)).value;
    var w := HeaderString(s).value;
    assert w == FinalPadding(cards);
    forall k | p <= k < |w|
      ensures f[k] == 32
    {
      assert w[k] == ' ';
    }
    SkipSpacesOver(f, p, |w|);
  }

  /** When the first data byte is not a space, reading as written starts the data at the right place. */
  lemma {:induction false} AsWrittenAgrees(s: Saver, image: seq<int>)
    requires SaverReadable(s) && |image| == s.width * s.height
    requires |image| > 0 && PixelBytes(s.bitsPerPixel, s.bZero, image[0])[0] != 32
    ensures SaveBytes(s, image).Ok? && Bytes(SaveBytes(s, image).value)
    ensures ReadRawFileAsWritten(SaveBytes(s, image).value) == ReadRawFile(SaveBytes(s, image).value)
  {
    AsWrittenStart(s, image);
    WrittenDataStart(s, image);
    var f := SaveBytes(s, image).value;
    var w := HeaderString(s).value;
    assert f[|w|] != 32 by {
      DataBlockPixel(s, image, 0);
      assert f[|w|] == DataBlock(s, image)[0];
    }
    StartsAgree(f, |w|);
  }

  /** When the space skip and the block boundary land at the same place, both readers read the same. */
  lemma {:induction false} StartsAgree(f: seq<int>, start: nat)
    requires Bytes(f) && start < |f| && f[start] != 32
    requires SkipSpaces(f, HeaderEnd(Chars(f), 0)) == SkipSpaces(f, start)
    requires BlockStart(HeaderEnd(Chars(f), 0)) == start
    ensures ReadRawFileAsWritten(f) == ReadRawFile(f)
  {
    assert SkipSpaces(f, start) == start;
  }

  /** Pixel `i` of an 8-bit read that starts one byte late. */
  lemma {:induction false} ShiftedPixel8(s: Saver, w: string, image: seq<int>, i: nat)
    requires s.bitsPerPixel == 8 && s.bZero == 128 && i < |image|
    ensures var f := TextBytes(w) + DataBlock(s, image);
      && Bytes(f)
      && (i + 1 < |image| ==> Pixel8(f, |w| + 1 + i, 128) == ReadBack(8, image[i + 1]))
      && (i + 1 == |image| ==> Pixel8(f, |w| + 1 + i, 128) == 128)
  {
    var f := TextBytes(w) + DataBlock(s, image);
    if i + 1 < |image| {
      PixelReadBack(s, w, image, i + 1);
      assert |w| + 1 + i == |w| + (i + 1);
    } else {
      assert ByteAt(f, |w| + 1 + i) == 0;
    }
  }

  /**
   * Starting one byte late, an 8-bit read of the saved data sees every pixel one place early and
   * fills the last one from past the end of the file, where the byte is zero.
   */
  lemma {:induction false} ShiftedRead8(s: Saver, w: string, image: seq<int>, hd: FitsHeader)
    requires s.bitsPerPixel == 8 && s.bZero == 128
    requires hd.bitDepth == 8 && hd.zeroPoint == 128
    requires hd.width * hd.height == |image| <= INT_MAX && |image| > 0
    ensures var f := TextBytes(w) + DataBlock(s, image);
      Bytes(f) && ReadData(f, |w| + 1, hd) == Ok(ReadBackImage(8, image[1..]) + [128])
  {
    var f := TextBytes(w) + DataBlock(s, image);
    var r := ReadData(f, |w| + 1, hd).value;
    var e := ReadBackImage(8, image[1..]) + [128];
    forall i | 0 <= i < |image|
      ensures r[i] == e[i]
    {
      ShiftedPixel8(s, w, image, i);
    }
    assert r == e;
  }

  /** `read_raw_file` as written, put together from its header, its data start and its data. */
  lemma {:induction false} AsWrittenParts(file: seq<int>, hd: FitsHeader, start: nat, data: seq<int>)
    requires Bytes(file) && ReadHeader(file) == Ok(hd)
    requires SkipSpaces(file, HeaderEnd(Chars(file), 0)) == start && ReadData(file, start, hd) == Ok(data)
    ensures ReadRawFileAsWritten(file) == Ok((hd, data))
  {
  }

  /** With a space as the first data byte and not as the second, the as-written data start is one byte late. */
  lemma {:induction false} AsWrittenStartLate(s: Saver, image: seq<int>)
    requires SaverReadable(s) && s.bitsPerPixel == 8
    requires |image| > 0 && PixelBytes(8, s.bZero, image[0])[0] == 32
    requires |image| > 1 ==> PixelBytes(8, s.bZero, image[1])[0] != 32
    ensures SaveBytes(s, image).Ok? && Bytes(SaveBytes(s, image).value)
    ensures var f := SaveBytes(s, image).value;
      SkipSpaces(f, HeaderEnd(Chars(f), 0)) == |HeaderString(s).value| + 1
  {
    AsWrittenStart(s, image);
    var f := SaveBytes(s, image).value;
    var w := HeaderString(s).value;
    var d := DataBlock(s, image);
    assert f == TextBytes(w) + d;
    DataBlockPixel(s, image, 0);
    assert f[|w|] == d[0] == 32;
    if |image| > 1 {
      DataBlockPixel(s, image, 1);
      assert f[|w| + 1] == d[1] != 32;
    }
  }

  /**
   * When the first data byte of an 8-bit frame is a space and the second is not, reading as
   * written drops the first pixel, shifts the rest one place early and ends with the zero point.
   */
  lemma {:induction false} AsWrittenDropsFirstPixel(s: Saver, image: seq<int>)
    requires SaverReadable(s) && s.bitsPerPixel == 8
    requires |image| == s.width * s.height && WrittenHeader(s).Ok?
    requires |image| > 0 && PixelBytes(8, s.bZero, image[0])[0] == 32
    requires |image| > 1 ==> PixelBytes(8, s.bZero, image[1])[0] != 32
    ensures SaveBytes(s, image).Ok? && Bytes(SaveBytes(s, image).value)
    ensures ReadRawFileAsWritten(SaveBytes(s, image).value)
         == Ok((WrittenHeader(s).value, ReadBackImage(8, image[1..]) + [128]))
  {
    AsWrittenStartLate(s, image);
    HeaderRoundTrip(s, image);
    var w := HeaderString(s).value;
    var hd := WrittenHeader(s).value;
    ShiftedRead8(s, w, image, hd);
    var f := SaveBytes(s, image).value;
    assert f == TextBytes(w) + DataBlock(s, image);
    AsWrittenParts(f, hd, |w| + 1, ReadBackImage(8, image[1..]) + [128]);
  }

  /**
   * A 2x1 frame saved at 8 bits whose first pixel is 160: the saver writes the data bytes 32 and
   * 135, and reading as written takes the 32 for padding, so the pixels come back as 7 and 128
   * instead of 160 and 7.
   */
  lemma {:induction false} FirstPixelSpaceLost(s: Saver)
    requires s.width == 2 && s.height == 1 && s.bitsPerPixel == 8 && s.bZero == 128 && s.metadata.None?
    ensures WrittenHeader(s).Ok? && SaveBytes(s, [160, 7]).Ok? && Bytes(SaveBytes(s, [160, 7]).value)
    ensures ReadRawFile(SaveBytes(s, [160, 7]).value) == Ok((WrittenHeader(s).value, [160, 7]))
    ensures ReadRawFileAsWritten(SaveBytes(s, [160, 7]).value) == Ok((WrittenHeader(s).value, [7, 128]))
  {
    var image := [160, 7];
    assert SaverReadable(s);
    DefaultPattern(s);
    SaveThenRead(s, image);
    ExamplePixels();
    AsWrittenDropsFirstPixel(s, image);
  }

  /** The bytes and read-back values of the pixels 160 and 7 at 8 bits. */
  lemma {:induction false} ExamplePixels()
    ensures PixelBytes(8, 128, 160)[0] == 32 && PixelBytes(8, 128, 7)[0] == 135
    ensures ReadBackImage(8, [160, 7]) == [160, 7]
    ensures ReadBackImage(8, [160, 7][1..]) + [128] == [7, 128]
  {
    assert [160, 7][1..] == [7];
  }
}

=== FILE: FitsWriter.dfy ===
/**
 * The FITS writer: a header of 80-character cards "KEY     = value / comment", closed by END and
 * padded with spaces to a multiple of 2880 characters (sections 3.1 and 4.1 of the FITS Standard
 * 4.0), followed by the pixel data, shifted by BZERO and stored big-endian for 16 bits.
 */
module FitsWriter {
  import opened Wrappers
  import opened CInts
  import opened Text
  import opened LittleEndian
  import opened Sorting

  const CARD_LENGTH: nat := 80
  const BLOCK_LENGTH: nat := 2880
  const KEY_LENGTH: nat := 8
  const VALUE_LENGTH: nat := 22
  const COMMENT_LENGTH: nat := 48

  /**
   * The parts of the frame metadata the header uses. Floating-point values and the formatted
   * observation time come in as the text the C++ library would produce for them.
   */
  datatype Metadata = Metadata(bayerMatrix: string, cameraModel: string, exposureText: string, iso: int,
                               dateText: string, focalLengthText: Option<string>, apertureText: Option<string>)

  /** The saver's state: resolution, bits per pixel with its BZERO, and the optional metadata. */
  datatype Saver = Saver(width: int, height: int, bitsPerPixel: int, bZero: int, metadata: Option<Metadata>)

  /** The constructor: both dimensions must be positive; 16 bits with BZERO 32768 by default. */
  function NewSaver(width: int, height: int): (r: Result<Saver>)
    ensures r.Ok? <==> width > 0 && height > 0
    ensures r.Ok? ==> r.value.width == width && r.value.height == height && r.value.metadata.None?
    ensures r.Ok? ==> r.value.bitsPerPixel == 16 && r.value.bZero == 32768
  {
    if width <= 0 || height <= 0 then Err("Width and height must be positive integers.")
    else Ok(Saver(width, height, 16, 32768, None))
  }

  /** `set_bits_per_pixel`: 8 and 16 bits are accepted, with BZERO the middle of their unsigned range. */
  function SetBitsPerPixel(s: Saver, bits: int): (r: Result<Saver>)
    ensures r.Ok? <==> bits == 8 || bits == 16
    ensures r.Ok? ==> r.value.bitsPerPixel == bits && 2 * r.value.bZero == Pow256(bits / 8)
    ensures r.Ok? ==> r.value.(bitsPerPixel := s.bitsPerPixel, bZero := s.bZero) == s
  {
    if bits == 8 then Ok(s.(bitsPerPixel := 8, bZero := 128))
    else if bits == 16 then Ok(s.(bitsPerPixel := 16, bZero := 32768))
    else Err("Unsupported bits per pixel value.")
  }

  function Spaces(n: nat): (r: string)
    ensures |r| == n && forall i :: 0 <= i < n ==> r[i] == ' '
  {
    seq(n, _ => ' ')
  }

  /** `get_padded_key`: the key followed by spaces up to 8 characters; a longer key throws. */
  function PaddedKey(key: string): (r: Result<string>)
    ensures r.Ok? <==> |key| <= KEY_LENGTH
    ensures r.Ok? ==> |r.value| == KEY_LENGTH && r.value[..|key|] == key
    ensures r.Ok? ==> forall i :: |key| <= i < KEY_LENGTH ==> r.value[i] == ' '
  {
    if |key| > KEY_LENGTH then Err("Key is too long to be padded.")
    else Ok(key + Spaces(KEY_LENGTH - |key|))
  }

  /**
   * `get_padded_text`: the text between two spaces, then padded with spaces to `length` on the
   * left (values, right-aligned) or on the right (comments); a text longer than `length - 2` throws.
   */
  function PaddedText(text: string, length: nat, paddingOnLeft: bool): (r: Result<string>)
    requires length >= 2
    ensures r.Ok? <==> |text| <= length - 2
    ensures r.Ok? && paddingOnLeft ==> r.value == Spaces(length - |text| - 1) + text + " "
    ensures r.Ok? && !paddingOnLeft ==> r.value == " " + text + Spaces(length - |text| - 1)
  {
    if |text| > length - 2 then Err("Text is too long to be padded.")
    else
      var padded := " " + text + " ";
      if paddingOnLeft then Ok(Spaces(length - |padded|) + padded)
      else Ok(padded + Spaces(length - |padded|))
  }

  /** `get_header_line`: one card. */
  function HeaderLine(key: string, value: string, comment: string): (r: Result<string>)
    ensures r.Ok? <==> |key| <= KEY_LENGTH && |value| <= VALUE_LENGTH - 2 && |comment| <= COMMENT_LENGTH - 2
    ensures r.Ok? ==> |r.value| == CARD_LENGTH && r.value[8] == '=' && r.value[31] == '/'
    ensures r.Ok? ==> r.value == PaddedKey(key).value + "=" + PaddedText(value, VALUE_LENGTH, true).value
                                  + "/" + PaddedText(comment, COMMENT_LENGTH, false).value
  {
    var k :- PaddedKey(key);
    var v :- PaddedText(value, VALUE_LENGTH, true);
    var c :- PaddedText(comment, COMMENT_LENGTH, false);
    Ok(k + "=" + v + "/" + c)
  }

  /** A card's key, value and comment before padding. */
  datatype Entry = Entry(key: string, value: string, comment: string)

  predicate Fits(e: Entry)
  {
    |e.key| <= KEY_LENGTH && |e.value| <= VALUE_LENGTH - 2 && |e.comment| <= COMMENT_LENGTH - 2
  }

  /** The cards of `entries` one after another; the first entry that does not fit throws. */
  function Cards(entries: seq<Entry>): (r: Result<string>)
    ensures r.Ok? <==> forall i :: 0 <= i < |entries| ==> Fits(entries[i])
    ensures r.Ok? ==> |r.value| == CARD_LENGTH * |entries|
    ensures r.Ok? ==> forall i :: 0 <= i < |entries| ==>
      r.value[CARD_LENGTH * i..CARD_LENGTH * i + CARD_LENGTH] == Card(entries[i])
  {
    if |entries| == 0 then Ok("")
    else
      var first :- HeaderLine(entries[0].key, entries[0].value, entries[0].comment);
      var rest :- Cards(entries[1..]);
      var r := first + rest;
      assert forall i :: 1 <= i < |entries| ==>
        r[CARD_LENGTH * i..CARD_LENGTH * i + CARD_LENGTH] == rest[CARD_LENGTH * (i - 1)..CARD_LENGTH * (i - 1) + CARD_LENGTH];
      Ok(r)
  }

  /** The card of an entry that fits. */
  function Card(e: Entry): (c: string)
    requires Fits(e)
    ensures |c| == CARD_LENGTH
  {
    HeaderLine(e.key, e.value, e.comment).value
  }

  /** Where the key, `=`, value, `/` and comment of a card sit. */
  lemma {:induction false} CardShape(e: Entry)
    requires Fits(e)
    ensures var c := Card(e);
      && c[..|e.key|] == e.key
      && (forall j :: |e.key| <= j < KEY_LENGTH ==> c[j] == ' ')
      && c[8] == '=' && c[31] == '/'
      && c[9..31] == PaddedText(e.value, VALUE_LENGTH, true).value
      && c[32..80] == PaddedText(e.comment, COMMENT_LENGTH, false).value
  {
    var k := PaddedKey(e.key).value;
    var v := PaddedText(e.value, VALUE_LENGTH, true).value;
    var m := PaddedText(e.comment, COMMENT_LENGTH, false).value;
    var c := Card(e);
    assert c == k + "=" + v + "/" + m;
    assert c[..8] == k;
    assert c[9..31] == v;
    assert c[32..80] == m;
  }

  /**
   * The entries `get_header_string` writes, in order: the mandatory SIMPLE, BITPIX, NAXIS, NAXIS1
   * and NAXIS2 first (section 4.4.1.1 of the FITS Standard 4.0), then BZERO, BSCALE, BAYERPAT
   * (a quoted RGGB when there is no pattern), INSTRUME when a camera is known, and the metadata.
   */
  function Entries(s: Saver): (es: seq<Entry>)
    ensures |es| >= 8
    ensures es[0].key == "SIMPLE" && es[1].key == "BITPIX" && es[2].key == "NAXIS"
    ensures es[3].key == "NAXIS1" && es[4].key == "NAXIS2"
  {
    FixedEntries(s) + CameraEntries(s) + MetadataEntries(s.metadata)
  }

  /** The value of the BAYERPAT card: the pattern, or a quoted RGGB when there is none. */
  function BayerValue(s: Saver): string
  {
    var bayer := if s.metadata.Some? then s.metadata.value.bayerMatrix else "";
    if bayer != "" then bayer else "'RGGB'"
  }

  /** The camera model, empty when there is none. */
  function CameraText(s: Saver): string
  {
    if s.metadata.Some? then s.metadata.value.cameraModel else ""
  }

  /** The first eight cards, always written. */
  function FixedEntries(s: Saver): seq<Entry>
  {
    [Entry("SIMPLE", "T", "Standard FITS format"),
     Entry("BITPIX", IntToString(s.bitsPerPixel), "Bits per pixel"),
     Entry("NAXIS", "2", "Number of axes"),
     Entry("NAXIS1", IntToString(s.width), "Width of image"),
     Entry("NAXIS2", IntToString(s.height), "Height of image"),
     Entry("BZERO", IntToString(s.bZero), "Zero level"),
     Entry("BSCALE", "1", "default scaling factor"),
     Entry("BAYERPAT", BayerValue(s), "Bayer pattern")]
  }

  /** INSTRUME, when a camera is known. */
  function CameraEntries(s: Saver): (es: seq<Entry>)
    ensures |es| <= 1 && (|es| == 1 <==> s.metadata.Some? && s.metadata.value.cameraModel != "")
    ensures forall i :: 0 <= i < |es| ==> es[i] == Entry("INSTRUME", s.metadata.value.cameraModel, "Camera model")
  {
    if CameraText(s) != "" then [Entry("INSTRUME", CameraText(s), "Camera model")] else []
  }

  /** `get_metadata_header_string`: exposure (twice), gain, date, and focal length and aperture when positive. */
  function MetadataEntries(m: Option<Metadata>): (es: seq<Entry>)
    ensures m.None? <==> es == []
    ensures m.Some? ==>
      var md := m.value;
      && |es| == 4 + (if md.focalLengthText.Some? then 1 else 0) + (if md.apertureText.Some? then 1 else 0)
      && es[0].key == "EXPOSURE" && es[1].key == "EXPTIME" && es[0].value == es[1].value == md.exposureText
      && es[2].key == "GAIN" && es[2].value == IntToString(md.iso)
      && es[3].key == "DATE-OBS" && es[3].value == md.dateText
      && (md.focalLengthText.Some? ==> es[4].key == "FOCALLEN" && es[4].value == md.focalLengthText.value)
      && (md.apertureText.Some? ==> es[|es| - 1].key == "APERTURE" && es[|es| - 1].value == md.apertureText.value)
  {
    match m
    case None => []
    case Some(md) =>
      [Entry("EXPOSURE", md.exposureText, "Exposure time in seconds"),
       Entry("EXPTIME", md.exposureText, "Exposure time in seconds"),
       Entry("GAIN", IntToString(md.iso), "Gain (ISO) value"),
       Entry("DATE-OBS", md.dateText, "Image exposure start time")]
      + (if md.focalLengthText.Some? then [Entry("FOCALLEN", md.focalLengthText.value, "Focal length in mm")] else [])
      + (if md.apertureText.Some? then [Entry("APERTURE", md.apertureText.value, "Aperture in mm")] else [])
  }

  /**
   * `add_final_header_padding`: "END" and then spaces up to the next multiple of 2880. When the
   * cards fill whole 80-character cards, END starts a card and the padding is the shortest possible.
   */
  function FinalPadding(h: string): (r: string)
    ensures |r| % BLOCK_LENGTH == 0 && |h| + 3 <= |r|
    ensures r[..|h|] == h && r[|h|..|h| + 3] == "END"
    ensures forall i :: |h| + 3 <= i < |r| ==> r[i] == ' '
    ensures |h| % CARD_LENGTH == 0 ==> |h| + 4 <= |r| < |h| + 3 + BLOCK_LENGTH
  {
    var withEnd := h + "END";
    var padding := BLOCK_LENGTH - |withEnd| % BLOCK_LENGTH;
    var r := withEnd + Spaces(padding);
    assert |r| == |withEnd| - |withEnd| % BLOCK_LENGTH + BLOCK_LENGTH;
    assert |h| % CARD_LENGTH == 0 ==> |withEnd| % BLOCK_LENGTH != 0;
    r
  }

  /** `get_header_string`: the cards and the final padding; a value, key or comment too long throws. */
  function HeaderString(s: Saver): (r: Result<string>)
    ensures r.Ok? <==> forall i :: 0 <= i < |Entries(s)| ==> Fits(Entries(s)[i])
    ensures r.Ok? ==> |r.value| % BLOCK_LENGTH == 0
    ensures r.Ok? ==> Cards(Entries(s)).Ok? && CARD_LENGTH * |Entries(s)| <= |r.value|
    ensures r.Ok? ==> r.value[..CARD_LENGTH * |Entries(s)|] == Cards(Entries(s)).value
  {
    var cards :- Cards(Entries(s));
    Ok(FinalPadding(cards))
  }

  /**
   * `dump_image_into_data_block` for one pixel: 8 bits store `(v - BZERO)` as a `char`, 16 bits
   * store `(v + BZERO)` as an `unsigned short` with its bytes swapped, i.e. big-endian.
   */
  function PixelBytes(bitsPerPixel: int, bZero: int, v: int): (r: seq<int>)
    requires bitsPerPixel == 8 || bitsPerPixel == 16
    ensures |r| == bitsPerPixel / 8 && Bytes(r)
    ensures bitsPerPixel == 8 ==> r == [(v - bZero) % 256]
    ensures bitsPerPixel == 16 ==> r[0] * 256 + r[1] == WrapU16(v + bZero)
  {
    if bitsPerPixel == 8 then [(v - bZero) % 256]
    else
      var shifted := WrapU16(v + bZero);
      [shifted / 256, shifted % 256]
  }

  /** The bytes of each pixel, in image order. */
  function PixelParts(s: Saver, image: seq<int>): (parts: seq<seq<int>>)
    requires s.bitsPerPixel == 8 || s.bitsPerPixel == 16
    ensures |parts| == |image|
    ensures forall i :: 0 <= i < |image| ==> parts[i] == PixelBytes(s.bitsPerPixel, s.bZero, image[i])
  {
    seq(|image|, i requires 0 <= i < |image| => PixelBytes(s.bitsPerPixel, s.bZero, image[i]))
  }

  /** The data block: every pixel's bytes in order, `bitsPerPixel / 8` bytes per pixel. */
  function DataBlock(s: Saver, image: seq<int>): (r: seq<int>)
    requires s.bitsPerPixel == 8 || s.bitsPerPixel == 16
    ensures |r| == |image| * (s.bitsPerPixel / 8) && Bytes(r)
  {
    var parts := PixelParts(s, image);
    FlattenLength(parts, s.bitsPerPixel / 8);
    FlattenBytes(parts);
    Flatten(parts)
  }

  /** Pixel `i` of the image occupies bytes `n * i` to `n * i + n` of the data block. */
  lemma {:induction false} DataBlockPixel(s: Saver, image: seq<int>, i: nat)
    requires s.bitsPerPixel == 8 || s.bitsPerPixel == 16
    requires i < |image|
    ensures var n := s.bitsPerPixel / 8;
      n * i + n <= |DataBlock(s, image)| && DataBlock(s, image)[n * i..n * i + n] == PixelBytes(s.bitsPerPixel, s.bZero, image[i])
  {
    var n := s.bitsPerPixel / 8;
    var parts := PixelParts(s, image);
    FlattenChunk(parts, n, i);
    assert i * n == n * i;
  }

  /** `save`: the header's characters as bytes, then the data block. */
  function SaveBytes(s: Saver, image: seq<int>): (r: Result<seq<int>>)
    requires s.bitsPerPixel == 8 || s.bitsPerPixel == 16
    ensures r.Ok? <==> HeaderString(s).Ok?
    ensures r.Ok? ==> r.value == TextBytes(HeaderString(s).value) + DataBlock(s, image)
  {
    var header :- HeaderString(s);
    Ok(TextBytes(header) + DataBlock(s, image))
  }
}

=== FILE: GuiInputFile.dfy ===
/**
 * One input file as the GUI lists it (GUI/src/InputFile.cxx, GUI/headers/InputFile.h): the file's
 * path and, for each of its frames (one for a still image, one per video frame), whether it is
 * checked, its alignment information and its metadata. Frames are looked up by equality; the
 * first match answers queries, every match takes updates, and removal takes the first match only.
 *
 * The metadata record is a type parameter `M`: its fields are not part of this model. Whether the
 * path is a video and which frames it has, and the metadata read for a frame, are parameters of
 * the constructor. The per-frame display text (built with the rounding helpers) is left out.
 */
module GuiInputFile {
  import opened Wrappers
  import opened Text
  import opened InputFrames
  import opened Sorting

  /** `AlignmentFileInfo` without its local-shifts handler; all zero and not initialized by default. */
  datatype AlignmentInfo = AlignmentInfo(
    shiftX: real,
    shiftY: real,
    rotationCenterX: real,
    rotationCenterY: real,
    rotation: real,
    ranking: real,
    initialized: bool)

  const DefaultAlignment := AlignmentInfo(0.0, 0.0, 0.0, 0.0, 0.0, 0.0, false)

  /** `InputFrameInfoGUI` without its display text. */
  datatype FrameInfo<M> = FrameInfo(frame: InputFrame, checked: bool, alignment: AlignmentInfo, metadata: M)

  datatype File<M> = File(path: string, frames: seq<FrameInfo<M>>)

  /**
   * The constructor: for a video (`videoFrames` is `Some`), one frame per listed video frame;
   * otherwise the single still image at the path. Every frame starts unchecked, with default
   * alignment information and the metadata `metadataOf` reads for it.
   */
  function New<M>(path: string, videoFrames: Option<seq<InputFrame>>, metadataOf: InputFrame -> M): (t: File<M>)
    ensures GetFilePath(t) == path
    ensures videoFrames.Some? ==> GetFrames(t) == videoFrames.value
    ensures videoFrames.None? ==> GetFrames(t) == [StillImage(path)]
    ensures forall i :: 0 <= i < |t.frames| ==>
      !t.frames[i].checked && t.frames[i].alignment == DefaultAlignment
      && t.frames[i].metadata == metadataOf(t.frames[i].frame)
  {
    var fs := if videoFrames.Some? then videoFrames.value else [StillImage(path)];
    File(path, seq(|fs|, i requires 0 <= i < |fs| => FrameInfo(fs[i], false, DefaultAlignment, metadataOf(fs[i]))))
  }

  function GetFilePath<M>(t: File<M>): string
  {
    t.path
  }

  /** `get_gui_string`: the path and the number of frames. */
  function GuiString<M>(t: File<M>): string
  {
    t.path + " (" + NatToString(|t.frames|) + " frames)"
  }

  /** `get_frames`: the frames, in order. */
  function GetFrames<M>(t: File<M>): (r: seq<InputFrame>)
    ensures |r| == |t.frames| && forall i :: 0 <= i < |r| ==> r[i] == t.frames[i].frame
  {
    seq(|t.frames|, i requires 0 <= i < |t.frames| => t.frames[i].frame)
  }

  /** The checked frames of a frame list, in order. */
  function CheckedOf<M>(fs: seq<FrameInfo<M>>): (r: seq<InputFrame>)
    ensures |r| <= |fs|
    ensures forall f :: f in r <==> exists i :: 0 <= i < |fs| && fs[i].checked && fs[i].frame == f
  {
    if |fs| == 0 then []
    else
      var rest := CheckedOf(fs[1..]);
      assert forall i :: 1 <= i < |fs| ==> fs[1..][i - 1] == fs[i];
      if fs[0].checked then [fs[0].frame] + rest else rest
  }

  /** One frame on its own: listed once when checked, not at all otherwise. */
  lemma {:induction false} CheckedOfSingle<M>(x: FrameInfo<M>)
    ensures CheckedOf([x]) == if x.checked then [x.frame] else []
  {
    assert [x][1..] == [];
  }

  /**
   * The checked frames are the frames of the frame list filtered down to the checked entries, in
   * their order and with their repetitions, as the loop that pushes each checked frame builds them.
   */
  lemma {:induction false} CheckedIsFilter<M(!new)>(fs: seq<FrameInfo<M>>)
    ensures CheckedOf(fs) == GetFrames(File("", Filter(fs, (x: FrameInfo<M>) => x.checked)))
    decreases |fs|
  {
    var p := (x: FrameInfo<M>) => x.checked;
    if |fs| > 0 {
      CheckedIsFilter(fs[1..]);
      var kept := Filter(fs, p);
      assert kept == (if fs[0].checked then [fs[0]] else []) + Filter(fs[1..], p);
      var rest := GetFrames(File("", Filter(fs[1..], p)));
      assert GetFrames(File("", kept)) == (if fs[0].checked then [fs[0].frame] else []) + rest;
    }
  }

  /** `get_checked_frames`. */
  function GetCheckedFrames<M>(t: File<M>): (r: seq<InputFrame>)
    ensures forall f :: f in r <==> exists i :: 0 <= i < |t.frames| && t.frames[i].checked && t.frames[i].frame == f
  {
    CheckedOf(t.frames)
  }

  /** `has_multiple_frames`. */
  predicate HasMultipleFrames<M>(t: File<M>)
  {
    |t.frames| > 1
  }

  /** The position of the first frame equal to `f`, if any. */
  function FirstMatch<M>(fs: seq<FrameInfo<M>>, f: InputFrame): (r: Option<nat>)
    ensures r.Some? ==> r.value < |fs| && fs[r.value].frame == f
    ensures r.Some? ==> forall j :: 0 <= j < r.value ==> fs[j].frame != f
    ensures r.None? <==> forall j :: 0 <= j < |fs| ==> fs[j].frame != f
  {
    if |fs| == 0 then None
    else if fs[0].frame == f then Some(0)
    else
      var rest := FirstMatch(fs[1..], f);
      assert forall j :: 1 <= j < |fs| ==> fs[1..][j - 1] == fs[j];
      if rest.None? then None else Some(rest.value + 1)
  }

  /** `frame_is_checked`: the flag of the first equal frame; false for a frame the file does not have. */
  function FrameIsChecked<M>(t: File<M>, f: InputFrame): (r: bool)
    ensures (forall j :: 0 <= j < |t.frames| ==> t.frames[j].frame != f) ==> !r
    ensures r <==> exists i :: 0 <= i < |t.frames| && t.frames[i].frame == f && t.frames[i].checked
                              && forall j :: 0 <= j < i ==> t.frames[j].frame != f
  {
    var m := FirstMatch(t.frames, f);
    m.Some? && t.frames[m.value].checked
  }

  /** `set_frame_is_checked`: every frame equal to `f` gets the flag; nothing else changes. */
  function SetFrameIsChecked<M>(t: File<M>, f: InputFrame, c: bool): (r: File<M>)
    ensures r.path == t.path && |r.frames| == |t.frames|
    ensures forall i :: 0 <= i < |t.frames| ==>
      r.frames[i] == if t.frames[i].frame == f then t.frames[i].(checked := c) else t.frames[i]
  {
    t.(frames := seq(|t.frames|, i requires 0 <= i < |t.frames| =>
      if t.frames[i].frame == f then t.frames[i].(checked := c) else t.frames[i]))
  }

  /** `set_check_for_all_frames`. */
  function SetCheckForAll<M>(t: File<M>, c: bool): (r: File<M>)
    ensures r.path == t.path && |r.frames| == |t.frames|
    ensures forall i :: 0 <= i < |t.frames| ==> r.frames[i] == t.frames[i].(checked := c)
  {
    t.(frames := seq(|t.frames|, i requires 0 <= i < |t.frames| => t.frames[i].(checked := c)))
  }

  /** `remove_frame`: the first frame equal to `f` is removed, later equal ones stay; a frame the file does not have changes nothing. */
  function RemoveFrame<M>(t: File<M>, f: InputFrame): (r: File<M>)
    ensures r.path == t.path
    ensures FirstMatch(t.frames, f).None? ==> r == t
    ensures FirstMatch(t.frames, f).Some? ==>
      var i := FirstMatch(t.frames, f).value; r.frames == t.frames[..i] + t.frames[i + 1..]
  {
    var m := FirstMatch(t.frames, f);
    if m.None? then t else t.(frames := t.frames[..m.value] + t.frames[m.value + 1..])
  }

  /** `all_frames_are_aligned`. */
  predicate AllFramesAreAligned<M>(t: File<M>)
  {
    forall i :: 0 <= i < |t.frames| ==> t.frames[i].alignment.initialized
  }

  /** `set_alignment_info`: every frame equal to `f` gets the information; nothing else changes. */
  function SetAlignmentInfo<M>(t: File<M>, f: InputFrame, a: AlignmentInfo): (r: File<M>)
    ensures r.path == t.path && |r.frames| == |t.frames|
    ensures forall i :: 0 <= i < |t.frames| ==>
      r.frames[i] == if t.frames[i].frame == f then t.frames[i].(alignment := a) else t.frames[i]
  {
    t.(frames := seq(|t.frames|, i requires 0 <= i < |t.frames| =>
      if t.frames[i].frame == f then t.frames[i].(alignment := a) else t.frames[i]))
  }

  /** `get_alignment_info`: the first equal frame's information, or the default for a frame the file does not have. */
  function GetAlignmentInfo<M>(t: File<M>, f: InputFrame): (a: AlignmentInfo)
    ensures FirstMatch(t.frames, f).None? ==> a == DefaultAlignment
    ensures FirstMatch(t.frames, f).Some? ==> a == t.frames[FirstMatch(t.frames, f).value].alignment
  {
    var m := FirstMatch(t.frames, f);
    if m.None? then DefaultAlignment else t.frames[m.value].alignment
  }

  /** `get_metadata`: the first equal frame's metadata, or `defaultMetadata` (a default-constructed record). */
  function GetMetadata<M>(t: File<M>, f: InputFrame, defaultMetadata: M): (m: M)
    ensures FirstMatch(t.frames, f).None? ==> m == defaultMetadata
    ensures FirstMatch(t.frames, f).Some? ==> m == t.frames[FirstMatch(t.frames, f).value].metadata
  {
    var i := FirstMatch(t.frames, f);
    if i.None? then defaultMetadata else t.frames[i.value].metadata
  }

  // ---------------------------------------------------------------------------------------------
  // Properties across operations

  /** Setting a frame's flag makes `frame_is_checked` report it if the file has the frame; other frames report as before. */
  lemma {:induction false} SetThenFrameIsChecked<M>(t: File<M>, f: InputFrame, c: bool, g: InputFrame)
    ensures FrameIsChecked(SetFrameIsChecked(t, f, c), g)
         == if g == f && FirstMatch(t.frames, f).Some? then c else FrameIsChecked(t, g)
  {
    var r := SetFrameIsChecked(t, f, c);
    FirstMatchSameFrames(t.frames, r.frames, g);
  }

  /** Setting a frame's alignment information makes it read back if the file has the frame; other frames read as before. */
  lemma {:induction false} SetThenGetAlignmentInfo<M>(t: File<M>, f: InputFrame, a: AlignmentInfo, g: InputFrame)
    ensures GetAlignmentInfo(SetAlignmentInfo(t, f, a), g)
         == if g == f && FirstMatch(t.frames, f).Some? then a else GetAlignmentInfo(t, g)
  {
    var r := SetAlignmentInfo(t, f, a);
    FirstMatchSameFrames(t.frames, r.frames, g);
  }

  /** Two lists holding the same frames at the same positions find the same first match. */
  lemma {:induction false} FirstMatchSameFrames<M>(a: seq<FrameInfo<M>>, b: seq<FrameInfo<M>>, f: InputFrame)
    requires |a| == |b| && forall i :: 0 <= i < |a| ==> a[i].frame == b[i].frame
    ensures FirstMatch(a, f) == FirstMatch(b, f)
  {
    var ma, mb := FirstMatch(a, f), FirstMatch(b, f);
    if ma.Some? && mb.Some? {
      assert !(ma.value < mb.value) && !(mb.value < ma.value);
    }
  }

  /** After checking all frames, the checked frames are all the frames; after unchecking all, there are none. */
  lemma {:induction false} CheckAllThenChecked<M>(t: File<M>, c: bool)
    ensures GetCheckedFrames(SetCheckForAll(t, c)) == if c then GetFrames(t) else []
  {
    CheckedOfAll(SetCheckForAll(t, c).frames, c);
  }

  lemma {:induction false} CheckedOfAll<M>(fs: seq<FrameInfo<M>>, c: bool)
    requires forall i :: 0 <= i < |fs| ==> fs[i].checked == c
    ensures CheckedOf(fs) == if c then seq(|fs|, i requires 0 <= i < |fs| => fs[i].frame) else []
  {
    if |fs| > 0 {
      assert forall i :: 0 <= i < |fs| - 1 ==> fs[1..][i] == fs[i + 1];
      CheckedOfAll(fs[1..], c);
    }
  }

  /** The checked frames keep their order: a frame list split in two gives the checked frames of each part in turn. */
  lemma {:induction false} CheckedOfAppend<M>(a: seq<FrameInfo<M>>, b: seq<FrameInfo<M>>)
    ensures CheckedOf(a + b) == CheckedOf(a) + CheckedOf(b)
  {
    if |a| > 0 {
      assert (a + b)[1..] == a[1..] + b;
      CheckedOfAppend(a[1..], b);
    } else {
      assert a + b == b;
    }
  }

  /** Removing a frame removes exactly one occurrence of it from the frame list, and no other frame. */
  lemma {:induction false} RemoveFrameOnce<M>(t: File<M>, f: InputFrame)
    ensures FirstMatch(t.frames, f).Some? ==> multiset(GetFrames(RemoveFrame(t, f))) + multiset{f} == multiset(GetFrames(t))
    ensures FirstMatch(t.frames, f).None? ==> GetFrames(RemoveFrame(t, f)) == GetFrames(t)
  {
    var m := FirstMatch(t.frames, f);
    if m.Some? {
      var i := m.value;
      var all := GetFrames(t);
      var rest := GetFrames(RemoveFrame(t, f));
      assert all == all[..i] + [f] + all[i + 1..];
      assert rest == all[..i] + all[i + 1..];
    }
  }

  /** A new file has several frames exactly when it is a video of more than one frame. */
  lemma {:induction false} NewHasMultipleFrames<M>(path: string, videoFrames: Option<seq<InputFrame>>, metadataOf: InputFrame -> M)
    ensures HasMultipleFrames(New(path, videoFrames, metadataOf)) <==> videoFrames.Some? && |videoFrames.value| > 1
  {
    var t := New(path, videoFrames, metadataOf);
    assert |GetFrames(t)| == |t.frames|;
  }

  /** A new file has no checked frames and, unless it is an empty video, is not aligned. */
  lemma {:induction false} NewIsUncheckedAndUnaligned<M>(path: string, videoFrames: Option<seq<InputFrame>>, metadataOf: InputFrame -> M)
    ensures GetCheckedFrames(New(path, videoFrames, metadataOf)) == []
    ensures AllFramesAreAligned(New(path, videoFrames, metadataOf)) <==> videoFrames.Some? && videoFrames.value == []
  {
    var t := New(path, videoFrames, metadataOf);
    CheckedOfAll(t.frames, false);
    if |t.frames| > 0 {
      assert !t.frames[0].alignment.initialized;
    }
  }
}

=== FILE: Histogram.dfy ===
/**
 * The histogram helper behind the GUI's histogram view (GUI/src/HistogramDataTool.cxx): one
 * histogram per colour channel with a bin per brightness value 0..max_value, rebinning a
 * histogram to fewer or more bins, and the per-channel median brightness.
 *
 * Bin counts are pixel counts, never negative, so they are `nat` here; the `int` overflow of
 * very large totals is not modelled.
 */
module Histogram {
  import opened Wrappers
  import opened CInts

  datatype Histograms = Histograms(maxValue: int, colors: seq<seq<nat>>, luminance: seq<nat>)

  /** The constructor: `numberOfColors` histograms and a luminance histogram of `maxValue + 1` empty bins. */
  function NewHistograms(maxValue: int, numberOfColors: nat): (t: Histograms)
    requires maxValue >= -1
    ensures |t.colors| == numberOfColors && |t.luminance| == maxValue + 1
    ensures forall c :: 0 <= c < numberOfColors ==> |t.colors[c]| == maxValue + 1 && Sum(t.colors[c]) == 0
    ensures Sum(t.luminance) == 0
  {
    ZerosSum(maxValue + 1);
    var zeros := seq(maxValue + 1, _ => 0);
    Histograms(maxValue, seq(numberOfColors, _ => zeros), zeros)
  }

  /** `get_histogram_data_colors(i_color)`; an index outside the channels is out of the vector's bounds. */
  function ColorData(t: Histograms, c: nat): (h: seq<nat>)
    requires c < |t.colors|
  {
    t.colors[c]
  }

  function Sum(s: seq<int>): int
  {
    if |s| == 0 then 0 else Sum(s[..|s| - 1]) + s[|s| - 1]
  }

  lemma {:induction false} ZerosSum(n: nat)
    ensures Sum(seq(n, _ => 0)) == 0
  {
    if n > 0 {
      assert seq(n, _ => 0)[..n - 1] == seq(n - 1, _ => 0);
      ZerosSum(n - 1);
    }
  }

  /** Adding `x` to one entry adds `x` to the sum. */
  lemma {:induction false} SumAddAt(s: seq<int>, b: nat, x: int)
    requires b < |s|
    ensures Sum(s[b := s[b] + x]) == Sum(s) + x
  {
    var t := s[b := s[b] + x];
    if b < |s| - 1 {
      assert t[..|s| - 1] == s[..|s| - 1][b := s[b] + x];
      SumAddAt(s[..|s| - 1], b, x);
    } else {
      assert t[..|s| - 1] == s[..|s| - 1];
    }
  }

  // ---------------------------------------------------------------------------------------------
  // Rebinning

  /**
   * The bin that original bin `i` lands in among `m` new bins: `quot(i)`, the truncated quotient
   * `unsigned(i / step)` with `step = n / m`, capped at the last bin. The C++ computes the quotient
   * in single precision; it is a parameter here, and `ExactQuotient` is the exact one.
   */
  function BinOf(i: nat, m: nat, quot: nat -> nat): (b: nat)
    requires m > 0
    ensures b < m
    ensures quot(i) < m ==> b == quot(i)
  {
    Min(quot(i), m - 1)
  }

  /** `i / (n / m)` truncated, computed exactly. */
  function ExactQuotient(n: nat, m: nat): (quot: nat -> nat)
    requires n > 0
  {
    i => i * m / n
  }

  /** A quotient that never decreases as the original bin grows, as a rounded division by a fixed positive step does. */
  ghost predicate Monotone(quot: nat -> nat)
  {
    forall i: nat, j: nat :: i <= j ==> quot(i) <= quot(j)
  }

  /** The counts of original bins `0..upto-1` that land in new bin `b`. */
  function Collected(h: seq<int>, b: nat, m: nat, quot: nat -> nat, upto: nat): int
    requires upto <= |h| && m > 0
  {
    if upto == 0 then 0
    else Collected(h, b, m, quot, upto - 1) + (if BinOf(upto - 1, m, quot) == b then h[upto - 1] else 0)
  }

  /**
   * `rebin_data`: the histogram unchanged when the bin count already matches; otherwise every
   * original bin's count added to the new bin it lands in. Zero new bins for a non-empty
   * histogram would write past the end of the result, so the caller must not ask for that.
   */
  method Rebin(h: seq<int>, m: nat, quot: nat -> nat) returns (r: seq<int>)
    requires m > 0 || |h| == 0
    ensures |r| == m
    ensures m == |h| ==> r == h
    ensures Sum(r) == Sum(h)
    ensures m != |h| ==> forall b :: 0 <= b < m ==> r[b] == Collected(h, b, m, quot, |h|)
  {
    if m == |h| {
      return h;
    }
    r := seq(m, _ => 0);
    ZerosSum(m);
    var i := 0;
    while i < |h|
      invariant 0 <= i <= |h| && |r| == m
      invariant Sum(r) == Sum(h[..i])
      invariant forall b :: 0 <= b < m ==> r[b] == Collected(h, b, m, quot, i)
    {
      var b := BinOf(i, m, quot);
      SumAddAt(r, b, h[i]);
      assert h[..i + 1][..i] == h[..i];
      r := r[b := r[b] + h[i]];
      i := i + 1;
    }
    assert h[..|h|] == h;
  }

  /** With a quotient that never decreases, original bins land in new bins in order. */
  lemma {:induction false} BinOfMonotone(i: nat, j: nat, m: nat, quot: nat -> nat)
    requires i <= j && m > 0 && Monotone(quot)
    ensures BinOf(i, m, quot) <= BinOf(j, m, quot)
  {
    assert quot(i) <= quot(j);
  }

  /** The exact quotient never decreases, and it sends the original bins `0..n-1` into `0..m-1` without capping. */
  lemma {:induction false} ExactQuotientFits(n: nat, m: nat)
    requires n > 0
    ensures Monotone(ExactQuotient(n, m))
    ensures forall i: nat :: i < n ==> ExactQuotient(n, m)(i) < m || m == 0
  {
    var quot := ExactQuotient(n, m);
    forall i: nat, j: nat | i <= j
      ensures quot(i) <= quot(j)
    {
      MulMonotone(i, j, m);
      DivMonotone(i * m, j * m, n);
    }
    forall i: nat | i < n && m > 0
      ensures quot(i) < m
    {
      MulMonotone(i + 1, n, m);
      assert i * m + m <= n * m;
      DivBelow(i * m, m, n);
    }
  }

  /** Below `m * n`, a quotient by `n` is below `m`. */
  lemma {:induction false} DivBelow(a: nat, m: nat, n: nat)
    requires n > 0 && a < n * m
    ensures a / n < m
  {
    var q := a / n;
    assert q * n <= a;
    if q >= m {
      MulMonotone(m, q, n);
      assert false;
    }
  }

  lemma {:induction false} DivMonotone(a: nat, b: nat, n: nat)
    requires a <= b && n > 0
    ensures a / n <= b / n
  {
    var qa, qb := a / n, b / n;
    assert qa * n <= a <= b < (qb + 1) * n;
    if qa >= qb + 1 {
      MulMonotone(qb + 1, qa, n);
      assert false;
    }
  }

  // ---------------------------------------------------------------------------------------------
  // Medians

  /** The running count through bin `j`. */
  function Cumulative(h: seq<nat>, j: nat): int
    requires j < |h|
  {
    Sum(h[..j + 1])
  }

  /**
   * The second loop of `get_median_values`: the first bin from `i` on at which the running sum
   * (`sum` so far) reaches `target`, or none.
   */
  function FirstReaching(h: seq<nat>, target: int, i: nat, sum: int): (r: Option<nat>)
    requires i <= |h|
    requires sum == Sum(h[..i])
    ensures r.Some? ==> i <= r.value < |h| && Cumulative(h, r.value) >= target
    ensures r.Some? ==> forall j :: i <= j < r.value ==> Cumulative(h, j) < target
    ensures r.None? ==> forall j :: i <= j < |h| ==> Cumulative(h, j) < target
    decreases |h| - i
  {
    if i == |h| then None
    else
      var s := sum + h[i];
      assert h[..i + 1][..i] == h[..i];
      if s >= target then Some(i) else FirstReaching(h, target, i + 1, s)
  }

  /** The median bin of one channel: the first bin whose running count reaches half the total. */
  function Median(h: seq<nat>): (r: Option<nat>)
    ensures r.Some? ==> r.value < |h| && Cumulative(h, r.value) >= Sum(h) / 2
    ensures r.Some? ==> forall j :: 0 <= j < r.value ==> Cumulative(h, j) < Sum(h) / 2
  {
    FirstReaching(h, Sum(h) / 2, 0, 0)
  }

  lemma {:induction false} SumNonNegative(h: seq<nat>)
    ensures Sum(h) >= 0
  {
    if |h| > 0 {
      SumNonNegative(h[..|h| - 1]);
    }
  }

  /** With counts that are never negative, every channel with at least one bin has a median. */
  lemma {:induction false} MedianExists(h: seq<nat>)
    ensures Median(h).Some? <==> |h| > 0
  {
    if |h| > 0 {
      SumNonNegative(h);
      assert h[..|h| - 1 + 1] == h;
      assert Cumulative(h, |h| - 1) >= Sum(h) / 2;
    }
  }

  /** `get_median_values`: the median of each channel in order; a channel without one contributes nothing. */
  function MedianValues(t: Histograms): seq<nat>
  {
    MediansOf(t.colors)
  }

  function MediansOf(hs: seq<seq<nat>>): (r: seq<nat>)
    ensures |r| <= |hs|
  {
    if |hs| == 0 then []
    else
      var rest := MediansOf(hs[1..]);
      match Median(hs[0])
      case Some(v) => [v] + rest
      case None => rest
  }

  /** With at least one bin per channel (max_value ≥ 0), there is one median per channel, channel by channel. */
  lemma {:induction false} MedianPerChannel(hs: seq<seq<nat>>)
    requires forall c :: 0 <= c < |hs| ==> |hs[c]| > 0
    ensures |MediansOf(hs)| == |hs|
    ensures forall c :: 0 <= c < |hs| ==> Median(hs[c]) == Some(MediansOf(hs)[c])
    decreases |hs|
  {
    if |hs| > 0 {
      MedianExists(hs[0]);
      assert forall c :: 0 <= c < |hs| - 1 ==> hs[1..][c] == hs[c + 1];
      MedianPerChannel(hs[1..]);
    }
  }
}

=== FILE: HotPixels.dfy ===
/**
 * Hot-pixel identification. A pixel of one raw photo is a candidate when it is bright (at least 80%
 * of the full scale of the bit depth) and every in-bounds neighbour of its 3x3 window is at most
 * 52% of it. The identifier counts, per coordinate, in how many photos it was a candidate, and a
 * coordinate is hot when it was a candidate in more than half of the processed photos.
 *
 * The two floating-point comparisons of the code are exact integer comparisons here: `int(0.8 * m)`
 * for an integer `m` is `(4 * m) / 5`, and `v > u * 0.52` for integers is `100 * v > 52 * u`; the
 * double constants 0.8 and 0.52 are slightly above the decimal values and the products never fall
 * within rounding distance of a different integer.
 */
module HotPixels {

  datatype Coord = Coord(x: int, y: int)

  function Pow2(n: nat): (r: nat)
    ensures r >= 1
  {
    if n == 0 then 1 else 2 * Pow2(n - 1)
  }

  /** `int(0.8 * (2^bits - 1))`. */
  function Threshold(bits: nat): (t: int)
    ensures 5 * t <= 4 * (Pow2(bits) - 1) < 5 * (t + 1)
  {
    (4 * (Pow2(bits) - 1)) / 5
  }

  predicate InBounds(x: int, y: int, width: int, height: int)
  {
    0 <= x < width && 0 <= y < height
  }

  function Index(x: int, y: int, width: nat, height: nat): (i: nat)
    requires InBounds(x, y, width, height)
    ensures i < width * height
  {
    assert y * width + x < (y + 1) * width <= height * width by {
      assert (y + 1) * width == y * width + width;
    }
    y * width + x
  }

  /** The neighbour at offset (dx, dy) does not disqualify the pixel: it is the pixel itself, outside the image, or dim enough. */
  predicate NeighbourDim(image: seq<int>, width: nat, height: nat, x: int, y: int, dx: int, dy: int)
    requires |image| == width * height && InBounds(x, y, width, height)
  {
    || (dx == 0 && dy == 0)
    || !InBounds(x + dx, y + dy, width, height)
    || 100 * image[Index(x + dx, y + dy, width, height)] <= 52 * image[Index(x, y, width, height)]
  }

  /** The reference definition of a hot-pixel candidate in one photo. */
  predicate IsCandidate(image: seq<int>, width: nat, height: nat, bits: nat, x: int, y: int)
    requires |image| == width * height && InBounds(x, y, width, height)
  {
    && image[Index(x, y, width, height)] >= Threshold(bits)
    && forall dx, dy :: -1 <= dx <= 1 && -1 <= dy <= 1 ==> NeighbourDim(image, width, height, x, y, dx, dy)
  }

  /**
   * The neighbour scan of `get_hot_pixel_candidates_from_photo`: rows outside the image are skipped,
   * and the first bright neighbour clears the flag and leaves the row (later rows are still scanned).
   */
  method NeighboursDim(image: seq<int>, width: nat, height: nat, x: int, y: int) returns (isHot: bool)
    requires |image| == width * height && InBounds(x, y, width, height)
    ensures isHot <==> forall dx, dy :: -1 <= dx <= 1 && -1 <= dy <= 1 ==> NeighbourDim(image, width, height, x, y, dx, dy)
  {
    isHot := true;
    var dy := -1;
    while dy <= 1
      invariant -1 <= dy <= 2
      invariant isHot <==> forall dx, dy' :: -1 <= dx <= 1 && -1 <= dy' < dy ==> NeighbourDim(image, width, height, x, y, dx, dy')
    {
      if 0 <= y + dy < height {
        ghost var before := isHot;
        var dx := -1;
        while dx <= 1
          invariant -1 <= dx <= 2
          invariant isHot <==> before && forall dx' :: -1 <= dx' < dx ==> NeighbourDim(image, width, height, x, y, dx', dy)
        {
          if !(dx == 0 && dy == 0) && 0 <= x + dx < width {
            if 100 * image[Index(x + dx, y + dy, width, height)] > 52 * image[Index(x, y, width, height)] {
              isHot := false;
              assert !NeighbourDim(image, width, height, x, y, dx, dy);
              break;
            }
          }
          dx := dx + 1;
        }
        assert isHot <==> before && forall dx' :: -1 <= dx' <= 1 ==> NeighbourDim(image, width, height, x, y, dx', dy);
      } else {
        assert forall dx' :: -1 <= dx' <= 1 ==> NeighbourDim(image, width, height, x, y, dx', dy);
      }
      dy := dy + 1;
    }
  }

  /** `get_hot_pixel_candidates_from_photo`: exactly the coordinates that are candidates. */
  method CandidatesFromPhoto(image: seq<int>, width: nat, height: nat, bits: nat) returns (cands: set<Coord>)
    requires |image| == width * height
    ensures forall c :: c in cands <==>
      InBounds(c.x, c.y, width, height) && IsCandidate(image, width, height, bits, c.x, c.y)
  {
    cands := {};
    var y := 0;
    while y < height
      invariant 0 <= y <= height
      invariant forall c :: c in cands <==>
        InBounds(c.x, c.y, width, height) && c.y < y && IsCandidate(image, width, height, bits, c.x, c.y)
    {
      var x := 0;
      while x < width
        invariant 0 <= x <= width
        invariant forall c :: c in cands <==>
          InBounds(c.x, c.y, width, height) && (c.y < y || (c.y == y && c.x < x)) && IsCandidate(image, width, height, bits, c.x, c.y)
      {
        if image[Index(x, y, width, height)] >= Threshold(bits) {
          var isHot := NeighboursDim(image, width, height, x, y);
          if isHot {
            cands := cands + {Coord(x, y)};
          }
        }
        x := x + 1;
      }
      y := y + 1;
    }
  }

  /**
   * The identifier's state: per-coordinate candidate counts, the number of processed photos, the
   * hot-pixel list (`m_hot_pixels`, kept as a set) and the lookup map behind `is_hot_pixel`
   * (`m_hot_pixels_map`, kept as its key set).
   */
  datatype Identifier = Identifier(candidates: map<Coord, int>, nProcessed: nat, hotPixels: set<Coord>, hotMap: set<Coord>)

  const INITIAL: Identifier := Identifier(map[], 0, {}, {})

  /** Every recorded count is positive and at most the number of processed photos. */
  ghost predicate Valid(s: Identifier)
  {
    forall k :: k in s.candidates ==> 1 <= s.candidates[k] <= s.nProcessed
  }

  /** `add_photo`: each candidate's count goes up by one (starting at 1), and one more photo is counted. */
  function AddPhoto(s: Identifier, cands: set<Coord>): (r: Identifier)
    ensures r.nProcessed == s.nProcessed + 1
    ensures r.candidates.Keys == s.candidates.Keys + cands
    ensures forall k :: k in cands ==> r.candidates[k] == (if k in s.candidates then s.candidates[k] else 0) + 1
    ensures forall k :: k in s.candidates && k !in cands ==> r.candidates[k] == s.candidates[k]
    ensures r.hotPixels == s.hotPixels && r.hotMap == s.hotMap
  {
    var counts := map k | k in s.candidates.Keys + cands ::
      if k in cands then (if k in s.candidates then s.candidates[k] else 0) + 1 else s.candidates[k];
    Identifier(counts, s.nProcessed + 1, s.hotPixels, s.hotMap)
  }

  lemma {:induction false} AddPhotoKeepsValid(s: Identifier, cands: set<Coord>)
    requires Valid(s)
    ensures Valid(AddPhoto(s, cands))
  {
  }

  /** The coordinates counted in more than half of the processed photos (`count > n * 0.5`). */
  function Hot(s: Identifier): (h: set<Coord>)
    ensures forall k :: k in h <==> k in s.candidates && 2 * s.candidates[k] > s.nProcessed
  {
    set k | k in s.candidates && 2 * s.candidates[k] > s.nProcessed
  }

  /** `compute_hot_pixels` as written: the list is rebuilt, but the lookup map is only ever added to. */
  function ComputeHotPixelsAsWritten(s: Identifier): (r: Identifier)
    ensures r.hotPixels == Hot(s) && r.hotMap == s.hotMap + Hot(s)
    ensures r.candidates == s.candidates && r.nProcessed == s.nProcessed
  {
    s.(hotPixels := Hot(s), hotMap := s.hotMap + Hot(s))
  }

  /** `compute_hot_pixels` with the lookup map rebuilt together with the list. */
  function ComputeHotPixels(s: Identifier): (r: Identifier)
    ensures r.hotPixels == Hot(s) && r.hotMap == r.hotPixels
    ensures r.candidates == s.candidates && r.nProcessed == s.nProcessed
  {
    s.(hotPixels := Hot(s), hotMap := Hot(s))
  }

  function Elements(v: seq<Coord>): set<Coord>
  {
    set k | k in v
  }

  /** `set_hot_pixels` as written: the list is replaced, the lookup map only gains entries. */
  function SetHotPixelsAsWritten(s: Identifier, v: seq<Coord>): (r: Identifier)
    ensures r.hotPixels == Elements(v)
    ensures r.hotMap == s.hotMap + Elements(v)
  {
    s.(hotPixels := Elements(v), hotMap := s.hotMap + Elements(v))
  }

  /** `set_hot_pixels` with the lookup map replaced as well. */
  function SetHotPixels(s: Identifier, v: seq<Coord>): (r: Identifier)
    ensures r.hotPixels == Elements(v) && r.hotMap == r.hotPixels
  {
    s.(hotPixels := Elements(v), hotMap := Elements(v))
  }

  predicate IsHotPixel(s: Identifier, x: int, y: int)
  {
    Coord(x, y) in s.hotMap
  }

  /**
   * After `set_hot_pixels(v)` as written, a coordinate is reported hot when it is in `v` or was
   * reported hot before; with the map replaced, exactly the coordinates of `v` are.
   */
  lemma {:induction false} SetHotPixelsReported(s: Identifier, v: seq<Coord>, x: int, y: int)
    ensures IsHotPixel(SetHotPixelsAsWritten(s, v), x, y) <==> Coord(x, y) in v || IsHotPixel(s, x, y)
    ensures IsHotPixel(SetHotPixels(s, v), x, y) <==> Coord(x, y) in v
  {
  }

  /**
   * As written, a coordinate reported hot before `set_hot_pixels` stays hot even when the new list
   * leaves it out: with (0, 0) in the map, setting the empty list still reports (0, 0) hot.
   */
  lemma {:induction false} SetHotPixelsKeepsStale()
    ensures var s := INITIAL.(hotPixels := {Coord(0, 0)}, hotMap := {Coord(0, 0)});
      && IsHotPixel(SetHotPixelsAsWritten(s, []), 0, 0)
      && !IsHotPixel(SetHotPixels(s, []), 0, 0)
  {
  }

  /** In how many of the photos `k` was a candidate. */
  function CountIn(photos: seq<set<Coord>>, k: Coord): (n: nat)
    ensures n <= |photos|
  {
    if |photos| == 0 then 0
    else CountIn(photos[..|photos| - 1], k) + (if k in photos[|photos| - 1] then 1 else 0)
  }

  /** The identifier after `add_photo` for each photo's candidate set, in order. */
  function AddPhotos(s: Identifier, photos: seq<set<Coord>>): Identifier
  {
    if |photos| == 0 then s else AddPhoto(AddPhotos(s, photos[..|photos| - 1]), photos[|photos| - 1])
  }

  /** Starting fresh, the count of a coordinate is the number of photos in which it was a candidate. */
  lemma {:induction false} AddPhotosCounts(photos: seq<set<Coord>>)
    ensures AddPhotos(INITIAL, photos).nProcessed == |photos|
    ensures forall k :: k in AddPhotos(INITIAL, photos).candidates <==> CountIn(photos, k) > 0
    ensures forall k :: k in AddPhotos(INITIAL, photos).candidates ==> AddPhotos(INITIAL, photos).candidates[k] == CountIn(photos, k)
  {
    if |photos| > 0 {
      AddPhotosCounts(photos[..|photos| - 1]);
    }
  }

  /**
   * End to end with the fix: after adding the photos and computing, a coordinate is reported hot
   * exactly when it was a candidate in more than half of the photos.
   */
  lemma {:induction false} HotIffMajority(photos: seq<set<Coord>>, x: int, y: int)
    ensures IsHotPixel(ComputeHotPixels(AddPhotos(INITIAL, photos)), x, y)
        <==> 2 * CountIn(photos, Coord(x, y)) > |photos|
  {
    AddPhotosCounts(photos);
  }

  /**
   * As written a coordinate stays reported hot after a later `compute_hot_pixels` dropped it: hot
   * after one photo, it is no longer in the list after two more photos without it, but
   * `is_hot_pixel` still holds.
   */
  lemma {:induction false} StaleHotPixel()
    ensures var first := ComputeHotPixelsAsWritten(AddPhoto(INITIAL, {Coord(1, 1)}));
      var second := ComputeHotPixelsAsWritten(AddPhoto(AddPhoto(first, {}), {}));
      && Coord(1, 1) !in second.hotPixels
      && IsHotPixel(second, 1, 1)
    ensures var first := ComputeHotPixels(AddPhoto(INITIAL, {Coord(1, 1)}));
      var second := ComputeHotPixels(AddPhoto(AddPhoto(first, {}), {}));
      !IsHotPixel(second, 1, 1)
  {
  }
}

=== FILE: InputFrames.dfy ===
/**
 * An input frame is a still image (frame number -1) or one frame of a video file
 * (headers/InputFrame.h).
 */
module InputFrames {
  import opened Text
  import opened Wrappers

  datatype InputFrame = InputFrame(address: string, frameNumber: int)

  /** The default-constructed frame: empty address, frame -1. */
  const NoFrame: InputFrame := InputFrame("", -1)

  function StillImage(address: string): (f: InputFrame)
    ensures !IsVideoFrame(f) && f.address == address
  {
    InputFrame(address, -1)
  }

  predicate IsVideoFrame(f: InputFrame)
  {
    f.frameNumber >= 0
  }

  /** operator<: by address first, then by frame number. */
  predicate FrameLess(a: InputFrame, b: InputFrame)
  {
    if a.address != b.address then StrLess(a.address, b.address)
    else a.frameNumber < b.frameNumber
  }

  /** The key order is a strict total order, as std::map requires. */
  lemma {:induction false} FrameLessStrictTotal(a: InputFrame, b: InputFrame, c: InputFrame)
    ensures !FrameLess(a, a)
    ensures FrameLess(a, b) ==> !FrameLess(b, a)
    ensures FrameLess(a, b) && FrameLess(b, c) ==> FrameLess(a, c)
    ensures a == b || FrameLess(a, b) || FrameLess(b, a)
  {
    StrLessIrreflexive(a.address);
    StrLessTotal(a.address, b.address);
    if FrameLess(a, b) && a.address != b.address {
      StrLessAsymmetric(a.address, b.address);
    }
    if FrameLess(a, b) && FrameLess(b, c) {
      if a.address != b.address && b.address != c.address {
        StrLessTransitive(a.address, b.address, c.address);
        if a.address == c.address {
          StrLessAsymmetric(a.address, b.address);
        }
      }
    }
  }

  /** to_string: the address, a '|' and the frame number in decimal. */
  function FrameToString(f: InputFrame): (s: string)
    ensures '|' in s
  {
    var r := f.address + "|" + IntToString(f.frameNumber);
    assert r[|f.address|] == '|';
    r
  }

  /** Index of the last occurrence of `c` in `s`, if any. */
  function LastIndexOf(s: string, c: char): (r: Option<nat>)
    ensures r.Some? ==> r.value < |s| && s[r.value] == c && c !in s[r.value + 1..]
    ensures r.None? ==> c !in s
  {
    if |s| == 0 then None
    else if s[|s| - 1] == c then Some(|s| - 1)
    else
      var r := LastIndexOf(s[..|s| - 1], c);
      assert s == s[..|s| - 1] + [s[|s| - 1]];
      if r.Some? then
        assert s[r.value + 1..] == s[..|s| - 1][r.value + 1..] + [s[|s| - 1]];
        r
      else r
  }

  lemma {:induction false} LastIndexOfAfter(p: string, t: string, c: char)
    requires c !in t
    ensures LastIndexOf(p + [c] + t, c) == Some(|p|)
    decreases |t|
  {
    var s := p + [c] + t;
    if |t| > 0 {
      assert s[..|s| - 1] == p + [c] + t[..|t| - 1];
      assert s[|s| - 1] == t[|t| - 1];
      LastIndexOfAfter(p, t[..|t| - 1], c);
    }
  }

  /** Reads a frame back from its to_string form: the number follows the last '|'. */
  function FrameFromString(s: string): (r: Option<InputFrame>)
  {
    match LastIndexOf(s, '|')
    case None => None
    case Some(k) =>
      match ParseInt(s[k + 1..])
      case None => None
      case Some(n) => Some(InputFrame(s[..k], n))
  }

  lemma {:induction false} IntToStringHasNoBar(i: int)
    ensures '|' !in IntToString(i)
  {
    var n: nat := if i < 0 then -i else i;
    var d := NatToString(n);
    assert forall j :: 0 <= j < |d| ==> d[j] != '|';
    if i < 0 {
      assert IntToString(i) == "-" + d;
    }
  }

  /** The string form determines the frame, so distinct frames never share a string. */
  lemma {:induction false} FrameToStringRoundTrip(f: InputFrame)
    ensures FrameFromString(FrameToString(f)) == Some(f)
  {
    var s := FrameToString(f);
    var k := |f.address|;
    var tail := IntToString(f.frameNumber);
    IntToStringHasNoBar(f.frameNumber);
    assert s == f.address + "|" + tail;
    assert s[k] == '|';
    assert s[k + 1..] == tail;
    LastIndexOfAfter(f.address, tail, '|');
    assert s[..k] == f.address;
    ParseIntToString(f.frameNumber);
  }

  lemma {:induction false} FrameToStringInjective(a: InputFrame, b: InputFrame)
    requires FrameToString(a) == FrameToString(b)
    ensures a == b
  {
    FrameToStringRoundTrip(a);
    FrameToStringRoundTrip(b);
  }
}

=== FILE: KDTree.dfy ===
/**
 * The k-dimensional search tree used to match stars (headers/KDTree.h). Coordinates
 * are integers here, so squared distances are exact; the C++ tree computes them in
 * double precision.
 */
module KDTree {
  import opened Wrappers
  import opened Sorting

  datatype Point = Point(coords: seq<int>, value: int)

  /** The built structure: each node names the point it stands for and its split axis. */
  datatype Tree = Empty | Node(index: nat, axis: nat, left: Tree, right: Tree)

  datatype KDTree = KDTree(nDim: nat, points: seq<Point>, built: bool, root: Tree)

  /** A call that may throw: the state after the call and the error, if one was thrown. */
  datatype Outcome = Outcome(tree: KDTree, error: Option<string>)

  function NewTree(nDim: nat): (t: KDTree)
    ensures !t.built && |t.points| == 0 && t.nDim == nDim
  {
    KDTree(nDim, [], false, Empty)
  }

  /* ---------------------------------------------------------------- adding points */

  /** add_point: refused once the tree is built or when the coordinate count is wrong. */
  function AddPoint(t: KDTree, coords: seq<int>, value: int): (o: Outcome)
    ensures o.error.Some? <==> t.built || |coords| != t.nDim
    ensures o.error.Some? ==> o.tree == t
    ensures o.error.None? ==> o.tree == t.(points := t.points + [Point(coords, value)])
  {
    if t.built then Outcome(t, Some("KDTree::add_point: tree structure already built."))
    else if |coords| != t.nDim then Outcome(t, Some("KDTree::add_point: coordinates must have m_n_dim elements."))
    else Outcome(t.(points := t.points + [Point(coords, value)]), None)
  }

  function Pair(coords: seq<seq<int>>, values: seq<int>): (ps: seq<Point>)
    requires |coords| == |values|
    ensures |ps| == |coords| && forall i :: 0 <= i < |ps| ==> ps[i] == Point(coords[i], values[i])
  {
    if |coords| == 0 then [] else [Point(coords[0], values[0])] + Pair(coords[1..], values[1..])
  }

  lemma {:induction false} TailDims(coords: seq<seq<int>>, nDim: nat)
    requires |coords| > 0 && forall i :: 0 <= i < |coords| ==> |coords[i]| == nDim
    ensures forall i :: 0 <= i < |coords[1..]| ==> |coords[1..][i]| == nDim
  {
    forall i | 0 <= i < |coords[1..]|
      ensures |coords[1..][i]| == nDim
    {
      assert coords[1..][i] == coords[i + 1];
    }
  }

  /** Adding the first pair and then the others adds all of them. */
  lemma {:induction false} PairAppend(points: seq<Point>, coords: seq<seq<int>>, values: seq<int>)
    requires |coords| == |values| && |coords| > 0
    ensures points + [Point(coords[0], values[0])] + Pair(coords[1..], values[1..]) == points + Pair(coords, values)
  {
    var p0 := Point(coords[0], values[0]);
    assert Pair(coords, values) == [p0] + Pair(coords[1..], values[1..]);
  }

  /** Calls add_point for each pair in turn, stopping at the first error. */
  function AddEach(t: KDTree, coords: seq<seq<int>>, values: seq<int>): (o: Outcome)
    requires |coords| == |values|
    requires forall i :: 0 <= i < |coords| ==> |coords[i]| == t.nDim
    ensures o.error.Some? <==> t.built && |coords| > 0
    ensures o.error.Some? ==> o.tree == t
    ensures o.error.None? ==> o.tree == t.(points := t.points + Pair(coords, values))
    decreases |coords|
  {
    if |coords| == 0 then
      assert t.points + Pair(coords, values) == t.points;
      Outcome(t, None)
    else
      var first := AddPoint(t, coords[0], values[0]);
      if first.error.Some? then first
      else
        assert forall i :: 0 <= i < |coords[1..]| ==> |coords[1..][i]| == first.tree.nDim by {
          TailDims(coords, t.nDim);
        }
        var rest := AddEach(first.tree, coords[1..], values[1..]);
        PairAppend(t.points, coords, values);
        rest
  }

  /**
   * add_points: the count and every coordinate vector are checked before anything is
   * added, so a throw leaves the tree as it was.
   */
  function AddPoints(t: KDTree, coords: seq<seq<int>>, values: seq<int>): (o: Outcome)
    ensures o.error.Some? ==> o.tree == t
    ensures o.error.Some? <==>
      |coords| != |values| || (exists i :: 0 <= i < |coords| && |coords[i]| != t.nDim) || (t.built && |coords| > 0)
    ensures o.error.None? ==> o.tree.points == t.points + Pair(coords, values)
  {
    if |coords| != |values| then
      Outcome(t, Some("KDTree::add_points: coordinates and values must have the same size."))
    else if exists i :: 0 <= i < |coords| && |coords[i]| != t.nDim then
      Outcome(t, Some("KDTree::add_points: coordinates must have m_n_dim elements."))
    else AddEach(t, coords, values)
  }

  /* ---------------------------------------------------------------- building */

  function Coord(points: seq<Point>, i: nat, axis: nat): int
  {
    if i < |points| && axis < |points[i].coords| then points[i].coords[axis] else 0
  }

  ghost function Elements(t: Tree): multiset<nat>
  {
    match t
    case Empty => multiset{}
    case Node(i, _, l, r) => multiset{i} + Elements(l) + Elements(r)
  }

  /**
   * The search invariant: every node names a point and an axis that exist, everything
   * left of a node lies strictly below it on the node's axis, everything right of it at
   * or above.
   */
  ghost predicate Partitioned(points: seq<Point>, nDim: nat, t: Tree)
  {
    match t
    case Empty => true
    case Node(i, a, l, r) =>
      i < |points| && a < nDim &&
      (forall j: nat :: j in Elements(l) ==> Coord(points, j, a) < Coord(points, i, a)) &&
      (forall j: nat :: j in Elements(r) ==> Coord(points, j, a) >= Coord(points, i, a)) &&
      Partitioned(points, nDim, l) && Partitioned(points, nDim, r)
  }

  /** The split axis starts at `axis` at the top and advances by one, cyclically, per level. */
  ghost predicate AxesCycle(t: Tree, axis: nat, nDim: nat)
    requires nDim > 0
  {
    match t
    case Empty => true
    case Node(_, a, l, r) =>
      a == axis && AxesCycle(l, (axis + 1) % nDim, nDim) && AxesCycle(r, (axis + 1) % nDim, nDim)
  }

  /** No index occurs twice. */
  ghost predicate Distinct(s: seq<nat>)
  {
    forall x: nat :: multiset(s)[x] <= 1
  }

  ghost predicate PointsHaveDim(points: seq<Point>, nDim: nat)
  {
    forall i :: 0 <= i < |points| ==> |points[i].coords| == nDim
  }

  /** The sort key of build_node: the coordinate on the node's axis. */
  function ByCoord(points: seq<Point>, axis: nat): nat -> int
  {
    (j: nat) => Coord(points, j, axis)
  }

  function GoesLeft(points: seq<Point>, median: nat, axis: nat, m: int): nat -> bool
  {
    (j: nat) => j != median && Coord(points, j, axis) < m
  }

  function GoesRight(points: seq<Point>, median: nat, axis: nat, m: int): nat -> bool
  {
    (j: nat) => j != median && Coord(points, j, axis) >= m
  }

  /** The indices strictly below `m` on `axis`, other than the chosen node. */
  function LeftOf(points: seq<Point>, indices: seq<nat>, median: nat, axis: nat, m: int): seq<nat>
  {
    Filter<nat>(indices, GoesLeft(points, median, axis, m))
  }

  /** The indices at or above `m` on `axis`, other than the chosen node. */
  function RightOf(points: seq<Point>, indices: seq<nat>, median: nat, axis: nat, m: int): seq<nat>
  {
    Filter<nat>(indices, GoesRight(points, median, axis, m))
  }

  /** Splitting a distinct index list around one of its members loses nothing else. */
  lemma {:induction false} SplitAround(points: seq<Point>, indices: seq<nat>, median: nat, axis: nat, m: int)
    requires Distinct(indices) && median in indices
    ensures var l: seq<nat> := LeftOf(points, indices, median, axis, m);
      var r: seq<nat> := RightOf(points, indices, median, axis, m);
      var one: multiset<nat> := multiset{median};
      multiset(indices) == one + multiset(l) + multiset(r) &&
      |l| + |r| + 1 == |indices| && Distinct(l) && Distinct(r)
  {
    var l: seq<nat> := LeftOf(points, indices, median, axis, m);
    var r: seq<nat> := RightOf(points, indices, median, axis, m);
    var one: multiset<nat> := multiset{median};
    FilterMultiset(indices, GoesLeft(points, median, axis, m));
    FilterMultiset(indices, GoesRight(points, median, axis, m));
    assert multiset(indices) == one + multiset(l) + multiset(r) by {
      forall x: nat ensures multiset(indices)[x] == (one + multiset(l) + multiset(r))[x] {
        if x == median {
          assert multiset(indices)[x] == 1;
        }
      }
    }
    assert |multiset(indices)| == 1 + |multiset(l)| + |multiset(r)|;
  }

  /**
   * build_node: sorts the indices by their coordinate on `axis`, takes the entry at
   * position size/2 as the node, sends the strictly smaller coordinates left and the
   * rest right, and recurses with the next axis.
   */
  function BuildNode(points: seq<Point>, indices: seq<nat>, axis: nat, nDim: nat): (t: Tree)
    requires 0 < nDim && axis < nDim
    requires forall j :: j in indices ==> j < |points|
    requires Distinct(indices)
    ensures Elements(t) == multiset(indices)
    ensures Partitioned(points, nDim, t)
    ensures AxesCycle(t, axis, nDim)
    decreases |indices|
  {
    if |indices| == 0 then Empty
    else if |indices| == 1 then
      assert indices == [indices[0]] && indices[0] in indices;
      Node(indices[0], axis, Empty, Empty)
    else
      var sorted := SortBy<nat>(indices, ByCoord(points, axis));
      var median := sorted[|sorted| / 2];
      SortByKeepsElements(indices, ByCoord(points, axis), median);
      var m := Coord(points, median, axis);
      var left := LeftOf(points, indices, median, axis, m);
      var right := RightOf(points, indices, median, axis, m);
      SplitAround(points, indices, median, axis, m);
      var next := (axis + 1) % nDim;
      var l := BuildNode(points, left, next, nDim);
      var r := BuildNode(points, right, next, nDim);
      JoinKeepsPartitioned(points, nDim, indices, median, axis, l, r);
      Node(median, axis, l, r)
  }

  /** A node over the split halves holds every index once and keeps the search invariant. */
  lemma {:induction false} JoinKeepsPartitioned(points: seq<Point>, nDim: nat, indices: seq<nat>, median: nat, axis: nat, l: Tree, r: Tree)
    requires Distinct(indices) && median in indices && median < |points| && axis < nDim
    requires Elements(l) == multiset(LeftOf(points, indices, median, axis, Coord(points, median, axis)))
    requires Elements(r) == multiset(RightOf(points, indices, median, axis, Coord(points, median, axis)))
    requires Partitioned(points, nDim, l) && Partitioned(points, nDim, r)
    ensures Elements(Node(median, axis, l, r)) == multiset(indices)
    ensures Partitioned(points, nDim, Node(median, axis, l, r))
  {
    var m := Coord(points, median, axis);
    SplitAround(points, indices, median, axis, m);
    forall j: nat | j in Elements(l)
      ensures Coord(points, j, axis) < m
    {
      assert j in LeftOf(points, indices, median, axis, m);
    }
    forall j: nat | j in Elements(r)
      ensures Coord(points, j, axis) >= m
    {
      assert j in RightOf(points, indices, median, axis, m);
    }
  }

  function Range(n: nat): (s: seq<nat>)
    ensures |s| == n && forall i :: 0 <= i < n ==> s[i] == i
  {
    if n == 0 then [] else Range(n - 1) + [n - 1]
  }

  lemma {:induction false} RangeDistinct(n: nat)
    ensures Distinct(Range(n))
    ensures forall x: nat :: x in multiset(Range(n)) <==> x < n
  {
    if n > 0 {
      RangeDistinct(n - 1);
      var last: nat := n - 1;
      var m := multiset(Range(n - 1));
      var whole := multiset(Range(n));
      assert whole == m + multiset{last} by {
        assert Range(n) == Range(n - 1) + [last];
      }
      forall x: nat
        ensures whole[x] <= 1 && (x in whole <==> x < n)
      {
        assert whole[x] == m[x] + (if x == last then 1 else 0);
      }
    }
  }

  /** The invariant of a tree object between calls. */
  ghost predicate Valid(t: KDTree)
  {
    t.nDim > 0 && PointsHaveDim(t.points, t.nDim) &&
    (!t.built ==> t.root == Empty) &&
    (t.built ==> Partitioned(t.points, t.nDim, t.root) && Elements(t.root) == multiset(Range(|t.points|)))
  }

  /** build_tree_structure: builds once over all points, then ignores further calls. */
  function BuildTreeStructure(t: KDTree): (r: KDTree)
    requires Valid(t)
    ensures Valid(r) && r.built
    ensures r.points == t.points && r.nDim == t.nDim
    ensures t.built ==> r == t
    ensures !t.built ==> AxesCycle(r.root, 0, r.nDim)
  {
    if t.built then t
    else
      var idx := Range(|t.points|);
      RangeDistinct(|t.points|);
      t.(root := BuildNode(t.points, idx, 0, t.nDim), built := true)
  }

  lemma {:induction false} BuildTreeStructureIdempotent(t: KDTree)
    requires Valid(t)
    ensures BuildTreeStructure(BuildTreeStructure(t)) == BuildTreeStructure(t)
  {
  }

  /** Adding points keeps the invariant. */
  lemma {:induction false} AddPointKeepsValid(t: KDTree, coords: seq<int>, value: int)
    requires Valid(t)
    ensures Valid(AddPoint(t, coords, value).tree)
  {
  }

  lemma {:induction false} AddPointsKeepsValid(t: KDTree, coords: seq<seq<int>>, values: seq<int>)
    requires Valid(t)
    ensures Valid(AddPoints(t, coords, values).tree)
  {
    var o := AddPoints(t, coords, values);
    if o.error.None? {
      var ps := o.tree.points;
      forall i | 0 <= i < |ps| ensures |ps[i].coords| == t.nDim {
        if i >= |t.points| {
          assert ps[i] == Pair(coords, values)[i - |t.points|];
        }
      }
    }
  }

  /* ---------------------------------------------------------------- the neighbour buffer */

  /** One candidate neighbour: a point index and its squared distance to the query. */
  datatype Entry = Entry(index: nat, dist: int)

  ghost predicate Ascending(buf: seq<Entry>)
  {
    forall i, j :: 0 <= i < j < |buf| ==> buf[i].dist <= buf[j].dist
  }

  /** Puts `e` at position `pos` and keeps at most `k` entries, as the shifting loop does. */
  function PlaceAndTrim(buf: seq<Entry>, e: Entry, pos: nat, k: nat): (r: seq<Entry>)
    requires pos <= |buf| <= k && pos < k
    ensures |r| == if |buf| < k then |buf| + 1 else |buf|
    ensures r[pos] == e && r[..pos] == buf[..pos]
    ensures forall i :: pos < i < |r| ==> r[i] == buf[i - 1]
  {
    var b := buf[..pos] + [e] + buf[pos..];
    if |b| > k then b[..k] else b
  }

  /**
   * update_index_and_distance_vector as written: a full buffer refuses a distance not
   * below its last entry; otherwise the entry goes to the first position whose distance
   * is at most the new one (position 0 when there is none), and a full buffer drops its
   * last entry.
   */
  function UpdateBufferAsWritten(buf: seq<Entry>, e: Entry, k: nat): (r: seq<Entry>)
    requires 0 < k && |buf| <= k
    ensures |r| <= k && |r| >= 1
    ensures |buf| == k && e.dist >= buf[k - 1].dist ==> r == buf
    ensures !(|buf| == k && e.dist >= buf[k - 1].dist) ==>
      var p := FirstNotAbove(buf, e.dist);
      && |r| == (if |buf| < k then |buf| + 1 else k)
      && r[p] == e && r[..p] == buf[..p]
      && forall i :: p < i < |r| ==> r[i] == buf[i - 1]
  {
    if |buf| == k && e.dist >= buf[|buf| - 1].dist then buf
    else PlaceAndTrim(buf, e, FirstNotAbove(buf, e.dist), k)
  }

  /** The first position whose distance is at most `d`, or 0 when there is none. */
  function FirstNotAbove(buf: seq<Entry>, d: int): (p: nat)
    ensures p == 0 || (p < |buf| && buf[p].dist <= d)
    ensures forall i :: 0 <= i < p ==> buf[i].dist > d
    ensures p == 0 && |buf| > 0 && buf[0].dist > d ==> forall i :: 0 <= i < |buf| ==> buf[i].dist > d
  {
    FirstNotAboveFrom(buf, d, 0)
  }

  function FirstNotAboveFrom(buf: seq<Entry>, d: int, i: nat): (p: nat)
    requires i <= |buf|
    requires forall j :: 0 <= j < i ==> buf[j].dist > d
    ensures p == 0 || (i <= p < |buf| && buf[p].dist <= d)
    ensures forall j :: 0 <= j < p ==> buf[j].dist > d
    ensures p == 0 && |buf| > 0 && buf[0].dist > d ==> forall j :: 0 <= j < |buf| ==> buf[j].dist > d
    decreases |buf| - i
  {
    if i == |buf| then 0
    else if d >= buf[i].dist then i
    else FirstNotAboveFrom(buf, d, i + 1)
  }

  /** Replays a list of offers through the as-written update. */
  function OfferAllAsWritten(buf: seq<Entry>, offers: seq<Entry>, k: nat): (r: seq<Entry>)
    requires 0 < k && |buf| <= k
    ensures |r| <= k
    decreases |offers|
  {
    if |offers| == 0 then buf else OfferAllAsWritten(UpdateBufferAsWritten(buf, offers[0], k), offers[1..], k)
  }

  /**
   * Offering distances 5, 1, 3, 2 to a buffer of two leaves the distances 3 and 1 in it:
   * the buffer is no longer ascending and misses the entry at distance 2.
   */
  lemma {:induction false} UpdateBufferAsWrittenLosesNearest()
    ensures var offers := [Entry(0, 5), Entry(1, 1), Entry(2, 3), Entry(3, 2)];
      OfferAllAsWritten([], offers, 2) == [Entry(2, 3), Entry(1, 1)]
  {
    var b1 := UpdateBufferAsWritten([], Entry(0, 5), 2);
    assert b1 == [Entry(0, 5)];
    var b2 := UpdateBufferAsWritten(b1, Entry(1, 1), 2);
    assert FirstNotAbove(b1, 1) == 0;
    assert b2 == [Entry(1, 1), Entry(0, 5)];
    var b3 := UpdateBufferAsWritten(b2, Entry(2, 3), 2);
    assert FirstNotAbove(b2, 3) == 0;
    assert b3 == [Entry(2, 3), Entry(1, 1)];
    var b4 := UpdateBufferAsWritten(b3, Entry(3, 2), 2);
    assert b4 == b3;
    var offers := [Entry(0, 5), Entry(1, 1), Entry(2, 3), Entry(3, 2)];
    assert OfferAllAsWritten(b3, offers[3..], 2) == b4 by {
      assert offers[3..][1..] == [];
    }
    assert OfferAllAsWritten(b2, offers[2..], 2) == b4 by {
      assert offers[2..][1..] == offers[3..];
    }
    assert OfferAllAsWritten(b1, offers[1..], 2) == b4 by {
      assert offers[1..][1..] == offers[2..];
    }
  }

  /** The first position whose distance is above `d` (after every equal distance). */
  function InsertionPoint(buf: seq<Entry>, d: int): (p: nat)
    ensures p <= |buf|
    ensures forall i :: 0 <= i < p ==> buf[i].dist <= d
    ensures p < |buf| ==> buf[p].dist > d
  {
    if |buf| == 0 || buf[0].dist > d then 0 else 1 + InsertionPoint(buf[1..], d)
  }

  /**
   * The evidently intended update: keep the buffer ascending by placing the new entry
   * after every entry that is at least as close.
   */
  function UpdateBuffer(buf: seq<Entry>, e: Entry, k: nat): (r: seq<Entry>)
    requires 0 < k && |buf| <= k
    requires Ascending(buf)
    ensures Ascending(r)
    ensures 1 <= |r| <= k && |r| >= |buf|
    ensures |buf| == k ==> r[|r| - 1].dist <= buf[|buf| - 1].dist
  {
    if |buf| == k && e.dist >= buf[|buf| - 1].dist then buf
    else
      var p := InsertionPoint(buf, e.dist);
      var r := PlaceAndTrim(buf, e, p, k);
      PlaceKeepsAscending(buf, e, p, k);
      r
  }

  lemma {:induction false} PlaceKeepsAscending(buf: seq<Entry>, e: Entry, p: nat, k: nat)
    requires p <= |buf| <= k && p < k
    requires Ascending(buf)
    requires forall i :: 0 <= i < p ==> buf[i].dist <= e.dist
    requires p < |buf| ==> buf[p].dist > e.dist
    ensures Ascending(PlaceAndTrim(buf, e, p, k))
    ensures |buf| == k ==> PlaceAndTrim(buf, e, p, k)[k - 1].dist <= buf[k - 1].dist
  {
    var r := PlaceAndTrim(buf, e, p, k);
    forall i, j | 0 <= i < j < |r| ensures r[i].dist <= r[j].dist {
      if j < p {
        assert r[i] == buf[i] && r[j] == buf[j];
      } else if j == p {
        assert r[i] == buf[i];
      } else if i < p {
        assert r[i] == buf[i] && r[j] == buf[j - 1];
      } else if i == p {
        assert r[j] == buf[j - 1];
        assert buf[p].dist <= buf[j - 1].dist;
      } else {
        assert r[i] == buf[i - 1] && r[j] == buf[j - 1];
      }
    }
    if |buf| == k {
      if k - 1 > p {
        assert r[k - 1] == buf[k - 2];
      } else {
        assert r[k - 1] == e;
      }
    }
  }

  /* ---------------------------------------------------------------- k nearest neighbours */

  /**
   * The square of `x`, built as `|x|` additions of `|x|` so that the search proofs, which only
   * compare squares, see no product; `SqIsSquare` shows it is `x * x`.
   */
  function Sq(x: int): (s: int)
    ensures s >= 0
  {
    var m := if x < 0 then -x else x;
    Times(m, m)
  }

  /** `a * b` as repeated addition. */
  function Times(a: nat, b: nat): nat
  {
    if a == 0 then 0 else b + Times(a - 1, b)
  }

  lemma {:induction false} TimesIsProduct(a: nat, b: nat)
    ensures Times(a, b) == a * b
  {
    if a > 0 {
      TimesIsProduct(a - 1, b);
    }
  }

  lemma {:induction false} SqIsSquare(x: int)
    ensures Sq(x) == x * x
  {
    var m := if x < 0 then -x else x;
    TimesIsProduct(m, m);
  }

  /** get_distance_squared. */
  function SqDist(q: seq<int>, c: seq<int>): (d: int)
    requires |q| == |c|
    ensures d >= 0
  {
    if |q| == 0 then 0
    else SqDist(q[..|q| - 1], c[..|c| - 1]) + Sq(q[|q| - 1] - c[|c| - 1])
  }

  /** The squared distance is at least its term on any one axis. */
  lemma {:induction false} SqDistAtLeastAxis(q: seq<int>, c: seq<int>, a: nat)
    requires |q| == |c| && a < |q|
    ensures SqDist(q, c) >= Sq(q[a] - c[a])
  {
    var n := |q| - 1;
    if a < n {
      SqDistAtLeastAxis(q[..n], c[..n], a);
      assert q[..n][a] == q[a] && c[..n][a] == c[a];
    }
  }

  lemma {:induction false} SquareGrows(x: int, y: int)
    requires 0 <= x <= y
    ensures Sq(x) <= Sq(y)
  {
    TimesMonotone(x, x, y, y);
  }

  lemma {:induction false} TimesMonotone(a: nat, b: nat, c: nat, d: nat)
    requires a <= c && b <= d
    ensures Times(a, b) <= Times(c, d)
    decreases c
  {
    if a > 0 {
      TimesMonotone(a - 1, b, c - 1, d);
    }
  }

  /** A point on the far side of a split is no closer than the split plane. */
  lemma {:induction false} FarSideBound(q: seq<int>, c: seq<int>, a: nat, m: int)
    requires |q| == |c| && a < |q|
    requires (q[a] < m && c[a] >= m) || (q[a] >= m && c[a] < m)
    ensures SqDist(q, c) >= Sq(q[a] - m)
  {
    SqDistAtLeastAxis(q, c, a);
    if q[a] < m {
      SquareGrows(m - q[a], c[a] - q[a]);
      assert Sq(m - q[a]) == Sq(q[a] - m);
      assert Sq(c[a] - q[a]) == Sq(q[a] - c[a]);
    } else {
      SquareGrows(q[a] - m, q[a] - c[a]);
    }
  }

  function EntryFor(points: seq<Point>, q: seq<int>, i: nat): (e: Entry)
    requires i < |points| && |points[i].coords| == |q|
    ensures e.index == i
  {
    Entry(i, SqDist(q, points[i].coords))
  }

  /**
   * get_n_closest_nodes_recursive: visit the node, descend on the query's side of the
   * split, and visit the other side only while the buffer is not full or the split plane
   * is closer than the buffer's farthest entry.
   */
  /** The C++ code's pruning test: the far side can still hold a closer point. */
  predicate FarSideWorthVisiting(buf: seq<Entry>, gap: int, k: nat)
    requires |buf| >= 1
  {
    gap < buf[|buf| - 1].dist || |buf| < k
  }

  function Search(points: seq<Point>, nDim: nat, q: seq<int>, k: nat, t: Tree, buf: seq<Entry>): (r: seq<Entry>)
    requires 0 < k && |buf| <= k && Ascending(buf)
    requires |q| == nDim && PointsHaveDim(points, nDim)
    requires Partitioned(points, nDim, t)
    ensures Ascending(r) && |buf| <= |r| <= k
    ensures t.Node? ==> |r| >= 1
    decreases t, 1
  {
    match t
    case Empty => buf
    case Node(i, _, _, _) => Descend(points, nDim, q, k, t, UpdateBuffer(buf, EntryFor(points, q, i), k))
  }

  /** The part of the visit after the node itself has been offered to the buffer. */
  function Descend(points: seq<Point>, nDim: nat, q: seq<int>, k: nat, t: Tree, b1: seq<Entry>): (r: seq<Entry>)
    requires 0 < k && 1 <= |b1| <= k && Ascending(b1)
    requires |q| == nDim && PointsHaveDim(points, nDim)
    requires t.Node? && Partitioned(points, nDim, t)
    ensures Ascending(r) && |b1| <= |r| <= k
    decreases t, 0
  {
    FarSide(points, nDim, q, k, FarOf(points, q, t), Search(points, nDim, q, k, NearOf(points, q, t), b1), GapOf(points, q, t))
  }

  /** The side of a node the query lies on: left when it is below the split, right otherwise. */
  function NearOf(points: seq<Point>, q: seq<int>, t: Tree): (n: Tree)
    requires t.Node? && t.index < |points| && t.axis < |q| == |points[t.index].coords|
    ensures n == t.left || n == t.right
  {
    if q[t.axis] < points[t.index].coords[t.axis] then t.left else t.right
  }

  /** The other side of the node. */
  function FarOf(points: seq<Point>, q: seq<int>, t: Tree): (f: Tree)
    requires t.Node? && t.index < |points| && t.axis < |q| == |points[t.index].coords|
    ensures f == t.left || f == t.right
  {
    if q[t.axis] < points[t.index].coords[t.axis] then t.right else t.left
  }

  /** The squared distance from the query to the node's splitting plane. */
  function GapOf(points: seq<Point>, q: seq<int>, t: Tree): int
    requires t.Node? && t.index < |points| && t.axis < |q| == |points[t.index].coords|
  {
    Sq(q[t.axis] - points[t.index].coords[t.axis])
  }

  /** After the near side: visit the far side only when the pruning test lets it through. */
  function FarSide(points: seq<Point>, nDim: nat, q: seq<int>, k: nat, far: Tree, b2: seq<Entry>, gap: int): (r: seq<Entry>)
    requires 0 < k && 1 <= |b2| <= k && Ascending(b2)
    requires |q| == nDim && PointsHaveDim(points, nDim)
    requires Partitioned(points, nDim, far)
    ensures Ascending(r) && |b2| <= |r| <= k
    decreases far, 2
  {
    if FarSideWorthVisiting(b2, gap, k) then Search(points, nDim, q, k, far, b2) else b2
  }

  ghost function Indices(buf: seq<Entry>): set<nat>
  {
    set en | en in buf :: en.index
  }

  /**
   * The buffer is the answer for the points seen so far (`seen`): ascending, without
   * repeats, and either it holds every seen point or it is full and no seen point left
   * out of it is closer than its last entry.
   */
  ghost predicate Good(points: seq<Point>, q: seq<int>, k: nat, buf: seq<Entry>, seen: set<nat>)
    requires PointsHaveDim(points, |q|)
  {
    0 < k && Ascending(buf) && |buf| <= k &&
    (forall p :: p in seen ==> p < |points|) &&
    (forall en :: en in buf ==> en.index in seen && en == EntryFor(points, q, en.index)) &&
    (forall i, j :: 0 <= i < j < |buf| ==> buf[i].index != buf[j].index) &&
    (|buf| < k ==> seen <= Indices(buf)) &&
    (forall p :: p in seen && p !in Indices(buf) ==> p < |points| && |buf| == k && SqDist(q, points[p].coords) >= buf[k - 1].dist)
  }

  lemma {:induction false} PlaceContents(buf: seq<Entry>, e: Entry, p: nat, k: nat)
    requires p <= |buf| <= k && p < k
    ensures var r := PlaceAndTrim(buf, e, p, k);
      e in r && (forall x :: x in r ==> x == e || x in buf) &&
      (forall j :: 0 <= j < |buf| && (|buf| < k || j < |buf| - 1) ==> buf[j] in r) &&
      (|buf| == k ==> r[k - 1] == if p == k - 1 then e else buf[k - 2])
  {
    var r := PlaceAndTrim(buf, e, p, k);
    forall x | x in r ensures x == e || x in buf {
      var i :| 0 <= i < |r| && r[i] == x;
      if i < p {
        assert r[i] == buf[i];
      } else if i > p {
        assert r[i] == buf[i - 1];
      }
    }
    forall j | 0 <= j < |buf| && (|buf| < k || j < |buf| - 1) ensures buf[j] in r {
      if j < p {
        assert r[j] == buf[j];
      } else {
        assert r[j + 1] == buf[j];
      }
    }
  }

  /** Inserting an entry for a point not yet in the buffer keeps the indices apart. */
  lemma {:induction false} PlaceKeepsIndicesApart(buf: seq<Entry>, e: Entry, p: nat, k: nat)
    requires p <= |buf| <= k && p < k
    requires forall i, j :: 0 <= i < j < |buf| ==> buf[i].index != buf[j].index
    requires forall en :: en in buf ==> en.index != e.index
    ensures var r := PlaceAndTrim(buf, e, p, k);
      forall i, j :: 0 <= i < j < |r| ==> r[i].index != r[j].index
  {
    var r := PlaceAndTrim(buf, e, p, k);
    forall x, y | 0 <= x < y < |r| ensures r[x].index != r[y].index {
      if x < p && y < p {
        assert r[x] == buf[x] && r[y] == buf[y];
      } else if x < p && y > p {
        assert r[x] == buf[x] && r[y] == buf[y - 1];
      } else if x > p {
        assert r[x] == buf[x - 1] && r[y] == buf[y - 1];
      } else if x == p {
        assert r[y] == buf[y - 1] && buf[y - 1] in buf;
      } else {
        assert r[x] == buf[x] && buf[x] in buf;
      }
    }
  }

  lemma {:induction false} InIndices(buf: seq<Entry>, j: nat)
    requires j < |buf|
    ensures buf[j].index in Indices(buf)
  {
    assert buf[j] in buf;
  }

  lemma {:induction false} IndicesWitness(buf: seq<Entry>, x: nat) returns (j: nat)
    requires x in Indices(buf)
    ensures j < |buf| && buf[j].index == x
  {
    var en :| en in buf && en.index == x;
    j :| 0 <= j < |buf| && buf[j] == en;
  }

  /** One update keeps the buffer the answer for the points seen, plus the offered one. */
  lemma {:induction false} UpdateKeepsGood(points: seq<Point>, q: seq<int>, k: nat, buf: seq<Entry>, seen: set<nat>, i: nat)
    requires 0 < k && PointsHaveDim(points, |q|)
    requires Good(points, q, k, buf, seen)
    requires i < |points| && i !in seen
    ensures Good(points, q, k, UpdateBuffer(buf, EntryFor(points, q, i), k), seen + {i})
  {
    var e := EntryFor(points, q, i);
    if |buf| == k && e.dist >= buf[|buf| - 1].dist {
      assert UpdateBuffer(buf, e, k) == buf;
      RejectKeepsGood(points, q, k, buf, seen, i);
    } else {
      var p := InsertionPoint(buf, e.dist);
      assert UpdateBuffer(buf, e, k) == PlaceAndTrim(buf, e, p, k);
      PlaceKeepsAscending(buf, e, p, k);
      InsertKeepsGood(points, q, k, buf, seen, i, p);
    }
  }

  lemma {:induction false} RejectKeepsGood(points: seq<Point>, q: seq<int>, k: nat, buf: seq<Entry>, seen: set<nat>, i: nat)
    requires 0 < k && PointsHaveDim(points, |q|)
    requires Good(points, q, k, buf, seen)
    requires i < |points| && i !in seen
    requires |buf| == k && EntryFor(points, q, i).dist >= buf[k - 1].dist
    ensures Good(points, q, k, buf, seen + {i})
  {
    assert i !in Indices(buf);
  }

  lemma {:induction false} InsertKeepsGood(points: seq<Point>, q: seq<int>, k: nat, buf: seq<Entry>, seen: set<nat>, i: nat, p: nat)
    requires 0 < k && PointsHaveDim(points, |q|)
    requires Good(points, q, k, buf, seen)
    requires i < |points| && i !in seen
    requires p <= |buf| && p < k && Ascending(PlaceAndTrim(buf, EntryFor(points, q, i), p, k))
    requires |buf| == k ==> PlaceAndTrim(buf, EntryFor(points, q, i), p, k)[k - 1].dist <= buf[k - 1].dist
    ensures Good(points, q, k, PlaceAndTrim(buf, EntryFor(points, q, i), p, k), seen + {i})
  {
    var e := EntryFor(points, q, i);
    var r := PlaceAndTrim(buf, e, p, k);
    var seen' := seen + {i};
    PlaceContents(buf, e, p, k);
    PlaceKeepsIndicesApart(buf, e, p, k);
    assert i in Indices(r) by {
      assert e in r;
    }
    if |buf| < k {
      InsertCovers(points, q, k, buf, seen, i, p);
    } else {
      InsertFullFar(points, q, k, buf, seen, i, p);
    }
  }

  /** Below capacity, the buffer after an insertion still holds every point seen. */
  lemma {:induction false} InsertCovers(points: seq<Point>, q: seq<int>, k: nat, buf: seq<Entry>, seen: set<nat>, i: nat, p: nat)
    requires 0 < k && PointsHaveDim(points, |q|)
    requires Good(points, q, k, buf, seen)
    requires i < |points| && p <= |buf| < k
    ensures seen + {i} <= Indices(PlaceAndTrim(buf, EntryFor(points, q, i), p, k))
  {
    var e := EntryFor(points, q, i);
    var r := PlaceAndTrim(buf, e, p, k);
    PlaceContents(buf, e, p, k);
    assert i in Indices(r) by {
      assert e in r;
    }
    forall x | x in seen + {i} ensures x in Indices(r) {
      if x != i {
        var j := IndicesWitness(buf, x);
        InIndices(r, j);
        assert buf[j] in r;
      }
    }
  }

  /** At capacity, every point seen that an insertion leaves out is at least as far as the new last entry. */
  lemma {:induction false} InsertFullFar(points: seq<Point>, q: seq<int>, k: nat, buf: seq<Entry>, seen: set<nat>, i: nat, p: nat)
    requires 0 < k && PointsHaveDim(points, |q|)
    requires Good(points, q, k, buf, seen)
    requires i < |points| && i !in seen
    requires p < k == |buf| && Ascending(PlaceAndTrim(buf, EntryFor(points, q, i), p, k))
    requires PlaceAndTrim(buf, EntryFor(points, q, i), p, k)[k - 1].dist <= buf[k - 1].dist
    ensures var r := PlaceAndTrim(buf, EntryFor(points, q, i), p, k);
      forall x :: x in seen + {i} && x !in Indices(r) ==> x < |points| && SqDist(q, points[x].coords) >= r[k - 1].dist
  {
    var e := EntryFor(points, q, i);
    var r := PlaceAndTrim(buf, e, p, k);
    PlaceContents(buf, e, p, k);
    assert i in Indices(r) by {
      assert e in r;
    }
    forall j | 0 <= j < k - 1 ensures buf[j].index in Indices(r) {
      assert buf[j] in r;
    }
    forall x | x in seen + {i} && x !in Indices(r) ensures x < |points| && SqDist(q, points[x].coords) >= r[k - 1].dist {
      if x in Indices(buf) {
        var j := IndicesWitness(buf, x);
        assert j == k - 1;
      }
    }
  }

  ghost function ElementSet(t: Tree): (s: set<nat>)
    ensures forall x :: x in s <==> x in Elements(t)
  {
    set x | x in Elements(t)
  }

  lemma {:induction false} ElementSetNode(i: nat, a: nat, l: Tree, r: Tree)
    ensures ElementSet(Node(i, a, l, r)) == {i} + ElementSet(l) + ElementSet(r)
  {
    var t := Node(i, a, l, r);
    assert Elements(t) == multiset{i} + Elements(l) + Elements(r);
  }

  ghost predicate NoRepeats(t: Tree)
  {
    forall x: nat :: Elements(t)[x] <= 1
  }

  lemma {:induction false} ElementsInRange(points: seq<Point>, nDim: nat, t: Tree)
    requires Partitioned(points, nDim, t)
    ensures forall x :: x in Elements(t) ==> x < |points|
  {
    if t.Node? {
      ElementsInRange(points, nDim, t.left);
      ElementsInRange(points, nDim, t.right);
    }
  }

  /** Leaving out points that are no closer than the buffer's last entry keeps it the answer. */
  lemma {:induction false} SkipKeepsGood(points: seq<Point>, q: seq<int>, k: nat, buf: seq<Entry>, seen: set<nat>, far: set<nat>)
    requires 0 < k && PointsHaveDim(points, |q|)
    requires Good(points, q, k, buf, seen) && |buf| == k
    requires forall x :: x in far ==> x < |points| && SqDist(q, points[x].coords) >= buf[k - 1].dist
    ensures Good(points, q, k, buf, seen + far)
  {
  }

  /** A point on the other side of a splitting plane is at least the plane's distance away. */
  lemma {:induction false} BeyondPlane(points: seq<Point>, nDim: nat, q: seq<int>, i: nat, a: nat, x: nat)
    requires |q| == nDim && PointsHaveDim(points, nDim)
    requires i < |points| && x < |points| && a < nDim
    requires q[a] < points[i].coords[a] ==> Coord(points, x, a) >= Coord(points, i, a)
    requires q[a] >= points[i].coords[a] ==> Coord(points, x, a) < Coord(points, i, a)
    ensures SqDist(q, points[x].coords) >= Sq(q[a] - points[i].coords[a])
  {
    assert |points[x].coords| == nDim && |points[i].coords| == nDim;
    FarSideBound(q, points[x].coords, a, points[i].coords[a]);
  }

  /** Every point on the far side of a node's splitting plane is at least the plane's distance away. */
  lemma {:induction false} FarSideOfNode(points: seq<Point>, nDim: nat, q: seq<int>, i: nat, a: nat, l: Tree, r: Tree)
    requires |q| == nDim && PointsHaveDim(points, nDim)
    requires Partitioned(points, nDim, Node(i, a, l, r))
    ensures q[a] < points[i].coords[a] ==> forall x :: x in Elements(r) ==>
      x < |points| && SqDist(q, points[x].coords) >= GapOf(points, q, Node(i, a, l, r))
    ensures q[a] >= points[i].coords[a] ==> forall x :: x in Elements(l) ==>
      x < |points| && SqDist(q, points[x].coords) >= GapOf(points, q, Node(i, a, l, r))
  {
    assert GapOf(points, q, Node(i, a, l, r)) == Sq(q[a] - points[i].coords[a]);
    ElementsInRange(points, nDim, l);
    ElementsInRange(points, nDim, r);
    if q[a] < points[i].coords[a] {
      forall x | x in Elements(r) ensures SqDist(q, points[x].coords) >= Sq(q[a] - points[i].coords[a]) {
        BeyondPlane(points, nDim, q, i, a, x);
      }
    } else {
      forall x | x in Elements(l) ensures SqDist(q, points[x].coords) >= Sq(q[a] - points[i].coords[a]) {
        BeyondPlane(points, nDim, q, i, a, x);
      }
    }
  }

  /** In a multiset without repeats, split as one element and two parts, the parts share nothing. */
  lemma {:induction false} PartsApart(whole: multiset<nat>, i: nat, l: multiset<nat>, r: multiset<nat>, seen: set<nat>)
    requires whole == multiset{i} + l + r
    requires forall x: nat :: whole[x] <= 1
    requires forall x :: x in whole ==> x !in seen
    ensures forall x: nat :: l[x] <= 1
    ensures forall x :: x in l ==> x !in seen + {i} && x !in r
  {
    forall x: nat ensures l[x] <= 1 {
      assert whole[x] <= 1;
    }
    forall x | x in l ensures x !in seen + {i} && x !in r {
      assert whole[x] <= 1;
    }
  }

  /** A node's index and its two subtrees share no element when nothing repeats. */
  lemma {:induction false} ChildrenApart(i: nat, a: nat, l: Tree, r: Tree, seen: set<nat>)
    requires NoRepeats(Node(i, a, l, r))
    requires forall x :: x in Elements(Node(i, a, l, r)) ==> x !in seen
    ensures NoRepeats(l) && NoRepeats(r)
    ensures i !in seen
    ensures forall x :: x in Elements(l) ==> x !in seen + {i} && x !in ElementSet(r)
    ensures forall x :: x in Elements(r) ==> x !in seen + {i} && x !in ElementSet(l)
    ensures ElementSet(Node(i, a, l, r)) == {i} + ElementSet(l) + ElementSet(r)
  {
    var t := Node(i, a, l, r);
    SideApart(Elements(t), i, Elements(l), Elements(r), seen, ElementSet(r));
    SideApart(Elements(t), i, Elements(r), Elements(l), seen, ElementSet(l));
    assert i in Elements(t);
    ElementSetNode(i, a, l, r);
  }

  /** `PartsApart` for one side, with the other side given as the set of its elements. */
  lemma {:induction false} SideApart(whole: multiset<nat>, i: nat, x: multiset<nat>, y: multiset<nat>, seen: set<nat>, ys: set<nat>)
    requires whole == multiset{i} + x + y || whole == multiset{i} + y + x
    requires forall z: nat :: whole[z] <= 1
    requires forall z :: z in whole ==> z !in seen
    requires forall z :: z in ys <==> z in y
    ensures forall z: nat :: x[z] <= 1
    ensures forall z :: z in x ==> z !in seen + {i} && z !in ys
  {
    assert whole == multiset{i} + x + y;
    PartsApart(whole, i, x, y, seen);
  }

  /**
   * The search leaves the buffer the answer for everything seen before plus the whole
   * subtree: pruned branches hold only points no closer than the buffer's last entry.
   */
  lemma {:induction false} SearchKeepsGood(points: seq<Point>, nDim: nat, q: seq<int>, k: nat, t: Tree, buf: seq<Entry>, seen: set<nat>)
    requires 0 < k && |q| == nDim && PointsHaveDim(points, nDim)
    requires Partitioned(points, nDim, t) && NoRepeats(t)
    requires forall x :: x in Elements(t) ==> x !in seen
    requires Good(points, q, k, buf, seen)
    ensures Good(points, q, k, Search(points, nDim, q, k, t, buf), seen + ElementSet(t))
    decreases t, 2
  {
    match t
    case Empty =>
      assert ElementSet(t) == {};
    case Node(i, a, l, r) =>
      var b1 := UpdateBuffer(buf, EntryFor(points, q, i), k);
      var s1 := seen + {i};
      PartitionedChildren(points, nDim, i, a, l, r);
      ChildrenApart(i, a, l, r, seen);
      UpdateKeepsGood(points, q, k, buf, seen, i);
      DescendKeepsGood(points, nDim, q, k, i, a, l, r, b1, s1);
      SearchNodeUnfold(points, nDim, q, k, i, a, l, r, buf);
      UnionRegroup(seen, i, ElementSet(l), ElementSet(r));
      GoodSameSeen(points, q, k, Search(points, nDim, q, k, t, buf), s1 + ElementSet(l) + ElementSet(r), seen + ElementSet(t));
  }

  /** Both subtrees of a partitioned node are partitioned, and the node's own point and axis exist. */
  lemma {:induction false} PartitionedChildren(points: seq<Point>, nDim: nat, i: nat, a: nat, l: Tree, r: Tree)
    requires Partitioned(points, nDim, Node(i, a, l, r))
    ensures i < |points| && a < nDim && Partitioned(points, nDim, l) && Partitioned(points, nDim, r)
  {
  }

  /** A visit to a node offers the node's own point to the buffer, then descends. */
  lemma {:induction false} SearchNodeUnfold(points: seq<Point>, nDim: nat, q: seq<int>, k: nat, i: nat, a: nat, l: Tree, r: Tree, buf: seq<Entry>)
    requires 0 < k && |buf| <= k && Ascending(buf)
    requires |q| == nDim && PointsHaveDim(points, nDim)
    requires Partitioned(points, nDim, Node(i, a, l, r))
    ensures Search(points, nDim, q, k, Node(i, a, l, r), buf)
         == Descend(points, nDim, q, k, Node(i, a, l, r), UpdateBuffer(buf, EntryFor(points, q, i), k))
  {
  }

  lemma {:induction false} UnionRegroup(seen: set<nat>, i: nat, ls: set<nat>, rs: set<nat>)
    ensures seen + {i} + ls + rs == seen + ({i} + ls + rs)
  {
  }

  lemma {:induction false} DescendKeepsGood(points: seq<Point>, nDim: nat, q: seq<int>, k: nat, i: nat, a: nat, l: Tree, r: Tree, b1: seq<Entry>, seen: set<nat>)
    requires 0 < k && |q| == nDim && PointsHaveDim(points, nDim)
    requires Partitioned(points, nDim, Node(i, a, l, r)) && NoRepeats(Node(i, a, l, r))
    requires i in seen
    requires forall x :: x in Elements(l) ==> x !in seen
    requires forall x :: x in Elements(r) ==> x !in seen
    requires Good(points, q, k, b1, seen) && 1 <= |b1|
    ensures Good(points, q, k, Descend(points, nDim, q, k, Node(i, a, l, r), b1), seen + ElementSet(l) + ElementSet(r))
    decreases Node(i, a, l, r), 1
  {
    if q[a] < points[i].coords[a] {
      DescendLeftKeepsGood(points, nDim, q, k, i, a, l, r, b1, seen);
    } else {
      DescendRightKeepsGood(points, nDim, q, k, i, a, l, r, b1, seen);
    }
  }

  /** The query lies below the split: the left side is searched first, then the right one if worth it. */
  lemma {:induction false} DescendLeftKeepsGood(points: seq<Point>, nDim: nat, q: seq<int>, k: nat, i: nat, a: nat, l: Tree, r: Tree, b1: seq<Entry>, seen: set<nat>)
    requires 0 < k && |q| == nDim && PointsHaveDim(points, nDim)
    requires Partitioned(points, nDim, Node(i, a, l, r)) && NoRepeats(Node(i, a, l, r))
    requires i in seen
    requires forall x :: x in Elements(l) ==> x !in seen
    requires forall x :: x in Elements(r) ==> x !in seen
    requires Good(points, q, k, b1, seen) && 1 <= |b1|
    requires q[a] < points[i].coords[a]
    ensures Good(points, q, k, Descend(points, nDim, q, k, Node(i, a, l, r), b1), seen + ElementSet(l) + ElementSet(r))
    decreases Node(i, a, l, r), 0
  {
    SidesApart(i, a, l, r, seen);
    FarSideOfNode(points, nDim, q, i, a, l, r);
    DescendLeftUnfold(points, nDim, q, k, i, a, l, r, b1);
    SearchKeepsGood(points, nDim, q, k, l, b1, seen);
    var gap := GapOf(points, q, Node(i, a, l, r));
    FarSideKeepsGood(points, nDim, q, k, r, Search(points, nDim, q, k, l, b1), seen + ElementSet(l), gap);
  }

  /** The query lies at or above the split: the right side is searched first, then the left one if worth it. */
  lemma {:induction false} DescendRightKeepsGood(points: seq<Point>, nDim: nat, q: seq<int>, k: nat, i: nat, a: nat, l: Tree, r: Tree, b1: seq<Entry>, seen: set<nat>)
    requires 0 < k && |q| == nDim && PointsHaveDim(points, nDim)
    requires Partitioned(points, nDim, Node(i, a, l, r)) && NoRepeats(Node(i, a, l, r))
    requires i in seen
    requires forall x :: x in Elements(l) ==> x !in seen
    requires forall x :: x in Elements(r) ==> x !in seen
    requires Good(points, q, k, b1, seen) && 1 <= |b1|
    requires q[a] >= points[i].coords[a]
    ensures Good(points, q, k, Descend(points, nDim, q, k, Node(i, a, l, r), b1), seen + ElementSet(l) + ElementSet(r))
    decreases Node(i, a, l, r), 0
  {
    SidesApart(i, a, l, r, seen);
    FarSideOfNode(points, nDim, q, i, a, l, r);
    DescendRightUnfold(points, nDim, q, k, i, a, l, r, b1);
    SearchKeepsGood(points, nDim, q, k, r, b1, seen);
    var gap := GapOf(points, q, Node(i, a, l, r));
    FarSideKeepsGood(points, nDim, q, k, l, Search(points, nDim, q, k, r, b1), seen + ElementSet(r), gap);
    UnionSwap(seen, ElementSet(r), ElementSet(l));
  }

  lemma {:induction false} UnionSwap(a: set<nat>, b: set<nat>, c: set<nat>)
    ensures a + b + c == a + c + b
  {
  }

  /** Below a node already seen, the two subtrees share nothing with each other or with what was seen. */
  lemma {:induction false} SidesApart(i: nat, a: nat, l: Tree, r: Tree, seen: set<nat>)
    requires NoRepeats(Node(i, a, l, r)) && i in seen
    requires forall x :: x in Elements(l) ==> x !in seen
    requires forall x :: x in Elements(r) ==> x !in seen
    ensures NoRepeats(l) && NoRepeats(r)
    ensures forall x :: x in Elements(r) ==> x !in seen + ElementSet(l)
    ensures forall x :: x in Elements(l) ==> x !in seen + ElementSet(r)
  {
    var t := Node(i, a, l, r);
    assert Elements(t) == multiset{i} + Elements(l) + Elements(r);
    assert Elements(t) == multiset{i} + Elements(r) + Elements(l);
    PartsApart(Elements(t), i, Elements(l), Elements(r), {});
    PartsApart(Elements(t), i, Elements(r), Elements(l), {});
  }

  /** The descent below a node, spelled out through the near side, the far side and the gap. */
  lemma {:induction false} DescendUnfold(points: seq<Point>, nDim: nat, q: seq<int>, k: nat, t: Tree, b1: seq<Entry>)
    requires 0 < k && 1 <= |b1| <= k && Ascending(b1)
    requires |q| == nDim && PointsHaveDim(points, nDim)
    requires t.Node? && Partitioned(points, nDim, t)
    ensures Descend(points, nDim, q, k, t, b1) ==
      FarSide(points, nDim, q, k, FarOf(points, q, t), Search(points, nDim, q, k, NearOf(points, q, t), b1), GapOf(points, q, t))
  {
  }

  /** One step of the descent when the query lies below the split: the left side is the near one. */
  lemma {:induction false} DescendLeftUnfold(points: seq<Point>, nDim: nat, q: seq<int>, k: nat, i: nat, a: nat, l: Tree, r: Tree, b1: seq<Entry>)
    requires 0 < k && 1 <= |b1| <= k && Ascending(b1)
    requires |q| == nDim && PointsHaveDim(points, nDim)
    requires Partitioned(points, nDim, Node(i, a, l, r))
    requires q[a] < points[i].coords[a]
    ensures Descend(points, nDim, q, k, Node(i, a, l, r), b1) ==
      FarSide(points, nDim, q, k, r, Search(points, nDim, q, k, l, b1), GapOf(points, q, Node(i, a, l, r)))
  {
    var t := Node(i, a, l, r);
    DescendUnfold(points, nDim, q, k, t, b1);
    assert NearOf(points, q, t) == l;
    assert FarOf(points, q, t) == r;
  }

  /** One step of the descent when the query lies at or above the split: the right side is the near one. */
  lemma {:induction false} DescendRightUnfold(points: seq<Point>, nDim: nat, q: seq<int>, k: nat, i: nat, a: nat, l: Tree, r: Tree, b1: seq<Entry>)
    requires 0 < k && 1 <= |b1| <= k && Ascending(b1)
    requires |q| == nDim && PointsHaveDim(points, nDim)
    requires Partitioned(points, nDim, Node(i, a, l, r))
    requires q[a] >= points[i].coords[a]
    ensures Descend(points, nDim, q, k, Node(i, a, l, r), b1) ==
      FarSide(points, nDim, q, k, l, Search(points, nDim, q, k, r, b1), GapOf(points, q, Node(i, a, l, r)))
  {
    var t := Node(i, a, l, r);
    DescendUnfold(points, nDim, q, k, t, b1);
    assert NearOf(points, q, t) == r;
    assert FarOf(points, q, t) == l;
  }

  /** The far side is either searched or, when the pruning test fails, safely left out. */
  lemma {:induction false} FarSideKeepsGood(points: seq<Point>, nDim: nat, q: seq<int>, k: nat, far: Tree, b2: seq<Entry>, seen: set<nat>, gap: int)
    requires 0 < k && |q| == nDim && PointsHaveDim(points, nDim)
    requires Partitioned(points, nDim, far) && NoRepeats(far)
    requires forall x :: x in Elements(far) ==> x !in seen
    requires forall x :: x in Elements(far) ==> x < |points| && SqDist(q, points[x].coords) >= gap
    requires Good(points, q, k, b2, seen) && 1 <= |b2|
    ensures Good(points, q, k, FarSide(points, nDim, q, k, far, b2, gap), seen + ElementSet(far))
    decreases far, 3
  {
    if FarSideWorthVisiting(b2, gap, k) {
      SearchKeepsGood(points, nDim, q, k, far, b2, seen);
      assert FarSide(points, nDim, q, k, far, b2, gap) == Search(points, nDim, q, k, far, b2);
    } else {
      PrunedKeepsGood(points, q, k, far, b2, seen, gap);
      assert FarSide(points, nDim, q, k, far, b2, gap) == b2;
    }
  }

  /** A far side the pruning test skips holds nothing closer than the buffer's last entry. */
  lemma {:induction false} PrunedKeepsGood(points: seq<Point>, q: seq<int>, k: nat, far: Tree, b2: seq<Entry>, seen: set<nat>, gap: int)
    requires 0 < k && PointsHaveDim(points, |q|)
    requires forall x :: x in Elements(far) ==> x < |points| && SqDist(q, points[x].coords) >= gap
    requires Good(points, q, k, b2, seen) && 1 <= |b2| && !FarSideWorthVisiting(b2, gap, k)
    ensures Good(points, q, k, b2, seen + ElementSet(far))
  {
    assert |b2| == k && gap >= b2[k - 1].dist;
    forall x | x in ElementSet(far)
      ensures x < |points| && SqDist(q, points[x].coords) >= b2[k - 1].dist
    {
      assert x in Elements(far);
    }
    SkipKeepsGood(points, q, k, b2, seen, ElementSet(far));
  }

  lemma {:induction false} IndicesAtMostLength(buf: seq<Entry>)
    ensures |Indices(buf)| <= |buf|
  {
    if |buf| > 0 {
      var init := buf[..|buf| - 1];
      IndicesAtMostLength(init);
      assert Indices(buf) == Indices(init) + {buf[|buf| - 1].index} by {
        assert buf == init + [buf[|buf| - 1]];
      }
    }
  }

  /** The indices `0 .. n - 1` as a set. */
  ghost function IndexSet(n: nat): (s: set<nat>)
    ensures |s| == n
    ensures forall x: nat :: x in s <==> x < n
  {
    if n == 0 then {} else IndexSet(n - 1) + {n - 1}
  }

  /** The indices a buffer holds, in its order. */
  function IndicesOf(buf: seq<Entry>): (ids: seq<nat>)
    ensures |ids| == |buf| && forall j :: 0 <= j < |buf| ==> ids[j] == buf[j].index
  {
    seq(|buf|, j requires 0 <= j < |buf| => buf[j].index)
  }

  /**
   * `ids` is a k-nearest list for `q`: `n` distinct point indices, nearest first, with no
   * point left out nearer than the last one taken.
   */
  predicate NearestList(points: seq<Point>, q: seq<int>, n: nat, ids: seq<nat>)
    requires PointsHaveDim(points, |q|)
  {
    |ids| == n &&
    (forall j :: 0 <= j < n ==> ids[j] < |points|) &&
    (forall i, j :: 0 <= i < j < n ==> ids[i] != ids[j]) &&
    (forall i, j :: 0 <= i < j < n ==> SqDist(q, points[ids[i]].coords) <= SqDist(q, points[ids[j]].coords)) &&
    (n > 0 ==> forall x :: 0 <= x < |points| && x !in ids ==> SqDist(q, points[x].coords) >= SqDist(q, points[ids[n - 1]].coords))
  }

  /** A full buffer that is the answer for all points is the brute-force k-nearest list. */
  lemma {:induction false} NearestFromGood(points: seq<Point>, q: seq<int>, n: nat, buf: seq<Entry>)
    requires PointsHaveDim(points, |q|)
    requires Good(points, q, n, buf, IndexSet(|points|)) && |buf| == n
    ensures NearestList(points, q, n, IndicesOf(buf))
  {
    var ids := IndicesOf(buf);
    forall j | 0 <= j < n ensures ids[j] < |points| && buf[j] == EntryFor(points, q, ids[j]) {
      assert buf[j] in buf;
    }
    forall y | y in Indices(buf) ensures y in ids {
      var j := IndicesWitness(buf, y);
      assert ids[j] == y;
    }
  }

  /**
   * get_k_nearest_neighbors_indices: refused before the tree is built and when more
   * neighbours are asked for than there are points; otherwise the indices of the `n`
   * points nearest the query, nearest first, as a brute-force scan sorted by distance
   * would give them (up to the order of equal distances).
   *
   * This is the search as intended, with the corrected buffer update `UpdateBuffer`. The
   * update as written (`UpdateBufferAsWritten`) inserts before the first entry that is no
   * farther, so the buffer stops being ascending and can drop the nearest point
   * (`UpdateBufferAsWrittenLosesNearest`); this function does not promise the C++ result.
   */
  function KNearest(tr: KDTree, q: seq<int>, n: nat): (r: Result<seq<nat>>)
    requires Valid(tr) && |q| == tr.nDim && n > 0
    ensures !tr.built ==> r == Err("KDTree::get_k_nearest_neighbors_indices: tree structure not built.")
    ensures tr.built && n > |tr.points| ==>
      r == Err("KDTree::get_k_nearest_neighbors_indices: n must be smaller than the number of nodes.")
    ensures tr.built && n <= |tr.points| ==> r.Ok?
    ensures r.Ok? ==> NearestList(tr.points, q, n, r.value)
  {
    if !tr.built then Err("KDTree::get_k_nearest_neighbors_indices: tree structure not built.")
    else if n > |tr.points| then Err("KDTree::get_k_nearest_neighbors_indices: n must be smaller than the number of nodes.")
    else
      var buf := Search(tr.points, tr.nDim, q, n, tr.root, []);
      KNearestFacts(tr, q, n);
      NearestFromGood(tr.points, q, n, buf);
      Ok(IndicesOf(buf))
  }

  /** Searching the whole tree from an empty buffer leaves the answer for every point. */
  lemma {:induction false} SearchAllGood(tr: KDTree, q: seq<int>, n: nat)
    requires Valid(tr) && |q| == tr.nDim && tr.built && 0 < n
    ensures Good(tr.points, q, n, Search(tr.points, tr.nDim, q, n, tr.root, []), IndexSet(|tr.points|))
  {
    var all := IndexSet(|tr.points|);
    var buf := Search(tr.points, tr.nDim, q, n, tr.root, []);
    RootElements(tr);
    GoodEmpty(tr.points, q, n);
    SearchKeepsGood(tr.points, tr.nDim, q, n, tr.root, [], {});
    GoodSameSeen(tr.points, q, n, buf, {} + ElementSet(tr.root), all);
  }

  /** Whether a buffer is the answer depends on the set of points seen, not on how it is written. */
  lemma {:induction false} GoodSameSeen(points: seq<Point>, q: seq<int>, k: nat, buf: seq<Entry>, s1: set<nat>, s2: set<nat>)
    requires PointsHaveDim(points, |q|)
    requires s1 == s2 && Good(points, q, k, buf, s1)
    ensures Good(points, q, k, buf, s2)
  {
  }

  /** The empty buffer is the answer when nothing has been seen. */
  lemma {:induction false} GoodEmpty(points: seq<Point>, q: seq<int>, k: nat)
    requires PointsHaveDim(points, |q|) && 0 < k
    ensures Good(points, q, k, [], {})
  {
  }

  /** A built tree holds every point index exactly once. */
  lemma {:induction false} RootElements(tr: KDTree)
    requires Valid(tr) && tr.built
    ensures NoRepeats(tr.root) && ElementSet(tr.root) == IndexSet(|tr.points|)
  {
    RangeDistinct(|tr.points|);
  }

  lemma {:induction false} KNearestFacts(tr: KDTree, q: seq<int>, n: nat)
    requires Valid(tr) && |q| == tr.nDim && tr.built && 0 < n <= |tr.points|
    ensures var buf := Search(tr.points, tr.nDim, q, n, tr.root, []);
      |buf| == n && Good(tr.points, q, n, buf, IndexSet(|tr.points|))
  {
    var all := IndexSet(|tr.points|);
    var buf := Search(tr.points, tr.nDim, q, n, tr.root, []);
    assert Good(tr.points, q, n, buf, all) by {
      SearchAllGood(tr, q, n);
    }
    if |buf| < n {
      IndicesAtMostLength(buf);
      SubsetCardinality(all, Indices(buf));
    }
  }
}

=== FILE: LittleEndian.dfy ===
/**
 * Little-endian byte encodings of unsigned integers, as `reinterpret_cast` writes and reads them
 * on a little-endian host. Bytes are integers in [0, 256).
 */
module LittleEndian {
  import opened CInts
  import opened Sorting

  predicate IsByte(b: int) { 0 <= b < 256 }

  predicate Bytes(s: seq<int>)
  {
    forall i :: 0 <= i < |s| ==> IsByte(s[i])
  }

  function Pow256(n: nat): (r: nat)
    ensures r >= 1
  {
    if n == 0 then 1 else 256 * Pow256(n - 1)
  }

  /** The `n`-byte little-endian encoding of `v`, reduced modulo 256^n as a store of a wider value would. */
  function Encode(v: int, n: nat): (r: seq<int>)
    ensures |r| == n && Bytes(r)
    decreases n
  {
    if n == 0 then [] else [v % 256] + Encode(v / 256, n - 1)
  }

  /** The unsigned value of a little-endian byte string. */
  function Decode(s: seq<int>): (v: int)
    requires Bytes(s)
    ensures 0 <= v < Pow256(|s|)
  {
    if |s| == 0 then 0 else s[0] + 256 * Decode(s[1..])
  }

  /** Decoding an encoding gives the value back modulo 256^n. */
  lemma {:induction false} DecodeEncode(v: int, n: nat)
    ensures Decode(Encode(v, n)) == v % Pow256(n)
    decreases n
  {
    if n > 0 {
      DecodeEncode(v / 256, n - 1);
      assert Encode(v, n)[1..] == Encode(v / 256, n - 1);
      LowDigitSplit(v, Pow256(n - 1));
    }
  }

  /** Taking a value modulo `256 * p` keeps its low byte and its higher part modulo `p`. */
  lemma {:induction false} LowDigitSplit(v: int, p: int)
    requires p > 0
    ensures v % (256 * p) == v % 256 + 256 * ((v / 256) % p)
  {
    var q := v / 256;
    assert v == 256 * q + v % 256;
    assert q == p * (q / p) + q % p;
    assert v == (q / p) * (256 * p) + (v % 256 + 256 * (q % p)) by {
      assert 256 * q == 256 * p * (q / p) + 256 * (q % p);
    }
    assert 0 <= v % 256 + 256 * (q % p) < 256 * p;
    DivModUnique(v, 256 * p, q / p, v % 256 + 256 * (q % p));
  }

  lemma {:induction false} FlattenBytes(parts: seq<seq<int>>)
    requires forall k :: 0 <= k < |parts| ==> Bytes(parts[k])
    ensures Bytes(Flatten(parts))
  {
    if |parts| > 0 {
      FlattenBytes(parts[..|parts| - 1]);
    }
  }

  /** A two-byte value: low byte first. */
  lemma {:induction false} Decode2(s: seq<int>)
    requires |s| == 2 && Bytes(s)
    ensures Decode(s) == s[0] + 256 * s[1]
  {
    assert s[1..][1..] == [];
  }

  /** The byte at `p`, or 0 past the end of the file. */
  function ByteAt(file: seq<int>, p: int): int
  {
    if 0 <= p < |file| then file[p] else 0
  }

  /** `n` bytes of the file from `pos`, zero-filled past its end. */
  function Window(file: seq<int>, pos: int, n: nat): (r: seq<int>)
    requires Bytes(file)
    ensures |r| == n && Bytes(r)
    ensures pos >= 0 && pos + n <= |file| ==> r == file[pos..pos + n]
  {
    var r := seq(n, k requires 0 <= k < n => ByteAt(file, pos + k));
    assert Bytes(r) by {
      forall k | 0 <= k < n
        ensures IsByte(r[k])
      {
        assert r[k] == ByteAt(file, pos + k);
      }
    }
    assert pos >= 0 && pos + n <= |file| ==> r == file[pos..pos + n] by {
      if pos >= 0 && pos + n <= |file| {
        forall k | 0 <= k < n
          ensures r[k] == file[pos..pos + n][k]
        {
          assert r[k] == ByteAt(file, pos + k) == file[pos + k];
        }
      }
    }
    r
  }

  /** The bytes a `std::string` holds for a Dafny string: each character's code modulo 256. */
  function TextBytes(s: string): (r: seq<int>)
    ensures |r| == |s| && Bytes(r)
    ensures forall i :: 0 <= i < |s| ==> r[i] == (s[i] as int) % 256
  {
    seq(|s|, i requires 0 <= i < |s| => (s[i] as int) % 256)
  }
}

=== FILE: PhotoGrouping.dfy ===
/**
 * Grouping photos by time (GUI/src/PhotoGroupingTool.cxx), e.g. the frames of one burst for a
 * time-lapse. The photos are sorted by timestamp; then, round after round, the photo that would
 * start the largest group of photos not more than `interval` seconds after it starts the next
 * group, and that group leaves the pool. Finally the groups are ordered by their earliest
 * timestamp and each group by score.
 *
 * The header GUI/headers/PhotoGroupingTool.h declares a different interface (input frames and
 * group indices); the model follows the implementation file, which stores file addresses.
 */
module PhotoGrouping {
  import opened Sorting

  /** `PhotoInfo`; the score is a `float` in C++ and exact here. */
  datatype Photo = Photo(address: string, timestamp: int, score: real)

  datatype Tool = Tool(photos: seq<Photo>, interval: int, groups: seq<seq<Photo>>)

  const NewTool := Tool([], 0, [])

  function Timestamp(p: Photo): int { p.timestamp }

  /** `add_file`: appended to the photos to group. */
  function AddFile(t: Tool, address: string, timestamp: int, score: real): (r: Tool)
    ensures r.photos == t.photos + [Photo(address, timestamp, score)]
    ensures r.interval == t.interval && r.groups == t.groups
  {
    t.(photos := t.photos + [Photo(address, timestamp, score)])
  }

  /** `define_maximum_time_difference_in_group`. */
  function DefineInterval(t: Tool, interval: int): (r: Tool)
    ensures r.interval == interval && r.photos == t.photos && r.groups == t.groups
  {
    t.(interval := interval)
  }

  // ---------------------------------------------------------------------------------------------
  // Counting: how large a group each photo would start

  /**
   * The inner loop: how many photos from index `j` on lie within `interval` of photo `i`,
   * stopping at the first one that does not. The result is the longest such run.
   */
  function Reach(ps: seq<Photo>, i: nat, j: nat, interval: int): (n: nat)
    requires i < j <= |ps|
    ensures j + n <= |ps|
    ensures forall k :: j <= k < j + n ==> ps[k].timestamp - ps[i].timestamp <= interval
    ensures j + n < |ps| ==> ps[j + n].timestamp - ps[i].timestamp > interval
    decreases |ps| - j
  {
    if j == |ps| || ps[j].timestamp - ps[i].timestamp > interval then 0
    else 1 + Reach(ps, i, j + 1, interval)
  }

  /** The size of the group photo `i` would start: itself and the run after it. */
  function GroupSize(ps: seq<Photo>, i: nat, interval: int): (n: nat)
    requires i < |ps|
    ensures 1 <= n && i + n <= |ps|
  {
    1 + Reach(ps, i, i + 1, interval)
  }

  /**
   * `number_of_photos_in_group`: it has a slot for each of all `total` photos, not only the
   * ones still to group; slots past those stay 1.
   */
  function Counts(rem: seq<Photo>, interval: int, total: nat): seq<int>
    requires |rem| <= total
  {
    seq(total, i requires 0 <= i < total => if i < |rem| then GroupSize(rem, i, interval) else 1)
  }

  /** The two counting loops of one round, with the inner loop's `break`. */
  method CountGroupSizes(rem: seq<Photo>, interval: int, total: nat) returns (counts: seq<int>)
    requires |rem| <= total
    ensures counts == Counts(rem, interval, total)
  {
    counts := seq(total, _ => 1);
    var i := 0;
    while i < |rem|
      invariant 0 <= i <= |rem| && |counts| == total
      invariant forall k :: 0 <= k < i ==> counts[k] == GroupSize(rem, k, interval)
      invariant forall k :: i <= k < total ==> counts[k] == 1
    {
      var j := i + 1;
      while j < |rem|
        invariant i + 1 <= j <= |rem| && |counts| == total
        invariant counts[i] == j - i
        invariant forall k :: i < k < j ==> rem[k].timestamp - rem[i].timestamp <= interval
        invariant forall k :: 0 <= k < i ==> counts[k] == GroupSize(rem, k, interval)
        invariant forall k :: i < k < total ==> counts[k] == 1
      {
        if rem[j].timestamp - rem[i].timestamp > interval {
          break;
        }
        counts := counts[i := counts[i] + 1];
        j := j + 1;
      }
      RunEnd(rem, i, j, interval);
      i := i + 1;
    }
  }

  /** A run that ends at the list's end or at a photo out of range is the run `Reach` measures. */
  lemma {:induction false} RunEnd(ps: seq<Photo>, i: nat, j: nat, interval: int)
    requires i < j <= |ps|
    requires forall k :: i < k < j ==> ps[k].timestamp - ps[i].timestamp <= interval
    requires j == |ps| || ps[j].timestamp - ps[i].timestamp > interval
    ensures GroupSize(ps, i, interval) == j - i
  {
    var n := Reach(ps, i, i + 1, interval);
  }

  /** `std::max_element`: the first index holding the largest value. */
  function FirstMax(c: seq<int>): (k: nat)
    requires |c| > 0
    ensures k < |c|
    ensures forall j :: 0 <= j < |c| ==> c[j] <= c[k]
    ensures forall j :: 0 <= j < k ==> c[j] < c[k]
  {
    if |c| == 1 then 0
    else
      var k := FirstMax(c[..|c| - 1]);
      assert forall j :: 0 <= j < |c| - 1 ==> c[..|c| - 1][j] == c[j];
      if c[|c| - 1] > c[k] then |c| - 1 else k
  }

  // ---------------------------------------------------------------------------------------------
  // The rounds

  /**
   * Where the round's group starts: the first maximum of the counts. The padding slots hold 1,
   * which never beats the count of photo 0, so the start is one of the photos still to group.
   */
  function RoundStart(rem: seq<Photo>, interval: int, total: nat): (k: nat)
    requires 0 < |rem| <= total
    ensures k < |rem|
    ensures forall j :: 0 <= j < |rem| ==> GroupSize(rem, j, interval) <= GroupSize(rem, k, interval)
    ensures forall j :: 0 <= j < k ==> GroupSize(rem, j, interval) < GroupSize(rem, k, interval)
  {
    var c := Counts(rem, interval, total);
    FirstMaxBeforePadding(c, |rem|);
    var k := FirstMax(c);
    assert forall j :: 0 <= j < |rem| ==> c[j] == GroupSize(rem, j, interval);
    k
  }

  /** When the first entry is at least 1 and every entry from `n` on at most 1, the first maximum lies before `n`. */
  lemma {:induction false} FirstMaxBeforePadding(c: seq<int>, n: nat)
    requires 0 < n <= |c| && c[0] >= 1
    requires forall j :: n <= j < |c| ==> c[j] <= 1
    ensures FirstMax(c) < n
  {
    if |c| > 1 && |c| - 1 >= n {
      var d := c[..|c| - 1];
      assert d[0] == c[0];
      assert forall j :: n <= j < |d| ==> d[j] == c[j];
      FirstMaxBeforePadding(d, n);
      var k := FirstMax(d);
      assert d[0] <= d[k];
    }
  }

  /** The `while (!photos_not_grouped.empty())` loop: the groups in the order they are formed. */
  function Rounds(rem: seq<Photo>, interval: int, total: nat): seq<seq<Photo>>
    requires |rem| <= total
    decreases |rem|
  {
    if |rem| == 0 then []
    else [RoundTaken(rem, interval, total)] + Rounds(RoundLeft(rem, interval, total), interval, total)
  }

  /** The group one round takes: the largest group, first of the largest. */
  function RoundTaken(rem: seq<Photo>, interval: int, total: nat): seq<Photo>
    requires 0 < |rem| <= total
  {
    var k := RoundStart(rem, interval, total);
    rem[k..k + GroupSize(rem, k, interval)]
  }

  /** The photos one round leaves for the later rounds. */
  function RoundLeft(rem: seq<Photo>, interval: int, total: nat): (r: seq<Photo>)
    requires 0 < |rem| <= total
    ensures |r| < |rem|
  {
    var k := RoundStart(rem, interval, total);
    var n := GroupSize(rem, k, interval);
    rem[..k] + rem[k + n..]
  }

  // ---------------------------------------------------------------------------------------------
  // Ordering the groups and the photos in them

  function FirstTimestamp(g: seq<Photo>): int
  {
    if |g| > 0 then g[0].timestamp else 0
  }

  ghost predicate ScoreSorted(g: seq<Photo>)
  {
    forall i, j :: 0 <= i < j < |g| ==> g[i].score <= g[j].score
  }

  function InsertByScore(x: Photo, g: seq<Photo>): (r: seq<Photo>)
    requires ScoreSorted(g)
    ensures multiset(r) == multiset(g) + multiset{x}
    ensures ScoreSorted(r)
  {
    if |g| == 0 || x.score <= g[0].score then
      assert forall k :: 0 <= k < |g| ==> g[0].score <= g[k].score;
      ConsScoreSorted(x, g);
      [x] + g
    else
      var t := InsertByScore(x, g[1..]);
      InsertStep(x, g, t);
      [g[0]] + t
  }

  /** Putting the first photo of `g` before the insertion into the rest of `g` gives the insertion into `g`. */
  lemma {:induction false} InsertStep(x: Photo, g: seq<Photo>, t: seq<Photo>)
    requires |g| > 0 && ScoreSorted(g) && g[0].score < x.score
    requires multiset(t) == multiset(g[1..]) + multiset{x} && ScoreSorted(t)
    ensures multiset([g[0]] + t) == multiset(g) + multiset{x}
    ensures ScoreSorted([g[0]] + t)
  {
    assert g == [g[0]] + g[1..];
    assert forall j :: 0 <= j < |g| - 1 ==> g[1..][j] == g[j + 1];
    LowerBoundCarries(t, g[1..], x, g[0].score);
    ConsScoreSorted(g[0], t);
  }

  /** A photo scoring no more than any photo of a score-sorted sequence can go in front of it. */
  lemma {:induction false} ConsScoreSorted(a: Photo, t: seq<Photo>)
    requires ScoreSorted(t) && forall k :: 0 <= k < |t| ==> a.score <= t[k].score
    ensures ScoreSorted([a] + t)
  {
    var r := [a] + t;
    forall i, j | 0 <= i < j < |r|
      ensures r[i].score <= r[j].score
    {
      assert r[j] == t[j - 1];
      if i > 0 {
        assert r[i] == t[i - 1];
      }
    }
  }

  /** A bound below every photo of `g` and below `x` is below every photo of a sequence holding exactly those. */
  lemma {:induction false} LowerBoundCarries(t: seq<Photo>, g: seq<Photo>, x: Photo, b: real)
    requires multiset(t) == multiset(g) + multiset{x}
    requires b <= x.score && forall j :: 0 <= j < |g| ==> b <= g[j].score
    ensures forall k :: 0 <= k < |t| ==> b <= t[k].score
  {
    forall k | 0 <= k < |t|
      ensures b <= t[k].score
    {
      assert t[k] in multiset(t);
      if t[k] != x {
        assert t[k] in multiset(g);
        var j :| 0 <= j < |g| && g[j] == t[k];
      }
    }
  }

  /** The per-group `std::sort` by ascending score (a stable sort stands in for it). */
  function SortByScore(g: seq<Photo>): (r: seq<Photo>)
    ensures multiset(r) == multiset(g)
    ensures ScoreSorted(r)
  {
    if |g| == 0 then []
    else
      assert g == [g[0]] + g[1..];
      InsertByScore(g[0], SortByScore(g[1..]))
  }

  /** `run_grouping`: the photos end up sorted by timestamp and the groups are formed and ordered. */
  function RunGrouping(t: Tool): (r: Tool)
    ensures r.interval == t.interval
    ensures SortedBy(r.photos, Timestamp) && multiset(r.photos) == multiset(t.photos)
  {
    var sorted := SortBy(t.photos, Timestamp);
    var ordered := SortBy(Rounds(sorted, t.interval, |sorted|), FirstTimestamp);
    Tool(sorted, t.interval, seq(|ordered|, i requires 0 <= i < |ordered| => SortByScore(ordered[i])))
  }

  function Addresses(g: seq<Photo>): (r: seq<string>)
    ensures |r| == |g| && forall i :: 0 <= i < |g| ==> r[i] == g[i].address
  {
    seq(|g|, i requires 0 <= i < |g| => g[i].address)
  }

  /** `get_groups`: the file addresses, group by group. */
  function GetGroups(t: Tool): (r: seq<seq<string>>)
    ensures |r| == |t.groups| && forall i :: 0 <= i < |r| ==> r[i] == Addresses(t.groups[i])
  {
    seq(|t.groups|, i requires 0 <= i < |t.groups| => Addresses(t.groups[i]))
  }

  // ---------------------------------------------------------------------------------------------
  // Properties

  /** All the photos of the groups, with multiplicity. */
  function Pooled(gs: seq<seq<Photo>>): multiset<Photo>
  {
    if |gs| == 0 then multiset{} else multiset(gs[0]) + Pooled(gs[1..])
  }

  /** The earliest timestamp in a non-empty group, whatever the group's order. */
  function Earliest(g: seq<Photo>): (t: int)
    requires |g| > 0
    ensures forall i :: 0 <= i < |g| ==> t <= g[i].timestamp
    ensures exists i :: 0 <= i < |g| && g[i].timestamp == t
  {
    if |g| == 1 then g[0].timestamp
    else
      var t := Earliest(g[1..]);
      assert forall i :: 0 < i < |g| ==> g[i] == g[1..][i - 1];
      var j :| 0 <= j < |g| - 1 && g[1..][j].timestamp == t;
      assert g[j + 1].timestamp == t;
      if g[0].timestamp <= t then g[0].timestamp else t
  }

  /**
   * A group as `run_grouping` promises it: non-empty, and, unless it is a single photo, every
   * timestamp at most `interval` after the earliest one.
   */
  ghost predicate WithinInterval(g: seq<Photo>, interval: int)
  {
    |g| > 0 && (|g| == 1 || forall i :: 0 <= i < |g| ==> g[i].timestamp - Earliest(g) <= interval)
  }

  /** A group as a round forms it: a time-sorted run within `interval` of its first photo. */
  ghost predicate RoundGroup(g: seq<Photo>, interval: int)
  {
    |g| > 0 && SortedBy(g, Timestamp) && (|g| == 1 || forall i :: 0 <= i < |g| ==> g[i].timestamp - g[0].timestamp <= interval)
  }

  lemma {:induction false} SortedSlice(s: seq<Photo>, a: nat, b: nat)
    requires SortedBy(s, Timestamp) && a <= b <= |s|
    ensures SortedBy(s[a..b], Timestamp)
  {
    assert forall i :: 0 <= i < b - a ==> s[a..b][i] == s[a + i];
  }

  lemma {:induction false} SortedRemoval(s: seq<Photo>, a: nat, b: nat)
    requires SortedBy(s, Timestamp) && a <= b <= |s|
    ensures SortedBy(s[..a] + s[b..], Timestamp)
  {
    var r := s[..a] + s[b..];
    forall i, j | 0 <= i < j < |r|
      ensures Timestamp(r[i]) <= Timestamp(r[j])
    {
      var i' := if i < a then i else i + b - a;
      var j' := if j < a then j else j + b - a;
      assert r[i] == s[i'] && r[j] == s[j'];
    }
  }

  /** The group a round takes from a time-sorted pool is a run within `interval` of its first photo. */
  lemma {:induction false} RoundGroupShape(rem: seq<Photo>, k: nat, interval: int)
    requires SortedBy(rem, Timestamp) && k < |rem|
    ensures RoundGroup(rem[k..k + GroupSize(rem, k, interval)], interval)
  {
    var n := GroupSize(rem, k, interval);
    var g := rem[k..k + n];
    SortedSlice(rem, k, k + n);
    if n > 1 {
      assert rem[k + 1].timestamp - rem[k].timestamp <= interval;
      assert forall i :: 0 <= i < n ==> g[i] == rem[k + i];
    }
  }

  /**
   * The rounds over a time-sorted pool: the groups hold exactly the pool's photos, and each is a
   * time-sorted run within `interval` of its first photo.
   */
  lemma {:induction false} RoundsPartition(rem: seq<Photo>, interval: int, total: nat)
    requires SortedBy(rem, Timestamp) && |rem| <= total
    ensures Pooled(Rounds(rem, interval, total)) == multiset(rem)
    ensures forall i :: 0 <= i < |Rounds(rem, interval, total)| ==> RoundGroup(Rounds(rem, interval, total)[i], interval)
  {
    RoundsPooled(rem, interval, total);
    RoundsShaped(rem, interval, total);
  }

  /** The rounds hold exactly the photos they start from. */
  lemma {:induction false} RoundsPooled(rem: seq<Photo>, interval: int, total: nat)
    requires |rem| <= total
    ensures Pooled(Rounds(rem, interval, total)) == multiset(rem)
    decreases |rem|
  {
    if |rem| > 0 {
      var k, n := RoundsUnfold(rem, interval, total);
      var g, rest := rem[k..k + n], rem[..k] + rem[k + n..];
      RoundsPooled(rest, interval, total);
      MultisetRemoval(rem, k, k + n);
      PooledCons(g, Rounds(rest, interval, total));
    }
  }

  /** The first round's group and what it leaves for the later rounds. */
  lemma {:induction false} RoundsUnfold(rem: seq<Photo>, interval: int, total: nat) returns (k: nat, n: nat)
    requires 0 < |rem| <= total
    ensures k == RoundStart(rem, interval, total) && n == GroupSize(rem, k, interval) && k + n <= |rem|
    ensures Rounds(rem, interval, total) == [rem[k..k + n]] + Rounds(rem[..k] + rem[k + n..], interval, total)
  {
    k := RoundStart(rem, interval, total);
    n := GroupSize(rem, k, interval);
    assert RoundTaken(rem, interval, total) == rem[k..k + n];
    assert RoundLeft(rem, interval, total) == rem[..k] + rem[k + n..];
  }

  lemma {:induction false} PooledCons(g: seq<Photo>, gs: seq<seq<Photo>>)
    ensures Pooled([g] + gs) == multiset(g) + Pooled(gs)
  {
    assert ([g] + gs)[1..] == gs;
  }

  /** Over a time-sorted pool, every round's group is a time-sorted run within `interval` of its first photo. */
  lemma {:induction false} RoundsShaped(rem: seq<Photo>, interval: int, total: nat)
    requires SortedBy(rem, Timestamp) && |rem| <= total
    ensures forall i :: 0 <= i < |Rounds(rem, interval, total)| ==> RoundGroup(Rounds(rem, interval, total)[i], interval)
    decreases |rem|
  {
    if |rem| > 0 {
      var k, n := RoundsUnfold(rem, interval, total);
      var rest := rem[..k] + rem[k + n..];
      SortedRemoval(rem, k, k + n);
      RoundsShaped(rest, interval, total);
      RoundGroupShape(rem, k, interval);
      var tail := Rounds(rest, interval, total);
      AllRoundGroupsCons(rem[k..k + n], tail, interval);
    }
  }

  lemma {:induction false} AllRoundGroupsCons(g: seq<Photo>, gs: seq<seq<Photo>>, interval: int)
    requires RoundGroup(g, interval) && forall i :: 0 <= i < |gs| ==> RoundGroup(gs[i], interval)
    ensures forall i :: 0 <= i < |[g] + gs| ==> RoundGroup(([g] + gs)[i], interval)
  {
    var all := [g] + gs;
    assert forall i :: 1 <= i < |all| ==> all[i] == gs[i - 1];
  }

  lemma {:induction false} MultisetRemoval(s: seq<Photo>, a: nat, b: nat)
    requires a <= b <= |s|
    ensures multiset(s) == multiset(s[a..b]) + multiset(s[..a] + s[b..])
  {
    assert s == s[..a] + s[a..b] + s[b..];
  }

  /** Each round starts its group at the first photo that starts a largest group. */
  lemma {:induction false} RoundPicksFirstLargest(rem: seq<Photo>, interval: int, total: nat) returns (k: nat)
    requires 0 < |rem| <= total
    ensures k < |rem| && Rounds(rem, interval, total)[0] == rem[k..k + GroupSize(rem, k, interval)]
    ensures forall j :: 0 <= j < |rem| ==> GroupSize(rem, j, interval) <= GroupSize(rem, k, interval)
    ensures forall j :: 0 <= j < k ==> GroupSize(rem, j, interval) < GroupSize(rem, k, interval)
  {
    var n;
    k, n := RoundsUnfold(rem, interval, total);
    var gs := Rounds(rem, interval, total);
    assert gs[0] == rem[k..k + n];
  }

  lemma {:induction false} PooledInsert(x: seq<Photo>, s: seq<seq<Photo>>)
    requires SortedBy(s, FirstTimestamp)
    ensures Pooled(Insert(x, s, FirstTimestamp)) == multiset(x) + Pooled(s)
    decreases |s|
  {
    if |s| > 0 && FirstTimestamp(x) > FirstTimestamp(s[0]) {
      assert SortedBy(s[1..], FirstTimestamp) by {
        assert forall i :: 0 <= i < |s| - 1 ==> s[1..][i] == s[i + 1];
      }
      PooledInsert(x, s[1..]);
      assert Insert(x, s, FirstTimestamp)[1..] == Insert(x, s[1..], FirstTimestamp);
    } else {
      assert Insert(x, s, FirstTimestamp)[1..] == s;
    }
  }

  /** Ordering the groups keeps the pooled photos. */
  lemma {:induction false} PooledSortBy(gs: seq<seq<Photo>>)
    ensures Pooled(SortBy(gs, FirstTimestamp)) == Pooled(gs)
    decreases |gs|
  {
    if |gs| > 0 {
      PooledSortBy(gs[1..]);
      PooledInsert(gs[0], SortBy(gs[1..], FirstTimestamp));
    }
  }

  /** Sorting each group by score keeps the pooled photos. */
  lemma {:induction false} PooledScoreSorted(gs: seq<seq<Photo>>, hs: seq<seq<Photo>>)
    requires |hs| == |gs| && forall i :: 0 <= i < |gs| ==> hs[i] == SortByScore(gs[i])
    ensures Pooled(hs) == Pooled(gs)
    decreases |gs|
  {
    if |gs| > 0 {
      PooledScoreSorted(gs[1..], hs[1..]);
    }
  }

  /** Reordering a group does not change its earliest timestamp. */
  lemma {:induction false} EarliestPermutation(a: seq<Photo>, b: seq<Photo>)
    requires multiset(a) == multiset(b) && |a| > 0
    ensures |b| == |a| && Earliest(a) == Earliest(b)
  {
    assert |b| == |multiset(b)| == |multiset(a)| == |a|;
    var i :| 0 <= i < |a| && a[i].timestamp == Earliest(a);
    var j :| 0 <= j < |b| && b[j].timestamp == Earliest(b);
    var i' := PermutedIndex(a, b, i);
    var j' := PermutedIndex(b, a, j);
  }

  lemma {:induction false} RoundGroupWithin(g: seq<Photo>, interval: int)
    requires RoundGroup(g, interval)
    ensures Earliest(g) == g[0].timestamp == FirstTimestamp(g)
    ensures WithinInterval(SortByScore(g), interval)
  {
    var i :| 0 <= i < |g| && g[i].timestamp == Earliest(g);
    assert i == 0 || Timestamp(g[0]) <= Timestamp(g[i]);
    var h := SortByScore(g);
    EarliestPermutation(g, h);
    if |h| > 1 {
      forall j | 0 <= j < |h|
        ensures h[j].timestamp - Earliest(h) <= interval
      {
        var j' := PermutedIndex(h, g, j);
      }
    }
  }

  /**
   * The groups as `run_grouping` leaves them: each within `interval` of its earliest photo and
   * sorted by score, and the groups ordered by their earliest timestamp.
   */
  ghost predicate GroupsOrdered(gs: seq<seq<Photo>>, interval: int)
  {
    && (forall i :: 0 <= i < |gs| ==> WithinInterval(gs[i], interval) && ScoreSorted(gs[i]))
    && (forall i, j :: 0 <= i < j < |gs| ==> Earliest(gs[i]) <= Earliest(gs[j]))
  }

  /** `run_grouping`: the groups partition the tool's photos and are ordered as promised. */
  lemma {:induction false} RunGroupingProperties(t: Tool)
    ensures Pooled(RunGrouping(t).groups) == multiset(t.photos)
    ensures GroupsOrdered(RunGrouping(t).groups, t.interval)
  {
    var sorted := SortBy(t.photos, Timestamp);
    var gs := Rounds(sorted, t.interval, |sorted|);
    var ordered := SortBy(gs, FirstTimestamp);
    var hs := seq(|ordered|, i requires 0 <= i < |ordered| => SortByScore(ordered[i]));
    assert RunGrouping(t).groups == hs;
    assert Pooled(hs) == multiset(t.photos) by {
      RoundsPartition(sorted, t.interval, |sorted|);
      PooledSortBy(gs);
      PooledScoreSorted(ordered, hs);
    }
    assert forall i :: 0 <= i < |ordered| ==> RoundGroup(ordered[i], t.interval) by {
      RoundsPartition(sorted, t.interval, |sorted|);
      forall i | 0 <= i < |ordered|
        ensures RoundGroup(ordered[i], t.interval)
      {
        SortByKeepsElements(gs, FirstTimestamp, ordered[i]);
      }
    }
    forall i | 0 <= i < |hs|
      ensures WithinInterval(hs[i], t.interval) && ScoreSorted(hs[i])
      ensures Earliest(hs[i]) == FirstTimestamp(ordered[i])
    {
      RoundGroupWithin(ordered[i], t.interval);
      EarliestPermutation(ordered[i], hs[i]);
    }
  }
}

=== FILE: SerReader.dfy ===
/**
 * Reading one frame of a SER video, and the header fields the metadata reader decodes: the
 * resolution and bit depth at offsets 26, 30 and 34, the Bayer code at 18 and the timestamp at
 * 162. Bytes past the end of the file read as zero, as the zero-initialised buffer keeps them.
 */
module SerReader {
  import opened Wrappers
  import opened CInts
  import opened Sorting
  import opened LittleEndian
  import opened SerWriter
  import opened Text

  /** `int_code_to_bayer_matrix`: the four SER colour codes, and "" for 0 and for unknown codes. */
  function BayerMatrixOfCode(code: int): (m: string)
    ensures m in {"", "RGGB", "GRBG", "GBRG", "BGGR"}
    ensures m != "" <==> 8 <= code <= 11
  {
    match code
    case 0 => ""
    case 8 => "RGGB"
    case 9 => "GRBG"
    case 10 => "GBRG"
    case 11 => "BGGR"
    case _ => ""
  }

  /** A file is monochrome exactly when its Bayer code decodes to no pattern. */
  function Monochrome(code: int): (b: bool)
    ensures b <==> !(8 <= code <= 11)
  {
    BayerMatrixOfCode(code) == ""
  }

  /** Every pattern the writer can encode decodes back to itself; everything else decodes to "". */
  lemma {:induction false} BayerPatternRoundTrip(m: string)
    requires BayerCode(m).Ok?
    ensures BayerMatrixOfCode(BayerCode(m).value) == (if m in {"RGGB", "GRBG", "GBRG", "BGGR"} then m else "")
  {
  }

  /** Re-encoding a decoded code gives the code back for colour codes and 0 (monochrome) otherwise. */
  lemma {:induction false} BayerCodeRoundTrip(code: int)
    ensures BayerCode(BayerMatrixOfCode(code)) == Ok(if 8 <= code <= 11 then code else 0)
  {
  }

  /** `microsoft_to_unix_time`: whole seconds since 1970 in `unsigned long long`, cut to `unsigned int`. */
  function MicrosoftToUnix(m: int): (t: int)
    requires 0 <= m < TWO_64
    ensures 0 <= t < TWO_32
    ensures (m / TICKS_PER_SECOND - EPOCH_OFFSET - t) % TWO_32 == 0
  {
    var seconds := m / TICKS_PER_SECOND - EPOCH_OFFSET;
    WrapU32OfU64(seconds);
    WrapU32(WrapU64(seconds))
  }

  /** The reader inverts the writer's timestamp conversion for every `unsigned int` time. */
  lemma {:induction false} TimeRoundTrip(t: int)
    requires 0 <= t < TWO_32
    ensures MicrosoftToUnix(UnixToMicrosoft(t)) == t
  {
    var m := UnixToMicrosoft(t);
    assert m / TICKS_PER_SECOND - EPOCH_OFFSET == t;
  }

  /** `read_uint_from_file` and `read_ulonglong_from_file` on a little-endian host. */
  function ReadUInt(file: seq<int>, pos: int): (v: int)
    requires Bytes(file)
    ensures 0 <= v < TWO_32
  {
    Decode(Window(file, pos, 4))
  }

  function ReadULongLong(file: seq<int>, pos: int): (v: int)
    requires Bytes(file)
    ensures 0 <= v < TWO_64
  {
    Decode(Window(file, pos, 8))
  }

  /** The header fields as the reader sees them. */
  datatype HeaderInfo = HeaderInfo(width: int, height: int, bitDepth: int, bayerMatrix: string, timestamp: int)

  function ReadHeader(file: seq<int>): (h: HeaderInfo)
    requires Bytes(file)
    ensures h.width == ReadUInt(file, 26) && h.height == ReadUInt(file, 30) && h.bitDepth == ReadUInt(file, 34)
    ensures h.bayerMatrix == BayerMatrixOfCode(ReadUInt(file, 18))
    ensures h.timestamp == MicrosoftToUnix(ReadULongLong(file, 162))
  {
    HeaderInfo(ReadUInt(file, 26), ReadUInt(file, 30), ReadUInt(file, 34),
               BayerMatrixOfCode(ReadUInt(file, 18)), MicrosoftToUnix(ReadULongLong(file, 162)))
  }

  /** Sixteen-bit samples: each little-endian pair halved, as `x / 2` on `unsigned short`. */
  function Halved(bytes: seq<int>, n: nat): (r: seq<int>)
    requires |bytes| == 2 * n && Bytes(bytes)
    ensures |r| == n
    ensures forall k :: 0 <= k < n ==> 0 <= r[k] < 0x8000 && r[k] == Decode(bytes[2 * k..2 * k + 2]) / 2
  {
    seq(n, k requires 0 <= k < n => Decode(bytes[2 * k..2 * k + 2]) / 2)
  }

  /**
   * `read_raw_file` for frame `frameId` as intended: read `bitDepth / 8 * width * height` bytes
   * after the header and the preceding frames, halve 16-bit samples, widen 8-bit ones, and throw
   * for other depths. The C++ code reads before it checks the depth, so depths below 24 throw
   * after a harmless read while 24 and above first overrun the buffer (`WideDepthOverReads`).
   * The final `short` conversion leaves every value unchanged, since all are below 2^15.
   */
  function ReadRawFile(file: seq<int>, frameId: nat): (r: Result<seq<int>>)
    requires Bytes(file)
    ensures r.Err? <==> ReadUInt(file, 34) != 8 && ReadUInt(file, 34) != 16
    ensures r.Ok? ==> |r.value| == Pixels(file)
    ensures r.Ok? && ReadUInt(file, 34) == 8 ==> r.value == FrameBytes(file, frameId, Pixels(file))
    ensures r.Ok? && ReadUInt(file, 34) == 16 ==> r.value == Halved(FrameBytes(file, frameId, 2 * Pixels(file)), Pixels(file))
  {
    var depth := ReadUInt(file, 34);
    var n := Pixels(file);
    if depth == 16 then Ok(Halved(FrameBytes(file, frameId, 2 * n), n))
    else if depth == 8 then Ok(FrameBytes(file, frameId, n))
    else Err("Unsupported bit depth in SER file: " + IntToString(depth))
  }

  /**
   * The number of bytes the C++ code asks `file.read` for before it looks at the depth:
   * `bit_depth / 8` bytes per pixel.
   */
  function BytesReadAsWritten(file: seq<int>): nat
    requires Bytes(file)
  {
    ReadUInt(file, 34) / 8 * Pixels(file)
  }

  /** The size in bytes of the `width * height` `unsigned short` buffer the frame is read into. */
  function BufferBytes(file: seq<int>): nat
    requires Bytes(file)
  {
    2 * Pixels(file)
  }

  /**
   * As written, the read overruns the buffer exactly when the depth is 24 or more and the frame
   * has a pixel; such a depth is then rejected, too late. The intended reader rejects it without
   * reading.
   */
  lemma {:induction false} WideDepthOverReads(file: seq<int>, frameId: nat)
    requires Bytes(file)
    ensures BytesReadAsWritten(file) > BufferBytes(file) <==> ReadUInt(file, 34) >= 24 && Pixels(file) > 0
    ensures ReadUInt(file, 34) >= 24 ==> ReadRawFile(file, frameId).Err?
  {
    var q, n := ReadUInt(file, 34) / 8, Pixels(file);
    if ReadUInt(file, 34) >= 24 {
      assert q >= 3;
      MulAtLeast(q, 3, n);
    } else {
      assert q <= 2;
      MulAtLeast(2, q, n);
    }
  }

  lemma {:induction false} MulAtLeast(a: nat, b: nat, n: nat)
    requires a >= b
    ensures a * n >= b * n
  {
  }

  /** A 1x1 frame of depth 24: three bytes are read into a two-byte buffer. */
  lemma {:induction false} Depth24OverReadExample()
    ensures var file := seq(26, _ => 0) + [1, 0, 0, 0] + [1, 0, 0, 0] + [24, 0, 0, 0];
      && Bytes(file) && BytesReadAsWritten(file) == 3 && BufferBytes(file) == 2
  {
    var file := seq(26, _ => 0) + [1, 0, 0, 0] + [1, 0, 0, 0] + [24, 0, 0, 0];
    assert file[26..30] == [1, 0, 0, 0] && file[30..34] == [1, 0, 0, 0] && file[34..38] == [24, 0, 0, 0];
    DecodeSmall(1);
    DecodeSmall(24);
  }

  /** A single byte followed by three zero bytes decodes to that byte. */
  lemma {:induction false} DecodeSmall(b: int)
    requires 0 <= b < 256
    ensures Decode([b, 0, 0, 0]) == b
  {
    assert [b, 0, 0, 0][1..] == [0, 0, 0] && [0, 0, 0][1..] == [0, 0] && [0, 0][1..] == [0] && [0][1..] == [];
  }

  /** `width * height` from the header. */
  function Pixels(file: seq<int>): nat
    requires Bytes(file)
  {
    ReadUInt(file, 26) * ReadUInt(file, 30)
  }

  /** The `frameSize` bytes of frame `frameId`: the header, then `frameId` frames of that size. */
  function FrameBytes(file: seq<int>, frameId: nat, frameSize: nat): (r: seq<int>)
    requires Bytes(file)
    ensures |r| == frameSize && Bytes(r)
  {
    Window(file, HEADER_SIZE + frameId * frameSize, frameSize)
  }

  /**
   * The 8-bit branch of `read_raw_file` as written, on the bytes of the `unsigned short` buffer:
   * walking down from the last pixel, the frame byte `i` is stored into sample `i` and then byte
   * `i` is zeroed. For pixel 0 the zeroed byte is the low byte of the sample just written.
   */
  method WidenInPlaceAsWritten(buf: seq<int>, n: nat) returns (r: seq<int>)
    requires |buf| == 2 * n && Bytes(buf)
    ensures |r| == 2 * n
    ensures forall k :: 1 <= k < n ==> r[2 * k] == buf[k] && r[2 * k + 1] == 0
    ensures n > 0 ==> r[0] == 0 && r[1] == 0
    ensures Bytes(r) && Samples(r, n) == WidenedAsWritten(buf[..n])
  {
    r := buf;
    var i := n - 1;
    while i >= 0
      invariant -1 <= i < n && |r| == 2 * n && Bytes(r)
      invariant forall k :: 0 <= k <= i ==> r[k] == buf[k]
      invariant forall k :: i < k < n && k >= 1 ==> r[2 * k] == buf[k] && r[2 * k + 1] == 0
      invariant i < 0 && n > 0 ==> r[0] == 0 && r[1] == 0
    {
      var v := r[i];
      ByteWidened(v);
      r := r[2 * i := v % 256][2 * i + 1 := v / 256 % 256];
      r := r[i := 0];
      i := i - 1;
    }
    SamplesOfWidened(r, n, WidenedAsWritten(buf[..n]));
  }

  /** A byte stored as a little-endian `unsigned short` is itself followed by a zero byte. */
  lemma {:induction false} ByteWidened(v: int)
    requires IsByte(v)
    ensures v % 256 == v && v / 256 % 256 == 0
  {
  }

  /**
   * The same loop without the zeroing store, which the evidently intended widening needs: every
   * later store of the loop overwrites the byte anyway, except at pixel 0.
   */
  method WidenInPlace(buf: seq<int>, n: nat) returns (r: seq<int>)
    requires |buf| == 2 * n && Bytes(buf)
    ensures |r| == 2 * n
    ensures forall k :: 0 <= k < n ==> r[2 * k] == buf[k] && r[2 * k + 1] == 0
    ensures Bytes(r) && Samples(r, n) == buf[..n]
  {
    r := buf;
    var i := n - 1;
    while i >= 0
      invariant -1 <= i < n && |r| == 2 * n && Bytes(r)
      invariant forall k :: 0 <= k <= i ==> r[k] == buf[k]
      invariant forall k :: i < k < n ==> r[2 * k] == buf[k] && r[2 * k + 1] == 0
    {
      var v := r[i];
      ByteWidened(v);
      r := r[2 * i := v % 256][2 * i + 1 := v / 256 % 256];
      i := i - 1;
    }
    SamplesOfWidened(r, n, buf[..n]);
  }

  /** Reading `n` bytes at `pos` where an `n`-byte encoding of `v` was stored gives `v` back modulo 256^n. */
  lemma {:induction false} FieldRead(f: seq<int>, pos: nat, v: int, n: nat)
    requires Bytes(f) && pos + n <= |f| && f[pos..pos + n] == Encode(v, n)
    ensures Decode(Window(f, pos, n)) == v % Pow256(n)
  {
    DecodeEncode(v, n);
  }

  /**
   * The header fields the reader decodes from a written file are those the writer was given: the
   * resolution, the bit depth, the Bayer pattern, the timestamp modulo 2^32 and the number of frames written.
   */
  lemma {:induction false} HeaderRoundTrip(w: Writer)
    requires Valid(w) && w.width < TWO_32 && w.height < TWO_32
    ensures ReadHeader(FileBytes(w)) == HeaderInfo(w.width, w.height, w.bitDepth, BayerMatrixOfCode(w.bayerCode), WrapU32(w.timestamp))
    ensures ReadUInt(FileBytes(w), 38) == |w.frames| % TWO_32
  {
    var f := FileBytes(w);
    FileLayout(w);
    FixedLayout(w, f);
    UIntField(f, 18, w.bayerCode);
    UIntField(f, 26, w.width);
    UIntField(f, 30, w.height);
    UIntField(f, 34, w.bitDepth);
    UIntField(f, 38, w.frameCount);
    TimestampAt(w, f);
    DivModUnique(w.width, TWO_32, 0, w.width);
    DivModUnique(w.height, TWO_32, 0, w.height);
    DivModUnique(w.bitDepth, TWO_32, 0, w.bitDepth);
    DivModUnique(w.bayerCode, TWO_32, 0, w.bayerCode);
    var h := ReadHeader(f);
    assert h.width == w.width && h.height == w.height && h.bitDepth == w.bitDepth;
    assert h.bayerMatrix == BayerMatrixOfCode(w.bayerCode) && h.timestamp == WrapU32(w.timestamp);
  }

  lemma {:induction false} UIntField(f: seq<int>, pos: nat, v: int)
    requires Bytes(f) && pos + 4 <= |f| && f[pos..pos + 4] == Encode(v, 4)
    ensures ReadUInt(f, pos) == v % TWO_32
  {
    FieldRead(f, pos, v, 4);
    Pow256Values();
    assert ReadUInt(f, pos) == Decode(Window(f, pos, 4));
  }

  lemma {:induction false} TimestampAt(w: Writer, f: seq<int>)
    requires Valid(w) && f == FileBytes(w)
    requires f[162..170] == Encode(UnixToMicrosoft(WrapU32(w.timestamp)), 8)
    ensures MicrosoftToUnix(ReadULongLong(f, 162)) == WrapU32(w.timestamp)
  {
    var ms := UnixToMicrosoft(WrapU32(w.timestamp));
    FieldRead(f, 162, ms, 8);
    Pow256Values();
    TimeRoundTrip(WrapU32(w.timestamp));
  }

  lemma {:induction false} Pow256Values()
    ensures Pow256(4) == TWO_32 && Pow256(8) == TWO_64
  {
  }

  /** Where the fixed fields and the first timestamp sit in a written file. */
  lemma {:induction false} FileLayout(w: Writer)
    requires Valid(w)
    ensures FileBytes(w)[..42] == FixedFields(w)
    ensures FileBytes(w)[162..170] == Encode(UnixToMicrosoft(WrapU32(w.timestamp)), 8)
  {
    var t := Encode(UnixToMicrosoft(WrapU32(w.timestamp)), 8);
    assert FileBytes(w) == FixedFields(w) + TextFields(w) + (t + t) + Flatten(w.frames);
    Layout(FixedFields(w), TextFields(w), t, Flatten(w.frames));
  }

  lemma {:induction false} Layout(fixed: seq<int>, text: seq<int>, t: seq<int>, frames: seq<int>)
    requires |fixed| == 42 && |text| == 120 && |t| == 8
    ensures (fixed + text + (t + t) + frames)[..42] == fixed
    ensures (fixed + text + (t + t) + frames)[162..170] == t
  {
    var f := fixed + text + (t + t) + frames;
    assert forall k :: 0 <= k < 42 ==> f[k] == fixed[k];
    assert forall k :: 0 <= k < 8 ==> f[162 + k] == t[k];
  }

  lemma {:induction false} FixedLayout(w: Writer, f: seq<int>)
    requires |f| >= 42 && f[..42] == FixedFields(w)
    ensures f[18..22] == Encode(w.bayerCode, 4) && f[26..30] == Encode(w.width, 4)
    ensures f[30..34] == Encode(w.height, 4) && f[34..38] == Encode(w.bitDepth, 4)
    ensures f[38..42] == Encode(w.frameCount, 4)
  {
    Fields(f[..42], TextBytes(FILE_ID), Encode(0, 4), Encode(w.bayerCode, 4), Encode(0, 4),
           Encode(w.width, 4), Encode(w.height, 4), Encode(w.bitDepth, 4), Encode(w.frameCount, 4));
  }

  lemma {:induction false} Fields(f: seq<int>, id: seq<int>, a: seq<int>, b: seq<int>, c: seq<int>,
                                  d: seq<int>, e: seq<int>, g: seq<int>, h: seq<int>)
    requires |id| == 14 && |a| == 4 && |b| == 4 && |c| == 4 && |d| == 4 && |e| == 4 && |g| == 4 && |h| == 4
    requires f == id + a + b + c + d + e + g + h
    ensures f[18..22] == b && f[26..30] == d && f[30..34] == e && f[34..38] == g && f[38..42] == h
  {
    PartOf(f, id + a, b, c + d + e + g + h);
    PartOf(f, id + a + b + c, d, e + g + h);
    PartOf(f, id + a + b + c + d, e, g + h);
    PartOf(f, id + a + b + c + d + e, g, h);
    PartOf(f, id + a + b + c + d + e + g, h, []);
  }

  lemma {:induction false} PartOf(f: seq<int>, pre: seq<int>, x: seq<int>, post: seq<int>)
    requires f == pre + x + post
    ensures f[|pre|..|pre| + |x|] == x
  {
    assert forall k :: 0 <= k < |x| ==> f[|pre| + k] == x[k];
  }


  /** The `n` little-endian 16-bit samples of a byte buffer. */
  function Samples(buf: seq<int>, n: nat): (r: seq<int>)
    requires |buf| == 2 * n && Bytes(buf)
    ensures |r| == n
    ensures forall k :: 0 <= k < n ==> r[k] == Decode(buf[2 * k..2 * k + 2])
  {
    seq(n, k requires 0 <= k < n => Decode(buf[2 * k..2 * k + 2]))
  }

  lemma {:induction false} SamplesOfWidened(r: seq<int>, n: nat, v: seq<int>)
    requires |r| == 2 * n && Bytes(r) && |v| == n
    requires forall k :: 0 <= k < n ==> r[2 * k] == v[k] && r[2 * k + 1] == 0
    ensures Samples(r, n) == v
  {
    forall k | 0 <= k < n
      ensures Samples(r, n)[k] == v[k]
    {
      Decode2(r[2 * k..2 * k + 2]);
    }
  }

  /** The pixels the 8-bit branch as written produces from the frame bytes: pixel 0 is lost. */
  function WidenedAsWritten(bytes: seq<int>): (r: seq<int>)
    ensures |r| == |bytes|
    ensures |bytes| > 0 ==> r[0] == 0
    ensures forall k :: 1 <= k < |bytes| ==> r[k] == bytes[k]
  {
    seq(|bytes|, k requires 0 <= k < |bytes| => if k == 0 then 0 else bytes[k])
  }

  /** `read_raw_file` as written: identical except that 8-bit frames go through the faulty widening. */
  function ReadRawFileAsWritten(file: seq<int>, frameId: nat): (r: Result<seq<int>>)
    requires Bytes(file)
    ensures ReadRawFile(file, frameId).Ok? <==> r.Ok?
    ensures ReadUInt(file, 34) == 16 ==> r == ReadRawFile(file, frameId)
    ensures r.Ok? && ReadUInt(file, 34) == 8 ==> r.value == WidenedAsWritten(ReadRawFile(file, frameId).value)
  {
    var depth := ReadUInt(file, 34);
    if depth == 8 then Ok(WidenedAsWritten(FrameBytes(file, frameId, Pixels(file))))
    else ReadRawFile(file, frameId)
  }

  /** Where frame `k` of a written file lies: after the header and `k` frames of the same size. */
  lemma {:induction false} FrameAt(w: Writer, k: nat)
    requires Valid(w) && k < |w.frames|
    ensures FrameBytes(FileBytes(w), k, FrameSize(w)) == w.frames[k]
  {
    var size := FrameSize(w);
    var f := FileBytes(w);
    var hd := Header(w);
    assert f == hd + Flatten(w.frames);
    ChunkAfterHeader(hd, w.frames, size, k);
    assert FrameBytes(f, k, size) == Window(f, HEADER_SIZE + k * size, size);
  }

  lemma {:induction false} ChunkAfterHeader(hd: seq<int>, parts: seq<seq<int>>, size: nat, k: nat)
    requires |hd| == HEADER_SIZE && Bytes(hd + Flatten(parts)) && k < |parts|
    requires forall j :: 0 <= j < |parts| ==> |parts[j]| == size
    ensures Window(hd + Flatten(parts), HEADER_SIZE + k * size, size) == parts[k]
  {
    var frames := Flatten(parts);
    FlattenChunk(parts, size, k);
    var start := k * size;
    assert start + size <= |frames|;
    SliceOfSuffix(hd, frames, start, start + size);
  }

  /**
   * Every frame of a written file reads back as it was stored: 8-bit frames byte for byte,
   * 16-bit frames as their samples halved.
   */
  lemma {:induction false} ReadWrittenFrame(w: Writer, k: nat)
    requires Valid(w) && w.width < TWO_32 && w.height < TWO_32
    requires k < |w.frames|
    ensures w.bitDepth == 8 ==> ReadRawFile(FileBytes(w), k) == Ok(w.frames[k])
    ensures w.bitDepth == 16 ==> ReadRawFile(FileBytes(w), k) == Ok(Halved(w.frames[k], w.width * w.height))
  {
    var f := FileBytes(w);
    HeaderRoundTrip(w);
    var h := ReadHeader(f);
    assert ReadUInt(f, 34) == w.bitDepth && Pixels(f) == w.width * w.height;
    FrameAt(w, k);
  }

  /**
   * A 16-bit frame written to a 16-bit file reads back halved; written to an 8-bit file it reads
   * back as its high bytes.
   */
  lemma {:induction false} WriteFrame16ThenRead(w: Writer, data: seq<int>)
    requires Valid(w) && w.width < TWO_32 && w.height < TWO_32
    requires (forall i :: 0 <= i < |data| ==> 0 <= data[i] < TWO_16) && |data| == w.width * w.height
    ensures WriteFrame16(w, data).Ok?
    ensures w.bitDepth == 16 ==> ReadRawFile(FileBytes(WriteFrame16(w, data).value), |w.frames|) == Ok(Halve(data))
    ensures w.bitDepth == 8 ==> ReadRawFile(FileBytes(WriteFrame16(w, data).value), |w.frames|) == Ok(HighBytes(data))
  {
    var w' := WriteFrame16(w, data).value;
    assert w'.width == w.width && w'.height == w.height && w'.bitDepth == w.bitDepth;
    ReadWrittenFrame(w', |w.frames|);
    if w.bitDepth == 16 {
      assert w'.frames[|w.frames|] == Samples16(data);
      HalvedSamples(data);
    } else {
      assert w'.frames[|w.frames|] == HighBytes(data);
    }
  }

  /**
   * An 8-bit frame written to an 8-bit file reads back unchanged; written to a 16-bit file it
   * reads back as each byte times 128 (stored times 256, read halved).
   */
  lemma {:induction false} WriteFrame8ThenRead(w: Writer, data: seq<int>)
    requires Valid(w) && w.width < TWO_32 && w.height < TWO_32
    requires Bytes(data) && |data| == w.width * w.height
    ensures WriteFrame8(w, data).Ok?
    ensures w.bitDepth == 8 ==> ReadRawFile(FileBytes(WriteFrame8(w, data).value), |w.frames|) == Ok(data)
    ensures w.bitDepth == 16 ==> ReadRawFile(FileBytes(WriteFrame8(w, data).value), |w.frames|) == Ok(Scaled(data, 128))
  {
    var w' := WriteFrame8(w, data).value;
    assert w'.width == w.width && w'.height == w.height && w'.bitDepth == w.bitDepth;
    ReadWrittenFrame(w', |w.frames|);
    if w.bitDepth == 16 {
      assert w'.frames[|w.frames|] == Samples16(Scaled(data, 256));
      ScaledHalf(data);
    } else {
      assert w'.frames[|w.frames|] == data;
    }
  }

  /** Every value halved, as `x / 2` on `unsigned short`. */
  function Halve(data: seq<int>): (r: seq<int>)
    requires forall i :: 0 <= i < |data| ==> 0 <= data[i]
    ensures |r| == |data|
    ensures forall i :: 0 <= i < |data| ==> 2 * r[i] <= data[i] < 2 * r[i] + 2
  {
    seq(|data|, i requires 0 <= i < |data| => data[i] / 2)
  }

  lemma {:induction false} ScaledHalf(data: seq<int>)
    requires Bytes(data)
    ensures (forall i :: 0 <= i < |data| ==> 0 <= Scaled(data, 256)[i] < TWO_16)
    ensures Halved(Samples16(Scaled(data, 256)), |data|) == Scaled(data, 128)
  {
    var wide := Scaled(data, 256);
    forall i | 0 <= i < |data|
      ensures 0 <= wide[i] < TWO_16
    {
      assert wide[i] == data[i] * 256 && IsByte(data[i]);
    }
    HalvedSamples(wide);
    forall i | 0 <= i < |data|
      ensures Halve(wide)[i] == Scaled(data, 128)[i]
    {
      DivModUnique(wide[i], 2, data[i] * 128, 0);
    }
  }

  lemma {:induction false} HalvedSamples(data: seq<int>)
    requires forall i :: 0 <= i < |data| ==> 0 <= data[i] < TWO_16
    ensures Halved(Samples16(data), |data|) == Halve(data)
  {
    forall i | 0 <= i < |data|
      ensures Halved(Samples16(data), |data|)[i] == Halve(data)[i]
    {
      DecodeEncode(data[i], 2);
      DivModUnique(data[i], TWO_16, 0, data[i]);
    }
  }

  /** The 8-bit reader as written returns pixel 0 as 0 whatever was written there. */
  lemma {:induction false} FirstPixelLost(w: Writer, data: seq<int>)
    requires Valid(w) && w.width < TWO_32 && w.height < TWO_32
    requires w.bitDepth == 8 && Bytes(data) && |data| == w.width * w.height && |data| > 0
    ensures WriteFrame8(w, data).Ok?
    ensures ReadRawFileAsWritten(FileBytes(WriteFrame8(w, data).value), |w.frames|) == Ok(WidenedAsWritten(data))
    ensures ReadRawFile(FileBytes(WriteFrame8(w, data).value), |w.frames|) == Ok(data)
  {
    var w' := WriteFrame8(w, data).value;
    WriteFrame8ThenRead(w, data);
    assert w'.width == w.width && w'.height == w.height && w'.bitDepth == w.bitDepth;
    HeaderRoundTrip(w');
    var f := FileBytes(w');
    assert ReadUInt(f, 34) == 8;
  }

  /** A one-pixel 8-bit video whose only pixel is 200 reads back as 0. */
  lemma {:induction false} FirstPixelLostExample()
    ensures var w := Create(1, 1, 8, "", 0, Blank40(), Blank40());
      && w.Ok?
      && ReadRawFileAsWritten(FileBytes(WriteFrame8(w.value, [200]).value), 0) == Ok([0])
      && ReadRawFile(FileBytes(WriteFrame8(w.value, [200]).value), 0) == Ok([200])
  {
    var w := Create(1, 1, 8, "", 0, Blank40(), Blank40()).value;
    FirstPixelLost(w, [200]);
    assert WidenedAsWritten([200]) == [0];
  }

  function Blank40(): (s: string)
    ensures |s| == 40
  {
    seq(40, _ => ' ')
  }
}

=== FILE: SerWriter.dfy ===
/**
 * The SER video writer: a 178-byte header followed by the frames, each `width * height` samples of
 * one (8-bit) or two (16-bit, little-endian) bytes. The file is modelled as the byte string the
 * writer leaves behind after `save_file`, which patches the frame count into the header.
 */
module SerWriter {
  import opened Wrappers
  import opened CInts
  import opened Sorting
  import opened LittleEndian
  import opened Text

  const HEADER_SIZE: nat := 178

  /** Seconds from 0001-01-01 to 1970-01-01, and 100-ns ticks per second. */
  const EPOCH_OFFSET: int := 62_135_596_800
  const TICKS_PER_SECOND: int := 10_000_000

  const FILE_ID: string := "SER Video File"

  /** `get_int_code_for_bayer_matrix` on four characters: the SER colour codes, 0 for anything else. */
  function BayerCodeOfArray(m: string): (code: int)
    requires |m| == 4
    ensures code in {0, 8, 9, 10, 11}
    ensures code == 8 <==> m == "RGGB"
    ensures code == 9 <==> m == "GRBG"
    ensures code == 10 <==> m == "GBRG"
    ensures code == 11 <==> m == "BGGR"
  {
    if m == "RGGB" then 8
    else if m == "GRBG" then 9
    else if m == "BGGR" then 11
    else if m == "GBRG" then 10
    else 0
  }

  /** `get_int_code_for_bayer_matrix` on a string: empty means monochrome (0), any length but 4 throws. */
  function BayerCode(m: string): (r: Result<int>)
    ensures |m| == 0 ==> r == Ok(0)
    ensures r.Err? <==> |m| != 0 && |m| != 4
    ensures |m| == 4 ==> r == Ok(BayerCodeOfArray(m))
  {
    if |m| == 0 then Ok(0)
    else if |m| != 4 then Err("Invalid bayer matrix string: " + m)
    else Ok(BayerCodeOfArray(m))
  }

  /** `unix_time_to_microsoft_time`: 100-ns ticks since 0001-01-01, in `unsigned long long`. */
  function UnixToMicrosoft(t: int): (r: int)
    requires 0 <= t < TWO_32
    ensures 0 <= r < TWO_64
    ensures r % TICKS_PER_SECOND == 0 && r / TICKS_PER_SECOND == t + EPOCH_OFFSET
  {
    WrapU64((t + EPOCH_OFFSET) * TICKS_PER_SECOND)
  }

  /** Cut to 40 characters, or pad with spaces to 40. */
  function FitTo40(s: string): (r: string)
    ensures |r| == 40
    ensures |s| >= 40 ==> r == s[..40]
    ensures |s| < 40 ==> r[..|s|] == s && forall i :: |s| <= i < 40 ==> r[i] == ' '
  {
    if |s| > 40 then s[..40] else s + seq(40 - |s|, _ => ' ')
  }

  /**
   * `get_instrument_string`: "ASI=" and the camera model, then "temp=" and the temperature when
   * it is above -273 (its formatted text is passed in, `None` otherwise), fitted to 40 characters.
   */
  function InstrumentString(cameraModel: string, temperatureText: Option<string>): (r: string)
    ensures |r| == 40
    ensures |"ASI=" + cameraModel| <= 40 ==> r[..4 + |cameraModel|] == "ASI=" + cameraModel
  {
    var s := "ASI=" + cameraModel + (if temperatureText.Some? then "temp=" + temperatureText.value else "");
    assert |"ASI=" + cameraModel| <= 40 ==> s[..4 + |cameraModel|] == "ASI=" + cameraModel;
    FitTo40(s)
  }

  /**
   * `get_telescope_string`: "fps=" and the formatted frame rate, then "gain=" and the ISO when it
   * is positive, then "exp=" and the exposure in milliseconds when the exposure is positive (its
   * formatted text is passed in, `None` otherwise), fitted to 40 characters.
   */
  function TelescopeString(fpsText: string, iso: int, exposureText: Option<string>): (r: string)
    ensures |r| == 40
    ensures |"fps=" + fpsText| <= 40 ==> r[..4 + |fpsText|] == "fps=" + fpsText
  {
    var s := "fps=" + fpsText + (if iso > 0 then "gain=" + NatToString(iso) else "")
      + (if exposureText.Some? then "exp=" + exposureText.value else "");
    assert |"fps=" + fpsText| <= 40 ==> s[..4 + |fpsText|] == "fps=" + fpsText;
    FitTo40(s)
  }

  /** The writer's state: the header fields, the encoded frames written so far and `m_frame_count`. */
  datatype Writer = Writer(width: nat, height: nat, bitDepth: nat, bayerCode: int, timestamp: int,
                           instrument: string, telescope: string, frames: seq<seq<int>>, frameCount: nat)

  /** Bytes per frame: one or two per pixel. */
  function FrameSize(w: Writer): (n: nat)
    requires w.bitDepth == 8 || w.bitDepth == 16
    ensures n == (if w.bitDepth == 16 then 2 * (w.width * w.height) else w.width * w.height)
  {
    w.bitDepth / 8 * (w.width * w.height)
  }

  /** A writer as the constructor leaves it: depth 8 or 16, frame sizes agreeing with the resolution. */
  ghost predicate Valid(w: Writer)
  {
    && (w.bitDepth == 8 || w.bitDepth == 16)
    && w.bayerCode in {0, 8, 9, 10, 11}
    && w.frameCount == |w.frames|
    && |w.instrument| == 40 && |w.telescope| == 40
    && forall k :: 0 <= k < |w.frames| ==> |w.frames[k]| == FrameSize(w) && Bytes(w.frames[k])
  }

  /** The constructor: an unsupported bit depth throws, and so does a malformed Bayer string. */
  function Create(width: nat, height: nat, bitDepth: nat, bayerMatrix: string, timestamp: int,
                  instrument: string, telescope: string): (r: Result<Writer>)
    requires |instrument| == 40 && |telescope| == 40
    ensures r.Ok? <==> (bitDepth == 8 || bitDepth == 16) && BayerCode(bayerMatrix).Ok?
    ensures r.Ok? ==> Valid(r.value) && r.value.frames == [] && r.value.bayerCode == BayerCode(bayerMatrix).value
  {
    if bitDepth != 8 && bitDepth != 16 then Err("Unsupported bit depth for SER writer: " + IntToString(bitDepth))
    else
      var code :- BayerCode(bayerMatrix);
      Ok(Writer(width, height, bitDepth, code, timestamp, instrument, telescope, [], 0))
  }

  /** Sixteen-bit samples as two little-endian bytes each. */
  function Samples16(data: seq<int>): (r: seq<int>)
    ensures |r| == 2 * |data| && Bytes(r)
    ensures forall i :: 0 <= i < |data| ==> r[2 * i..2 * i + 2] == Encode(data[i], 2)
  {
    if |data| == 0 then []
    else
      var rest := Samples16(data[1..]);
      var r := Encode(data[0], 2) + rest;
      assert forall i :: 1 <= i < |data| ==> r[2 * i..2 * i + 2] == rest[2 * (i - 1)..2 * (i - 1) + 2];
      r
  }

  /** The 8-bit reduction of 16-bit samples: `static_cast<unsigned char>(x / 256)`. */
  function HighBytes(data: seq<int>): (r: seq<int>)
    requires forall i :: 0 <= i < |data| ==> 0 <= data[i] < TWO_16
    ensures |r| == |data| && Bytes(r)
    ensures forall i :: 0 <= i < |data| ==> r[i] * 256 <= data[i] < r[i] * 256 + 256
  {
    seq(|data|, i requires 0 <= i < |data| => data[i] / 256)
  }

  /** Every value multiplied by `factor`. */
  function Scaled(data: seq<int>, factor: int): (r: seq<int>)
    ensures |r| == |data|
    ensures forall i :: 0 <= i < |data| ==> r[i] == data[i] * factor
  {
    seq(|data|, i requires 0 <= i < |data| => data[i] * factor)
  }

  /** `write_frame(vector<unsigned short>)`: 16-bit files take the samples, 8-bit files their high bytes. */
  function WriteFrame16(w: Writer, data: seq<int>): (r: Result<Writer>)
    requires Valid(w) && forall i :: 0 <= i < |data| ==> 0 <= data[i] < TWO_16
    ensures r.Err? <==> |data| != w.width * w.height
    ensures r.Ok? ==> Valid(r.value) && r.value.frameCount == w.frameCount + 1
    ensures r.Ok? && w.bitDepth == 16 ==> r.value.frames == w.frames + [Samples16(data)]
    ensures r.Ok? && w.bitDepth == 8 ==> r.value.frames == w.frames + [HighBytes(data)]
    ensures r.Ok? ==> r.value.(frames := w.frames, frameCount := w.frameCount) == w
  {
    if |data| != w.width * w.height then Err("Frame data size does not match video resolution in SER writer")
    else
      var bytes := if w.bitDepth == 16 then Samples16(data) else HighBytes(data);
      Ok(Append(w, bytes))
  }

  /** `write_frame(vector<unsigned char>)`: 8-bit files take the bytes, 16-bit files the bytes times 256. */
  function WriteFrame8(w: Writer, data: seq<int>): (r: Result<Writer>)
    requires Valid(w) && Bytes(data)
    ensures r.Err? <==> |data| != w.width * w.height
    ensures r.Ok? ==> Valid(r.value) && r.value.frameCount == w.frameCount + 1
    ensures r.Ok? && w.bitDepth == 8 ==> r.value.frames == w.frames + [data]
    ensures r.Ok? && w.bitDepth == 16 ==> r.value.frames == w.frames + [Samples16(Scaled(data, 256))]
    ensures r.Ok? ==> r.value.(frames := w.frames, frameCount := w.frameCount) == w
  {
    if |data| != w.width * w.height then Err("Frame data size does not match video resolution in SER writer")
    else
      var bytes := if w.bitDepth == 8 then data else Samples16(Scaled(data, 256));
      Ok(Append(w, bytes))
  }

  /** One more encoded frame and `++m_frame_count`. */
  function Append(w: Writer, bytes: seq<int>): (r: Writer)
    requires Valid(w) && Bytes(bytes) && |bytes| == FrameSize(w)
    ensures Valid(r) && r.frames == w.frames + [bytes] && r.frameCount == w.frameCount + 1
    ensures r.(frames := w.frames, frameCount := w.frameCount) == w
  {
    w.(frames := w.frames + [bytes], frameCount := w.frameCount + 1)
  }

  /** Bytes 0..41: file id, LuID, Bayer code, endianness flag, width, height, depth and frame count. */
  function FixedFields(w: Writer): (r: seq<int>)
    ensures |r| == 42 && Bytes(r)
  {
    TextBytes(FILE_ID) + Encode(0, 4) + Encode(w.bayerCode, 4) + Encode(0, 4)
      + Encode(w.width, 4) + Encode(w.height, 4) + Encode(w.bitDepth, 4) + Encode(w.frameCount, 4)
  }

  /** Bytes 42..161: observer (a space and 39 zero bytes), instrument and telescope. */
  function TextFields(w: Writer): (r: seq<int>)
    requires |w.instrument| == 40 && |w.telescope| == 40
    ensures |r| == 120 && Bytes(r)
  {
    ([32] + seq(39, _ => 0)) + TextBytes(w.instrument) + TextBytes(w.telescope)
  }

  /**
   * The header `write_metadata` writes, with the frame count `update_frame_count_in_header`
   * patches in, followed by the timestamp twice (local and UTC). The timestamp passes through
   * the `unsigned int` parameter of `unix_time_to_microsoft_time`, so it is taken modulo 2^32.
   */
  function Header(w: Writer): (h: seq<int>)
    requires |w.instrument| == 40 && |w.telescope| == 40
    ensures |h| == HEADER_SIZE && Bytes(h)
  {
    var ms := UnixToMicrosoft(WrapU32(w.timestamp));
    FixedFields(w) + TextFields(w) + (Encode(ms, 8) + Encode(ms, 8))
  }

  /** The file after `save_file`. */
  function FileBytes(w: Writer): (f: seq<int>)
    requires Valid(w)
    ensures Bytes(f) && |f| == HEADER_SIZE + |Flatten(w.frames)|
  {
    FlattenBytes(w.frames);
    Header(w) + Flatten(w.frames)
  }
}

=== FILE: SettingsCustomization.dfy ===
/**
 * The GUI's view settings and their one-line text form (GUI/src/SettingsCustomization.cxx,
 * GUI/headers/SettingsCustomization.h). A settings struct exposes its flags through a
 * std::map from name to flag; the map is modelled as the sequence of its entries in the
 * order std::map iterates them, which is the order the struct's entries are listed in here.
 */
module SettingsCustomization {
  import opened Text

  datatype Flag = Flag(key: string, on: bool)

  function KeysOf(fs: seq<Flag>): (ks: seq<string>)
    ensures |ks| == |fs| && forall i :: 0 <= i < |fs| ==> ks[i] == fs[i].key
  {
    seq(|fs|, i requires 0 <= i < |fs| => fs[i].key)
  }

  ghost predicate DistinctKeys(fs: seq<Flag>)
  {
    forall i, j :: 0 <= i < j < |fs| ==> fs[i].key != fs[j].key
  }

  /** A name the text form carries through unchanged: no separator inside, nothing stripped at the ends. */
  ghost predicate PlainKey(k: string)
  {
    && |k| > 0
    && ':' !in k && ';' !in k && '|' !in k
    && k[0] !in Whitespace && k[|k| - 1] !in Whitespace
  }

  ghost predicate PlainKeys(fs: seq<Flag>)
  {
    forall i :: 0 <= i < |fs| ==> PlainKey(fs[i].key)
  }

  /** MetadataViewSettings' map, in key order, with the struct's defaults. */
  const MetadataDefaults: seq<Flag> := [
    Flag("show_aperture", true),
    Flag("show_exposure_time", true),
    Flag("show_focal_length", false),
    Flag("show_iso", true),
    Flag("show_resolution", false),
    Flag("show_temperature", true)]

  /** FrameStatisticsViewSettings' map, in key order, with the struct's defaults. */
  const FrameStatisticsDefaults: seq<Flag> := [
    Flag("show_max", false),
    Flag("show_mean", true),
    Flag("show_min", false),
    Flag("show_stddev", true)]

  /* ---------------------------------------------------------------- writing */

  function FlagValue(on: bool): string
  {
    if on then "1" else "0"
  }

  /** One entry without its terminating ';'. */
  function Piece(f: Flag): string
  {
    f.key + ": " + FlagValue(f.on)
  }

  /** boolean_map_to_string: `key: 1;` or `key: 0;` per entry, in map order. */
  function FlagsToString(fs: seq<Flag>): string
  {
    Terminated(Pieces(fs), ';')
  }

  function Pieces(fs: seq<Flag>): (ps: seq<string>)
    ensures |ps| == |fs| && forall i :: 0 <= i < |fs| ==> ps[i] == Piece(fs[i])
  {
    seq(|fs|, i requires 0 <= i < |fs| => Piece(fs[i]))
  }

  /** The written text splits on ';' into one piece per entry and a final empty piece. */
  lemma {:induction false} SplitFlagsToString(fs: seq<Flag>)
    requires PlainKeys(fs)
    ensures Split(FlagsToString(fs), ';') == Pieces(fs) + [""]
  {
    forall i | 0 <= i < |fs|
      ensures ';' !in Pieces(fs)[i]
    {
      PieceFree(fs[i]);
    }
    SplitTerminated(Pieces(fs), ';');
  }

  lemma {:induction false} PieceFree(f: Flag)
    requires PlainKey(f.key)
    ensures ';' !in Piece(f) && '|' !in Piece(f)
  {
    var v := FlagValue(f.on);
    assert Piece(f) == f.key + (": " + v);
    assert ';' !in ": " + v && '|' !in ": " + v;
  }

  /** The blank the writer puts before a value is stripped again. */
  lemma {:induction false} StripValue(on: bool)
    ensures Strip(" " + FlagValue(on), Whitespace) == FlagValue(on)
  {
    var v := FlagValue(on);
    StripPadded(" ", v, "", Whitespace);
    assert " " + v + "" == " " + v;
    StripNoop(v, Whitespace);
  }

  /* ---------------------------------------------------------------- reading */

  /** Sets every entry named `key` to `on`; in a std::map that is at most one entry. */
  function SetFlag(fs: seq<Flag>, key: string, on: bool): (r: seq<Flag>)
    ensures KeysOf(r) == KeysOf(fs)
    ensures forall i :: 0 <= i < |fs| && fs[i].key != key ==> r[i] == fs[i]
    ensures forall i :: 0 <= i < |fs| && fs[i].key == key ==> r[i].on == on
  {
    seq(|fs|, i requires 0 <= i < |fs| => if fs[i].key == key then fs[i].(on := on) else fs[i])
  }

  /**
   * One `key: value` part: a part that is not exactly two pieces around ':' is ignored, so is
   * an unknown key; a known key is switched on by the value "1" and off by anything else.
   */
  function ApplyPart(fs: seq<Flag>, part: string): (r: seq<Flag>)
    ensures KeysOf(r) == KeysOf(fs)
    ensures Count(part, ':') != 1 ==> r == fs
  {
    var kv := Split(part, ':');
    SplitCount(part, ':');
    if |kv| != 2 then fs
    else
      var key, value := Strip(kv[0], Whitespace), Strip(kv[1], Whitespace);
      if key in KeysOf(fs) then SetFlag(fs, key, value == "1") else fs
  }

  function ApplyParts(fs: seq<Flag>, parts: seq<string>): (r: seq<Flag>)
    ensures KeysOf(r) == KeysOf(fs)
    decreases |parts|
  {
    if |parts| == 0 then fs else ApplyParts(ApplyPart(fs, parts[0]), parts[1..])
  }

  /** set_boolean_map_from_string: the ';'-separated parts, in order. */
  function FlagsFromString(fs: seq<Flag>, text: string): (r: seq<Flag>)
    ensures KeysOf(r) == KeysOf(fs)
  {
    ApplyParts(fs, Split(text, ';'))
  }

  /** A `key: value` part whose key is known sets that key, and only that key. */
  lemma {:induction false} KnownKeyPart(fs: seq<Flag>, key: string, value: string)
    requires PlainKey(key) && ':' !in value && key in KeysOf(fs)
    ensures ApplyPart(fs, key + ":" + value) == SetFlag(fs, key, Strip(value, Whitespace) == "1")
  {
    assert key + ":" + value == key + [':'] + value;
    SplitAfterPiece(key, value, ':');
    SplitWithoutSeparator(value, ':');
    StripNoop(key, Whitespace);
  }

  /** A part naming no known key changes nothing. */
  lemma {:induction false} UnknownKeyPart(fs: seq<Flag>, key: string, value: string)
    requires ':' !in key && ':' !in value && Strip(key, Whitespace) !in KeysOf(fs)
    ensures ApplyPart(fs, key + ":" + value) == fs
  {
    assert key + ":" + value == key + [':'] + value;
    SplitAfterPiece(key, value, ':');
    SplitWithoutSeparator(value, ':');
  }

  /** Applying the written pieces from position `k` on, when the entries before `k` already agree. */
  lemma {:induction false} ApplyPiecesFrom(st: seq<Flag>, fs: seq<Flag>, k: nat)
    requires KeysOf(st) == KeysOf(fs) && DistinctKeys(fs) && PlainKeys(fs)
    requires k <= |fs| && forall j :: 0 <= j < k ==> st[j] == fs[j]
    ensures ApplyParts(st, Pieces(fs)[k..]) == fs
    decreases |fs| - k
  {
    var rest := Pieces(fs)[k..];
    if k == |fs| {
      assert |st| == |KeysOf(st)| == |fs|;
      assert st == fs;
      assert rest == [];
    } else {
      var next := PieceStep(st, fs, k);
      assert rest[0] == Pieces(fs)[k] && rest[1..] == Pieces(fs)[k + 1..];
      assert ApplyParts(st, rest) == ApplyParts(next, rest[1..]);
      ApplyPiecesFrom(next, fs, k + 1);
    }
  }

  /** The piece written for entry `k` sets entry `k` and leaves the others alone. */
  lemma {:induction false} PieceStep(st: seq<Flag>, fs: seq<Flag>, k: nat) returns (next: seq<Flag>)
    requires KeysOf(st) == KeysOf(fs) && DistinctKeys(fs) && PlainKeys(fs)
    requires k < |fs| && forall j :: 0 <= j < k ==> st[j] == fs[j]
    ensures next == ApplyPart(st, Pieces(fs)[k])
    ensures KeysOf(next) == KeysOf(fs)
    ensures forall j :: 0 <= j <= k ==> next[j] == fs[j]
  {
    PieceSets(st, fs, k);
    next := SetFlag(st, fs[k].key, fs[k].on);
    SetFlagAt(st, fs, k);
  }

  /** Reading the piece written for entry `k` sets that entry's key to its flag. */
  lemma {:induction false} PieceSets(st: seq<Flag>, fs: seq<Flag>, k: nat)
    requires KeysOf(st) == KeysOf(fs) && PlainKeys(fs) && k < |fs|
    ensures ApplyPart(st, Pieces(fs)[k]) == SetFlag(st, fs[k].key, fs[k].on)
  {
    var f := fs[k];
    assert f.key == KeysOf(st)[k];
    assert Pieces(fs)[k] == f.key + ":" + (" " + FlagValue(f.on));
    assert PlainKey(f.key);
    KnownKeyPart(st, f.key, " " + FlagValue(f.on));
    StripValue(f.on);
  }

  /** Setting the key of entry `k` of `fs` makes entry `k` agree with `fs` and keeps the entries before it. */
  lemma {:induction false} SetFlagAt(st: seq<Flag>, fs: seq<Flag>, k: nat)
    requires KeysOf(st) == KeysOf(fs) && DistinctKeys(fs)
    requires k < |fs| && forall j :: 0 <= j < k ==> st[j] == fs[j]
    ensures forall j :: 0 <= j <= k ==> SetFlag(st, fs[k].key, fs[k].on)[j] == fs[j]
  {
    var next := SetFlag(st, fs[k].key, fs[k].on);
    forall j | 0 <= j < k
      ensures next[j] == fs[j]
    {
      assert st[j].key == fs[j].key != fs[k].key;
    }
    assert st[k].key == KeysOf(st)[k] == fs[k].key;
    assert next[k] == fs[k];
  }

  /**
   * Round trip: reading the text written for `fs` into any settings with the same names
   * restores every flag of `fs`.
   */
  lemma {:induction false} FlagsRoundTrip(base: seq<Flag>, fs: seq<Flag>)
    requires KeysOf(base) == KeysOf(fs) && DistinctKeys(fs) && PlainKeys(fs)
    ensures FlagsFromString(base, FlagsToString(fs)) == fs
  {
    SplitFlagsToString(fs);
    var parts := Pieces(fs) + [""];
    ApplyPartsAppend(base, Pieces(fs), [""]);
    ApplyPiecesFrom(base, fs, 0);
    assert Pieces(fs)[0..] == Pieces(fs);
    SplitWithoutSeparator("", ':');
  }

  lemma {:induction false} ApplyPartsAppend(fs: seq<Flag>, a: seq<string>, b: seq<string>)
    ensures ApplyParts(fs, a + b) == ApplyParts(ApplyParts(fs, a), b)
    decreases |a|
  {
    if |a| == 0 {
      assert a + b == b;
    } else {
      assert (a + b)[1..] == a[1..] + b;
      ApplyPartsAppend(ApplyPart(fs, a[0]), a[1..], b);
    }
  }

  /* ---------------------------------------------------------------- the settings file */

  const MetadataName: string := "MetadataViewSettings"
  const FrameStatisticsName: string := "FrameStatisticsViewSettings"

  datatype Customization = Customization(metadataView: seq<Flag>, frameStatisticsView: seq<Flag>)

  const DefaultCustomization: Customization := Customization(MetadataDefaults, FrameStatisticsDefaults)

  /**
   * One line of the settings file: the stripped line must be `name | value`; each known name
   * rebuilds its settings from the defaults and the value text.
   */
  function ApplySettingLine(c: Customization, line: string): (r: Customization)
    ensures KeysOf(c.metadataView) == KeysOf(MetadataDefaults) ==> KeysOf(r.metadataView) == KeysOf(MetadataDefaults)
    ensures KeysOf(c.frameStatisticsView) == KeysOf(FrameStatisticsDefaults)
      ==> KeysOf(r.frameStatisticsView) == KeysOf(FrameStatisticsDefaults)
    ensures Count(Strip(line, Whitespace), '|') != 1 ==> r == c
  {
    var l := Strip(line, Whitespace);
    var parts := Split(l, '|');
    SplitCount(l, '|');
    if |l| == 0 || |parts| != 2 then c
    else
      var name, value := Strip(parts[0], Whitespace), Strip(parts[1], Whitespace);
      if name == MetadataName then c.(metadataView := FlagsFromString(MetadataDefaults, value))
      else if name == FrameStatisticsName then c.(frameStatisticsView := FlagsFromString(FrameStatisticsDefaults, value))
      else c
  }

  /** The constructor: every line of the file in order, starting from the defaults. */
  function ReadCustomization(lines: seq<string>): (r: Customization)
    ensures KeysOf(r.metadataView) == KeysOf(MetadataDefaults)
    ensures KeysOf(r.frameStatisticsView) == KeysOf(FrameStatisticsDefaults)
  {
    ReadLines(DefaultCustomization, lines)
  }

  function ReadLines(c: Customization, lines: seq<string>): (r: Customization)
    requires KeysOf(c.metadataView) == KeysOf(MetadataDefaults)
    requires KeysOf(c.frameStatisticsView) == KeysOf(FrameStatisticsDefaults)
    ensures KeysOf(r.metadataView) == KeysOf(MetadataDefaults)
    ensures KeysOf(r.frameStatisticsView) == KeysOf(FrameStatisticsDefaults)
    decreases |lines|
  {
    if |lines| == 0 then c else ReadLines(ApplySettingLine(c, lines[0]), lines[1..])
  }

  /** The destructor's two lines. */
  function WriteCustomization(c: Customization): (lines: seq<string>)
    ensures |lines| == 2
  {
    [MetadataName + " | " + FlagsToString(c.metadataView),
     FrameStatisticsName + " | " + FlagsToString(c.frameStatisticsView)]
  }

  predicate KeyChar(c: char) { 'a' <= c <= 'z' || c == '_' }

  /** A name of lower-case letters and underscores is carried through unchanged. */
  lemma {:induction false} LowerCaseKeyIsPlain(k: string)
    requires |k| > 0 && forall i :: 0 <= i < |k| ==> KeyChar(k[i])
    ensures PlainKey(k)
  {
    assert KeyChar(k[0]) && KeyChar(k[|k| - 1]);
  }

  lemma {:induction false} MetadataDefaultsPlain()
    ensures PlainKeys(MetadataDefaults)
  {
    var ks := KeysOf(MetadataDefaults);
    forall i | 0 <= i < |ks|
      ensures PlainKey(ks[i])
    {
      var k := ks[i];
      assert forall j :: 0 <= j < |k| ==> KeyChar(k[j]);
      LowerCaseKeyIsPlain(k);
    }
  }

  lemma {:induction false} MetadataDefaultsDistinct()
    ensures DistinctKeys(MetadataDefaults)
  {
  }

  lemma {:induction false} FrameStatisticsDefaultsPlain()
    ensures PlainKeys(FrameStatisticsDefaults)
  {
    var ks := KeysOf(FrameStatisticsDefaults);
    forall i | 0 <= i < |ks|
      ensures PlainKey(ks[i])
    {
      var k := ks[i];
      assert forall j :: 0 <= j < |k| ==> KeyChar(k[j]);
      LowerCaseKeyIsPlain(k);
    }
  }

  lemma {:induction false} FrameStatisticsDefaultsDistinct()
    ensures DistinctKeys(FrameStatisticsDefaults)
  {
  }

  /** The written text of a non-empty map ends with ';' and starts with the first name. */
  lemma {:induction false} FlagsTextShape(fs: seq<Flag>)
    requires PlainKeys(fs) && |fs| > 0
    ensures var t := FlagsToString(fs);
      |t| > 0 && t[0] == fs[0].key[0] && t[|t| - 1] == ';' && '|' !in t
  {
    var ps := Pieces(fs);
    forall i | 0 <= i < |fs|
      ensures '|' !in ps[i]
    {
      PieceFree(fs[i]);
    }
    TerminatedShape(ps, ';', '|');
    assert ps[0] == fs[0].key + (": " + FlagValue(fs[0].on));
  }

  /** How the constructor takes apart a line `name | text` that the destructor wrote. */
  lemma {:induction false} WrittenLine(name: string, fs: seq<Flag>)
    requires PlainKey(name) && PlainKeys(fs) && |fs| > 0
    ensures var t := FlagsToString(fs);
      var l := name + " | " + t;
      && Strip(l, Whitespace) == l
      && Split(l, '|') == [name + " ", " " + t]
  {
    var t := FlagsToString(fs);
    FlagsTextShape(fs);
    var l := name + " | " + t;
    assert l == (name + " ") + ['|'] + (" " + t);
    assert l[0] == name[0] && l[|l| - 1] == t[|t| - 1];
    StripNoop(l, Whitespace);
    SplitAfterPiece(name + " ", " " + t, '|');
    SplitWithoutSeparator(" " + t, '|');
  }

  /** The blanks the destructor puts around '|' are stripped again. */
  lemma {:induction false} WrittenLineParts(name: string, fs: seq<Flag>)
    requires PlainKey(name) && PlainKeys(fs) && |fs| > 0
    ensures Strip(name + " ", Whitespace) == name
    ensures Strip(" " + FlagsToString(fs), Whitespace) == FlagsToString(fs)
  {
    var t := FlagsToString(fs);
    FlagsTextShape(fs);
    StripPadded("", name, " ", Whitespace);
    assert "" + name + " " == name + " ";
    StripNoop(name, Whitespace);
    StripPadded(" ", t, "", Whitespace);
    assert " " + t + "" == " " + t;
    StripNoop(t, Whitespace);
  }

  /** The destructor's line for a map, read back by the constructor, rebuilds the map from the defaults. */
  lemma {:induction false} SettingLineRoundTrip(c: Customization, name: string, defaults: seq<Flag>, fs: seq<Flag>)
    requires PlainKey(name) && PlainKeys(defaults) && DistinctKeys(defaults) && |defaults| > 0
    requires KeysOf(fs) == KeysOf(defaults)
    ensures var l := Strip(name + " | " + FlagsToString(fs), Whitespace);
      && |l| > 0
      && |Split(l, '|')| == 2
      && Strip(Split(l, '|')[0], Whitespace) == name
      && FlagsFromString(defaults, Strip(Split(l, '|')[1], Whitespace)) == fs
  {
    assert DistinctKeys(fs) && PlainKeys(fs) by {
      assert forall i :: 0 <= i < |fs| ==> fs[i].key == KeysOf(defaults)[i];
    }
    WrittenLine(name, fs);
    WrittenLineParts(name, fs);
    FlagsRoundTrip(defaults, fs);
  }

  predicate NameChar(c: char) { 'a' <= c <= 'z' || 'A' <= c <= 'Z' }

  lemma {:induction false} NameIsPlain(k: string)
    requires |k| > 0 && forall j :: 0 <= j < |k| ==> NameChar(k[j])
    ensures PlainKey(k)
  {
    assert NameChar(k[0]) && NameChar(k[|k| - 1]);
  }

  lemma {:induction false} SettingNamesPlain()
    ensures PlainKey(MetadataName) && PlainKey(FrameStatisticsName)
  {
    assert PlainKey(MetadataName) by {
      var a := MetadataName;
      assert forall j :: 0 <= j < |a| ==> NameChar(a[j]);
      NameIsPlain(a);
    }
    assert PlainKey(FrameStatisticsName) by {
      var b := FrameStatisticsName;
      assert forall j :: 0 <= j < |b| ==> NameChar(b[j]);
      NameIsPlain(b);
    }
  }

  /** Reading the file the destructor writes restores both settings maps. */
  lemma {:induction false} CustomizationRoundTrip(c: Customization)
    requires KeysOf(c.metadataView) == KeysOf(MetadataDefaults)
    requires KeysOf(c.frameStatisticsView) == KeysOf(FrameStatisticsDefaults)
    ensures ReadCustomization(WriteCustomization(c)) == c
  {
    var lines := WriteCustomization(c);
    var c1 := ApplySettingLine(DefaultCustomization, lines[0]);
    assert c1 == DefaultCustomization.(metadataView := c.metadataView) by {
      SettingNamesPlain();
      MetadataDefaultsPlain();
      MetadataDefaultsDistinct();
      SettingLineRoundTrip(DefaultCustomization, MetadataName, MetadataDefaults, c.metadataView);
    }
    var c2 := ApplySettingLine(c1, lines[1]);
    assert c2 == c by {
      SettingNamesPlain();
      FrameStatisticsDefaultsPlain();
      FrameStatisticsDefaultsDistinct();
      SettingLineRoundTrip(c1, FrameStatisticsName, FrameStatisticsDefaults, c.frameStatisticsView);
    }
    assert ReadLines(c1, lines[1..]) == ReadLines(c2, lines[1..][1..]);
  }
}

=== FILE: Slicing.dfy ===
/**
 * The memory-bounded slicing shared by the stackers: `get_height_range_limit` picks how many
 * image rows fit into the user's memory budget, and `calculate_stacked_photo` walks the image in
 * horizontal slices of that height.
 *
 * Each stacker computes its limit as
 *     min(height, int((limit_mb * 2^20 - reserved) / bytes_per_line))
 * in `unsigned long long` arithmetic, with its own `reserved` and `bytes_per_line`. The
 * subtraction wraps when the budget is smaller than `reserved`, which is the subject of
 * `HeightRangeAsWritten`; `HeightRange` is the saturating limit the code evidently intends.
 */
module Slicing {
  import opened CInts
  import opened Wrappers

  const MIB: int := 1024 * 1024

  const NotEnoughMemory: string := "The memory set by the user is not sufficient, please increase it"

  /** The bytes left for the slice buffers once the fixed reservation is taken, in exact arithmetic. */
  function Budget(limitMb: int, reserved: int): int
  {
    limitMb * MIB - reserved
  }

  /**
   * The height range as the C++ code computes it: the budget wraps modulo 2^64, the quotient is
   * converted to `int` modulo 2^32, and only then is it compared with the image height.
   */
  function HeightRangeAsWritten(height: int, limitMb: int, reserved: int, bytesPerLine: int): (r: int)
    requires WrapU64(bytesPerLine) != 0
    ensures r <= height
    ensures limitMb <= 0 ==> r == height
  {
    if limitMb > 0 then Min(height, ToInt32(WrapU64(Budget(limitMb, reserved)) / WrapU64(bytesPerLine)))
    else height
  }

  /**
   * The height range with the budget saturating at zero: the largest number of rows, at most the
   * image height, whose buffers fit into the budget.
   */
  function HeightRange(height: nat, limitMb: int, reserved: int, bytesPerLine: nat): (r: nat)
    requires bytesPerLine > 0
    ensures r <= height
    ensures limitMb <= 0 ==> r == height
    ensures limitMb > 0 ==> r * bytesPerLine <= Budget(limitMb, reserved) || r == 0
    ensures limitMb > 0 && r < height ==> Budget(limitMb, reserved) < (r + 1) * bytesPerLine
  {
    if limitMb <= 0 then height
    else
      var budget := Budget(limitMb, reserved);
      if budget < 0 then 0
      else
        var q := budget / bytesPerLine;
        DivBounds(budget, bytesPerLine);
        if q < height then q
        else
          MulMonotone(height, q, bytesPerLine);
          height
  }

  lemma {:induction false} DivBounds(a: nat, b: nat)
    requires b > 0
    ensures (a / b) * b <= a < (a / b + 1) * b
  {
    assert a == (a / b) * b + a % b;
  }

  /** The limit is zero exactly when a memory limit is set and not even one row fits. */
  lemma {:induction false} HeightRangeZeroIff(height: nat, limitMb: int, reserved: int, bytesPerLine: nat)
    requires bytesPerLine > 0 && height > 0
    ensures HeightRange(height, limitMb, reserved, bytesPerLine) == 0
        <==> limitMb > 0 && Budget(limitMb, reserved) < bytesPerLine
  {
    var r := HeightRange(height, limitMb, reserved, bytesPerLine);
    assert r * bytesPerLine == (r - 1) * bytesPerLine + bytesPerLine;
  }

  /**
   * When the budget is non-negative and the quotient fits into an `int`, the code as written
   * computes the intended limit.
   */
  lemma {:induction false} AsWrittenAgreesWithoutWrap(height: nat, limitMb: int, reserved: int, bytesPerLine: nat)
    requires 0 < bytesPerLine < TWO_64
    requires limitMb > 0 ==> 0 <= Budget(limitMb, reserved) < TWO_64
    requires limitMb > 0 ==> Budget(limitMb, reserved) / bytesPerLine <= INT_MAX
    ensures HeightRangeAsWritten(height, limitMb, reserved, bytesPerLine)
         == HeightRange(height, limitMb, reserved, bytesPerLine)
  {
    if limitMb > 0 {
      var budget := Budget(limitMb, reserved);
      WrapU64Small(budget);
      WrapU64Small(bytesPerLine);
      var q := budget / bytesPerLine;
      assert ToInt32(WrapU64(budget) / WrapU64(bytesPerLine)) == q;
    }
  }

  /** A value that already fits an `unsigned long long` is its own reduction. */
  lemma {:induction false} WrapU64Small(x: int)
    requires 0 <= x < TWO_64
    ensures WrapU64(x) == x
  {
  }

  /** One horizontal band of rows [yMin, yMax). */
  datatype Slice = Slice(yMin: int, yMax: int)

  /** The slice count the code prints and reports as progress: a rounded-up division. */
  function NSlices(height: nat, range: nat): (n: nat)
    requires range > 0
    ensures (n - 1) * range < height <= n * range || (n == 0 && height == 0)
  {
    height / range + (if height % range > 0 then 1 else 0)
  }

  /** The slices visited by `for (y_min = start; y_min < height; y_min += range)`. */
  function SlicesFrom(start: int, height: int, range: nat): (r: seq<Slice>)
    requires range > 0
    ensures start >= height <==> r == []
    ensures start < height ==> r[0].yMin == start
    decreases height - start
  {
    if start >= height then []
    else [Slice(start, Min(start + range, height))] + SlicesFrom(start + range, height, range)
  }

  /**
   * The slices tile [start, height): each is non-empty and at most `range` rows high, each
   * ends where the next begins, all but the last are exactly `range` high, and the last ends at
   * `height`.
   */
  lemma {:induction false} SlicesTile(start: int, height: int, range: nat)
    requires range > 0
    ensures var r := SlicesFrom(start, height, range);
      && (start < height ==> r[|r| - 1].yMax == height)
      && (forall i :: 0 <= i < |r| ==> start <= r[i].yMin < r[i].yMax <= height)
      && (forall i :: 0 <= i < |r| ==> r[i].yMax - r[i].yMin <= range)
      && (forall i :: 0 <= i < |r| - 1 ==> r[i].yMax == r[i + 1].yMin && r[i].yMax - r[i].yMin == range)
    decreases height - start
  {
    if start < height {
      SlicesTile(start + range, height, range);
      var rest := SlicesFrom(start + range, height, range);
      var r := SlicesFrom(start, height, range);
      assert r == [Slice(start, Min(start + range, height))] + rest;
      forall i | 0 <= i < |r| - 1
        ensures r[i].yMax == r[i + 1].yMin && r[i].yMax - r[i].yMin == range
      {
        if i > 0 {
          assert r[i] == rest[i - 1] && r[i + 1] == rest[i];
        }
      }
    }
  }

  /** Slicing an image whose height is `height` with the given height range; a zero range throws. */
  function PlanSlices(height: nat, range: nat): (r: Result<seq<Slice>>)
    ensures range == 0 <==> r.Err?
    ensures r.Err? ==> r.msg == NotEnoughMemory
    ensures r.Ok? ==> |r.value| == NSlices(height, range)
    ensures r.Ok? && height > 0 ==> r.value[0].yMin == 0 && r.value[|r.value| - 1].yMax == height
  {
    if range == 0 then Err(NotEnoughMemory)
    else
      SliceCount(0, height, range);
      SlicesTile(0, height, range);
      Ok(SlicesFrom(0, height, range))
  }

  lemma {:induction false} SliceCount(start: nat, height: nat, range: nat)
    requires range > 0
    ensures start <= height ==> |SlicesFrom(start, height, range)| == NSlices(height - start, range)
    decreases height - start
  {
    if start < height {
      var m := height - start;
      assert |SlicesFrom(start, height, range)| == 1 + |SlicesFrom(start + range, height, range)|;
      if start + range > height {
        assert NSlices(m, range) == 1 by {
          if m == range {
            DivModUnique(m, range, 1, 0);
          } else {
            DivModUnique(m, range, 0, m);
          }
        }
      } else {
        SliceCount(start + range, height, range);
        assert NSlices(m, range) == NSlices(m - range, range) + 1 by {
          DivStep(m - range, range);
        }
      }
    }
  }

  /** Adding the divisor once raises the quotient by one and keeps the remainder. */
  lemma {:induction false} DivStep(a: nat, b: nat)
    requires b > 0
    ensures (a + b) / b == a / b + 1 && (a + b) % b == a % b
  {
    var q, r := a / b, a % b;
    var q2, r2 := (a + b) / b, (a + b) % b;
    var k := q2 - (q + 1);
    assert k * b == r - r2 by {
      assert a + b == q2 * b + r2;
      assert a + b == (q + 1) * b + r;
    }
    MultipleBelowDivisor(k, b);
  }

  /** Every row of the image lies in exactly one slice. */
  lemma {:induction false} SlicesCoverEachRowOnce(height: nat, range: nat, y: int)
    requires range > 0 && 0 <= y < height
    ensures exists i :: (0 <= i < |SlicesFrom(0, height, range)| &&
      SlicesFrom(0, height, range)[i].yMin <= y < SlicesFrom(0, height, range)[i].yMax)
    ensures forall i, j :: 0 <= i < j < |SlicesFrom(0, height, range)| ==>
      SlicesFrom(0, height, range)[i].yMax <= SlicesFrom(0, height, range)[j].yMin
  {
    var s := SlicesFrom(0, height, range);
    SlicesTile(0, height, range);
    Ordered(s);
    var i := 0;
    while s[i].yMax <= y
      invariant 0 <= i < |s| && s[i].yMin <= y
      decreases |s| - i
    {
      i := i + 1;
    }
  }

  lemma {:induction false} Ordered(s: seq<Slice>)
    requires forall i :: 0 <= i < |s| ==> s[i].yMin < s[i].yMax
    requires forall i :: 0 <= i < |s| - 1 ==> s[i].yMax == s[i + 1].yMin
    ensures forall i, j :: 0 <= i < j < |s| ==> s[i].yMax <= s[j].yMin
  {
    forall i, j | 0 <= i < j < |s|
      ensures s[i].yMax <= s[j].yMin
    {
      var m := i + 1;
      while m < j
        invariant i < m <= j && s[i].yMax <= s[m].yMin
      {
        m := m + 1;
      }
    }
  }

  /** `get_tasks_total`: one task per frame per slice. */
  function TasksTotal(height: nat, range: nat, nFiles: nat): (t: nat)
    requires range > 0
    ensures t == |SlicesFrom(0, height, range)| * nFiles
  {
    SliceCount(0, height, range);
    NSlices(height, range) * nFiles
  }

  /** Slot `i` of every worker thread's buffer, in thread order. */
  function Column(threads: seq<seq<int>>, i: nat): (col: seq<int>)
    requires forall t :: 0 <= t < |threads| ==> |threads[t]| > i
    ensures |col| == |threads|
    ensures forall t :: 0 <= t < |threads| ==> col[t] == threads[t][i]
  {
    seq(|threads|, t requires 0 <= t < |threads| => threads[t][i])
  }

  /**
   * The write-back of `calculate_final_image` for one colour: the slice's merged values land at
   * `shift = y_min * width` onwards, and every other pixel of the image keeps its value.
   */
  function WriteSlice(image: seq<int>, shift: nat, values: seq<int>): (r: seq<int>)
    requires shift + |values| <= |image|
    ensures |r| == |image|
    ensures forall i :: 0 <= i < |r| && !(shift <= i < shift + |values|) ==> r[i] == image[i]
    ensures forall i :: 0 <= i < |values| ==> r[shift + i] == values[i]
  {
    image[..shift] + values + image[shift + |values|..]
  }
}

=== FILE: Sorting.dfy ===
/**
 * A stable insertion sort by an integer key. The C++ code calls std::sort, which is not
 * stable: what is proved here (the result is sorted by the key and is a permutation of the
 * input) holds for std::sort's result too, but elements with equal keys may come out in
 * another order there.
 */
module Sorting {
  import opened CInts

  ghost predicate SortedBy<T>(s: seq<T>, key: T -> int)
  {
    forall i, j :: 0 <= i < j < |s| ==> key(s[i]) <= key(s[j])
  }

  /** Inserts `x` before the first element whose key is not smaller. */
  function Insert<T>(x: T, s: seq<T>, key: T -> int): (r: seq<T>)
    requires SortedBy(s, key)
    ensures |r| == |s| + 1
    ensures SortedBy(r, key)
    ensures multiset(r) == multiset(s) + multiset{x}
  {
    if |s| == 0 then [x]
    else if key(x) <= key(s[0]) then
      PrependSorted(x, s, key);
      [x] + s
    else
      TailSorted(s, key);
      var t := Insert(x, s[1..], key);
      LowerBoundKept(s[0], s[1..], x, t, key);
      PrependSorted(s[0], t, key);
      ConsMultiset(s, t, x);
      [s[0]] + t
  }

  /** The tail of a sorted sequence is sorted and bounded below by the head. */
  lemma {:induction false} TailSorted<T>(s: seq<T>, key: T -> int)
    requires |s| > 0 && SortedBy(s, key)
    ensures SortedBy(s[1..], key)
    ensures forall k :: 0 <= k < |s| - 1 ==> key(s[0]) <= key(s[1..][k])
  {
  }

  /** An element no larger than the first of a sorted sequence can go in front of it. */
  lemma {:induction false} PrependSorted<T>(x: T, s: seq<T>, key: T -> int)
    requires SortedBy(s, key)
    requires forall k :: 0 <= k < |s| ==> key(x) <= key(s[k])
    ensures SortedBy([x] + s, key)
  {
  }

  lemma {:induction false} ConsMultiset<T>(s: seq<T>, t: seq<T>, x: T)
    requires |s| > 0 && multiset(t) == multiset(s[1..]) + multiset{x}
    ensures multiset([s[0]] + t) == multiset(s) + multiset{x}
  {
    assert s == [s[0]] + s[1..];
  }

  /** A lower bound of `s` and of `x` bounds every permutation of `s` with `x` added. */
  lemma {:induction false} LowerBoundKept<T>(lo: T, s: seq<T>, x: T, t: seq<T>, key: T -> int)
    requires multiset(t) == multiset(s) + multiset{x}
    requires forall k :: 0 <= k < |s| ==> key(lo) <= key(s[k])
    requires key(lo) <= key(x)
    ensures forall k :: 0 <= k < |t| ==> key(lo) <= key(t[k])
  {
    forall k | 0 <= k < |t|
      ensures key(lo) <= key(t[k])
    {
      assert t[k] in multiset(t);
      if t[k] != x {
        assert t[k] in multiset(s);
        var j :| 0 <= j < |s| && s[j] == t[k];
      }
    }
  }

  function SortBy<T>(s: seq<T>, key: T -> int): (r: seq<T>)
    ensures |r| == |s|
    ensures SortedBy(r, key)
    ensures multiset(r) == multiset(s)
  {
    if |s| == 0 then []
    else
      assert s == [s[0]] + s[1..];
      Insert(s[0], SortBy(s[1..], key), key)
  }

  /** Every element of a sequence sorted by `key` is an element of the input, and conversely. */
  lemma {:induction false} SortByKeepsElements<T>(s: seq<T>, key: T -> int, x: T)
    ensures x in SortBy(s, key) <==> x in s
  {
    var r := SortBy(s, key);
    assert x in r <==> x in multiset(r);
    assert x in s <==> x in multiset(s);
  }

  /** The elements satisfying `p`, in their original order. */
  function Filter<T(!new)>(s: seq<T>, p: T -> bool): (r: seq<T>)
    ensures |r| <= |s|
    ensures forall x :: x in r <==> x in s && p(x)
  {
    if |s| == 0 then []
    else
      assert s == [s[0]] + s[1..];
      (if p(s[0]) then [s[0]] else []) + Filter(s[1..], p)
  }

  /** Filtering keeps every occurrence of an element satisfying `p` and drops every other. */
  lemma {:induction false} FilterMultiset<T(!new)>(s: seq<T>, p: T -> bool)
    ensures forall x :: multiset(Filter(s, p))[x] == if p(x) then multiset(s)[x] else 0
  {
    if |s| > 0 {
      FilterMultiset(s[1..], p);
      assert s == [s[0]] + s[1..];
      assert Filter(s, p) == (if p(s[0]) then [s[0]] else []) + Filter(s[1..], p);
    }
  }

  lemma {:induction false} SubsetCardinality<T>(a: set<T>, b: set<T>)
    requires a <= b
    ensures |a| <= |b|
  {
    if a != {} {
      var x :| x in a;
      SubsetCardinality(a - {x}, b - {x});
    }
  }

  function Id(x: int): int { x }

  /**
   * A sequence of integers has exactly one ascending arrangement, so whichever permutation an
   * unstable sort picks, the result equals `SortBy(s, Id)`.
   */
  lemma {:induction false} SortedIntsUnique(a: seq<int>, b: seq<int>)
    requires SortedBy(a, Id) && SortedBy(b, Id)
    requires multiset(a) == multiset(b)
    ensures a == b
  {
    if |a| > 0 {
      assert |b| == |multiset(b)| == |a|;
      assert a[0] in multiset(b) && b[0] in multiset(a);
      var j :| 0 <= j < |b| && b[j] == a[0];
      var i :| 0 <= i < |a| && a[i] == b[0];
      assert a[0] == b[0];
      MultisetOfTail(a);
      MultisetOfTail(b);
      SortedIntsUnique(a[1..], b[1..]);
    }
  }

  lemma {:induction false} MultisetOfTail<T>(a: seq<T>)
    requires |a| > 0
    ensures multiset(a[1..]) == multiset(a) - multiset{a[0]}
  {
    assert a == [a[0]] + a[1..];
  }

  /** Filters of sequences holding the same elements hold the same elements. */
  lemma {:induction false} FilterPermutation<T(!new)>(a: seq<T>, b: seq<T>, p: T -> bool)
    requires multiset(a) == multiset(b)
    ensures multiset(Filter(a, p)) == multiset(Filter(b, p))
    ensures |Filter(a, p)| == |Filter(b, p)|
  {
    var fa, fb := Filter(a, p), Filter(b, p);
    FilterMultiset(a, p);
    FilterMultiset(b, p);
    forall x
      ensures multiset(fa)[x] == multiset(fb)[x]
    {
    }
    assert multiset(fa) == multiset(fb);
    assert |fa| == |multiset(fa)| == |multiset(fb)| == |fb|;
  }

  lemma {:induction false} FilterConcat<T(!new)>(a: seq<T>, b: seq<T>, p: T -> bool)
    ensures Filter(a + b, p) == Filter(a, p) + Filter(b, p)
  {
    if |a| > 0 {
      assert (a + b)[1..] == a[1..] + b;
      FilterConcat(a[1..], b, p);
    } else {
      assert a + b == b;
    }
  }

  /** Where an element of `a` sits in a permutation `b` of it. */
  lemma {:induction false} PermutedIndex<T>(a: seq<T>, b: seq<T>, i: int) returns (k: int)
    requires multiset(a) == multiset(b) && 0 <= i < |a|
    ensures 0 <= k < |b| && b[k] == a[i]
  {
    assert a[i] in multiset(b);
    k :| 0 <= k < |b| && b[k] == a[i];
  }

  /** The concatenation of a sequence of sequences, in order. */
  function Flatten<T>(parts: seq<seq<T>>): seq<T>
  {
    if |parts| == 0 then [] else Flatten(parts[..|parts| - 1]) + parts[|parts| - 1]
  }

  lemma {:induction false} FlattenLength<T>(parts: seq<seq<T>>, size: nat)
    requires forall k :: 0 <= k < |parts| ==> |parts[k]| == size
    ensures |Flatten(parts)| == |parts| * size
  {
    if |parts| > 0 {
      FlattenLength(parts[..|parts| - 1], size);
    }
  }

  /** When every part has `size` elements, part `j` occupies positions [j * size, j * size + size). */
  lemma {:induction false} FlattenChunk<T>(parts: seq<seq<T>>, size: nat, j: nat)
    requires forall k :: 0 <= k < |parts| ==> |parts[k]| == size
    requires j < |parts|
    ensures |Flatten(parts)| == |parts| * size
    ensures j * size + size <= |Flatten(parts)|
    ensures Flatten(parts)[j * size..j * size + size] == parts[j]
    decreases |parts|, 1
  {
    FlattenLength(parts, size);
    MulStep(j, size);
    MulMonotone(j + 1, |parts|, size);
    if j < |parts| - 1 {
      FlattenChunkBeforeLast(parts, size, j);
    } else {
      FlattenChunkLast(parts, size);
    }
  }

  /** A part before the last one sits where it sat in the flattening without the last part. */
  lemma {:induction false} FlattenChunkBeforeLast<T>(parts: seq<seq<T>>, size: nat, j: nat)
    requires forall k :: 0 <= k < |parts| ==> |parts[k]| == size
    requires j < |parts| - 1
    ensures j * size + size <= |Flatten(parts)|
    ensures Flatten(parts)[j * size..j * size + size] == parts[j]
    decreases |parts|, 0
  {
    var init := parts[..|parts| - 1];
    assert Flatten(parts) == Flatten(init) + parts[|parts| - 1];
    assert j * size + size <= |Flatten(init)| && Flatten(init)[j * size..j * size + size] == parts[j] by {
      FlattenChunk(init, size, j);
      assert init[j] == parts[j];
    }
    SliceOfPrefix(Flatten(init), parts[|parts| - 1], j * size, j * size + size);
  }

  /** The last part fills the end of the flattening. */
  lemma {:induction false} FlattenChunkLast<T>(parts: seq<seq<T>>, size: nat)
    requires forall k :: 0 <= k < |parts| ==> |parts[k]| == size
    requires |parts| > 0
    ensures (|parts| - 1) * size + size <= |Flatten(parts)|
    ensures Flatten(parts)[(|parts| - 1) * size..(|parts| - 1) * size + size] == parts[|parts| - 1]
  {
    var init := parts[..|parts| - 1];
    var last := parts[|parts| - 1];
    assert Flatten(parts) == Flatten(init) + last;
    FlattenLength(init, size);
    assert (|parts| - 1) * size == |Flatten(init)|;
    SliceOfSuffix(Flatten(init), last, 0, size);
    assert last[0..size] == last;
  }

  lemma {:induction false} MulStep(a: nat, b: nat)
    ensures (a + 1) * b == a * b + b
  {
  }

  lemma {:induction false} SliceOfPrefix<T>(x: seq<T>, y: seq<T>, i: nat, j: nat)
    requires i <= j <= |x|
    ensures (x + y)[i..j] == x[i..j]
  {
    assert forall k :: i <= k < j ==> (x + y)[k] == x[k];
  }

  lemma {:induction false} SliceOfSuffix<T>(x: seq<T>, y: seq<T>, i: nat, j: nat)
    requires i <= j <= |y|
    ensures (x + y)[|x| + i..|x| + j] == y[i..j]
  {
    assert forall k :: i <= k < j ==> (x + y)[|x| + k] == y[k];
  }
}

=== FILE: StackSettings.dfy ===
/**
 * The settings of one stacking run (src/StackSettings.cxx, headers/StackSettings.h): which
 * stacking algorithm, how many threads and how much memory, three switches, the alignment frame
 * and method, and the values for the algorithm's own tunables. The stacking algorithm can only
 * be one of nine names; anything else throws and leaves the settings as they were.
 */
module StackSettings {
  import opened Wrappers
  import opened StringMaps
  import opened InputFrames
  import AlgorithmSettings

  /** `m_stacking_algorithms`, in the order `get_stacking_algorithms` lists them. */
  const Algorithms: seq<string> := [
    "kappa-sigma median", "kappa-sigma mean", "average", "median", "cut-off average",
    "maximum", "minimum", "best score", "center"]

  const KappaSigmaMean := "kappa-sigma mean"
  const KappaSigmaMedian := "kappa-sigma median"

  datatype Settings = Settings(
    alignmentFrame: InputFrame,
    stackingAlgorithm: string,
    nCpus: int,
    maxMemory: int,
    hotPixelCorrection: bool,
    useColorInterpolation: bool,
    applyColorStretching: bool,
    alignmentMethod: string,
    specificNumerical: seq<Entry<real>>,
    specificBool: seq<Entry<bool>>)

  /**
   * The default-constructed settings. `hardwareThreads` is what `std::thread::hardware_concurrency`
   * reports on the machine, the initial thread count.
   */
  function Default(hardwareThreads: int): (s: Settings)
    ensures Listed(s) && !s.hotPixelCorrection && s.useColorInterpolation && !s.applyColorStretching
    ensures s.stackingAlgorithm == KappaSigmaMean && IsKappaSigma(s)
    ensures s.nCpus == GetMaxThreads(hardwareThreads) && s.maxMemory == 8000 && s.alignmentMethod == "stars"
    ensures s.specificNumerical == [] && s.specificBool == []
  {
    Settings(NoFrame, KappaSigmaMean, hardwareThreads, 8000, false, true, false, "stars", [], [])
  }

  /** `get_max_threads`. */
  function GetMaxThreads(hardwareThreads: int): int
  {
    hardwareThreads
  }

  /** The stacking algorithm is one of the listed names. */
  predicate Listed(s: Settings)
  {
    s.stackingAlgorithm in Algorithms
  }

  // ---------------------------------------------------------------------------------------------
  // The stacking algorithm

  function NotFound(name: string): string
  {
    "Stacking algorithm not found: '" + name + "'"
  }

  /** `set_stacking_algorithm`: accepted only if listed; otherwise an error and no change. */
  function SetStackingAlgorithm(s: Settings, name: string): (r: Result<Settings>)
    ensures r.Ok? <==> name in Algorithms
    ensures r.Ok? ==> GetStackingAlgorithm(r.value) == name && r.value.(stackingAlgorithm := s.stackingAlgorithm) == s
    ensures r.Err? ==> r.msg == NotFound(name)
  {
    if name in Algorithms then Ok(s.(stackingAlgorithm := name)) else Err(NotFound(name))
  }

  function GetStackingAlgorithm(s: Settings): string
  {
    s.stackingAlgorithm
  }

  /** `is_kappa_sigma`. */
  predicate IsKappaSigma(s: Settings)
  {
    s.stackingAlgorithm == KappaSigmaMean || s.stackingAlgorithm == KappaSigmaMedian
  }

  /** The two kappa-sigma names are exactly the first two listed algorithms. */
  lemma {:induction false} KappaSigmaIsListed(s: Settings)
    ensures IsKappaSigma(s) <==> s.stackingAlgorithm in Algorithms[..2]
    ensures IsKappaSigma(s) ==> Listed(s)
  {
    assert Algorithms[..2] == [KappaSigmaMedian, KappaSigmaMean];
  }

  /** Selecting the algorithm by name and then testing for kappa-sigma tests the name. */
  lemma {:induction false} SelectKappaSigma(s: Settings, name: string)
    requires SetStackingAlgorithm(s, name).Ok?
    ensures IsKappaSigma(SetStackingAlgorithm(s, name).value) <==> name == KappaSigmaMean || name == KappaSigmaMedian
  {
  }

  // ---------------------------------------------------------------------------------------------
  // Plain setters; each changes its own field and nothing else

  function SetNCpus(s: Settings, n: int): (r: Settings)
    ensures GetNCpus(r) == n && r.(nCpus := s.nCpus) == s
  {
    s.(nCpus := n)
  }

  function GetNCpus(s: Settings): int { s.nCpus }

  function SetMaxMemory(s: Settings, m: int): (r: Settings)
    ensures GetMaxMemory(r) == m && r.(maxMemory := s.maxMemory) == s
  {
    s.(maxMemory := m)
  }

  function GetMaxMemory(s: Settings): int { s.maxMemory }

  function SetHotPixelCorrection(s: Settings, b: bool): (r: Settings)
    ensures UseHotPixelCorrection(r) == b && r.(hotPixelCorrection := s.hotPixelCorrection) == s
  {
    s.(hotPixelCorrection := b)
  }

  function UseHotPixelCorrection(s: Settings): bool { s.hotPixelCorrection }

  function SetUseColorInterpolation(s: Settings, b: bool): (r: Settings)
    ensures UseColorInterpolation(r) == b && r.(useColorInterpolation := s.useColorInterpolation) == s
  {
    s.(useColorInterpolation := b)
  }

  function UseColorInterpolation(s: Settings): bool { s.useColorInterpolation }

  function SetApplyColorStretching(s: Settings, b: bool): (r: Settings)
    ensures ApplyColorStretching(r) == b && r.(applyColorStretching := s.applyColorStretching) == s
  {
    s.(applyColorStretching := b)
  }

  function ApplyColorStretching(s: Settings): bool { s.applyColorStretching }

  function SetAlignmentMethod(s: Settings, m: string): (r: Settings)
    ensures GetAlignmentMethod(r) == m && r.(alignmentMethod := s.alignmentMethod) == s
  {
    s.(alignmentMethod := m)
  }

  function GetAlignmentMethod(s: Settings): string { s.alignmentMethod }

  function SetAlignmentFrame(s: Settings, f: InputFrame): (r: Settings)
    ensures GetAlignmentFrame(r) == f && r.(alignmentFrame := s.alignmentFrame) == s
  {
    s.(alignmentFrame := f)
  }

  function GetAlignmentFrame(s: Settings): InputFrame { s.alignmentFrame }

  // ---------------------------------------------------------------------------------------------
  // Values for the algorithm's own tunables

  /** `clear_algorithm_specific_settings`. */
  function ClearAlgorithmSpecific(s: Settings): (r: Settings)
    ensures GetAlgorithmSpecific(r) == AlgorithmSettings.ConfigurationMap([], [])
    ensures r.(specificNumerical := s.specificNumerical, specificBool := s.specificBool) == s
  {
    s.(specificNumerical := [], specificBool := [])
  }

  /** `set_algorithm_specific_setting`: `map[name] = value`. */
  function SetAlgorithmSpecific(s: Settings, name: string, v: real): (r: Settings)
    ensures r.(specificNumerical := s.specificNumerical) == s
    ensures forall x :: HasKey(r.specificNumerical, x) <==> x == name || HasKey(s.specificNumerical, x)
  {
    forall x
      ensures HasKey(Put(s.specificNumerical, name, v), x) <==> x == name || HasKey(s.specificNumerical, x)
    {
      PutKeys(s.specificNumerical, name, v, x);
    }
    s.(specificNumerical := Put(s.specificNumerical, name, v))
  }

  /** `set_algorithm_specific_settings`: the numerical values replaced wholesale; the boolean ones kept. */
  function SetAllAlgorithmSpecific(s: Settings, values: seq<Entry<real>>): (r: Settings)
    ensures GetAlgorithmSpecific(r).numerical == values
    ensures GetAlgorithmSpecific(r).bools == GetAlgorithmSpecific(s).bools
    ensures r.(specificNumerical := s.specificNumerical) == s
  {
    s.(specificNumerical := values)
  }

  /** `get_algorithm_specific_settings`: both maps, as a configuration map. */
  function GetAlgorithmSpecific(s: Settings): AlgorithmSettings.ConfigurationMap
  {
    AlgorithmSettings.ConfigurationMap(s.specificNumerical, s.specificBool)
  }

  /** A stored value reads back under its name, and every other name reads as before. */
  lemma {:induction false} SetThenGetAlgorithmSpecific(s: Settings, name: string, v: real, k: string)
    ensures Find(GetAlgorithmSpecific(SetAlgorithmSpecific(s, name, v)).numerical, k)
      == if k == name then Some(v) else Find(GetAlgorithmSpecific(s).numerical, k)
  {
    FindPut(s.specificNumerical, name, v, k);
  }

  // ---------------------------------------------------------------------------------------------
  // Invariants over every sequence of operations

  /** One call on the settings object. */
  datatype Op =
    | SetAlgorithm(name: string)
    | SetCpus(n: int)
    | SetMemory(m: int)
    | SetHotPixels(b: bool)
    | SetInterpolation(b: bool)
    | SetStretching(b: bool)
    | SetMethod(alignmentMethod: string)
    | SetFrame(f: InputFrame)
    | ClearSpecific
    | SetSpecific(name: string, v: real)
    | SetAllSpecific(values: seq<Entry<real>>)

  /** One call; a rejected algorithm name leaves the settings unchanged, as the thrown exception does. */
  function Step(s: Settings, op: Op): Settings
  {
    match op
    case SetAlgorithm(name) =>
      var r := SetStackingAlgorithm(s, name);
      if r.Ok? then r.value else s
    case SetCpus(n) => SetNCpus(s, n)
    case SetMemory(m) => SetMaxMemory(s, m)
    case SetHotPixels(b) => SetHotPixelCorrection(s, b)
    case SetInterpolation(b) => SetUseColorInterpolation(s, b)
    case SetStretching(b) => SetApplyColorStretching(s, b)
    case SetMethod(m) => SetAlignmentMethod(s, m)
    case SetFrame(f) => SetAlignmentFrame(s, f)
    case ClearSpecific => ClearAlgorithmSpecific(s)
    case SetSpecific(name, v) => SetAlgorithmSpecific(s, name, v)
    case SetAllSpecific(values) => SetAllAlgorithmSpecific(s, values)
  }

  function Run(s: Settings, ops: seq<Op>): Settings
    decreases |ops|
  {
    if |ops| == 0 then s else Run(Step(s, ops[0]), ops[1..])
  }

  /**
   * Whatever the calls, the stacking algorithm stays one of the listed names, and the boolean
   * algorithm-specific map stays empty: no member ever stores into it.
   */
  lemma {:induction false} RunKeepsInvariants(hardwareThreads: int, ops: seq<Op>)
    ensures Listed(Run(Default(hardwareThreads), ops))
    ensures GetAlgorithmSpecific(Run(Default(hardwareThreads), ops)).bools == []
  {
    RunFrom(Default(hardwareThreads), ops);
  }

  lemma {:induction false} RunFrom(s: Settings, ops: seq<Op>)
    requires Listed(s) && s.specificBool == []
    ensures Listed(Run(s, ops)) && Run(s, ops).specificBool == []
    decreases |ops|
  {
    if |ops| > 0 {
      RunFrom(Step(s, ops[0]), ops[1..]);
    }
  }
}

=== FILE: StackerCenter.dfy ===
/**
 * The "center" stacker keeps, for every pixel, the contributed value closest to a central value
 * (16384 by default). Every worker thread keeps one `int` slot per pixel, -1 while empty;
 * `process_pixel` replaces the slot when it is empty or when the new value is strictly closer to
 * the centre, so within one thread the earliest of the closest values wins. `calculate_final_image`
 * then merges the threads' slots into the image.
 */
module StackerCenter {
  import opened CInts
  import opened Sorting
  import opened Slicing

  /** `c_empty_pixel_value`. */
  const EMPTY_PIXEL: int := -1

  /** The default of `m_central_value`. */
  const DEFAULT_CENTRAL_VALUE: int := 16384

  function Distance(v: int, c: int): nat
  {
    Abs(v - c)
  }

  /** `process_pixel` on one slot: an empty slot takes the value, otherwise a strictly closer value replaces it. */
  function ProcessPixel(slot: int, value: int, c: int): (r: int)
    ensures r == slot || r == value
    ensures slot == EMPTY_PIXEL ==> r == value
    ensures slot != EMPTY_PIXEL ==> Distance(r, c) <= Distance(slot, c) && Distance(r, c) <= Distance(value, c)
    ensures slot != EMPTY_PIXEL && r == value && value != slot ==> Distance(value, c) < Distance(slot, c)
  {
    if slot == EMPTY_PIXEL then value
    else if Distance(value, c) < Distance(slot, c) then value
    else slot
  }

  /** The slot after a thread has processed `values` in order. */
  function Accumulate(slot: int, values: seq<int>, c: int): int
  {
    if |values| == 0 then slot
    else ProcessPixel(Accumulate(slot, values[..|values| - 1], c), values[|values| - 1], c)
  }

  predicate AllPixels(values: seq<int>)
  {
    forall i :: 0 <= i < |values| ==> values[i] >= 0
  }

  /**
   * `values[i]` is the first of `values` whose distance to `c` is minimal: every earlier value is
   * strictly farther and no later one is closer.
   */
  ghost predicate ClosestAt(values: seq<int>, c: int, i: int)
    requires 0 <= i < |values|
  {
    && (forall j :: 0 <= j < i ==> Distance(values[j], c) > Distance(values[i], c))
    && (forall j :: i <= j < |values| ==> Distance(values[j], c) >= Distance(values[i], c))
  }

  /** The reference meaning of the per-thread slot: `r` is the earliest of the closest values. */
  ghost predicate IsEarliestClosest(values: seq<int>, c: int, r: int)
  {
    exists i :: 0 <= i < |values| && values[i] == r && ClosestAt(values, c, i)
  }

  /** A thread that started empty holds the earliest closest of the values it processed, or -1 if none. */
  lemma {:induction false} AccumulateIsEarliestClosest(values: seq<int>, c: int)
    requires AllPixels(values)
    ensures |values| == 0 ==> Accumulate(EMPTY_PIXEL, values, c) == EMPTY_PIXEL
    ensures |values| > 0 ==> IsEarliestClosest(values, c, Accumulate(EMPTY_PIXEL, values, c))
  {
    var n := |values|;
    if n > 0 {
      var init := values[..n - 1];
      var prev := Accumulate(EMPTY_PIXEL, init, c);
      var r := Accumulate(EMPTY_PIXEL, values, c);
      AccumulateIsEarliestClosest(init, c);
      if n == 1 {
        assert ClosestAt(values, c, 0);
      } else {
        var i :| 0 <= i < |init| && init[i] == prev && ClosestAt(init, c, i);
        if Distance(values[n - 1], c) < Distance(prev, c) {
          ClosestMoves(values, c, i);
          assert ClosestAt(values, c, n - 1);
        } else {
          ClosestStays(values, c, i);
          assert values[i] == r;
        }
      }
    }
  }

  lemma {:induction false} ClosestMoves(values: seq<int>, c: int, i: int)
    requires 0 <= i < |values| - 1 && ClosestAt(values[..|values| - 1], c, i)
    requires Distance(values[|values| - 1], c) < Distance(values[i], c)
    ensures ClosestAt(values, c, |values| - 1)
  {
    var init := values[..|values| - 1];
    forall j | 0 <= j < |values| - 1
      ensures Distance(values[j], c) > Distance(values[|values| - 1], c)
    {
      assert values[j] == init[j];
      if j >= i {
        assert Distance(init[j], c) >= Distance(init[i], c);
      } else {
        assert Distance(init[j], c) > Distance(init[i], c);
      }
    }
  }

  lemma {:induction false} ClosestStays(values: seq<int>, c: int, i: int)
    requires 0 <= i < |values| - 1 && ClosestAt(values[..|values| - 1], c, i)
    requires Distance(values[|values| - 1], c) >= Distance(values[i], c)
    ensures ClosestAt(values, c, i)
  {
    var init := values[..|values| - 1];
    assert forall j :: 0 <= j < |values| - 1 ==> values[j] == init[j];
  }

  /** Two earliest-closest values of the same sequence coincide. */
  lemma {:induction false} EarliestClosestUnique(values: seq<int>, c: int, r1: int, r2: int)
    requires IsEarliestClosest(values, c, r1) && IsEarliestClosest(values, c, r2)
    ensures r1 == r2
  {
    var i1 :| 0 <= i1 < |values| && values[i1] == r1 && ClosestAt(values, c, i1);
    var i2 :| 0 <= i2 < |values| && values[i2] == r2 && ClosestAt(values, c, i2);
    ClosestIndexUnique(values, c, i1, i2);
  }

  lemma {:induction false} ClosestIndexUnique(values: seq<int>, c: int, i1: int, i2: int)
    requires 0 <= i1 < |values| && 0 <= i2 < |values|
    requires ClosestAt(values, c, i1) && ClosestAt(values, c, i2)
    ensures i1 == i2
  {
    var d1, d2 := Distance(values[i1], c), Distance(values[i2], c);
    assert i1 <= i2 ==> d1 <= d2;
    assert i2 <= i1 ==> d2 <= d1;
  }

  /**
   * The merge `calculate_final_image` performs for one pixel, as written: empty thread slots are
   * skipped, an empty image pixel takes the slot, and otherwise the slot replaces the pixel when
   * the PIXEL is strictly closer to the centre than the slot.
   */
  function MergeAsWritten(image: int, slots: seq<int>, c: int): (r: int)
    ensures r == image || r in slots
  {
    if |slots| == 0 then image
    else
      var acc := MergeAsWritten(image, slots[..|slots| - 1], c);
      var s := slots[|slots| - 1];
      assert acc in slots[..|slots| - 1] ==> acc in slots;
      if s == EMPTY_PIXEL then acc
      else if acc == EMPTY_PIXEL then s
      else if Distance(acc, c) < Distance(s, c) then s
      else acc
  }

  /** The merge step the per-thread rule calls for: a slot replaces the pixel only when it is strictly closer. */
  function Combine(acc: int, s: int, c: int): (r: int)
    ensures r == acc || r == s
    ensures s == EMPTY_PIXEL ==> r == acc
    ensures acc == EMPTY_PIXEL ==> r == s
  {
    if s == EMPTY_PIXEL then acc else ProcessPixel(acc, s, c)
  }

  /** `calculate_final_image` for one pixel with the comparison the per-thread step uses. */
  function Merge(image: int, slots: seq<int>, c: int): int
  {
    if |slots| == 0 then image
    else Combine(Merge(image, slots[..|slots| - 1], c), slots[|slots| - 1], c)
  }

  /** "Closest, ties to the left, -1 as identity" is associative. */
  lemma {:induction false} CombineAssociative(a: int, b: int, d: int, c: int)
    ensures Combine(Combine(a, b, c), d, c) == Combine(a, Combine(b, d, c), c)
  {
  }

  /** Processing `xs` then `ys` is processing their concatenation. */
  lemma {:induction false} AccumulateConcat(slot: int, xs: seq<int>, ys: seq<int>, c: int)
    ensures Accumulate(slot, xs + ys, c) == Accumulate(Accumulate(slot, xs, c), ys, c)
    decreases |ys|
  {
    if |ys| == 0 {
      assert xs + ys == xs;
    } else {
      var n := |ys|;
      assert (xs + ys)[..|xs + ys| - 1] == xs + ys[..n - 1];
      assert (xs + ys)[|xs + ys| - 1] == ys[n - 1];
      AccumulateConcat(slot, xs, ys[..n - 1], c);
    }
  }

  /** A thread that started from `a` ends where a fresh thread would have, combined onto `a`. */
  lemma {:induction false} AccumulateFromCombines(a: int, ys: seq<int>, c: int)
    requires AllPixels(ys)
    ensures Accumulate(a, ys, c) == Combine(a, Accumulate(EMPTY_PIXEL, ys, c), c)
    decreases |ys|
  {
    if |ys| > 0 {
      var n := |ys|;
      var init := ys[..n - 1];
      AccumulateFromCombines(a, init, c);
      CombineAssociative(a, Accumulate(EMPTY_PIXEL, init, c), ys[n - 1], c);
    }
  }

  /** The slots of threads that started empty and handled `parts[t]` respectively. */
  function ThreadSlots(parts: seq<seq<int>>, c: int): (s: seq<int>)
    ensures |s| == |parts|
    ensures forall t :: 0 <= t < |parts| ==> s[t] == Accumulate(EMPTY_PIXEL, parts[t], c)
  {
    seq(|parts|, t requires 0 <= t < |parts| => Accumulate(EMPTY_PIXEL, parts[t], c))
  }

  /**
   * With the intended comparison, merging the threads' slots into an empty pixel gives the value a
   * single thread would have kept over all frames, whatever the assignment of frames to threads.
   */
  lemma {:induction false} MergeMatchesSingleThread(parts: seq<seq<int>>, c: int)
    requires forall t :: 0 <= t < |parts| ==> AllPixels(parts[t])
    ensures Merge(EMPTY_PIXEL, ThreadSlots(parts, c), c) == Accumulate(EMPTY_PIXEL, Flatten(parts), c)
    decreases |parts|
  {
    if |parts| > 0 {
      var n := |parts|;
      var init := parts[..n - 1];
      MergeMatchesSingleThread(init, c);
      assert ThreadSlots(parts, c)[..n - 1] == ThreadSlots(init, c);
      AccumulateConcat(EMPTY_PIXEL, Flatten(init), parts[n - 1], c);
      AccumulateFromCombines(Accumulate(EMPTY_PIXEL, Flatten(init), c), parts[n - 1], c);
    }
  }

  /**
   * Hence the merged pixel is the earliest closest of all contributed values in frame order, or -1
   * when no frame contributed.
   */
  lemma {:induction false} MergedIsEarliestClosest(parts: seq<seq<int>>, c: int)
    requires forall t :: 0 <= t < |parts| ==> AllPixels(parts[t])
    ensures |Flatten(parts)| == 0 ==> Merge(EMPTY_PIXEL, ThreadSlots(parts, c), c) == EMPTY_PIXEL
    ensures |Flatten(parts)| > 0 ==> IsEarliestClosest(Flatten(parts), c, Merge(EMPTY_PIXEL, ThreadSlots(parts, c), c))
  {
    MergeMatchesSingleThread(parts, c);
    FlattenPixels(parts);
    AccumulateIsEarliestClosest(Flatten(parts), c);
  }

  lemma {:induction false} FlattenPixels(parts: seq<seq<int>>)
    requires forall t :: 0 <= t < |parts| ==> AllPixels(parts[t])
    ensures AllPixels(Flatten(parts))
    decreases |parts|
  {
    if |parts| > 0 {
      var n := |parts|;
      FlattenPixels(parts[..n - 1]);
      assert forall t :: 0 <= t < n - 1 ==> parts[..n - 1][t] == parts[t];
    }
  }

  /**
   * As written the merge keeps the value FARTHER from the centre: one thread saw the central
   * value itself, another saw 0, and the image ends at 0.
   */
  lemma {:induction false} MergeAsWrittenKeepsFarther()
    ensures ThreadSlots([[16384], [0]], DEFAULT_CENTRAL_VALUE) == [16384, 0]
    ensures MergeAsWritten(EMPTY_PIXEL, [16384, 0], DEFAULT_CENTRAL_VALUE) == 0
    ensures Merge(EMPTY_PIXEL, [16384, 0], DEFAULT_CENTRAL_VALUE) == 16384
  {
    assert [16384, 0][..1] == [16384];
    assert Accumulate(EMPTY_PIXEL, [16384], DEFAULT_CENTRAL_VALUE) == 16384 by {
      assert [16384][..0] == [];
    }
    assert Accumulate(EMPTY_PIXEL, [0], DEFAULT_CENTRAL_VALUE) == 0 by {
      assert [0][..0] == [];
    }
  }

  /** `calculate_final_image(y_min, y_max)` for one colour, with the intended merge. */
  function CalculateFinalImage(image: seq<int>, threads: seq<seq<int>>, shift: nat, n: nat, c: int): (r: seq<int>)
    requires shift + n <= |image|
    requires forall t :: 0 <= t < |threads| ==> |threads[t]| >= n
    ensures |r| == |image|
    ensures forall i :: 0 <= i < |r| && !(shift <= i < shift + n) ==> r[i] == image[i]
    ensures forall i :: 0 <= i < n ==> r[shift + i] == image[shift + i] || r[shift + i] in Column(threads, i)
    ensures forall i :: 0 <= i < n ==> r[shift + i] == Merge(image[shift + i], Column(threads, i), c)
  {
    var merged := MergedSlice(image, threads, shift, n, c);
    var r := WriteSlice(image, shift, merged);
    assert forall i :: 0 <= i < n ==> r[shift + i] == merged[i];
    r
  }

  /** Each of the first `n` pixels of the slice merged with the image value it starts from. */
  function MergedSlice(image: seq<int>, threads: seq<seq<int>>, shift: nat, n: nat, c: int): (merged: seq<int>)
    requires shift + n <= |image|
    requires forall t :: 0 <= t < |threads| ==> |threads[t]| >= n
    ensures |merged| == n
    ensures forall i :: 0 <= i < n ==> merged[i] == image[shift + i] || merged[i] in Column(threads, i)
    ensures forall i :: 0 <= i < n ==> merged[i] == Merge(image[shift + i], Column(threads, i), c)
  {
    var merged := seq(n, i requires 0 <= i < n => Merge(image[shift + i], Column(threads, i), c));
    assert forall i :: 0 <= i < n ==> merged[i] == image[shift + i] || merged[i] in Column(threads, i) by {
      forall i | 0 <= i < n
        ensures merged[i] == image[shift + i] || merged[i] in Column(threads, i)
      {
        MergeSource(image[shift + i], Column(threads, i), c);
      }
    }
    merged
  }

  lemma {:induction false} MergeSource(image: int, slots: seq<int>, c: int)
    ensures Merge(image, slots, c) == image || Merge(image, slots, c) in slots
  {
    if |slots| > 0 {
      MergeSource(image, slots[..|slots| - 1], c);
    }
  }

  /** `reset_values_in_arrays_for_stacking`: every slot back to -1, shapes kept. */
  function Reset(b: seq<seq<seq<int>>>): (r: seq<seq<seq<int>>>)
    ensures |r| == |b|
    ensures forall t :: 0 <= t < |b| ==> |r[t]| == |b[t]|
    ensures forall t, k :: 0 <= t < |b| && 0 <= k < |b[t]| ==> |r[t][k]| == |b[t][k]|
    ensures forall t, k, i :: 0 <= t < |b| && 0 <= k < |b[t]| && 0 <= i < |b[t][k]| ==> r[t][k][i] == EMPTY_PIXEL
  {
    seq(|b|, t requires 0 <= t < |b| => seq(|b[t]|, k requires 0 <= k < |b[t]| => seq(|b[t][k]|, _ => EMPTY_PIXEL)))
  }

  /** Bytes reserved by `StackerCenter::get_height_range_limit`; `PixelType` is a 2-byte `unsigned short`. */
  function CenterReserved(width: int, height: int, nCpu: int): int
  {
    3 * 8 * width * height + nCpu * 3 * 2 * width * height
  }

  function CenterBytesPerLine(colors: int, width: int, nCpu: int): int
  {
    colors * nCpu * 12 * width
  }

  /** `StackerCenter::get_height_range_limit` as written. */
  function HeightRangeLimitAsWritten(colors: int, width: int, height: int, nCpu: int, limitMb: int): (r: int)
    requires WrapU64(CenterBytesPerLine(colors, width, nCpu)) != 0
    ensures r <= height
  {
    HeightRangeAsWritten(height, limitMb, CenterReserved(width, height, nCpu), CenterBytesPerLine(colors, width, nCpu))
  }

  /** `StackerCenter::get_height_range_limit` with the budget saturating at zero. */
  function HeightRangeLimit(colors: nat, width: nat, height: nat, nCpu: nat, limitMb: int): (r: nat)
    requires CenterBytesPerLine(colors, width, nCpu) > 0
    ensures r <= height
    ensures limitMb > 0 ==>
      (r * CenterBytesPerLine(colors, width, nCpu) + CenterReserved(width, height, nCpu) <= limitMb * MIB || r == 0)
  {
    HeightRange(height, limitMb, CenterReserved(width, height, nCpu), CenterBytesPerLine(colors, width, nCpu))
  }
}

=== FILE: StackerMeanValue.dfy ===
/**
 * The mean-value stacker. Every worker thread keeps, per pixel, an `int` sum of the contributed
 * values and an `unsigned short` count of them; `calculate_final_image` adds the threads' sums into
 * the `double` image and their counts into an `unsigned short` total, and divides, writing -1 where
 * nothing was counted.
 */
module StackerMeanValue {
  import opened CInts
  import opened Sorting

  /** `c_empty_pixel_value`. */
  const EMPTY_PIXEL: real := -1.0

  /** One thread's slot pair: the sum of the values and the number of values. */
  datatype Accumulator = Accumulator(sum: int, count: int)

  /** Both buffers are allocated filled with zeros. */
  const EMPTY_ACCUMULATOR: Accumulator := Accumulator(0, 0)

  /** The merged pixel before the division: the `double` sum and the total count. */
  datatype Merged = Merged(sum: real, count: int)

  function Total(values: seq<int>): int
  {
    if |values| == 0 then 0 else Total(values[..|values| - 1]) + values[|values| - 1]
  }

  /** `process_pixel` as written: the count is an `unsigned short` and wraps at 65536. */
  function ProcessPixelAsWritten(a: Accumulator, value: int): (r: Accumulator)
    ensures r.sum - a.sum == value
    ensures 0 <= r.count < TWO_16
    ensures 0 <= a.count < TWO_16 - 1 ==> r.count == a.count + 1
    ensures a.count == TWO_16 - 1 ==> r.count == 0
  {
    Accumulator(a.sum + value, WrapU16(a.count + 1))
  }

  /** `process_pixel` with a count that cannot wrap. */
  function ProcessPixel(a: Accumulator, value: int): (r: Accumulator)
    ensures r.sum - a.sum == value && r.count - a.count == 1
  {
    Accumulator(a.sum + value, a.count + 1)
  }

  function AccumulateAsWritten(a: Accumulator, values: seq<int>): Accumulator
  {
    if |values| == 0 then a
    else ProcessPixelAsWritten(AccumulateAsWritten(a, values[..|values| - 1]), values[|values| - 1])
  }

  function Accumulate(a: Accumulator, values: seq<int>): Accumulator
  {
    if |values| == 0 then a
    else ProcessPixel(Accumulate(a, values[..|values| - 1]), values[|values| - 1])
  }

  /** A thread that started from zeros holds the sum of its values and their count modulo 2^16. */
  lemma {:induction false} AccumulateAsWrittenCounts(values: seq<int>)
    ensures AccumulateAsWritten(EMPTY_ACCUMULATOR, values) == Accumulator(Total(values), WrapU16(|values|))
  {
    if |values| > 0 {
      AccumulateAsWrittenCounts(values[..|values| - 1]);
      WrapU16Add(|values| - 1, 1);
    }
  }

  /** Without the wrap the thread holds the sum of its values and their number. */
  lemma {:induction false} AccumulateCounts(values: seq<int>)
    ensures Accumulate(EMPTY_ACCUMULATOR, values) == Accumulator(Total(values), |values|)
  {
    if |values| > 0 {
      AccumulateCounts(values[..|values| - 1]);
    }
  }

  /** `calculate_final_image` for one pixel, before the division: sums in `double`, counts in `unsigned short`. */
  function MergeAsWritten(image: real, accs: seq<Accumulator>): Merged
  {
    if |accs| == 0 then Merged(image, 0)
    else
      var m := MergeAsWritten(image, accs[..|accs| - 1]);
      Merged(m.sum + accs[|accs| - 1].sum as real, WrapU16(m.count + accs[|accs| - 1].count))
  }

  function Merge(image: real, accs: seq<Accumulator>): Merged
  {
    if |accs| == 0 then Merged(image, 0)
    else
      var m := Merge(image, accs[..|accs| - 1]);
      Merged(m.sum + accs[|accs| - 1].sum as real, m.count + accs[|accs| - 1].count)
  }

  /** The division step: the mean where something was counted, -1 elsewhere. */
  function FinalValue(m: Merged): (r: real)
    ensures m.count <= 0 ==> r == EMPTY_PIXEL
    ensures m.count > 0 ==> r * m.count as real == m.sum
  {
    if m.count > 0 then m.sum / m.count as real else EMPTY_PIXEL
  }

  function ThreadsAsWritten(parts: seq<seq<int>>): (r: seq<Accumulator>)
    ensures |r| == |parts|
    ensures forall t :: 0 <= t < |parts| ==> r[t] == AccumulateAsWritten(EMPTY_ACCUMULATOR, parts[t])
  {
    seq(|parts|, t requires 0 <= t < |parts| => AccumulateAsWritten(EMPTY_ACCUMULATOR, parts[t]))
  }

  function Threads(parts: seq<seq<int>>): (r: seq<Accumulator>)
    ensures |r| == |parts|
    ensures forall t :: 0 <= t < |parts| ==> r[t] == Accumulate(EMPTY_ACCUMULATOR, parts[t])
  {
    seq(|parts|, t requires 0 <= t < |parts| => Accumulate(EMPTY_ACCUMULATOR, parts[t]))
  }

  /** The stacked pixel as written, when thread `t` handled the frames whose values are `parts[t]`. */
  function PixelValueAsWritten(parts: seq<seq<int>>): real
  {
    FinalValue(MergeAsWritten(0.0, ThreadsAsWritten(parts)))
  }

  /** The stacked pixel with counts that do not wrap. */
  function PixelValue(parts: seq<seq<int>>): real
  {
    FinalValue(Merge(0.0, Threads(parts)))
  }

  lemma {:induction false} TotalConcat(a: seq<int>, b: seq<int>)
    ensures Total(a + b) == Total(a) + Total(b)
    decreases |b|
  {
    if |b| == 0 {
      assert a + b == a;
    } else {
      assert (a + b)[..|a + b| - 1] == a + b[..|b| - 1];
      TotalConcat(a, b[..|b| - 1]);
    }
  }

  /** As written, the merged count is the number of contributions modulo 2^16, whatever the thread assignment. */
  lemma {:induction false} MergeAsWrittenCounts(parts: seq<seq<int>>)
    ensures MergeAsWritten(0.0, ThreadsAsWritten(parts)) == Merged(Total(Flatten(parts)) as real, WrapU16(|Flatten(parts)|))
    decreases |parts|
  {
    var n := |parts|;
    if n > 0 {
      MergeAsWrittenCounts(parts[..n - 1]);
      assert ThreadsAsWritten(parts)[..n - 1] == ThreadsAsWritten(parts[..n - 1]);
      AccumulateAsWrittenCounts(parts[n - 1]);
      TotalConcat(Flatten(parts[..n - 1]), parts[n - 1]);
      WrapU16Add(|Flatten(parts[..n - 1])|, WrapU16(|parts[n - 1]|));
      WrapU16Add(|parts[n - 1]|, |Flatten(parts[..n - 1])|);
    }
  }

  /** Without the wrap the merged pair is the total and the number of all contributions. */
  lemma {:induction false} MergeCounts(parts: seq<seq<int>>)
    ensures Merge(0.0, Threads(parts)) == Merged(Total(Flatten(parts)) as real, |Flatten(parts)|)
    decreases |parts|
  {
    var n := |parts|;
    if n > 0 {
      MergeCounts(parts[..n - 1]);
      assert Threads(parts)[..n - 1] == Threads(parts[..n - 1]);
      AccumulateCounts(parts[n - 1]);
      TotalConcat(Flatten(parts[..n - 1]), parts[n - 1]);
    }
  }

  /**
   * As written the pixel divides the sum of all contributions by their number modulo 2^16, and is -1
   * when that number is a multiple of 65536.
   */
  lemma {:induction false} PixelValueAsWrittenDividesByWrappedCount(parts: seq<seq<int>>)
    ensures var all := Flatten(parts);
      PixelValueAsWritten(parts)
        == if |all| % TWO_16 > 0 then Total(all) as real / (|all| % TWO_16) as real else EMPTY_PIXEL
  {
    MergeAsWrittenCounts(parts);
  }

  /**
   * The intended pixel is the arithmetic mean of all contributions in whatever thread they were
   * processed, and -1 exactly when nothing contributed.
   */
  lemma {:induction false} PixelValueIsMean(parts: seq<seq<int>>)
    ensures var all := Flatten(parts);
      && (|all| == 0 ==> PixelValue(parts) == EMPTY_PIXEL)
      && (|all| > 0 ==> PixelValue(parts) * |all| as real == Total(all) as real)
  {
    MergeCounts(parts);
    var m := Merge(0.0, Threads(parts));
    assert PixelValue(parts) == FinalValue(m);
  }

  /** A mean lies between the smallest and the largest contribution. */
  lemma {:induction false} MeanWithinBounds(parts: seq<seq<int>>, lo: int, hi: int)
    requires |Flatten(parts)| > 0
    requires forall i :: 0 <= i < |Flatten(parts)| ==> lo <= Flatten(parts)[i] <= hi
    ensures lo as real <= PixelValue(parts) <= hi as real
  {
    PixelValueIsMean(parts);
    MeanBounds(PixelValue(parts), Flatten(parts), lo, hi);
  }

  lemma {:induction false} MeanBounds(m: real, values: seq<int>, lo: int, hi: int)
    requires |values| > 0 && m * |values| as real == Total(values) as real
    requires forall i :: 0 <= i < |values| ==> lo <= values[i] <= hi
    ensures lo as real <= m <= hi as real
  {
    TotalBounds(values, lo, hi);
    CastProduct(lo, |values|);
    CastProduct(hi, |values|);
    ScaledBounds(m, |values| as real, lo as real, hi as real);
  }

  lemma {:induction false} CastProduct(a: int, b: int)
    ensures (a * b) as real == a as real * b as real
  {
  }

  lemma {:induction false} ScaledBounds(m: real, n: real, lo: real, hi: real)
    requires n > 0.0 && lo * n <= m * n <= hi * n
    ensures lo <= m <= hi
  {
    assert (m - lo) * n >= 0.0 && (hi - m) * n >= 0.0;
  }

  lemma {:induction false} TotalBounds(values: seq<int>, lo: int, hi: int)
    requires forall i :: 0 <= i < |values| ==> lo <= values[i] <= hi
    ensures lo * |values| <= Total(values) <= hi * |values|
  {
    if |values| > 0 {
      TotalBounds(values[..|values| - 1], lo, hi);
      assert lo * |values| == lo * (|values| - 1) + lo;
      assert hi * |values| == hi * (|values| - 1) + hi;
    }
  }

  lemma {:induction false} TotalConstant(n: nat, v: int)
    ensures Total(seq(n, _ => v)) == n * v
  {
    if n > 0 {
      assert seq(n, _ => v)[..n - 1] == seq(n - 1, _ => v);
      TotalConstant(n - 1, v);
    }
  }

  /**
   * With 65536 frames all contributing 100 to a pixel, the counts wrap to zero and the code as
   * written reports the pixel as empty; the intended mean is 100.
   */
  lemma {:induction false} CountWrapEmptiesPixel()
    ensures PixelValueAsWritten([seq(TWO_16, _ => 100)]) == EMPTY_PIXEL
    ensures PixelValue([seq(TWO_16, _ => 100)]) == 100.0
  {
    var parts := [seq(TWO_16, _ => 100)];
    assert Flatten(parts) == seq(TWO_16, _ => 100) by {
      assert parts[..0] == [];
    }
    TotalConstant(TWO_16, 100);
    PixelValueAsWrittenDividesByWrappedCount(parts);
    PixelValueIsMean(parts);
  }
}

=== FILE: StackerMedian.dfy ===
/**
 * The median stacker. For every output pixel the stacker keeps one `short` slot per frame,
 * initialised to the empty marker -1; a frame that contributes to the pixel overwrites its slot
 * with its `unsigned int` sample converted to `short`. `process_line` sorts the slots, takes the
 * last `k` of them, where `k` is the number of non-negative slots, and
 * `get_stacked_value_from_pixel_array` returns their median. A sample of 2^15 or more does not
 * survive the conversion: `SlotsOf` models the store as written, and `IntendedPixelValue` the
 * median of the samples themselves.
 */
module StackerMedian {
  import opened Wrappers
  import opened CInts
  import opened Sorting
  import opened Slicing

  /** `c_empty_pixel_value`: the slot and result marker for "no data". */
  const EMPTY_PIXEL: int := -1

  predicate IsValid(x: int) { x >= 0 }

  /** The values that frames actually contributed to a pixel, in slot order. */
  function ValidValues(slots: seq<int>): seq<int>
  {
    Filter(slots, IsValid)
  }

  function Below(v: int): int -> bool
  {
    x => x < v
  }

  function Above(v: int): int -> bool
  {
    x => x > v
  }

  function CountLess(s: seq<int>, v: int): nat
  {
    |Filter(s, Below(v))|
  }

  function CountGreater(s: seq<int>, v: int): nat
  {
    |Filter(s, Above(v))|
  }

  /**
   * `r` is a median of the values `v`: it lies between two of them, and at most half of them lie
   * strictly below it and at most half strictly above it.
   */
  ghost predicate IsMedian(v: seq<int>, r: int)
  {
    && (exists i :: 0 <= i < |v| && v[i] <= r)
    && (exists i :: 0 <= i < |v| && r <= v[i])
    && CountLess(v, r) <= |v| / 2
    && CountGreater(v, r) <= |v| / 2
  }

  /**
   * `get_stacked_value_from_pixel_array` on an ascending window: -1 for an empty window, the
   * middle element for an odd count, and the truncated mean of the two middle elements for an
   * even count.
   */
  function MedianOfSorted(w: seq<int>): (r: int)
    requires SortedBy(w, Id)
    ensures |w| == 0 ==> r == EMPTY_PIXEL
    ensures |w| > 0 ==> w[0] <= r <= w[|w| - 1]
    ensures |w| % 2 == 1 ==> r in w && r == w[|w| / 2]
    ensures |w| > 0 && |w| % 2 == 0 ==> r == DivTrunc(w[|w| / 2 - 1] + w[|w| / 2], 2)
  {
    var n := |w|;
    if n == 0 then EMPTY_PIXEL
    else if n % 2 == 0 then
      assert w[0] <= w[n / 2 - 1] && w[n / 2] <= w[n - 1];
      DivTrunc(w[n / 2] + w[n / 2 - 1], 2)
    else
      w[n / 2]
  }

  /** The value picked from a non-empty ascending window is a median of it. */
  lemma {:induction false} MedianOfSortedIsMedian(w: seq<int>)
    requires SortedBy(w, Id) && |w| > 0
    ensures IsMedian(w, MedianOfSorted(w))
  {
    var n := |w|;
    var r := MedianOfSorted(w);
    if n % 2 == 0 {
      assert w[n / 2 - 1] <= r <= w[n / 2];
      BetweenMiddlesIsMedian(w, n / 2 - 1, n / 2, r);
    } else {
      BetweenMiddlesIsMedian(w, n / 2, n / 2, r);
    }
  }

  /** A value between two sorted elements around the middle is a median. */
  lemma {:induction false} BetweenMiddlesIsMedian(w: seq<int>, lo: nat, hi: nat, r: int)
    requires SortedBy(w, Id) && lo <= hi < |w| && w[lo] <= r <= w[hi]
    requires hi <= |w| / 2 && |w| - 1 - lo <= |w| / 2
    ensures IsMedian(w, r)
  {
    assert CountLess(w, r) <= |w| / 2 by {
      CountLessBound(w, hi);
      CountLessMonotone(w, r, w[hi]);
    }
    assert CountGreater(w, r) <= |w| / 2 by {
      CountGreaterBound(w, lo);
      CountGreaterMonotone(w, w[lo], r);
    }
  }

  lemma {:induction false} FilterCons(s: seq<int>, p: int -> bool)
    requires |s| > 0
    ensures Filter(s, p) == (if p(s[0]) then [s[0]] else []) + Filter(s[1..], p)
  {
  }

  lemma {:induction false} CountLessBound(s: seq<int>, m: nat)
    requires SortedBy(s, Id) && m < |s|
    ensures CountLess(s, s[m]) <= m
  {
    if m == 0 {
      NoneLess(s, s[0]);
    } else {
      FilterCons(s, Below(s[m]));
      assert s[1..][m - 1] == s[m];
      CountLessBound(s[1..], m - 1);
    }
  }

  lemma {:induction false} NoneLess(s: seq<int>, v: int)
    requires forall i :: 0 <= i < |s| ==> v <= s[i]
    ensures CountLess(s, v) == 0
  {
    if |s| > 0 {
      assert Filter(s, Below(v)) == Filter(s[1..], Below(v));
      NoneLess(s[1..], v);
    }
  }

  lemma {:induction false} CountGreaterBound(s: seq<int>, m: nat)
    requires SortedBy(s, Id) && m < |s|
    ensures CountGreater(s, s[m]) <= |s| - 1 - m
  {
    FilterCons(s, Above(s[m]));
    if m == 0 {
      CountGreaterAtMost(s[1..], s[m]);
    } else {
      assert s[1..][m - 1] == s[m];
      CountGreaterBound(s[1..], m - 1);
    }
  }

  lemma {:induction false} CountGreaterAtMost(s: seq<int>, v: int)
    ensures CountGreater(s, v) <= |s|
  {
  }

  lemma {:induction false} CountLessMonotone(s: seq<int>, v: int, u: int)
    requires v <= u
    ensures CountLess(s, v) <= CountLess(s, u)
  {
    if |s| > 0 {
      FilterCons(s, Below(v));
      FilterCons(s, Below(u));
      CountLessMonotone(s[1..], v, u);
    }
  }

  lemma {:induction false} CountGreaterMonotone(s: seq<int>, v: int, u: int)
    requires v <= u
    ensures CountGreater(s, u) <= CountGreater(s, v)
  {
    if |s| > 0 {
      FilterCons(s, Above(v));
      FilterCons(s, Above(u));
      CountGreaterMonotone(s[1..], v, u);
    }
  }

  /** The median property depends only on which values are present, not on their order. */
  lemma {:induction false} IsMedianPermutation(a: seq<int>, b: seq<int>, r: int)
    requires multiset(a) == multiset(b) && IsMedian(a, r)
    ensures exists i :: 0 <= i < |b| && b[i] <= r
    ensures exists i :: 0 <= i < |b| && r <= b[i]
    ensures CountLess(b, r) <= |b| / 2
    ensures CountGreater(b, r) <= |b| / 2
  {
    FilterPermutation(a, b, Below(r));
    FilterPermutation(a, b, Above(r));
    assert |a| == |b| by {
      assert |a| == |multiset(a)| && |b| == |multiset(b)|;
    }
    var i :| 0 <= i < |a| && a[i] <= r;
    var j :| 0 <= j < |a| && r <= a[j];
    var i' := PermutedIndex(a, b, i);
    var j' := PermutedIndex(a, b, j);
    assert b[i'] <= r && r <= b[j'];
  }

  /**
   * In an ascending sequence the non-negative values form a suffix, so after sorting the -1
   * placeholders come first and the valid values are the last `k` slots.
   */
  lemma {:induction false} ValidValuesAreSuffix(t: seq<int>)
    requires SortedBy(t, Id)
    ensures ValidValues(t) == t[|t| - |ValidValues(t)|..]
  {
    if |t| > 0 {
      if IsValid(t[0]) {
        AllValid(t);
      } else {
        assert ValidValues(t) == ValidValues(t[1..]);
        ValidValuesAreSuffix(t[1..]);
        assert t[1..][|t[1..]| - |ValidValues(t[1..])|..] == t[|t| - |ValidValues(t)|..];
      }
    }
  }

  lemma {:induction false} AllValid(t: seq<int>)
    requires forall i :: 0 <= i < |t| ==> IsValid(t[i])
    ensures ValidValues(t) == t
  {
    if |t| > 0 {
      assert ValidValues(t) == [t[0]] + ValidValues(t[1..]);
      AllValid(t[1..]);
      assert t == [t[0]] + t[1..];
    }
  }

  /**
   * `process_line` for one pixel: count the non-negative slots, sort all slots and hand the last
   * `k` of them to the median. The result is -1 exactly when no frame contributed, and otherwise
   * a median of the contributed values.
   */
  function PixelValue(slots: seq<int>): (r: int)
    ensures |ValidValues(slots)| == 0 <==> r == EMPTY_PIXEL
    ensures |ValidValues(slots)| > 0 ==> r >= 0 && IsMedian(ValidValues(slots), r)
  {
    var sorted := SortBy(slots, Id);
    WindowMedian(slots, sorted);
    MedianOfSorted(sorted[|slots| - |ValidValues(slots)|..])
  }

  /** The median of the window of the last `k` sorted slots is a median of the contributed values. */
  lemma {:induction false} WindowMedian(slots: seq<int>, sorted: seq<int>)
    requires SortedBy(sorted, Id) && multiset(sorted) == multiset(slots)
    ensures |ValidValues(slots)| <= |slots| == |sorted|
    ensures var r := MedianOfSorted(sorted[|slots| - |ValidValues(slots)|..]);
      && (|ValidValues(slots)| == 0 <==> r == EMPTY_PIXEL)
      && (|ValidValues(slots)| > 0 ==> r >= 0 && IsMedian(ValidValues(slots), r))
  {
    WindowIsSortedValidValues(slots, sorted);
    var v := ValidValues(slots);
    var window := sorted[|slots| - |v|..];
    var r := MedianOfSorted(window);
    if |v| > 0 {
      assert window[0] >= 0 by {
        SortByKeepsElements(v, Id, window[0]);
      }
      MedianOfSortedIsMedian(window);
      IsMedianPermutation(window, v, r);
    }
  }

  /**
   * Whatever ascending arrangement the sort produces, the window it leaves is the contributed
   * values in ascending order.
   */
  lemma {:induction false} WindowIsSortedValidValues(slots: seq<int>, sorted: seq<int>)
    requires SortedBy(sorted, Id) && multiset(sorted) == multiset(slots)
    ensures |sorted| == |slots|
    ensures sorted[|slots| - |ValidValues(slots)|..] == SortBy(ValidValues(slots), Id)
  {
    assert |sorted| == |multiset(sorted)| == |multiset(slots)| == |slots|;
    FilterPermutation(sorted, slots, IsValid);
    ValidValuesAreSuffix(sorted);
    var window := sorted[|slots| - |ValidValues(slots)|..];
    assert SortedBy(window, Id);
    SortedIntsUnique(window, SortBy(ValidValues(slots), Id));
  }

  /** The median of the contributed values does not depend on which frames supplied them first. */
  lemma {:induction false} PixelValueOrderIndependent(a: seq<int>, b: seq<int>)
    requires multiset(a) == multiset(b)
    ensures PixelValue(a) == PixelValue(b)
  {
    PixelValueOfValid(a);
    PixelValueOfValid(b);
    FilterPermutation(a, b, IsValid);
    var vb := SortBy(ValidValues(b), Id);
    SortsTo(ValidValues(a), vb);
  }


  /** The reservation of `StackerMedian::get_height_range_limit`: 10 bytes per image pixel. */
  function MedianReserved(width: int, height: int): int
  {
    10 * width * height
  }

  /** Bytes per slice row: one `unsigned short` per colour, column and frame. */
  function MedianBytesPerLine(colors: int, width: int, nFiles: int): int
  {
    colors * width * nFiles * 2
  }

  /** `StackerMedian::get_height_range_limit` as written. */
  function HeightRangeLimitAsWritten(colors: int, width: int, height: int, nFiles: int, limitMb: int): (r: int)
    requires WrapU64(MedianBytesPerLine(colors, width, nFiles)) != 0
    ensures r <= height
  {
    HeightRangeAsWritten(height, limitMb, MedianReserved(width, height), MedianBytesPerLine(colors, width, nFiles))
  }

  /** With 1 MiB for a 4000x3000 image of 10 frames the code slices nothing: the whole height is one slice. */
  lemma {:induction false} HeightRangeWrapsToFullHeight()
    ensures HeightRangeLimitAsWritten(1, 4000, 3000, 10, 1) == 3000
    ensures HeightRangeLimit(1, 4000, 3000, 10, 1) == 0
    ensures 3000 * MedianBytesPerLine(1, 4000, 10) > 1 * MIB
  {
    assert Budget(1, MedianReserved(4000, 3000)) == -118951424;
    assert WrapU64(-118951424) == 18446744073590600192;
    DivModUnique(18446744073590600192, 80000, 230584300919882, 40192);
  }

  /** With 1 MiB for a 1000x1000 single frame the code as written returns a negative height range. */
  lemma {:induction false} HeightRangeWrapsNegative()
    ensures HeightRangeLimitAsWritten(1, 1000, 1000, 1, 1) < 0
    ensures HeightRangeLimit(1, 1000, 1000, 1, 1) == 0
  {
    assert Budget(1, MedianReserved(1000, 1000)) == -8951424;
    assert WrapU64(-8951424) == 18446744073700600192;
    DivModUnique(18446744073700600192, 2000, 9223372036850300, 192);
    DivModUnique(9223372036850300, TWO_32, 2147483, 2783134332);
    assert ToInt32(9223372036850300) == -1511832964;
  }

  /** `StackerMedian::get_height_range_limit` with the budget saturating at zero. */
  function HeightRangeLimit(colors: nat, width: nat, height: nat, nFiles: nat, limitMb: int): (r: nat)
    requires MedianBytesPerLine(colors, width, nFiles) > 0
    ensures r <= height
    ensures limitMb > 0 ==> r * MedianBytesPerLine(colors, width, nFiles) + MedianReserved(width, height) <= limitMb * MIB || r == 0
  {
    HeightRange(height, limitMb, MedianReserved(width, height), MedianBytesPerLine(colors, width, nFiles))
  }

  /* ---------------------------------------------------------------- storing the samples */

  /**
   * `add_photo_to_stack` for one pixel: a frame's slot keeps -1 when the frame does not reach the
   * pixel (`None`), and otherwise receives the frame's sample converted to `short`.
   */
  function SlotsOf(samples: seq<Option<nat>>): (slots: seq<int>)
    ensures |slots| == |samples|
    ensures forall i :: 0 <= i < |samples| ==> -0x8000 <= slots[i] < 0x8000
  {
    seq(|samples|, i requires 0 <= i < |samples| => if samples[i].Some? then ToInt16(samples[i].value) else EMPTY_PIXEL)
  }

  /** The samples the frames contributed, in frame order. */
  function Contributed(samples: seq<Option<nat>>): (v: seq<int>)
    ensures |v| <= |samples|
    ensures forall i :: 0 <= i < |v| ==> v[i] >= 0
  {
    if |samples| == 0 then []
    else (if samples[0].Some? then [samples[0].value as int] else []) + Contributed(samples[1..])
  }

  /** A stored sample keeps its value and counts as data exactly when it is below 2^15. */
  lemma {:induction false} StoredSampleKept(v: nat)
    requires v < TWO_32
    ensures IsValid(ToInt16(v)) && ToInt16(v) == v <==> v < 0x8000
    ensures 0x8000 <= v < TWO_16 ==> !IsValid(ToInt16(v))
  {
    if 0x8000 <= v < TWO_16 {
      assert v % TWO_16 == v;
    }
  }

  /** With every sample below 2^15, the slots that count as data are exactly the contributed samples. */
  lemma {:induction false} SmallSamplesKept(samples: seq<Option<nat>>)
    requires forall i :: 0 <= i < |samples| && samples[i].Some? ==> samples[i].value < 0x8000
    ensures ValidValues(SlotsOf(samples)) == Contributed(samples)
    decreases |samples|
  {
    if |samples| > 0 {
      var slots := SlotsOf(samples);
      assert SlotsOf(samples[1..]) == slots[1..];
      SmallSamplesKept(samples[1..]);
      FilterCons(slots, IsValid);
    }
  }

  /** The value of a pixel depends only on the slots that count as data. */
  lemma {:induction false} PixelValueOfValid(slots: seq<int>)
    ensures PixelValue(slots) == MedianOfSorted(SortBy(ValidValues(slots), Id))
  {
    WindowIsSortedValidValues(slots, SortBy(slots, Id));
  }

  /** The median the stacker evidently means: that of every sample contributed, whatever its size. */
  function IntendedPixelValue(samples: seq<Option<nat>>): (r: int)
    ensures |Contributed(samples)| == 0 <==> r == EMPTY_PIXEL
    ensures |Contributed(samples)| > 0 ==> r >= 0 && IsMedian(Contributed(samples), r)
  {
    AllValid(Contributed(samples));
    PixelValue(Contributed(samples))
  }

  /** Below 2^15 the stored slots give the intended median. */
  lemma {:induction false} SmallSamplesAgree(samples: seq<Option<nat>>)
    requires forall i :: 0 <= i < |samples| && samples[i].Some? ==> samples[i].value < 0x8000
    ensures PixelValue(SlotsOf(samples)) == IntendedPixelValue(samples)
  {
    SmallSamplesKept(samples);
    AllValid(Contributed(samples));
    PixelValueOfValid(SlotsOf(samples));
    PixelValueOfValid(Contributed(samples));
  }

  /** A single frame with sample 40000 leaves the pixel empty, where the intended value is 40000. */
  lemma {:induction false} BrightSampleEmptiesPixel()
    ensures PixelValue(SlotsOf([Some(40000)])) == EMPTY_PIXEL
    ensures IntendedPixelValue([Some(40000)]) == 40000
  {
    StoredSampleKept(40000);
    var one := SlotsOf([Some(40000)]);
    assert one == [ToInt16(40000)];
    assert ValidValues(one) == [] by {
      FilterCons(one, IsValid);
    }
    PixelValueOfValid(one);
    MedianOfOne(Contributed([Some(40000)]), 40000);
  }

  /** Next to a sample of 100, a sample of 40000 is ignored: the median is 100 instead of 20050. */
  lemma {:induction false} BrightSampleShiftsMedian()
    ensures PixelValue(SlotsOf([Some(40000), Some(100)])) == 100
    ensures IntendedPixelValue([Some(40000), Some(100)]) == 20050
  {
    StoredPair();
    IntendedPair();
  }

  lemma {:induction false} StoredPair()
    ensures PixelValue(SlotsOf([Some(40000), Some(100)])) == 100
  {
    StoredSampleKept(40000);
    var two := SlotsOf([Some(40000), Some(100)]);
    assert two == [ToInt16(40000), 100];
    assert ValidValues(two) == [100] by {
      FilterCons(two, IsValid);
      FilterCons(two[1..], IsValid);
    }
    PixelValueOfValid(two);
    SortsTo([100], [100]);
  }

  lemma {:induction false} IntendedPair()
    ensures IntendedPixelValue([Some(40000), Some(100)]) == 20050
  {
    var c := Contributed([Some(40000), Some(100)]);
    assert c == [40000, 100] by {
      assert [Some(40000), Some(100)][1..] == [Some(100)];
      assert Contributed([Some(100)]) == [100];
    }
    assert IntendedPixelValue([Some(40000), Some(100)]) == PixelValue(c);
    MedianOfPair(c);
  }

  /** The two samples 40000 and 100 have the median 20050. */
  lemma {:induction false} MedianOfPair(c: seq<int>)
    requires c == [40000, 100]
    ensures PixelValue(c) == 20050
  {
    AllValid(c);
    PixelValueOfValid(c);
    SortedPair(c);
  }

  lemma {:induction false} SortedPair(c: seq<int>)
    requires c == [40000, 100]
    ensures MedianOfSorted(SortBy(c, Id)) == 20050
  {
    var w := AscendingPair();
    assert multiset(c) == multiset(w);
    SortsTo(c, w);
  }

  /** 100 and 40000 in ascending order, and their median. */
  lemma {:induction false} AscendingPair() returns (w: seq<int>)
    ensures w == [100, 40000] && SortedBy(w, Id) && MedianOfSorted(w) == 20050
  {
    w := [100, 40000];
    assert SortedBy(w, Id);
  }

  /** Sorting gives the one ascending arrangement of the same values. */
  lemma {:induction false} SortsTo(c: seq<int>, w: seq<int>)
    requires multiset(c) == multiset(w) && SortedBy(w, Id)
    ensures SortBy(c, Id) == w
  {
    SortedIntsUnique(SortBy(c, Id), w);
  }

  /** The intended value of one contributed sample is that sample. */
  lemma {:induction false} MedianOfOne(c: seq<int>, v: nat)
    requires c == [v]
    ensures PixelValue(c) == v
  {
    AllValid(c);
    PixelValueOfValid(c);
    SortsTo(c, c);
  }
}

=== FILE: StackerMinimum.dfy ===
/**
 * The minimum stacker. Every worker thread owns a buffer of `int` slots per colour, filled with
 * `INT_MAX` as the "nothing yet" marker; `process_pixel` lowers a slot to the offered value, and
 * `calculate_final_image` merges the threads' buffers into the image: thread 0 is copied and
 * every further thread lowers the image pixel. Which thread handles which frame is decided at run
 * time, so the model takes the assignment of frames to threads as a parameter.
 */
module StackerMinimum {
  import opened CInts
  import opened Sorting
  import opened Slicing

  /** The empty-slot marker: `std::numeric_limits<int>::max()`. */
  const EMPTY_SLOT: int := INT_MAX

  /** Buffers as `allocate_arrays_for_stacking(dy)` creates them: per thread, per colour, `width * dy` slots. */
  function Allocate(nCpu: nat, colors: nat, size: nat): (b: seq<seq<seq<int>>>)
    ensures |b| == nCpu
    ensures forall t :: 0 <= t < nCpu ==> |b[t]| == colors
    ensures forall t, c :: 0 <= t < nCpu && 0 <= c < colors ==> |b[t][c]| == size
    ensures forall t, c, i :: 0 <= t < nCpu && 0 <= c < colors && 0 <= i < size ==> b[t][c][i] == EMPTY_SLOT
  {
    seq(nCpu, _ => seq(colors, _ => seq(size, _ => EMPTY_SLOT)))
  }

  /** `reset_values_in_arrays_for_stacking`: same shape, every slot back to the marker. */
  function Reset(b: seq<seq<seq<int>>>): (r: seq<seq<seq<int>>>)
    ensures |r| == |b|
    ensures forall t :: 0 <= t < |b| ==> |r[t]| == |b[t]|
    ensures forall t, c :: 0 <= t < |b| && 0 <= c < |b[t]| ==> |r[t][c]| == |b[t][c]|
    ensures forall t, c, i :: 0 <= t < |b| && 0 <= c < |b[t]| && 0 <= i < |b[t][c]| ==> r[t][c][i] == EMPTY_SLOT
  {
    seq(|b|, t requires 0 <= t < |b| => seq(|b[t]|, c requires 0 <= c < |b[t]| => seq(|b[t][c]|, _ => EMPTY_SLOT)))
  }

  /** `process_pixel` on one slot. */
  function ProcessPixel(slot: int, value: int): (r: int)
    ensures r <= slot && r <= value
    ensures r == slot || r == value
  {
    Min(value, slot)
  }

  /** One thread's slot after it has processed `values` in order. */
  function Accumulate(slot: int, values: seq<int>): (r: int)
    ensures r <= slot
    ensures forall i :: 0 <= i < |values| ==> r <= values[i]
    ensures r == slot || r in values
    decreases |values|
  {
    if |values| == 0 then slot
    else
      var r := Accumulate(ProcessPixel(slot, values[0]), values[1..]);
      assert forall i :: 1 <= i < |values| ==> values[i] == values[1..][i - 1];
      assert r in values[1..] ==> r in values;
      r
  }

  /** `calculate_final_image` for one pixel: copy thread 0, then take the minimum with each further thread. */
  function Merge(slots: seq<int>): (r: int)
    requires |slots| > 0
    ensures forall t :: 0 <= t < |slots| ==> r <= slots[t]
    ensures r in slots
  {
    if |slots| == 1 then slots[0]
    else
      var r := ProcessPixel(slots[|slots| - 1], Merge(slots[..|slots| - 1]));
      assert forall t :: 0 <= t < |slots| - 1 ==> slots[t] == slots[..|slots| - 1][t];
      r
  }

  /** The minimum of `values`, or the marker when there are none. */
  ghost predicate IsMinimumOrEmpty(values: seq<int>, r: int)
  {
    && (forall i :: 0 <= i < |values| ==> r <= values[i])
    && (r == EMPTY_SLOT || r in values)
    && r <= EMPTY_SLOT
  }

  lemma {:induction false} MinimumUnique(values: seq<int>, r1: int, r2: int)
    requires forall i :: 0 <= i < |values| ==> values[i] <= EMPTY_SLOT
    requires IsMinimumOrEmpty(values, r1) && IsMinimumOrEmpty(values, r2)
    ensures r1 == r2
  {
  }

  /**
   * Whatever frames each thread handled, the merged pixel is the minimum over all frames' values,
   * or the marker when no frame contributed.
   */
  lemma {:induction false} MergedIsMinimum(parts: seq<seq<int>>)
    requires |parts| > 0
    requires forall t, i :: 0 <= t < |parts| && 0 <= i < |parts[t]| ==> parts[t][i] <= EMPTY_SLOT
    ensures IsMinimumOrEmpty(Flatten(parts), Merge(seq(|parts|, t requires 0 <= t < |parts| => Accumulate(EMPTY_SLOT, parts[t]))))
  {
    var slots := seq(|parts|, t requires 0 <= t < |parts| => Accumulate(EMPTY_SLOT, parts[t]));
    var r := Merge(slots);
    var all := Flatten(parts);
    FlattenMembers(parts);
    assert r <= EMPTY_SLOT by {
      assert r <= slots[0];
    }
    forall i | 0 <= i < |all|
      ensures r <= all[i]
    {
      var t, j := FlattenIndex(parts, i);
      assert r <= slots[t];
    }
    assert r == EMPTY_SLOT || r in all by {
      var t :| 0 <= t < |slots| && slots[t] == r;
      if r != EMPTY_SLOT {
        assert r in parts[t];
      }
    }
  }

  /** Every element of a flattened sequence comes from one of its parts. */
  lemma {:induction false} FlattenIndex(parts: seq<seq<int>>, i: int) returns (t: int, j: int)
    requires 0 <= i < |Flatten(parts)|
    ensures 0 <= t < |parts| && 0 <= j < |parts[t]| && Flatten(parts)[i] == parts[t][j]
    decreases |parts|
  {
    var init := Flatten(parts[..|parts| - 1]);
    if i < |init| {
      t, j := FlattenIndex(parts[..|parts| - 1], i);
      assert parts[..|parts| - 1][t] == parts[t];
    } else {
      t, j := |parts| - 1, i - |init|;
    }
  }

  /** Every element of every part is in the flattened sequence. */
  lemma {:induction false} FlattenMembers(parts: seq<seq<int>>)
    ensures forall t, x :: 0 <= t < |parts| && x in parts[t] ==> x in Flatten(parts)
    decreases |parts|
  {
    if |parts| > 0 {
      FlattenMembers(parts[..|parts| - 1]);
      forall t, x | 0 <= t < |parts| && x in parts[t]
        ensures x in Flatten(parts)
      {
        if t < |parts| - 1 {
          assert parts[..|parts| - 1][t] == parts[t];
        }
      }
    }
  }

  /**
   * `calculate_final_image(y_min, y_max)` for one colour: pixel `i` of the slice merges slot `i` of
   * every thread and lands at `y_min * width + i`; the rest of the image is untouched.
   */
  function CalculateFinalImage(image: seq<int>, threads: seq<seq<int>>, shift: nat, n: nat): (r: seq<int>)
    requires |threads| > 0 && shift + n <= |image|
    requires forall t :: 0 <= t < |threads| ==> |threads[t]| >= n
    ensures |r| == |image|
    ensures forall i :: 0 <= i < |r| && !(shift <= i < shift + n) ==> r[i] == image[i]
    ensures forall i, t :: 0 <= i < n && 0 <= t < |threads| ==> r[shift + i] <= threads[t][i]
    ensures forall i :: 0 <= i < n ==> r[shift + i] in Column(threads, i)
  {
    var merged := MergedColumns(threads, n);
    var r := WriteSlice(image, shift, merged);
    assert forall i, t :: 0 <= i < n && 0 <= t < |threads| ==> r[shift + i] <= threads[t][i] by {
      forall i, t | 0 <= i < n && 0 <= t < |threads|
        ensures r[shift + i] <= threads[t][i]
      {
        assert r[shift + i] == merged[i];
      }
    }
    assert forall i :: 0 <= i < n ==> r[shift + i] in Column(threads, i) by {
      forall i | 0 <= i < n
        ensures r[shift + i] in Column(threads, i)
      {
        assert r[shift + i] == merged[i];
      }
    }
    r
  }

  /** The first `n` pixels of the slice, each merged over the threads' buffers. */
  function MergedColumns(threads: seq<seq<int>>, n: nat): (merged: seq<int>)
    requires |threads| > 0
    requires forall t :: 0 <= t < |threads| ==> |threads[t]| >= n
    ensures |merged| == n
    ensures forall i, t :: 0 <= i < n && 0 <= t < |threads| ==> merged[i] <= threads[t][i]
    ensures forall i :: 0 <= i < n ==> merged[i] in Column(threads, i)
  {
    var merged := seq(n, i requires 0 <= i < n => Merge(Column(threads, i)));
    forall i, t | 0 <= i < n && 0 <= t < |threads|
      ensures merged[i] <= threads[t][i]
    {
      assert merged[i] <= Column(threads, i)[t];
    }
    merged
  }

  /** Bytes reserved by `StackerMinimum::get_height_range_limit`: the stacked image and one calibrated photo per thread. */
  function MinimumReserved(width: int, height: int, nCpu: int): int
  {
    3 * 8 * width * height + nCpu * 3 * 2 * width * height
  }

  /** Bytes per slice row: 12 bytes per colour, thread and column. */
  function MinimumBytesPerLine(colors: int, width: int, nCpu: int): int
  {
    colors * nCpu * 12 * width
  }

  /** `StackerMinimum::get_height_range_limit` as written. */
  function HeightRangeLimitAsWritten(colors: int, width: int, height: int, nCpu: int, limitMb: int): (r: int)
    requires WrapU64(MinimumBytesPerLine(colors, width, nCpu)) != 0
    ensures r <= height
  {
    HeightRangeAsWritten(height, limitMb, MinimumReserved(width, height, nCpu), MinimumBytesPerLine(colors, width, nCpu))
  }

  /** `StackerMinimum::get_height_range_limit` with the budget saturating at zero. */
  function HeightRangeLimit(colors: nat, width: nat, height: nat, nCpu: nat, limitMb: int): (r: nat)
    requires MinimumBytesPerLine(colors, width, nCpu) > 0
    ensures r <= height
    ensures limitMb > 0 ==>
      (r * MinimumBytesPerLine(colors, width, nCpu) + MinimumReserved(width, height, nCpu) <= limitMb * MIB || r == 0)
  {
    HeightRange(height, limitMb, MinimumReserved(width, height, nCpu), MinimumBytesPerLine(colors, width, nCpu))
  }
}

=== FILE: StackerWeightedMedian.dfy ===
/**
 * The weighted-median stacker. Each pixel has one slot per frame holding a value and the frame's
 * quality score for that pixel; the slot starts as (-1, 0) and a score of exactly 0 marks it as
 * empty. `process_line` sorts the slots by score, keeps the last `k` of them, where `k` counts the
 * slots with a non-zero score, and `get_stacked_value_from_pixel_array` returns the value at
 * which the cumulative score of the value-sorted window first reaches half of its total.
 *
 * Scores are `float` in the C++ code; here they are exact reals.
 */
module StackerWeightedMedian {
  import opened CInts
  import opened Sorting
  import opened Slicing
  import opened Wrappers

  datatype Entry = Entry(value: int, score: real)

  const DEFAULT_SCORE: real := 0.0
  const EMPTY_PIXEL: int := -1

  /** The slot contents before any frame writes to it. */
  const EMPTY_ENTRY: Entry := Entry(-1, DEFAULT_SCORE)

  predicate IsStacked(e: Entry) { e.score != DEFAULT_SCORE }

  /** The slots that `process_line` counts as stacked. */
  function StackedEntries(slots: seq<Entry>): seq<Entry>
  {
    Filter(slots, IsStacked)
  }

  function ValueOf(e: Entry): int { e.value }

  function SumScores(s: seq<Entry>): real
  {
    if |s| == 0 then 0.0 else SumScores(s[..|s| - 1]) + s[|s| - 1].score
  }

  ghost predicate NonNegativeScores(s: seq<Entry>)
  {
    forall i :: 0 <= i < |s| ==> s[i].score >= 0.0
  }

  ghost predicate PositiveScores(s: seq<Entry>)
  {
    forall i :: 0 <= i < |s| ==> s[i].score > 0.0
  }

  function AtMostValue(v: int): Entry -> bool
  {
    (e: Entry) => e.value <= v
  }

  /** The total score of the entries whose value is at most `v`. */
  function ScoreUpTo(w: seq<Entry>, v: int): real
  {
    SumScores(Filter(w, AtMostValue(v)))
  }

  /**
   * `r` is the weighted median of `w`: one of its values, the entries up to `r` carry at least
   * half of the total score, and the entries up to any smaller value carry less than half.
   */
  ghost predicate IsWeightedMedian(w: seq<Entry>, r: int)
  {
    && (exists i :: 0 <= i < |w| && w[i].value == r)
    && ScoreUpTo(w, r) >= SumScores(w) / 2.0
    && (forall i :: 0 <= i < |w| && w[i].value < r ==> ScoreUpTo(w, w[i].value) < SumScores(w) / 2.0)
  }

  /** At most one value is the weighted median. */
  lemma {:induction false} WeightedMedianUnique(w: seq<Entry>, r1: int, r2: int)
    requires IsWeightedMedian(w, r1) && IsWeightedMedian(w, r2)
    ensures r1 == r2
  {
    var i1 :| 0 <= i1 < |w| && w[i1].value == r1;
    var i2 :| 0 <= i2 < |w| && w[i2].value == r2;
    assert !(w[i1].value < r2) && !(w[i2].value < r1);
  }

  lemma {:induction false} SumConcat(a: seq<Entry>, b: seq<Entry>)
    ensures SumScores(a + b) == SumScores(a) + SumScores(b)
    decreases |b|
  {
    if |b| > 0 {
      assert (a + b)[..|a + b| - 1] == a + b[..|b| - 1];
      SumConcat(a, b[..|b| - 1]);
    } else {
      assert a + b == a;
    }
  }

  lemma {:induction false} SumPermutation(a: seq<Entry>, b: seq<Entry>)
    requires multiset(a) == multiset(b)
    ensures SumScores(a) == SumScores(b)
    decreases |a|
  {
    if |a| > 0 {
      var k := PermutedIndex(a, b, 0);
      var rest := b[..k] + b[k + 1..];
      assert b == b[..k] + [b[k]] + b[k + 1..];
      SumConcat(b[..k] + [b[k]], b[k + 1..]);
      SumConcat(b[..k], [b[k]]);
      SumConcat(b[..k], b[k + 1..]);
      assert SumScores([b[k]]) == b[k].score by {
        assert [b[k]][..0] == [];
      }
      assert a == [a[0]] + a[1..];
      SumConcat([a[0]], a[1..]);
      assert SumScores([a[0]]) == a[0].score by {
        assert [a[0]][..0] == [];
      }
      assert multiset(a[1..]) == multiset(rest) by {
        MultisetOfTail(a);
        assert multiset(b) == multiset(b[..k]) + multiset{b[k]} + multiset(b[k + 1..]);
      }
      SumPermutation(a[1..], rest);
    }
  }

  lemma {:induction false} SumNonNegative(s: seq<Entry>)
    requires NonNegativeScores(s)
    ensures SumScores(s) >= 0.0
  {
    if |s| > 0 {
      SumNonNegative(s[..|s| - 1]);
    }
  }

  lemma {:induction false} SumPositive(s: seq<Entry>)
    requires PositiveScores(s) && |s| > 0
    ensures SumScores(s) > 0.0
  {
    SumNonNegative(s[..|s| - 1]);
  }

  /** Dropping entries with non-negative scores never raises the sum. */
  lemma {:induction false} FilterSumAtMost(s: seq<Entry>, p: Entry -> bool)
    requires NonNegativeScores(s)
    ensures SumScores(Filter(s, p)) <= SumScores(s)
    decreases |s|
  {
    if |s| > 0 {
      var init, last := s[..|s| - 1], s[|s| - 1];
      assert s == init + [last];
      FilterConcat(init, [last], p);
      FilterSumAtMost(init, p);
      assert Filter([last], p) == (if p(last) then [last] else []);
      SumConcat(Filter(init, p), Filter([last], p));
      assert SumScores([last]) == last.score by {
        assert [last][..0] == [];
      }
    }
  }

  /** Keeping entries with non-negative scores and adding more never lowers the sum. */
  lemma {:induction false} SumSuffixAtLeast(a: seq<Entry>, b: seq<Entry>)
    requires NonNegativeScores(b)
    ensures SumScores(a + b) >= SumScores(a)
  {
    SumConcat(a, b);
    SumNonNegative(b);
  }

  /** The weighted-median property depends only on which entries are present. */
  lemma {:induction false} WeightedMedianPermutation(a: seq<Entry>, b: seq<Entry>, r: int)
    requires multiset(a) == multiset(b) && IsWeightedMedian(a, r)
    ensures IsWeightedMedian(b, r)
  {
    SumPermutation(a, b);
    assert |a| == |b| by {
      assert |a| == |multiset(a)| && |b| == |multiset(b)|;
    }
    forall v
      ensures ScoreUpTo(a, v) == ScoreUpTo(b, v)
    {
      FilterPermutation(a, b, AtMostValue(v));
      SumPermutation(Filter(a, AtMostValue(v)), Filter(b, AtMostValue(v)));
    }
    var i :| 0 <= i < |a| && a[i].value == r;
    var i' := PermutedIndex(a, b, i);
    assert b[i'].value == r;
    forall j | 0 <= j < |b| && b[j].value < r
      ensures ScoreUpTo(b, b[j].value) < SumScores(b) / 2.0
    {
      var j' := PermutedIndex(b, a, j);
      assert a[j'].value == b[j].value;
    }
  }

  /** In a value-sorted sequence, every entry up to index `i` has a value at most `s[i].value`. */
  lemma {:induction false} PrefixUpTo(s: seq<Entry>, i: nat)
    requires SortedBy(s, ValueOf) && i < |s| && NonNegativeScores(s)
    ensures ScoreUpTo(s, s[i].value) >= SumScores(s[..i + 1])
  {
    var p := AtMostValue(s[i].value);
    var pre, post := s[..i + 1], s[i + 1..];
    assert Filter(s, p) == pre + Filter(post, p) by {
      SortedHeadKept(s, i);
    }
    assert NonNegativeScores(Filter(post, p)) by {
      NonNegativeSuffix(s, i + 1);
      NonNegativeFilter(post, p);
    }
    SumSuffixAtLeast(pre, Filter(post, p));
  }

  /** In a value-sorted sequence, filtering by "at most `s[i].value`" keeps the whole prefix up to `i`. */
  lemma {:induction false} SortedHeadKept(s: seq<Entry>, i: nat)
    requires SortedBy(s, ValueOf) && i < |s|
    ensures var p := AtMostValue(s[i].value);
      Filter(s, p) == s[..i + 1] + Filter(s[i + 1..], p)
  {
    var p := AtMostValue(s[i].value);
    var pre, post := s[..i + 1], s[i + 1..];
    assert Filter(s, p) == Filter(pre, p) + Filter(post, p) by {
      assert s == pre + post;
      FilterConcat(pre, post, p);
    }
    assert Filter(pre, p) == pre by {
      forall k | 0 <= k < |pre|
        ensures p(pre[k])
      {
        assert pre[k] == s[k];
      }
      AllKept(pre, p);
    }
  }

  lemma {:induction false} NonNegativeFilter(s: seq<Entry>, p: Entry -> bool)
    requires NonNegativeScores(s)
    ensures NonNegativeScores(Filter(s, p))
  {
    forall k | 0 <= k < |Filter(s, p)|
      ensures Filter(s, p)[k].score >= 0.0
    {
      assert Filter(s, p)[k] in s;
    }
  }

  lemma {:induction false} NonNegativeSuffix(s: seq<Entry>, i: nat)
    requires NonNegativeScores(s) && i <= |s|
    ensures NonNegativeScores(s[i..])
  {
    forall k | 0 <= k < |s| - i
      ensures s[i..][k].score >= 0.0
    {
      assert s[i..][k] == s[i + k];
    }
  }

  lemma {:induction false} AllKept(s: seq<Entry>, p: Entry -> bool)
    requires forall i :: 0 <= i < |s| ==> p(s[i])
    ensures Filter(s, p) == s
  {
    if |s| > 0 {
      AllKept(s[1..], p);
      assert s == [s[0]] + s[1..];
    }
  }

  lemma {:induction false} NoneKept(s: seq<Entry>, p: Entry -> bool)
    requires forall i :: 0 <= i < |s| ==> !p(s[i])
    ensures Filter(s, p) == []
  {
    if |s| > 0 {
      NoneKept(s[1..], p);
    }
  }

  /** In a value-sorted sequence, every entry with a value below `s[i].value` lies before index `i`. */
  lemma {:induction false} BelowLiesBefore(s: seq<Entry>, i: nat, u: int)
    requires SortedBy(s, ValueOf) && i < |s| && NonNegativeScores(s) && u < s[i].value
    ensures ScoreUpTo(s, u) <= SumScores(s[..i])
  {
    SortedTailDropped(s, i, u);
    NonNegativeSlice(s, i);
    FilterSumAtMost(s[..i], AtMostValue(u));
  }

  lemma {:induction false} SortedTailDropped(s: seq<Entry>, i: nat, u: int)
    requires SortedBy(s, ValueOf) && i < |s| && u < s[i].value
    ensures Filter(s, AtMostValue(u)) == Filter(s[..i], AtMostValue(u))
  {
    var p := AtMostValue(u);
    var pre, post := s[..i], s[i..];
    assert s == pre + post;
    FilterConcat(pre, post, p);
    assert Filter(post, p) == [] by {
      forall k | 0 <= k < |post|
        ensures !p(post[k])
      {
        assert post[k] == s[i + k];
      }
      NoneKept(post, p);
    }
    assert Filter(pre, p) + [] == Filter(pre, p);
  }

  lemma {:induction false} NonNegativeSlice(s: seq<Entry>, i: nat)
    requires NonNegativeScores(s) && i <= |s|
    ensures NonNegativeScores(s[..i])
  {
    forall k | 0 <= k < i
      ensures s[..i][k].score >= 0.0
    {
      assert s[..i][k] == s[k];
    }
  }

  /** Scores keep their sign under permutation. */
  lemma {:induction false} NonNegativePermutation(a: seq<Entry>, b: seq<Entry>)
    requires multiset(a) == multiset(b) && NonNegativeScores(a)
    ensures NonNegativeScores(b)
  {
    forall k | 0 <= k < |b|
      ensures b[k].score >= 0.0
    {
      var k' := PermutedIndex(b, a, k);
    }
  }

  lemma {:induction false} PrefixSumStep(s: seq<Entry>, i: nat)
    requires i < |s|
    ensures SumScores(s[..i + 1]) == SumScores(s[..i]) + s[i].score
  {
    assert s[..i + 1][..i] == s[..i];
  }

  /**
   * The second loop of `get_stacked_value_from_pixel_array`: walk the value-sorted entries from
   * index `i`, adding scores to `soFar`, and return the first value at which the running sum
   * reaches `half`; the last value if it never does.
   */
  function FirstReaching(s: seq<Entry>, half: real, i: nat, soFar: real): (r: int)
    requires |s| > 0 && i <= |s|
    ensures exists j :: 0 <= j < |s| && s[j].value == r
    decreases |s| - i
  {
    if i == |s| then s[|s| - 1].value
    else
      var c := soFar + s[i].score;
      if c >= half then s[i].value else FirstReaching(s, half, i + 1, c)
  }

  /** The entry at which the running sum first reaches half of the total is the weighted median. */
  lemma {:induction false} CrossingIsWeightedMedian(s: seq<Entry>, i: nat)
    requires SortedBy(s, ValueOf) && NonNegativeScores(s) && i < |s|
    requires SumScores(s[..i]) < SumScores(s) / 2.0 <= SumScores(s[..i + 1])
    ensures IsWeightedMedian(s, s[i].value)
  {
    PrefixUpTo(s, i);
    forall j | 0 <= j < |s| && s[j].value < s[i].value
      ensures ScoreUpTo(s, s[j].value) < SumScores(s) / 2.0
    {
      BelowLiesBefore(s, i, s[j].value);
    }
  }

  /** When scores are positive, the walk stops at the weighted median. */
  lemma {:induction false} FirstReachingIsWeightedMedian(s: seq<Entry>, i: nat)
    requires SortedBy(s, ValueOf) && PositiveScores(s)
    requires i < |s| && SumScores(s[..i]) < SumScores(s) / 2.0
    ensures IsWeightedMedian(s, FirstReaching(s, SumScores(s) / 2.0, i, SumScores(s[..i])))
    decreases |s| - i
  {
    var half := SumScores(s) / 2.0;
    PrefixSumStep(s, i);
    var c := SumScores(s[..i]) + s[i].score;
    if c >= half {
      assert FirstReaching(s, half, i, SumScores(s[..i])) == s[i].value;
      assert NonNegativeScores(s);
      CrossingIsWeightedMedian(s, i);
    } else {
      assert FirstReaching(s, half, i, SumScores(s[..i])) == FirstReaching(s, half, i + 1, SumScores(s[..i + 1]));
      assert i + 1 < |s| by {
        SumPositive(s);
        assert s[..|s|] == s;
      }
      FirstReachingIsWeightedMedian(s, i + 1);
    }
  }

  /**
   * `get_stacked_value_from_pixel_array` on the window of stacked entries: -1 for an empty
   * window, otherwise always one of the window's values, and the weighted median of the window
   * when its scores are positive.
   */
  function StackedValue(window: seq<Entry>): (r: int)
    ensures |window| == 0 ==> r == EMPTY_PIXEL
    ensures |window| > 0 ==> exists i :: 0 <= i < |window| && window[i].value == r
    ensures |window| > 0 && PositiveScores(window) ==> IsWeightedMedian(window, r)
  {
    if |window| == 0 then EMPTY_PIXEL
    else
      var sorted := SortBy(window, ValueOf);
      var r := FirstReaching(sorted, SumScores(sorted) / 2.0, 0, 0.0);
      var j :| 0 <= j < |sorted| && sorted[j].value == r;
      assert sorted[j] in multiset(window);
      assert sorted[j] in window;
      assert PositiveScores(window) ==> IsWeightedMedian(window, r) by {
        if PositiveScores(window) {
          assert PositiveScores(sorted) by {
            forall k | 0 <= k < |sorted|
              ensures sorted[k].score > 0.0
            {
              assert sorted[k] in multiset(window);
            }
          }
          SumPositive(sorted);
          assert sorted[..0] == [];
          FirstReachingIsWeightedMedian(sorted, 0);
          WeightedMedianPermutation(sorted, window, r);
        }
      }
      r
  }

  ghost predicate SortedByScore(s: seq<Entry>)
  {
    forall i, j :: 0 <= i < j < |s| ==> s[i].score <= s[j].score
  }

  /** The insertion step of the sort by score. */
  function InsertByScore(x: Entry, s: seq<Entry>): (r: seq<Entry>)
    requires SortedByScore(s)
    ensures |r| == |s| + 1
    ensures SortedByScore(r)
    ensures multiset(r) == multiset(s) + multiset{x}
  {
    if |s| == 0 then [x]
    else if x.score <= s[0].score then [x] + s
    else
      assert SortedByScore(s[1..]) && forall k :: 0 <= k < |s[1..]| ==> s[0].score <= s[1..][k].score by {
        SortedTail(s);
      }
      var t := InsertByScore(x, s[1..]);
      assert multiset([s[0]] + t) == multiset(s) + multiset{x} by {
        assert s == [s[0]] + s[1..];
      }
      assert SortedByScore([s[0]] + t) by {
        ScoreLowerBoundKept(s[0], s[1..], x, t);
        SortedCons(s[0], t);
      }
      [s[0]] + t
  }

  lemma {:induction false} SortedTail(s: seq<Entry>)
    requires SortedByScore(s) && |s| > 0
    ensures SortedByScore(s[1..]) && forall k :: 0 <= k < |s[1..]| ==> s[0].score <= s[1..][k].score
  {
    forall k | 0 <= k < |s[1..]|
      ensures s[0].score <= s[1..][k].score
    {
      assert s[1..][k] == s[k + 1];
    }
    forall i, j | 0 <= i < j < |s[1..]|
      ensures s[1..][i].score <= s[1..][j].score
    {
      assert s[1..][i] == s[i + 1] && s[1..][j] == s[j + 1];
    }
  }

  lemma {:induction false} SortedCons(e: Entry, t: seq<Entry>)
    requires SortedByScore(t) && forall k :: 0 <= k < |t| ==> e.score <= t[k].score
    ensures SortedByScore([e] + t)
  {
    var r := [e] + t;
    forall i, j | 0 <= i < j < |r|
      ensures r[i].score <= r[j].score
    {
      assert r[j] == t[j - 1];
      if i > 0 {
        assert r[i] == t[i - 1];
      }
    }
  }

  /** A lower bound on the scores of `s` and of `x` bounds every permutation of `s` with `x` added. */
  lemma {:induction false} ScoreLowerBoundKept(lo: Entry, s: seq<Entry>, x: Entry, t: seq<Entry>)
    requires multiset(t) == multiset(s) + multiset{x}
    requires forall k :: 0 <= k < |s| ==> lo.score <= s[k].score
    requires lo.score <= x.score
    ensures forall k :: 0 <= k < |t| ==> lo.score <= t[k].score
  {
    forall k | 0 <= k < |t|
      ensures lo.score <= t[k].score
    {
      assert t[k] in multiset(t);
      if t[k] != x {
        assert t[k] in multiset(s);
        var j :| 0 <= j < |s| && s[j] == t[k];
      }
    }
  }

  /** The sort by score in `process_line`, made stable; see `WindowIsStackedEntries` for why that loses nothing. */
  function SortByScore(s: seq<Entry>): (r: seq<Entry>)
    ensures SortedByScore(r)
    ensures multiset(r) == multiset(s)
  {
    if |s| == 0 then []
    else
      assert s == [s[0]] + s[1..];
      InsertByScore(s[0], SortByScore(s[1..]))
  }

  /**
   * With non-negative scores, a score-sorted sequence has its zero-score entries first, so the
   * stacked entries are exactly its last `k` entries.
   */
  lemma {:induction false} StackedAreSuffix(t: seq<Entry>)
    requires SortedByScore(t) && NonNegativeScores(t)
    ensures StackedEntries(t) == t[|t| - |StackedEntries(t)|..]
  {
    if |t| > 0 {
      if IsStacked(t[0]) {
        AllKept(t, IsStacked);
      } else {
        assert StackedEntries(t) == StackedEntries(t[1..]);
        StackedAreSuffix(t[1..]);
        assert t[1..][|t[1..]| - |StackedEntries(t[1..])|..] == t[|t| - |StackedEntries(t)|..];
      }
    }
  }

  /**
   * For any score-sorted arrangement of slots with non-negative scores, the window of the last `k`
   * slots holds exactly the stacked entries.
   */
  lemma {:induction false} WindowIsStackedEntries(slots: seq<Entry>, sorted: seq<Entry>)
    requires SortedByScore(sorted) && multiset(sorted) == multiset(slots) && NonNegativeScores(slots)
    ensures |StackedEntries(slots)| <= |slots| == |sorted|
    ensures multiset(sorted[|slots| - |StackedEntries(slots)|..]) == multiset(StackedEntries(slots))
  {
    NonNegativePermutation(slots, sorted);
    StackedAreSuffix(sorted);
    SuffixWindow(slots, sorted);
  }

  lemma {:induction false} SuffixWindow(slots: seq<Entry>, sorted: seq<Entry>)
    requires multiset(sorted) == multiset(slots)
    requires StackedEntries(sorted) == sorted[|sorted| - |StackedEntries(sorted)|..]
    ensures |StackedEntries(slots)| <= |slots| == |sorted|
    ensures multiset(sorted[|slots| - |StackedEntries(slots)|..]) == multiset(StackedEntries(slots))
  {
    assert |sorted| == |slots| by {
      assert |sorted| == |multiset(sorted)| && |slots| == |multiset(slots)|;
    }
    FilterPermutation(sorted, slots, IsStacked);
  }

  /**
   * `process_line` for one pixel. The result is -1 when no slot has a non-zero score; with
   * non-negative scores it is otherwise the weighted median of the stacked entries.
   */
  function PixelValue(slots: seq<Entry>): (r: int)
    ensures |StackedEntries(slots)| == 0 ==> r == EMPTY_PIXEL
    ensures |StackedEntries(slots)| > 0 && NonNegativeScores(slots) ==> IsWeightedMedian(StackedEntries(slots), r)
  {
    var k := |StackedEntries(slots)|;
    var sorted := SortByScore(slots);
    assert |sorted| == |slots| by {
      assert |sorted| == |multiset(sorted)| && |slots| == |multiset(slots)|;
    }
    var window := sorted[|slots| - k..];
    var r := StackedValue(window);
    assert k > 0 && NonNegativeScores(slots) ==> IsWeightedMedian(StackedEntries(slots), r) by {
      if k > 0 && NonNegativeScores(slots) {
        WindowWeightedMedian(slots, sorted);
      }
    }
    r
  }

  lemma {:induction false} WindowWeightedMedian(slots: seq<Entry>, sorted: seq<Entry>)
    requires SortedByScore(sorted) && multiset(sorted) == multiset(slots) && NonNegativeScores(slots)
    requires |StackedEntries(slots)| > 0
    ensures |StackedEntries(slots)| <= |slots| == |sorted|
    ensures IsWeightedMedian(StackedEntries(slots), StackedValue(sorted[|slots| - |StackedEntries(slots)|..]))
  {
    WindowIsStackedEntries(slots, sorted);
    var window := sorted[|slots| - |StackedEntries(slots)|..];
    var stacked := StackedEntries(slots);
    assert PositiveScores(window) by {
      forall i | 0 <= i < |window|
        ensures window[i].score > 0.0
      {
        assert window[i] in multiset(stacked);
        assert window[i] in stacked;
      }
    }
    assert |window| > 0 by {
      assert |window| == |multiset(window)| == |multiset(stacked)| == |stacked|;
    }
    WeightedMedianPermutation(window, stacked, StackedValue(window));
  }

  /**
   * One slice of `calculate_stacked_photo` as written: the slots are not reset between slices, so a
   * frame that writes nothing to a slot leaves whatever `process_line` sorted into it in the
   * previous slice.
   */
  function SlotsForSliceAsWritten(previous: seq<Entry>, writes: seq<Option<Entry>>): (r: seq<Entry>)
    requires |writes| == |previous|
    ensures |r| == |writes|
    ensures forall i :: 0 <= i < |r| ==> r[i] == if writes[i].Some? then writes[i].value else previous[i]
  {
    seq(|writes|, i requires 0 <= i < |writes| => if writes[i].Some? then writes[i].value else previous[i])
  }

  /** One slice with the slots reset to the empty entry first, as the median stacker does. */
  function SlotsForSlice(writes: seq<Option<Entry>>): (r: seq<Entry>)
    ensures |r| == |writes|
    ensures forall i :: 0 <= i < |r| ==> r[i] == if writes[i].Some? then writes[i].value else EMPTY_ENTRY
  {
    seq(|writes|, i requires 0 <= i < |writes| => if writes[i].Some? then writes[i].value else EMPTY_ENTRY)
  }

  /** With reset slots, a pixel no frame wrote to in this slice is empty. */
  lemma {:induction false} UnwrittenPixelIsEmpty(writes: seq<Option<Entry>>)
    requires forall i :: 0 <= i < |writes| ==> writes[i].None?
    ensures PixelValue(SlotsForSlice(writes)) == EMPTY_PIXEL
  {
    NoneKept(SlotsForSlice(writes), IsStacked);
  }

  /**
   * A single frame contributes an entry `e` to a pixel in the first slice and nothing to the pixel
   * at the same slot position in the second slice: the code as written reports `e.value` there,
   * where the reset slots give the empty pixel.
   */
  lemma {:induction false} StaleSlotLeaks(e: Entry)
    requires e.score > 0.0
    ensures PixelValue(SortByScore([e])) == e.value
    ensures PixelValue(SlotsForSliceAsWritten(SortByScore([e]), [None])) == e.value
    ensures PixelValue(SlotsForSlice([None])) == EMPTY_PIXEL
  {
    SortSingle(e);
    StaleSingle(e);
    SingleSlotValue(e);
    UnwrittenPixelIsEmpty([None]);
  }

  /** Sorting a single entry leaves it in place. */
  lemma {:induction false} SortSingle(e: Entry)
    ensures SortByScore([e]) == [e]
  {
    var r := SortByScore([e]);
    assert e in multiset(r);
  }

  /** A slot nobody writes keeps the entry left from the previous slice. */
  lemma {:induction false} StaleSingle(e: Entry)
    ensures SlotsForSliceAsWritten([e], [None]) == [e]
  {
    var r := SlotsForSliceAsWritten([e], [None]);
    assert r[0] == e;
  }

  /** A pixel with one stacked slot takes that slot's value. */
  lemma {:induction false} SingleSlotValue(e: Entry)
    requires e.score > 0.0
    ensures PixelValue([e]) == e.value
  {
    assert StackedEntries([e]) == [e];
    assert NonNegativeScores([e]);
    var r := PixelValue([e]);
    assert IsWeightedMedian([e], r);
  }

  /** Bytes reserved by `StackerWeightedMedian::get_height_range_limit`: the stacked image and one calibrated photo per thread. */
  function WeightedMedianReserved(width: int, height: int, nCpu: int): int
  {
    3 * 8 * width * height + nCpu * 3 * 2 * width * height
  }

  /** Bytes per slice row: a `short` value and a `float` score per colour, column and frame. */
  function WeightedMedianBytesPerLine(colors: int, width: int, nFiles: int): int
  {
    colors * width * nFiles * (2 + 4)
  }

  /** `StackerWeightedMedian::get_height_range_limit` as written. */
  function HeightRangeLimitAsWritten(colors: int, width: int, height: int, nFiles: int, nCpu: int, limitMb: int): (r: int)
    requires WrapU64(WeightedMedianBytesPerLine(colors, width, nFiles)) != 0
    ensures r <= height
  {
    HeightRangeAsWritten(height, limitMb, WeightedMedianReserved(width, height, nCpu),
      WeightedMedianBytesPerLine(colors, width, nFiles))
  }

  /** `StackerWeightedMedian::get_height_range_limit` with the budget saturating at zero. */
  function HeightRangeLimit(colors: nat, width: nat, height: nat, nFiles: nat, nCpu: nat, limitMb: int): (r: nat)
    requires WeightedMedianBytesPerLine(colors, width, nFiles) > 0
    ensures r <= height
    ensures limitMb > 0 ==>
      (r * WeightedMedianBytesPerLine(colors, width, nFiles) + WeightedMedianReserved(width, height, nCpu)
        <= limitMb * MIB || r == 0)
  {
    HeightRange(height, limitMb, WeightedMedianReserved(width, height, nCpu),
      WeightedMedianBytesPerLine(colors, width, nFiles))
  }

  /** `get_tasks_total`: every frame is added once per slice. */
  function TasksTotalFor(colors: nat, width: nat, height: nat, nFiles: nat, nCpu: nat, limitMb: int): (t: nat)
    requires WeightedMedianBytesPerLine(colors, width, nFiles) > 0
    requires HeightRangeLimit(colors, width, height, nFiles, nCpu, limitMb) > 0
    ensures t == |SlicesFrom(0, height, HeightRangeLimit(colors, width, height, nFiles, nCpu, limitMb))| * nFiles
  {
    TasksTotal(height, HeightRangeLimit(colors, width, height, nFiles, nCpu, limitMb), nFiles)
  }
}

=== FILE: StringMaps.dfy ===
/**
 * A `std::map<std::string, V>` as the sequence of its entries in iteration order: keys strictly
 * increasing under std::string's `operator<`. Iterating the map, listing its keys and applying
 * its entries in order all follow this sequence.
 */
module StringMaps {
  import opened Wrappers
  import opened Text

  datatype Entry<V> = Entry(key: string, value: V)

  ghost predicate Sorted<V>(es: seq<Entry<V>>)
  {
    forall i, j :: 0 <= i < j < |es| ==> StrLess(es[i].key, es[j].key)
  }

  function Keys<V>(es: seq<Entry<V>>): (ks: seq<string>)
    ensures |ks| == |es| && forall i :: 0 <= i < |es| ==> ks[i] == es[i].key
  {
    seq(|es|, i requires 0 <= i < |es| => es[i].key)
  }

  predicate HasKey<V>(es: seq<Entry<V>>, k: string)
  {
    k in Keys(es)
  }

  /** `find`: the value stored under `k`, if any. */
  function Find<V>(es: seq<Entry<V>>, k: string): (r: Option<V>)
    ensures r.Some? <==> HasKey(es, k)
    ensures r.Some? ==> exists i :: 0 <= i < |es| && es[i] == Entry(k, r.value)
  {
    if |es| == 0 then None
    else if es[0].key == k then Some(es[0].value)
    else
      assert Keys(es) == [es[0].key] + Keys(es[1..]);
      var r := Find(es[1..], k);
      assert r.Some? ==> exists i :: 0 <= i < |es| && es[i] == Entry(k, r.value) by {
        if r.Some? {
          var i :| 0 <= i < |es| - 1 && es[1..][i] == Entry(k, r.value);
          assert es[i + 1] == es[1..][i];
        }
      }
      r
  }

  /** In a sorted map an entry is the only one with its key. */
  lemma {:induction false} FindSorted<V>(es: seq<Entry<V>>, i: int)
    requires Sorted(es) && 0 <= i < |es|
    ensures Find(es, es[i].key) == Some(es[i].value)
    decreases |es|
  {
    if i > 0 {
      assert StrLess(es[0].key, es[i].key);
      StrLessIrreflexive(es[0].key);
      assert Sorted(es[1..]) by {
        assert forall a :: 0 <= a < |es| - 1 ==> es[1..][a] == es[a + 1];
      }
      FindSorted(es[1..], i - 1);
    }
  }

  /** `map[k] = v`: replaces the entry under `k`, or inserts one at its place in key order. */
  function Put<V>(es: seq<Entry<V>>, k: string, v: V): (r: seq<Entry<V>>)
    ensures forall i :: 0 <= i < |r| ==> r[i].key == k || HasKey(es, r[i].key)
  {
    if |es| == 0 then [Entry(k, v)]
    else if es[0].key == k then [Entry(k, v)] + es[1..]
    else if StrLess(k, es[0].key) then [Entry(k, v)] + es
    else
      var rest := Put(es[1..], k, v);
      assert forall i :: 0 <= i < |es| - 1 ==> es[1..][i] == es[i + 1];
      [es[0]] + rest
  }

  /** Storing keeps the map sorted. */
  lemma {:induction false} PutSorted<V>(es: seq<Entry<V>>, k: string, v: V)
    requires Sorted(es)
    ensures Sorted(Put(es, k, v))
    decreases |es|
  {
    if |es| > 0 && es[0].key != k && !StrLess(k, es[0].key) {
      StrLessTotal(k, es[0].key);
      var tail := es[1..];
      assert Sorted(tail) by {
        assert forall a :: 0 <= a < |es| - 1 ==> tail[a] == es[a + 1];
      }
      PutSorted(tail, k, v);
      var rest := Put(tail, k, v);
      var r := [es[0]] + rest;
      forall j | 0 < j < |r|
        ensures StrLess(es[0].key, r[j].key)
      {
        if rest[j - 1].key != k {
          var a :| 0 <= a < |tail| && tail[a].key == rest[j - 1].key;
          assert tail[a] == es[a + 1];
        }
      }
    } else if |es| > 0 && es[0].key != k {
      forall j | 1 <= j < |es|
        ensures StrLess(k, es[j].key)
      {
        StrLessTransitive(k, es[0].key, es[j].key);
      }
    }
  }

  /** After storing, `k` finds the new value and every other key finds what it found before. */
  lemma {:induction false} FindPut<V>(es: seq<Entry<V>>, k: string, v: V, k': string)
    ensures Find(Put(es, k, v), k') == if k' == k then Some(v) else Find(es, k')
    decreases |es|
  {
    if |es| > 0 && es[0].key == k && k' != k {
      assert Put(es, k, v)[1..] == es[1..];
    } else if |es| > 0 && es[0].key != k && StrLess(k, es[0].key) {
      assert Put(es, k, v)[1..] == es;
    } else if |es| > 0 && es[0].key != k {
      var tail := es[1..];
      FindPut(tail, k, v, k');
      assert Put(es, k, v)[1..] == Put(tail, k, v);
      if k' == es[0].key {
        StrLessIrreflexive(k);
      }
    }
  }

  /** Storing under a present key keeps the key listing; storing a new key adds exactly it. */
  lemma {:induction false} PutKeys<V>(es: seq<Entry<V>>, k: string, v: V, x: string)
    ensures HasKey(Put(es, k, v), x) <==> x == k || HasKey(es, x)
  {
    FindPut(es, k, v, x);
  }

  /** Storing under a key already present replaces its value in place: the key listing is unchanged. */
  lemma {:induction false} PutPresentKeys<V>(es: seq<Entry<V>>, k: string, v: V)
    requires Sorted(es) && HasKey(es, k)
    ensures Keys(Put(es, k, v)) == Keys(es)
    decreases |es|
  {
    var tail := es[1..];
    KeysTail(es);
    if es[0].key == k {
      KeysCons(Entry(k, v), tail);
    } else {
      var j :| 0 <= j < |es| && es[j].key == k;
      if StrLess(k, es[0].key) {
        StrLessAsymmetric(k, es[0].key);
        assert false;
      }
      SortedTail(es);
      assert tail[j - 1].key == k;
      PutPresentKeys(tail, k, v);
      KeysCons(es[0], Put(tail, k, v));
    }
  }

  lemma {:induction false} KeysCons<V>(e: Entry<V>, rest: seq<Entry<V>>)
    ensures Keys([e] + rest) == [e.key] + Keys(rest)
  {
  }

  lemma {:induction false} KeysTail<V>(es: seq<Entry<V>>)
    requires |es| > 0
    ensures Keys(es) == [es[0].key] + Keys(es[1..])
  {
  }

  lemma {:induction false} SortedTail<V>(es: seq<Entry<V>>)
    requires Sorted(es) && |es| > 0
    ensures Sorted(es[1..])
  {
    assert forall a :: 0 <= a < |es| - 1 ==> es[1..][a] == es[a + 1];
  }
}

=== FILE: Text.dfy ===
/**
 * String helpers the C++ code takes from its Common.h (split_string, strip_string,
 * to_upper_copy, ends_with, std::to_string, std::stoi). Common.h is not part of this
 * model: these are the usual semantics of those helpers, stated once and shared.
 */
module Text {
  import opened Wrappers

  /* ---------------------------------------------------------------- splitting */

  /** Glues the pieces back together with `sep` between neighbours. */
  function Join(parts: seq<string>, sep: char): string
  {
    if |parts| == 0 then ""
    else if |parts| == 1 then parts[0]
    else parts[0] + [sep] + Join(parts[1..], sep)
  }

  ghost predicate FreeOf(parts: seq<string>, sep: char)
  {
    forall i :: 0 <= i < |parts| ==> sep !in parts[i]
  }

  /**
   * split_string with a one-character separator: every occurrence splits, empty pieces
   * are kept, and there is always at least one piece (the text after the last separator).
   */
  function Split(s: string, sep: char): (parts: seq<string>)
    ensures |parts| >= 1
    ensures Join(parts, sep) == s
    ensures FreeOf(parts, sep)
    ensures |parts| == 1 <==> sep !in s
    decreases |s|
  {
    if |s| == 0 then [""]
    else
      var rest := Split(s[1..], sep);
      assert s == [s[0]] + s[1..];
      assert sep !in s <==> s[0] != sep && sep !in s[1..];
      if s[0] == sep then
        JoinAfterSeparator(rest, sep);
        [""] + rest
      else
        JoinAfterChar(s[0], rest, sep);
        [[s[0]] + rest[0]] + rest[1..]
  }

  /** A leading separator starts an empty first piece. */
  lemma {:induction false} JoinAfterSeparator(rest: seq<string>, sep: char)
    requires |rest| >= 1
    ensures Join([""] + rest, sep) == [sep] + Join(rest, sep)
  {
    assert ([""] + rest)[1..] == rest;
  }

  /** Any other leading character joins the first piece. */
  lemma {:induction false} JoinAfterChar(c: char, rest: seq<string>, sep: char)
    requires |rest| >= 1
    ensures var r := [[c] + rest[0]] + rest[1..];
      && Join(r, sep) == [c] + Join(rest, sep)
      && (c != sep && FreeOf(rest, sep) ==> FreeOf(r, sep))
  {
    var r := [[c] + rest[0]] + rest[1..];
    assert r[1..] == rest[1..];
    if c != sep && FreeOf(rest, sep) {
      assert forall i :: 1 <= i < |r| ==> r[i] == rest[i];
    }
  }

  /** Number of occurrences of `c` in `s`. */
  function Count(s: string, c: char): nat
  {
    if |s| == 0 then 0 else (if s[0] == c then 1 else 0) + Count(s[1..], c)
  }

  /** Every occurrence of the separator starts a new piece. */
  lemma {:induction false} SplitCount(s: string, sep: char)
    ensures |Split(s, sep)| == Count(s, sep) + 1
    decreases |s|
  {
    if |s| > 0 {
      SplitCount(s[1..], sep);
    }
  }

  /** A separator-free piece followed by the separator splits off as the first piece. */
  lemma {:induction false} SplitAfterPiece(p: string, rest: string, sep: char)
    requires sep !in p
    ensures Split(p + [sep] + rest, sep) == [p] + Split(rest, sep)
  {
    var parts := Split(rest, sep);
    assert ([p] + parts)[1..] == parts;
    assert Join([p] + parts, sep) == p + [sep] + rest;
    SplitJoin([p] + parts, sep);
  }

  /** A text without the separator is one piece. */
  lemma {:induction false} SplitWithoutSeparator(s: string, sep: char)
    requires sep !in s
    ensures Split(s, sep) == [s]
  {
  }

  /** The pieces, each followed by `sep`: the form of a list written as `item;item;`. */
  function Terminated(parts: seq<string>, sep: char): string
  {
    if |parts| == 0 then "" else parts[0] + [sep] + Terminated(parts[1..], sep)
  }

  /** Splitting a terminated list gives the pieces back, and an empty piece after the last separator. */
  lemma {:induction false} SplitTerminated(parts: seq<string>, sep: char)
    requires FreeOf(parts, sep)
    ensures Split(Terminated(parts, sep), sep) == parts + [""]
  {
    if |parts| > 0 {
      var rest := Terminated(parts[1..], sep);
      assert FreeOf(parts[1..], sep) by {
        assert forall i :: 0 <= i < |parts| - 1 ==> parts[1..][i] == parts[i + 1];
      }
      SplitTerminated(parts[1..], sep);
      SplitAfterPiece(parts[0], rest, sep);
      assert parts + [""] == [parts[0]] + (parts[1..] + [""]);
    } else {
      SplitWithoutSeparator("", sep);
    }
  }

  /** A terminated list of pieces ends with the separator, and holds no character the pieces lack. */
  lemma {:induction false} TerminatedShape(parts: seq<string>, sep: char, c: char)
    requires |parts| > 0 && c != sep
    requires forall i :: 0 <= i < |parts| ==> c !in parts[i]
    ensures var t := Terminated(parts, sep);
      |t| > 0 && t[|t| - 1] == sep && c !in t
      && (|parts[0]| > 0 ==> t[0] == parts[0][0])
  {
    var t := Terminated(parts, sep);
    var rest := Terminated(parts[1..], sep);
    assert t == parts[0] + [sep] + rest;
    if |parts| > 1 {
      TerminatedShape(parts[1..], sep, c);
      assert t[|t| - 1] == rest[|rest| - 1];
    } else {
      assert rest == "";
    }
  }

  /** Splitting is the inverse of joining separator-free pieces. */
  lemma {:induction false} SplitJoin(parts: seq<string>, sep: char)
    requires |parts| >= 1
    requires FreeOf(parts, sep)
    ensures Split(Join(parts, sep), sep) == parts
  {
    JoinInjective(Split(Join(parts, sep), sep), parts, sep);
  }

  lemma {:induction false} JoinInjective(a: seq<string>, b: seq<string>, sep: char)
    requires |a| >= 1 && |b| >= 1
    requires FreeOf(a, sep) && FreeOf(b, sep)
    requires Join(a, sep) == Join(b, sep)
    ensures a == b
    decreases |Join(a, sep)|
  {
    var s := Join(a, sep);
    if |a| == 1 && |b| == 1 {
    } else if |a| == 1 || |b| == 1 {
    } else {
      var ta := Join(a[1..], sep);
      var tb := Join(b[1..], sep);
      assert s == a[0] + ([sep] + ta);
      assert s == b[0] + ([sep] + tb);
      FirstPieceUnique(a[0], b[0], ta, tb, sep);
      assert ta == s[|a[0]| + 1..];
      assert tb == s[|b[0]| + 1..];
      JoinInjective(a[1..], b[1..], sep);
      assert a == [a[0]] + a[1..];
      assert b == [b[0]] + b[1..];
    }
  }

  lemma {:induction false} FirstPieceUnique(p: string, q: string, t: string, u: string, sep: char)
    requires sep !in p && sep !in q
    requires p + ([sep] + t) == q + ([sep] + u)
    ensures p == q
  {
    var s := p + ([sep] + t);
    assert s[|p|] == sep && s[|q|] == sep;
    assert forall i :: 0 <= i < |p| ==> s[i] == p[i] && s[i] != sep;
    assert forall i :: 0 <= i < |q| ==> s[i] == q[i] && s[i] != sep;
    assert |p| == |q|;
    assert p == s[..|p|] == q;
  }

  /**
   * split_string with a separator of several characters, scanning left to right for
   * non-overlapping occurrences.
   */
  function SplitOn(s: string, sep: string): (parts: seq<string>)
    requires |sep| > 0
    ensures |parts| >= 1
    decreases |s|
  {
    if |s| == 0 then [""]
    else if |sep| <= |s| && s[..|sep|] == sep then [""] + SplitOn(s[|sep|..], sep)
    else
      var rest := SplitOn(s[1..], sep);
      [[s[0]] + rest[0]] + rest[1..]
  }

  /** The pieces glued together with the separator between them. */
  function JoinOn(parts: seq<string>, sep: string): string
  {
    if |parts| == 0 then ""
    else if |parts| == 1 then parts[0]
    else parts[0] + sep + JoinOn(parts[1..], sep)
  }

  /** No piece holds the separator's first character, so no occurrence of it can start inside a piece. */
  predicate FreeOfStart(parts: seq<string>, sep: string)
    requires |sep| > 0
  {
    forall i :: 0 <= i < |parts| ==> sep[0] !in parts[i]
  }

  /**
   * Gluing pieces with the separator and splitting again gives the pieces back, as long as no
   * piece holds the separator's first character.
   */
  lemma {:induction false} SplitOnJoinOn(parts: seq<string>, sep: string)
    requires |sep| > 0 && |parts| >= 1 && FreeOfStart(parts, sep)
    ensures SplitOn(JoinOn(parts, sep), sep) == parts
    decreases |parts|
  {
    var p := parts[0];
    if |parts| == 1 {
      SplitOnPiece(p, "", sep);
      assert p + "" == p;
    } else {
      var tail := parts[1..];
      var j := JoinOn(tail, sep);
      assert FreeOfStart(tail, sep) by {
        assert forall i :: 0 <= i < |tail| ==> tail[i] == parts[i + 1];
      }
      SplitOnJoinOn(tail, sep);
      assert JoinOn(parts, sep) == p + (sep + j);
      SplitOnPiece(p, sep + j, sep);
      SplitOnSeparator(j, sep);
      var y := SplitOn(sep + j, sep);
      assert y[0] == "" && y[1..] == tail;
      assert p + y[0] == p;
      assert parts == [p] + tail;
    }
  }

  /** A piece free of the separator's first character stays whole at the front of the first part. */
  lemma {:induction false} SplitOnPiece(p: string, rest: string, sep: string)
    requires |sep| > 0 && sep[0] !in p
    ensures SplitOn(p + rest, sep) == [p + SplitOn(rest, sep)[0]] + SplitOn(rest, sep)[1..]
    decreases |p|
  {
    var x := SplitOn(rest, sep);
    if |p| == 0 {
      assert p + rest == rest && p + x[0] == x[0];
      assert [x[0]] + x[1..] == x;
    } else {
      var s := p + rest;
      assert s[0] == p[0] != sep[0];
      assert |sep| <= |s| ==> s[..|sep|][0] == s[0];
      assert s[1..] == p[1..] + rest;
      SplitOnPiece(p[1..], rest, sep);
      var tail := SplitOn(s[1..], sep);
      assert tail[0] == p[1..] + x[0] && tail[1..] == x[1..];
      assert [s[0]] + tail[0] == p + x[0];
    }
  }

  /** A text that starts with the separator splits into an empty part and the split of the remainder. */
  lemma {:induction false} SplitOnSeparator(t: string, sep: string)
    requires |sep| > 0
    ensures SplitOn(sep + t, sep) == [""] + SplitOn(t, sep)
  {
    var s := sep + t;
    assert s[..|sep|] == sep && s[|sep|..] == t;
  }

  /* ---------------------------------------------------------------- stripping */

  const Whitespace: set<char> := {' ', '\t', '\n', '\r'}

  /** Removes the leading characters that are in `cs`. */
  function StripLeft(s: string, cs: set<char>): (r: string)
    ensures |r| <= |s|
    ensures forall i :: 0 <= i < |s| - |r| ==> s[i] in cs
    ensures |r| == 0 || r[0] !in cs
  {
    if |s| == 0 || s[0] !in cs then s else StripLeft(s[1..], cs)
  }

  /** What `StripLeft` keeps is a suffix of its input. */
  lemma {:induction false} StripLeftIsSuffix(s: string, cs: set<char>)
    ensures StripLeft(s, cs) == s[|s| - |StripLeft(s, cs)|..]
  {
    if |s| > 0 && s[0] in cs {
      StripLeftIsSuffix(s[1..], cs);
      assert s[1..][|s| - 1 - |StripLeft(s[1..], cs)|..] == s[|s| - |StripLeft(s[1..], cs)|..];
    }
  }

  /** Removes the trailing characters that are in `cs`. */
  function StripRight(s: string, cs: set<char>): (r: string)
    ensures |r| <= |s| && r == s[..|r|]
    ensures forall i :: |r| <= i < |s| ==> s[i] in cs
    ensures |r| == 0 || r[|r| - 1] !in cs
  {
    if |s| == 0 || s[|s| - 1] !in cs then s else StripRight(s[..|s| - 1], cs)
  }

  /** strip_string: drops the characters of `cs` at both ends. */
  function Strip(s: string, cs: set<char>): string
  {
    StripRight(StripLeft(s, cs), cs)
  }

  /** A text that neither starts nor ends with a character of `cs` is left unchanged. */
  lemma {:induction false} StripNoop(s: string, cs: set<char>)
    requires |s| == 0 || (s[0] !in cs && s[|s| - 1] !in cs)
    ensures Strip(s, cs) == s
  {
  }

  /* ---------------------------------------------------------------- case and affixes */

  function ToUpperChar(c: char): (u: char)
    ensures 'a' <= c <= 'z' ==> u as int == c as int - 32
    ensures !('a' <= c <= 'z') ==> u == c
  {
    if 'a' <= c <= 'z' then (c as int - 32) as char else c
  }

  /** to_upper_copy: ASCII letters upper-cased, everything else kept. */
  function ToUpper(s: string): (r: string)
    ensures |r| == |s|
    ensures forall i :: 0 <= i < |s| ==> r[i] == ToUpperChar(s[i])
  {
    if |s| == 0 then "" else [ToUpperChar(s[0])] + ToUpper(s[1..])
  }

  predicate EqualsIgnoreCase(a: string, b: string)
  {
    ToUpper(a) == ToUpper(b)
  }

  predicate EndsWith(s: string, suffix: string)
  {
    |suffix| <= |s| && s[|s| - |suffix|..] == suffix
  }

  /** std::string operator<: lexicographic on characters, a proper prefix comes first. */
  predicate StrLess(a: string, b: string)
  {
    if |a| == 0 then |b| > 0
    else if |b| == 0 then false
    else if a[0] != b[0] then a[0] < b[0]
    else StrLess(a[1..], b[1..])
  }

  lemma {:induction false} StrLessIrreflexive(a: string)
    ensures !StrLess(a, a)
  {
    if |a| > 0 {
      StrLessIrreflexive(a[1..]);
    }
  }

  lemma {:induction false} StrLessTransitive(a: string, b: string, c: string)
    requires StrLess(a, b) && StrLess(b, c)
    ensures StrLess(a, c)
  {
    if |a| > 0 && |b| > 0 && |c| > 0 && a[0] == b[0] && b[0] == c[0] {
      StrLessTransitive(a[1..], b[1..], c[1..]);
    }
  }

  lemma {:induction false} StrLessTotal(a: string, b: string)
    ensures a == b || StrLess(a, b) || StrLess(b, a)
  {
    if |a| > 0 && |b| > 0 && a[0] == b[0] {
      StrLessTotal(a[1..], b[1..]);
      if a[1..] == b[1..] {
        assert a == [a[0]] + a[1..];
        assert b == [b[0]] + b[1..];
      }
    }
  }

  lemma {:induction false} StrLessAsymmetric(a: string, b: string)
    requires StrLess(a, b)
    ensures !StrLess(b, a)
  {
    if |a| > 0 && |b| > 0 && a[0] == b[0] {
      StrLessAsymmetric(a[1..], b[1..]);
    }
  }

  /* ---------------------------------------------------------------- numbers */

  predicate IsDigit(c: char) { '0' <= c <= '9' }

  function DigitChar(d: nat): (c: char)
    requires d < 10
    ensures IsDigit(c) && c as int - '0' as int == d
  {
    (d + '0' as int) as char
  }

  /** std::to_string for a non-negative integer: decimal digits, no leading zeros. */
  function NatToString(n: nat): (s: string)
    ensures |s| >= 1
    ensures forall i :: 0 <= i < |s| ==> IsDigit(s[i])
    ensures |s| > 1 ==> s[0] != '0'
  {
    if n < 10 then [DigitChar(n)] else NatToString(n / 10) + [DigitChar(n % 10)]
  }

  function IntToString(i: int): string
  {
    if i < 0 then "-" + NatToString(-i) else NatToString(i)
  }

  /** The value of a run of decimal digits. */
  function DigitsValue(s: string): nat
    requires forall i :: 0 <= i < |s| ==> IsDigit(s[i])
  {
    if |s| == 0 then 0 else DigitsValue(s[..|s| - 1]) * 10 + DigitValue(s[|s| - 1])
  }

  function DigitValue(c: char): (d: nat)
    requires IsDigit(c)
    ensures d < 10
  {
    c as int - '0' as int
  }

  lemma {:induction false} DigitsOfNatToString(n: nat)
    ensures DigitsValue(NatToString(n)) == n
  {
    if n >= 10 {
      var s := NatToString(n);
      assert s[..|s| - 1] == NatToString(n / 10);
      DigitsOfNatToString(n / 10);
    }
  }

  /** Length of the longest run of digits at the start of `s`. */
  function DigitPrefixLength(s: string): (k: nat)
    ensures k <= |s|
    ensures forall i :: 0 <= i < k ==> IsDigit(s[i])
    ensures k == |s| || !IsDigit(s[k])
  {
    if |s| == 0 || !IsDigit(s[0]) then 0 else 1 + DigitPrefixLength(s[1..])
  }

  /** The digits at the start of `u` as a number; None when `u` does not start with one. */
  function ParseDigitPrefix(u: string): (r: Option<int>)
    ensures r.None? <==> (|u| == 0 || !IsDigit(u[0]))
    ensures r.Some? ==> r.value >= 0
  {
    var k := DigitPrefixLength(u);
    if k == 0 then None else Some(DigitsValue(u[..k]))
  }

  /**
   * std::stoi without the range check: optional leading whitespace, an optional sign,
   * then at least one digit; whatever follows the digits is ignored. No digits is the
   * invalid_argument case.
   */
  function ParseInt(s: string): (r: Option<int>)
  {
    var t := StripLeft(s, Whitespace);
    if |t| > 0 && t[0] == '-' then
      match ParseDigitPrefix(t[1..])
      case None => None
      case Some(v) => Some(-v)
    else if |t| > 0 && t[0] == '+' then
      match ParseDigitPrefix(t[1..])
      case None => None
      case Some(v) => Some(v)
    else
      match ParseDigitPrefix(t)
      case None => None
      case Some(v) => Some(v)
  }

  /** Reading back what std::to_string wrote gives the number. */
  lemma {:induction false} ParseIntToString(i: int)
    ensures ParseInt(IntToString(i)) == Some(i)
  {
    if i < 0 {
      ParseNegatedNatToString(-i);
    } else {
      ParseNatToString(i);
    }
  }

  lemma {:induction false} ParseNatToString(n: nat)
    ensures ParseInt(NatToString(n)) == Some(n)
  {
    DigitsOfNatToString(n);
    ParseNonNegative(NatToString(n));
  }

  lemma {:induction false} ParseNegatedNatToString(n: nat)
    ensures ParseInt("-" + NatToString(n)) == Some(-(n as int))
  {
    DigitsOfNatToString(n);
    ParseNegative(NatToString(n));
  }

  lemma {:induction false} ParseNonNegative(d: string)
    requires |d| > 0 && forall i :: 0 <= i < |d| ==> IsDigit(d[i])
    ensures ParseInt(d) == Some(DigitsValue(d))
  {
    assert d[0] !in Whitespace;
    StripLeftNoop(d, Whitespace);
    ParseAllDigits(d);
  }

  lemma {:induction false} ParseNegative(d: string)
    requires |d| > 0 && forall i :: 0 <= i < |d| ==> IsDigit(d[i])
    ensures ParseInt("-" + d) == Some(-(DigitsValue(d) as int))
  {
    var s := "-" + d;
    StripLeftNoop(s, Whitespace);
    assert s[0] == '-' && s[1..] == d;
    ParseAllDigits(d);
    assert ParseDigitPrefix(s[1..]) == Some(DigitsValue(d) as int);
  }

  lemma {:induction false} StripLeftNoop(s: string, cs: set<char>)
    requires |s| == 0 || s[0] !in cs
    ensures StripLeft(s, cs) == s
  {
  }

  /** Leading characters that are all stripped vanish without a trace. */
  lemma {:induction false} StripLeftPrefix(p: string, x: string, cs: set<char>)
    requires forall i :: 0 <= i < |p| ==> p[i] in cs
    ensures StripLeft(p + x, cs) == StripLeft(x, cs)
  {
    if |p| > 0 {
      var px := p + x;
      assert px[0] == p[0] && px[0] in cs;
      assert StripLeft(px, cs) == StripLeft(px[1..], cs);
      assert px[1..] == p[1..] + x;
      StripLeftPrefix(p[1..], x, cs);
    } else {
      assert p + x == x;
    }
  }

  /** Stripping the left end of `x + y` stops inside `x` unless all of `x` goes. */
  lemma {:induction false} StripLeftAppend(x: string, y: string, cs: set<char>)
    ensures StripLeft(x + y, cs) == if StripLeft(x, cs) == "" then StripLeft(y, cs) else StripLeft(x, cs) + y
  {
    if |x| > 0 {
      assert (x + y)[0] == x[0];
      if x[0] in cs {
        assert (x + y)[1..] == x[1..] + y;
        StripLeftAppend(x[1..], y, cs);
      }
    } else {
      assert x + y == y;
    }
  }

  /** Trailing characters that are all stripped vanish without a trace. */
  lemma {:induction false} StripRightSuffix(x: string, q: string, cs: set<char>)
    requires forall i :: 0 <= i < |q| ==> q[i] in cs
    ensures StripRight(x + q, cs) == StripRight(x, cs)
  {
    if |q| > 0 {
      assert (x + q)[..|x + q| - 1] == x + q[..|q| - 1];
      StripRightSuffix(x, q[..|q| - 1], cs);
    } else {
      assert x + q == x;
    }
  }

  /** Padding made of stripped characters on both sides does not change what `Strip` keeps. */
  lemma {:induction false} StripPadded(p: string, v: string, q: string, cs: set<char>)
    requires forall i :: 0 <= i < |p| ==> p[i] in cs
    requires forall i :: 0 <= i < |q| ==> q[i] in cs
    ensures Strip(p + v + q, cs) == Strip(v, cs)
  {
    assert p + v + q == p + (v + q);
    StripLeftPrefix(p, v + q, cs);
    StripLeftAppend(v, q, cs);
    if StripLeft(v, cs) == "" {
      StripLeftPrefix(q, "", cs);
      assert q + "" == q;
    } else {
      StripRightSuffix(StripLeft(v, cs), q, cs);
    }
  }

  lemma {:induction false} ParseAllDigits(d: string)
    requires |d| > 0 && forall i :: 0 <= i < |d| ==> IsDigit(d[i])
    ensures ParseDigitPrefix(d) == Some(DigitsValue(d))
  {
    DigitPrefixAllDigits(d);
    assert d[..|d|] == d;
  }

  lemma {:induction false} DigitPrefixAllDigits(s: string)
    requires forall i :: 0 <= i < |s| ==> IsDigit(s[i])
    ensures DigitPrefixLength(s) == |s|
  {
    if |s| > 0 {
      DigitPrefixAllDigits(s[1..]);
    }
  }
}

=== FILE: ThreePointSlider.dfy ===
/**
 * The three-thumb slider of the GUI (GUI/src/ThreePointSlider.cxx, GUI/headers/ThreePointSlider.h):
 * three positions on [0, 1] (black point, midtone, white point) which, while ordering is
 * maintained, a drag can never push past each other or off the track.
 *
 * Drawing, colours and the change callback are left out. The mouse position reaches the model
 * already converted to a track value (`pixel_to_value`), and a mouse-down reaches it as the
 * answer, per thumb, to "was this thumb hit".
 */
module ThreePointSlider {

  datatype Slider = Slider(p0: real, p1: real, p2: real, maintainOrdering: bool, activeThumb: int)

  /**
   * `force_range` from the project's common helpers, which are not part of this model: the
   * value raised to `lo` if below it, otherwise lowered to `hi` if above it.
   */
  function ForceRange(v: real, lo: real, hi: real): (r: real)
    ensures lo <= hi ==> lo <= r <= hi
    ensures lo <= v <= hi ==> r == v
    ensures v < lo ==> r == lo
    ensures lo <= v && v > hi ==> r == hi
  {
    if v < lo then lo else if v > hi then hi else v
  }

  /** Clamping twice changes nothing the first clamp did not. */
  lemma {:induction false} ForceRangeIdempotent(v: real, lo: real, hi: real)
    requires lo <= hi
    ensures ForceRange(ForceRange(v, lo, hi), lo, hi) == ForceRange(v, lo, hi)
  {
  }

  /** The thumbs lie on the track in order. */
  predicate Ordered(s: Slider)
  {
    0.0 <= s.p0 <= s.p1 <= s.p2 <= 1.0
  }

  /** The constructor: thumbs at 0, 0.5 and 1, ordering maintained, no thumb held. */
  function New(): (s: Slider)
    ensures Ordered(s) && s.maintainOrdering && s.activeThumb == -1
    ensures GetValue(s, 0) == 0.0 && GetValue(s, 1) == 0.5 && GetValue(s, 2) == 1.0
  {
    Slider(0.0, 0.5, 1.0, true, -1)
  }

  /** `get_value`: a thumb's position; 0 for an index that names no thumb. */
  function GetValue(s: Slider, i: int): (r: real)
    ensures (i < 0 || i > 2) ==> r == 0.0
  {
    if i < 0 || i > 2 then 0.0
    else if i == 0 then s.p0
    else if i == 1 then s.p1
    else s.p2
  }

  /** The slider with thumb `i` (0, 1 or 2) at `v` and everything else as it was. */
  function WithThumb(s: Slider, i: int, v: real): (r: Slider)
    requires 0 <= i <= 2
    ensures GetValue(r, i) == v
    ensures forall j :: j != i ==> GetValue(r, j) == GetValue(s, j)
    ensures r.maintainOrdering == s.maintainOrdering && r.activeThumb == s.activeThumb
  {
    if i == 0 then s.(p0 := v) else if i == 1 then s.(p1 := v) else s.(p2 := v)
  }

  /** `set_thumbs_positions`: three values replace the positions; any other number of values is ignored. */
  function SetPositions(s: Slider, ps: seq<real>): (r: Slider)
    ensures |ps| != 3 ==> r == s
    ensures |ps| == 3 ==> forall i :: 0 <= i < 3 ==> GetValue(r, i) == ps[i]
    ensures r.maintainOrdering == s.maintainOrdering && r.activeThumb == s.activeThumb
  {
    if |ps| != 3 then s else s.(p0 := ps[0], p1 := ps[1], p2 := ps[2])
  }

  /** Reading the three positions back and setting them again changes nothing. */
  lemma {:induction false} SetPositionsOfValues(s: Slider)
    ensures SetPositions(s, [GetValue(s, 0), GetValue(s, 1), GetValue(s, 2)]) == s
  {
  }

  /** `set_maintain_slide_ordering`. */
  function SetMaintainOrdering(s: Slider, b: bool): (r: Slider)
    ensures r.maintainOrdering == b && r.(maintainOrdering := s.maintainOrdering) == s
  {
    s.(maintainOrdering := b)
  }

  /**
   * `enforce_ordering`: the active thumb is pulled back between its neighbours (the track ends
   * standing in for the missing neighbour of an outer thumb). Without ordering, or for an index
   * that names no thumb, nothing happens.
   */
  function EnforceOrdering(s: Slider, active: int): (r: Slider)
    ensures !s.maintainOrdering || active < 0 || active > 2 ==> r == s
    ensures forall j :: j != active ==> GetValue(r, j) == GetValue(s, j)
    ensures r.maintainOrdering == s.maintainOrdering && r.activeThumb == s.activeThumb
  {
    if !s.maintainOrdering then s
    else if active == 0 then s.(p0 := ForceRange(s.p0, 0.0, s.p1))
    else if active == 1 then s.(p1 := ForceRange(s.p1, s.p0, s.p2))
    else if active == 2 then s.(p2 := ForceRange(s.p2, s.p1, 1.0))
    else s
  }

  /** The other two thumbs are in order on the track: the situation while thumb `a` is dragged. */
  predicate OthersOrdered(s: Slider, a: int)
    requires 0 <= a <= 2
  {
    if a == 0 then 0.0 <= s.p1 <= s.p2 <= 1.0
    else if a == 1 then 0.0 <= s.p0 <= s.p2 <= 1.0
    else 0.0 <= s.p0 <= s.p1 <= 1.0
  }

  /** Wherever the active thumb has been put, enforcing the ordering makes all three ordered again. */
  lemma {:induction false} EnforceOrderingRestores(s: Slider, a: int)
    requires s.maintainOrdering && 0 <= a <= 2 && OthersOrdered(s, a)
    ensures Ordered(EnforceOrdering(s, a))
  {
  }

  /**
   * Enforcing the ordering leaves an ordered slider as it is, and, while the neighbours of the
   * thumb are in order, enforcing it twice is enforcing it once.
   */
  lemma {:induction false} EnforceOrderingStable(s: Slider, a: int)
    ensures Ordered(s) ==> EnforceOrdering(s, a) == s
    ensures (a < 0 || a > 2 || OthersOrdered(s, a)) ==> EnforceOrdering(EnforceOrdering(s, a), a) == EnforceOrdering(s, a)
  {
    if s.maintainOrdering && a == 0 && s.p1 >= 0.0 {
      ForceRangeIdempotent(s.p0, 0.0, s.p1);
    } else if s.maintainOrdering && a == 1 && s.p0 <= s.p2 {
      ForceRangeIdempotent(s.p1, s.p0, s.p2);
    } else if s.maintainOrdering && a == 2 && s.p1 <= 1.0 {
      ForceRangeIdempotent(s.p2, s.p1, 1.0);
    }
  }

  // ---------------------------------------------------------------------------------------------
  // Mouse handling

  /**
   * `on_mouse_down`: of the thumbs hit, the one with the highest index (the one drawn on top)
   * becomes active; when none is hit the active thumb stays what it was.
   */
  function MouseDown(s: Slider, hit: seq<bool>): (r: Slider)
    requires |hit| == 3
    ensures r.(activeThumb := s.activeThumb) == s
    ensures (exists i :: 0 <= i < 3 && hit[i]) ==> 0 <= r.activeThumb <= 2 && hit[r.activeThumb]
    ensures forall i :: 0 <= i < 3 && hit[i] ==> i <= r.activeThumb
    ensures (forall i :: 0 <= i < 3 ==> !hit[i]) ==> r == s
  {
    if hit[2] then s.(activeThumb := 2)
    else if hit[1] then s.(activeThumb := 1)
    else if hit[0] then s.(activeThumb := 0)
    else s
  }

  /**
   * `on_mouse_drag`: with a thumb held, it is put at `v` (the pointer's track value) and the
   * ordering enforced for it; with none held, nothing changes.
   */
  function Drag(s: Slider, v: real): (r: Slider)
    requires -1 <= s.activeThumb <= 2
    ensures s.activeThumb == -1 ==> r == s
    ensures r.maintainOrdering == s.maintainOrdering && r.activeThumb == s.activeThumb
    ensures forall j :: j != s.activeThumb ==> GetValue(r, j) == GetValue(s, j)
    ensures s.activeThumb != -1 && !s.maintainOrdering ==> GetValue(r, s.activeThumb) == v
  {
    if s.activeThumb == -1 then s
    else EnforceOrdering(WithThumb(s, s.activeThumb, v), s.activeThumb)
  }

  /** `on_mouse_up`: no thumb is held any more (the change callback is left out). */
  function MouseUp(s: Slider): (r: Slider)
    ensures r.activeThumb == -1 && r.(activeThumb := s.activeThumb) == s
  {
    s.(activeThumb := -1)
  }

  /** A drag on an ordered slider keeps it ordered while ordering is maintained, wherever the pointer goes. */
  lemma {:induction false} DragKeepsOrdered(s: Slider, v: real)
    requires Ordered(s) && s.maintainOrdering && -1 <= s.activeThumb <= 2
    ensures Ordered(Drag(s, v))
  {
    if s.activeThumb != -1 {
      EnforceOrderingRestores(WithThumb(s, s.activeThumb, v), s.activeThumb);
    }
  }

  /** A drag that stays between the neighbours of the held thumb puts it exactly at the pointer. */
  lemma {:induction false} DragWithinNeighbours(s: Slider, v: real)
    requires s.maintainOrdering && 0 <= s.activeThumb <= 2
    requires GetValue(s, s.activeThumb - 1) <= v || s.activeThumb == 0
    requires v <= GetValue(s, s.activeThumb + 1) || s.activeThumb == 2
    requires (s.activeThumb == 0 ==> 0.0 <= v) && (s.activeThumb == 2 ==> v <= 1.0)
    ensures GetValue(Drag(s, v), s.activeThumb) == v
  {
  }

  /** One user interaction. */
  datatype Event = Down(hit: seq<bool>) | Move(v: real) | Up | SetAll(ps: seq<real>)

  function Handle(s: Slider, e: Event): Slider
    requires -1 <= s.activeThumb <= 2
  {
    match e
    case Down(hit) => if |hit| == 3 then MouseDown(s, hit) else s
    case Move(v) => Drag(s, v)
    case Up => MouseUp(s)
    case SetAll(ps) => SetPositions(s, ps)
  }

  /** The held-thumb index stays -1 or a thumb through any interaction. */
  lemma {:induction false} HandleKeepsActive(s: Slider, e: Event)
    requires -1 <= s.activeThumb <= 2
    ensures -1 <= Handle(s, e).activeThumb <= 2
  {
  }

  /**
   * From the constructor, with ordering maintained throughout, mouse interactions never leave
   * the thumbs out of order; only `set_thumbs_positions` can, since it stores what it is given.
   */
  lemma {:induction false} MouseKeepsOrdered(s: Slider, es: seq<Event>)
    requires Ordered(s) && s.maintainOrdering && -1 <= s.activeThumb <= 2
    requires forall i :: 0 <= i < |es| ==> !es[i].SetAll?
    ensures Ordered(HandleAll(s, es))
    decreases |es|
  {
    if |es| > 0 {
      var t := Handle(s, es[0]);
      if es[0].Move? {
        DragKeepsOrdered(s, es[0].v);
      }
      HandleKeepsActive(s, es[0]);
      assert forall i :: 0 <= i < |es| - 1 ==> es[1..][i] == es[i + 1];
      MouseKeepsOrdered(t, es[1..]);
    }
  }

  function HandleAll(s: Slider, es: seq<Event>): Slider
    requires -1 <= s.activeThumb <= 2
    decreases |es|
  {
    if |es| == 0 then s
    else
      HandleKeepsActive(s, es[0]);
      HandleAll(Handle(s, es[0]), es[1..])
  }
}

=== FILE: Wrappers.dfy ===
/** Failure-carrying results: the model's stand-in for the exceptions the C++ code throws. */
module Wrappers {

  datatype Option<+T> = None | Some(value: T)

  /** `Err` carries the message the C++ code passes to its exception. */
  datatype Result<+T> = Ok(value: T) | Err(msg: string) {
    predicate IsFailure() { Err? }

    function PropagateFailure<U>(): Result<U>
      requires Err?
    {
      Err(msg)
    }

    function Extract(): T
      requires Ok?
    {
      value
    }
  }
}

=== FILE: ZwoInfo.dfy ===
/**
 * The metadata text file a ZWO camera writes next to its video (src/ZWOVideoTextFileInfo.cxx):
 * one `key = value` pair per line, of which only the gain, the exposure and the Bayer pattern
 * are read. The file is given as its lines; the conversions of `convert_string_to<int>` and
 * `convert_string_to<float>` come from Common.h, which is not part of this model, so they are
 * parameters.
 */
module ZwoInfo {
  import opened Wrappers
  import opened Text

  /** The fields the reader fills; `bayer` holds one colour code (0 R, 1 G, 2 B) per cell. */
  datatype ZwoInfo = ZwoInfo(gain: int, exposure: real, bayer: seq<int>)

  /** The values a freshly constructed reader holds before any line is read. */
  const Default: ZwoInfo := ZwoInfo(-1, 0.0, [-1, -1, -1, -1])

  const BayerLetters: string := "RGB"

  const InvalidLength: string := "Invalid bayer matrix string"
  const InvalidColor: string := "Invalid color code in bayer matrix string"

  /* ---------------------------------------------------------------- Bayer pattern */

  /** The colour code of one letter of a Bayer pattern. */
  function ColorCode(c: char): (r: Option<int>)
    ensures r.Some? <==> c in BayerLetters
    ensures r.Some? ==> 0 <= r.value < 3 && BayerLetters[r.value] == c
  {
    if c == 'R' then Some(0) else if c == 'G' then Some(1) else if c == 'B' then Some(2) else None
  }

  predicate IsColorCode(v: int) { 0 <= v < |BayerLetters| }

  /** The codes of all letters of `s`, or the error for the first letter that is none of R, G, B. */
  function ColorCodes(s: string): (r: Result<seq<int>>)
    ensures r.Ok? <==> forall i :: 0 <= i < |s| ==> s[i] in BayerLetters
    ensures r.Err? ==> r.msg == InvalidColor
    ensures r.Ok? ==> |r.value| == |s|
    ensures r.Ok? ==> forall i :: 0 <= i < |s| ==> IsColorCode(r.value[i]) && BayerLetters[r.value[i]] == s[i]
  {
    if |s| == 0 then Ok([])
    else
      match ColorCode(s[0])
      case None => Err(InvalidColor)
      case Some(c) =>
        match ColorCodes(s[1..])
        case Err(e) => Err(e)
        case Ok(rest) => Ok([c] + rest)
  }

  /** read_bayer_matrix: exactly four letters, each R, G or B. */
  function ReadBayerMatrix(s: string): (r: Result<seq<int>>)
    ensures |s| != 4 ==> r == Err(InvalidLength)
    ensures |s| == 4 ==> (r.Ok? <==> forall i :: 0 <= i < 4 ==> s[i] in BayerLetters)
    ensures |s| == 4 && r.Err? ==> r.msg == InvalidColor
    ensures r.Ok? ==> |r.value| == 4 && forall i :: 0 <= i < 4 ==> IsColorCode(r.value[i])
  {
    if |s| != 4 then Err(InvalidLength) else ColorCodes(s)
  }

  /** The letters of a pattern of colour codes: the writer's side of the Bayer string. */
  function PatternString(m: seq<int>): (s: string)
    requires forall i :: 0 <= i < |m| ==> IsColorCode(m[i])
    ensures |s| == |m|
  {
    seq(|m|, i requires 0 <= i < |m| && IsColorCode(m[i]) => BayerLetters[m[i]])
  }

  /** Reading the letters of a four-cell pattern gives the pattern back. */
  lemma {:induction false} ReadPatternString(m: seq<int>)
    requires |m| == 4 && forall i :: 0 <= i < 4 ==> IsColorCode(m[i])
    ensures ReadBayerMatrix(PatternString(m)) == Ok(m)
  {
    var s := PatternString(m);
    assert forall i :: 0 <= i < 4 ==> s[i] == BayerLetters[m[i]];
    var r := ColorCodes(s);
    assert r.Ok?;
    CodesDetermineLetters(r.value, m);
  }

  /** Reading a Bayer string and writing its letters again gives the same string. */
  lemma {:induction false} PatternStringOfRead(s: string)
    requires ReadBayerMatrix(s).Ok?
    ensures PatternString(ReadBayerMatrix(s).value) == s
  {
    var m := ReadBayerMatrix(s).value;
    assert ColorCodes(s).value == m;
    assert forall i :: 0 <= i < 4 ==> PatternString(m)[i] == s[i];
  }

  /** Two patterns with the same letters are the same pattern. */
  lemma {:induction false} CodesDetermineLetters(a: seq<int>, b: seq<int>)
    requires |a| == |b|
    requires forall i :: 0 <= i < |a| ==>
      IsColorCode(a[i]) && IsColorCode(b[i]) && BayerLetters[a[i]] == BayerLetters[b[i]]
    ensures a == b
  {
    forall i | 0 <= i < |a|
      ensures a[i] == b[i]
    {
      var x, y := a[i], b[i];
      assert BayerLetters[x] == BayerLetters[y];
    }
  }

  /* ---------------------------------------------------------------- lines */

  /** One stripped key and value, matched case-insensitively against the three known keys. */
  function ApplyKeyValue(info: ZwoInfo, key: string, value: string,
                         readInt: string -> int, readReal: string -> real): (r: Result<ZwoInfo>)
    ensures EqualsIgnoreCase(key, "Gain") ==> r == Ok(info.(gain := readInt(value)))
    ensures EqualsIgnoreCase(key, "Exposure") ==> r == Ok(info.(exposure := readReal(value)))
    ensures EqualsIgnoreCase(key, "Debayer Type") ==>
      (r.Ok? <==> ReadBayerMatrix(value).Ok?) &&
      (r.Ok? ==> r.value == info.(bayer := ReadBayerMatrix(value).value))
    ensures (!EqualsIgnoreCase(key, "Gain") && !EqualsIgnoreCase(key, "Exposure")
      && !EqualsIgnoreCase(key, "Debayer Type")) ==> r == Ok(info)
  {
    if EqualsIgnoreCase(key, "Gain") then Ok(info.(gain := readInt(value)))
    else if EqualsIgnoreCase(key, "Exposure") then Ok(info.(exposure := readReal(value)))
    else if EqualsIgnoreCase(key, "Debayer Type") then
      match ReadBayerMatrix(value)
      case Err(e) => Err(e)
      case Ok(m) => Ok(info.(bayer := m))
    else Ok(info)
  }

  /** One line of the file: a line that is not exactly two pieces around '=' is skipped. */
  function ApplyLine(info: ZwoInfo, line: string, readInt: string -> int, readReal: string -> real): (r: Result<ZwoInfo>)
    ensures Count(line, '=') != 1 ==> r == Ok(info)
  {
    var parts := Split(line, '=');
    SplitCount(line, '=');
    if |parts| != 2 then Ok(info)
    else ApplyKeyValue(info, Strip(parts[0], Whitespace), Strip(parts[1], Whitespace), readInt, readReal)
  }

  /** A `key=value` line acts through its stripped key and value. */
  lemma {:induction false} KeyValueLine(info: ZwoInfo, key: string, value: string,
                                          readInt: string -> int, readReal: string -> real)
    requires '=' !in key && '=' !in value
    ensures ApplyLine(info, key + "=" + value, readInt, readReal)
         == ApplyKeyValue(info, Strip(key, Whitespace), Strip(value, Whitespace), readInt, readReal)
  {
    assert Join([key, value], '=') == key + "=" + value by {
      assert [key, value][1..] == [value];
    }
    SplitJoin([key, value], '=');
  }

  /** Keys that differ only in letter case have the same effect. */
  lemma {:induction false} KeyCaseInsensitive(info: ZwoInfo, k1: string, k2: string, value: string,
                                                readInt: string -> int, readReal: string -> real)
    requires ToUpper(k1) == ToUpper(k2)
    ensures ApplyKeyValue(info, k1, value, readInt, readReal) == ApplyKeyValue(info, k2, value, readInt, readReal)
  {
    assert EqualsIgnoreCase(k1, "Gain") == EqualsIgnoreCase(k2, "Gain");
    assert EqualsIgnoreCase(k1, "Exposure") == EqualsIgnoreCase(k2, "Exposure");
    assert EqualsIgnoreCase(k1, "Debayer Type") == EqualsIgnoreCase(k2, "Debayer Type");
  }

  /* ---------------------------------------------------------------- the whole file */

  /**
   * read_data: the lines in order. An invalid Bayer string throws out of the constructor, so
   * the first such line ends the read with its error.
   */
  function ReadData(info: ZwoInfo, lines: seq<string>, readInt: string -> int, readReal: string -> real): (r: Result<ZwoInfo>)
    decreases |lines|
  {
    if |lines| == 0 then Ok(info)
    else
      match ApplyLine(info, lines[0], readInt, readReal)
      case Err(e) => Err(e)
      case Ok(next) => ReadData(next, lines[1..], readInt, readReal)
  }

  /** Reading `a + b` reads `a`, then continues with `b` from where `a` left off. */
  lemma {:induction false} ReadDataAppend(info: ZwoInfo, a: seq<string>, b: seq<string>,
                                            readInt: string -> int, readReal: string -> real)
    ensures ReadData(info, a + b, readInt, readReal) ==
      match ReadData(info, a, readInt, readReal)
      case Err(e) => Err(e)
      case Ok(mid) => ReadData(mid, b, readInt, readReal)
    decreases |a|
  {
    if |a| == 0 {
      assert a + b == b;
    } else {
      assert (a + b)[0] == a[0] && (a + b)[1..] == a[1..] + b;
      match ApplyLine(info, a[0], readInt, readReal)
      case Err(e) =>
      case Ok(next) => ReadDataAppend(next, a[1..], b, readInt, readReal);
    }
  }

  /** A `Gain` line overrides every earlier gain: the last one wins. */
  lemma {:induction false} LastGainWins(info: ZwoInfo, lines: seq<string>, key: string, value: string,
                                          readInt: string -> int, readReal: string -> real)
    requires '=' !in key && '=' !in value && EqualsIgnoreCase(Strip(key, Whitespace), "Gain")
    requires ReadData(info, lines + [key + "=" + value], readInt, readReal).Ok?
    ensures ReadData(info, lines + [key + "=" + value], readInt, readReal).value.gain
         == readInt(Strip(value, Whitespace))
  {
    var line := key + "=" + value;
    ReadDataAppend(info, lines, [line], readInt, readReal);
    KeyValueLine(ReadData(info, lines, readInt, readReal).value, key, value, readInt, readReal);
  }

  /** A file without a `Debayer Type` key never fails and keeps the Bayer pattern it started with. */
  predicate MentionsBayer(line: string)
  {
    var parts := Split(line, '=');
    |parts| == 2 && EqualsIgnoreCase(Strip(parts[0], Whitespace), "Debayer Type")
  }

  lemma {:induction false} NoBayerKeyKeepsPattern(info: ZwoInfo, lines: seq<string>,
                                                    readInt: string -> int, readReal: string -> real)
    requires forall i :: 0 <= i < |lines| ==> !MentionsBayer(lines[i])
    ensures ReadData(info, lines, readInt, readReal).Ok?
    ensures ReadData(info, lines, readInt, readReal).value.bayer == info.bayer
    decreases |lines|
  {
    if |lines| > 0 {
      NonBayerLine(info, lines[0], readInt, readReal);
      var next := ApplyLine(info, lines[0], readInt, readReal).value;
      NoBayerKeyKeepsPattern(next, lines[1..], readInt, readReal);
    }
  }

  /** A line that does not name the Bayer key cannot fail and leaves the pattern alone. */
  lemma {:induction false} NonBayerLine(info: ZwoInfo, line: string, readInt: string -> int, readReal: string -> real)
    requires !MentionsBayer(line)
    ensures ApplyLine(info, line, readInt, readReal).Ok?
    ensures ApplyLine(info, line, readInt, readReal).value.bayer == info.bayer
  {
    var parts := Split(line, '=');
    if |parts| == 2 {
      var key, value := Strip(parts[0], Whitespace), Strip(parts[1], Whitespace);
      assert !EqualsIgnoreCase(key, "Debayer Type");
      var r := ApplyKeyValue(info, key, value, readInt, readReal);
      assert r.Ok? && r.value.bayer == info.bayer;
    }
  }

  /**
   * is_valid_zwo_video_text_file on a file that opens: the gain, the exposure and the Bayer
   * pattern must all have been set away from their defaults. An invalid Bayer string is not
   * caught there, so its error reaches the caller.
   */
  function IsValidZwoText(lines: seq<string>, readInt: string -> int, readReal: string -> real): (r: Result<bool>)
    ensures r.Ok? <==> ReadData(Default, lines, readInt, readReal).Ok?
    ensures r.Ok? ==>
      var info := ReadData(Default, lines, readInt, readReal).value;
      (r.value <==> info.gain != Default.gain && info.exposure != Default.exposure && info.bayer != Default.bayer)
  {
    match ReadData(Default, lines, readInt, readReal)
    case Err(e) => Err(e)
    case Ok(info) => Ok(info.gain != -1 && info.exposure != 0.0 && info.bayer != Default.bayer)
  }

  /** A file without a Bayer key is never valid, whatever else it holds. */
  lemma {:induction false} ValidNeedsBayerKey(lines: seq<string>, readInt: string -> int, readReal: string -> real)
    requires forall i :: 0 <= i < |lines| ==> !MentionsBayer(lines[i])
    ensures IsValidZwoText(lines, readInt, readReal) == Ok(false)
  {
    NoBayerKeyKeepsPattern(Default, lines, readInt, readReal);
  }
}
